=== FILE: README.md ===
# Scenes: a verified model of the site's rules

Scenes is a Django site for browsing written scenes. Each scene has a
title, two characters' ages, a country, a setting, an emotion, free-form
`details` and a full text. Visitors page through the list, favourite
scenes, search with autocomplete, view image galleries in a lightbox and
a hero carousel, and study an analytics dashboard with filters, snapshots
and CSV export. Site owners upload and reorder images.

This project restates the rules behind those features in Dafny and proves
them. It covers:

- **Server side** (`views.py`): the page-size whitelist, page clamping,
  the page window of numbers and '...' markers, the favourite toggle,
  image-upload validation and ordering, and the analytics filter
  dictionary.
- **Analytics** (`analytics.py`, `cached_analytics.py`): age buckets,
  recent activity, chart truncation, the filtered report and the cached
  variant. The cache is modelled as a map.
- **Browser controllers**: advanced and simple pagination, the dashboard,
  its filters and real-time polling, comparison snapshots and insights,
  the lightbox, the hero carousel, the gallery and the navigation search.
  These are classes whose methods are the event handlers. A fetch reply
  or a timer firing is a method call of its own.
- **Search-suggestion training and cleanup** (`signals.py`). The
  suggestion store is modelled as the log of calls made to it.
- **Small helpers**: the missing-details report (`find_empty_scenes.py`),
  the `image_url` template filter, the navigation favourites badge, the
  CSRF lookup and the random-scene shortcut (`main.js`).

There is one module per source file. Shared helpers live in `Common`:
`parseInt` (with its `0x` prefix) and Python `int()` (with PEP 515
underscores) on ASCII text, decimal text, trimming, ASCII lower-casing
and splitting. Scene records live in `Models`, and
sorting-by-count distributions in `Counting`. JavaScript and Python
semantics are written out explicitly, for example `NaN` as `None` and
JavaScript truthiness as an explicit test. Integers are unbounded.
Lightbox zoom and pan are mathematical reals.

## Model

A row names a member whose contract states the property. Definitions without a contract (such as ImageTags.ImageUrl, Gallery.Move, NavSearch.Highlight, Signals.TrainLog, Comparison.AnalyzeData or Views.PageWindow) have no row of their own: they are covered by the rows of the lemmas and methods that name them and cite the same lines.

| member | source | states |
|---|---|---|
| Common.JsParseIntHex | scenes_project/scenes_app/static/js/advanced-pagination.js:114-115 | `parseInt` reads the hexadecimal digits after a `0x` prefix as a base-16 number |
| Common.JsParseIntHexExample | scenes_project/scenes_app/static/js/advanced-pagination.js:114 | `parseInt("0x10")` is 16 |
| Common.PyIntGrouped | scenes_project/scenes_app/views.py:33 | `int()` accepts two groups of digits joined by one underscore and reads them as the digits without it (PEP 515) |
| Common.PyIntGroupedExample | scenes_project/scenes_app/views.py:33 | `int("2_5")` is 25 |
| AdvancedPagination.ParseIntOr | scenes_project/scenes_app/static/js/advanced-pagination.js:114-115 | `parseInt(x) \|\| d` is never 0 unless the default is: NaN and 0 both fall back to the default |
| AdvancedPagination.ParseIntOrHex | scenes_project/scenes_app/static/js/advanced-pagination.js:114-115 | a URL value `0x` followed by hexadecimal digits of non-zero value is read as that number, so `?page=0x2` opens page 2 |
| AdvancedPagination.PageSizeTargetKeepsFirstItem | scenes_project/scenes_app/static/js/advanced-pagination.js:132-138 | the page chosen after a page-size change is at least 1 and holds the first item of the page that was shown |
| AdvancedPagination.KeyTargetBounds | scenes_project/scenes_app/static/js/advanced-pagination.js:76-109 | in every state: nothing happens inside inputs, no key asks for the current page, left/Home act iff the page is above 1 and go to page-1/1, right/End act iff the page is below `totalPages` and go to page+1/`totalPages`; with the page inside 1..`totalPages`, every target is an existing page (before the first load `totalPages` is 1, so right/End do nothing and a URL page below 1 can ask for a page below 1) |
| AdvancedPagination.JumpTargetAccepts | scenes_project/scenes_app/static/js/advanced-pagination.js:44-54 | the jump field is acted on iff it parses to a number from 1 to the last page, and then that number is the target |
| AdvancedPagination.ButtonTargetIgnoresZeroAndNaN | scenes_project/scenes_app/static/js/advanced-pagination.js:27-35 | a page button is ignored iff its `data-page` does not parse or parses to 0 |
| AdvancedPagination.Controller.constructor | scenes_project/scenes_app/static/js/advanced-pagination.js:7-23 | a new controller starts idle with one page, then takes page and size from the URL (defaults 1 and 10) |
| AdvancedPagination.Controller.UpdateFromURL | scenes_project/scenes_app/static/js/advanced-pagination.js:112-122 | page and size become the URL's `page` and `page_size`, defaulting to 1 and 10; nothing else changes |
| AdvancedPagination.Controller.LoadPage | scenes_project/scenes_app/static/js/advanced-pagination.js:141-160 | ignored while a load is running; otherwise marks loading, arms the safety timeout and sends exactly one request; keeps the invariant that loading implies an outstanding request |
| AdvancedPagination.Controller.GoToPage | scenes_project/scenes_app/static/js/advanced-pagination.js:124-130 | requests the page with the current size and a history push |
| AdvancedPagination.Controller.ChangePageSize | scenes_project/scenes_app/static/js/advanced-pagination.js:132-139 | the size is stored even when the load is then ignored; an accepted load asks for the re-targeted page at the new size |
| AdvancedPagination.Controller.ButtonClicked | scenes_project/scenes_app/static/js/advanced-pagination.js:27-35 | a button with a usable page sends one request for it when idle; otherwise nothing changes |
| AdvancedPagination.Controller.JumpClicked | scenes_project/scenes_app/static/js/advanced-pagination.js:44-54 | an in-range jump sends one request for that page when idle; otherwise nothing changes |
| AdvancedPagination.Controller.KeyPressed | scenes_project/scenes_app/static/js/advanced-pagination.js:76-109 | a navigation key sends one request for its target when idle; otherwise nothing changes |
| AdvancedPagination.Controller.PopState | scenes_project/scenes_app/static/js/advanced-pagination.js:66-73 | a state with a page reloads it without a history push; a missing state or page 0 rereads the URL; history is never pushed |
| AdvancedPagination.Controller.Refresh | scenes_project/scenes_app/static/js/advanced-pagination.js:422-425 | reloads the current page and size without a history push, unless a load is running |
| AdvancedPagination.Controller.LoadSucceeded | scenes_project/scenes_app/static/js/advanced-pagination.js:162-204 | the server's page, page count and size are adopted; history gets the requested page only when the load asked for it; loading ends and one 100 ms cleanup is scheduled |
| AdvancedPagination.Controller.LoadFailed | scenes_project/scenes_app/static/js/advanced-pagination.js:192-204 | a failed load changes no page state or history; loading ends and one cleanup is scheduled |
| AdvancedPagination.Controller.WatchdogFired | scenes_project/scenes_app/static/js/advanced-pagination.js:288-295 | the 10 s timeout's cleanup ends loading and changes nothing else |
| AdvancedPagination.Controller.CleanupTimerFired | scenes_project/scenes_app/static/js/advanced-pagination.js:200-203 | a 100 ms cleanup ends loading even while a newer load is in flight |
| AdvancedPagination.LoadRoundTrip | scenes_project/scenes_app/static/js/advanced-pagination.js:141-204 | an accepted and answered load leaves the controller idle on the server's page, with one request sent and one history entry pushed |
| SimplePagination.ButtonClicked | scenes_project/scenes_app/static/js/simple-pagination.js:16-32 | a click navigates iff the button has a non-empty `data-page`, and then only the `page` parameter changes, to that text |
| SimplePagination.PageSizeChanged | scenes_project/scenes_app/static/js/simple-pagination.js:35-43 | the new URL has `page_size` set to the choice and `page` reset to 1, every other parameter kept |
| SimplePagination.JumpToPageAccepts | scenes_project/scenes_app/static/js/simple-pagination.js:50-66 | the jump navigates iff both the value and the input's `max` parse and 1 <= page <= max, and the URL's page then reads back as the typed number; otherwise focus returns to the input |
| SimplePagination.MaxDataPageBounds | scenes_project/scenes_app/static/js/simple-pagination.js:136-146 | the button scan gives at least 1, no less than any numeric `data-page`, and either 1 or one of them |
| SimplePagination.GetMaxPageFromDOM | scenes_project/scenes_app/static/js/simple-pagination.js:128-147 | a set `max` on the jump input wins (parsed, possibly NaN); otherwise the loop returns the maximum of 1 and the buttons' numeric pages |
| SimplePagination.KeysIgnoredInEditors | scenes_project/scenes_app/static/js/simple-pagination.js:82-86 | keys typed into inputs, text areas or editable content never navigate |
| SimplePagination.KeyTargetsWithinRange | scenes_project/scenes_app/static/js/simple-pagination.js:88-125 | with page p (1 when absent) and maximum m: left/Home go to p-1/1 iff p > 1, right/End go to p+1/m iff p < m, and every target lies in 1..m |
| SimplePagination.ParsedPages | scenes_project/scenes_app/static/js/simple-pagination.js:136-146 | every button's data-page is read with parseInt, in order |
| SimplePagination.TargetForBounds | scenes_project/scenes_app/static/js/simple-pagination.js:88-125 | from a page p within 1..m, the arrow, Home and End keys go to p-1, 1, p+1 and m when those differ from p, and never outside 1..m |
| SimplePagination.CurrentPageOf | scenes_project/scenes_app/static/js/simple-pagination.js:88-92 | a missing page parameter reads as page 1, and a written page number reads back as itself |
| Views.PageSizeParam | scenes_project/scenes_app/views.py:33-40 | the page size read from `page_size` (default "10") is always one of 10, 25, 50, 100, or the request fails on a non-integer |
| Views.PageSizeWhitelist | scenes_project/scenes_app/views.py:39-40 | the whitelist keeps 10, 25, 50 and 100, maps anything else to 10, and is idempotent |
| Views.PageSizeParamDefault | scenes_project/scenes_app/views.py:33 | a missing `page_size` gives 10 |
| Views.PageSizeParamOfNumber | scenes_project/scenes_app/views.py:33-40 | a well-formed number is kept exactly when whitelisted, otherwise 10 |
| Views.PageSizeParamGrouped | scenes_project/scenes_app/views.py:33-40 | `page_size=2_5` is read as the whitelisted size 25 |
| Views.NumPages | scenes_project/scenes_app/views.py:84 | the page count is at least 1 and just large enough to hold every item |
| Views.SceneListPage | scenes_project/scenes_app/views.py:66-75 | scene_list always shows an existing page |
| Views.ApiPage | scenes_project/scenes_app/views.py:608-614 | pagination_api and favorites_list always show an existing page |
| Views.SceneListPageCases | scenes_project/scenes_app/views.py:68-75 | a non-integer page gives page 1; a page above the last or below 1 gives the last page; an in-range page is kept |
| Views.SceneListPageIsApiPage | scenes_project/scenes_app/views.py:68-75 | the extra jump to the last page in scene_list never changes what `get_page` already chose |
| Views.PageWindowSmall | scenes_project/scenes_app/views.py:87-88 | with at most seven pages every page is listed, in order, and nothing else |
| Views.PageWindowLarge | scenes_project/scenes_app/views.py:89-95 | with more than seven pages the window has seven entries, starts at 1, ends at the last page and contains the current page |
| Views.PageWindowOrdered | scenes_project/scenes_app/views.py:87-95 | page numbers increase along the window and each '...' sits between pages at least three apart |
| Views.ToggleTwice | scenes_project/scenes_app/views.py:399-410 | toggling the same favourite twice restores the table |
| Views.ToggleCount | scenes_project/scenes_app/views.py:399-418 | a toggle moves the toggled scene's favourite count by exactly one, up when added and down when removed, and leaves other scenes' counts alone |
| Views.FavoriteTable.ToggleFavorite | scenes_project/scenes_app/views.py:388-420 | non-POST gives 405 and an unknown scene 404 with the table unchanged; otherwise the row is added or removed, and the answer reports the new state, the action, the matching message and the new count |
| Views.UploadAllFacts | scenes_project/scenes_app/views.py:1040-1081 | every file gives one upload or one error; the order counter advances once per valid file; uploads are the valid saved files in order, with strictly increasing orders above the starting maximum, consecutive when nothing fails to save |
| Views.UploadCounts | scenes_project/scenes_app/views.py:1046-1081 | uploads plus errors equal the files; the counter ends at start + valid files; uploads are the saved files, names in order |
| Views.UploadOrders | scenes_project/scenes_app/views.py:1062-1077 | every upload's order lies above the start and at most the counter, and orders strictly increase |
| Views.UploadConsecutive | scenes_project/scenes_app/views.py:1062-1077 | with no save failures every valid file is uploaded with orders start+1, start+2, ... |
| Views.UploadSceneImages | scenes_project/scenes_app/views.py:1031-1093 | non-POST gives 405, an unknown scene 404, no files 400; otherwise the loop's uploads and errors are the per-file fold, with status 400 exactly when there are errors and no uploads |
| Views.UploadResponseStatus | scenes_project/scenes_app/views.py:1083-1093 | the status is 400 exactly when no file was both valid and saved, and `success` holds exactly when some was |
| Views.TextFilters | scenes_project/scenes_app/views.py:322-325 | the text-filter list has at most one entry per parameter |
| Views.TextFiltersMembership | scenes_project/scenes_app/views.py:322-325 | a parameter is in the filter dictionary iff it is present, non-empty and not 'all', and then with the query's value |
| Views.TextFiltersAbsent | scenes_project/scenes_app/views.py:322-325 | only the listed parameters can appear as text filters |
| Views.AnalyticsFilterRules | scenes_project/scenes_app/views.py:312-344 | text filters follow the present/non-empty/not-'all' rule; `min_age` is used iff it parses as an integer; at most six filters; the filtered helper is called iff `chart_limit` parses and some filter applies |
| Views.ToggleAdds | scenes_project/scenes_app/views.py:411-416 | adding a favourite row raises its scene's count by one |
| Views.ToggleRemoves | scenes_project/scenes_app/views.py:406-410 | removing a favourite row lowers its scene's count by one |
| Views.ToggleOtherScene | scenes_project/scenes_app/views.py:399-418 | a toggle leaves every other scene's favourite count unchanged |
| Views.FavoriteTable.constructor | scenes_project/scenes_app/views.py:388-420 | the favourite table starts empty over the given scenes |
| Views.WindowStartOrdered | scenes_project/scenes_app/views.py:89-90 | near the start the window is 1-5, '...', last, with pages increasing and the gap hiding at least two pages |
| Views.WindowMiddleOrdered | scenes_project/scenes_app/views.py:93-95 | in the middle the window is 1, '...', current-1..current+1, '...', last, ordered, each gap hiding at least two pages |
| Views.WindowEndOrdered | scenes_project/scenes_app/views.py:91-92 | near the end the window is 1, '...', the last five, ordered, the gap hiding at least two pages |
| Counting.Distinct | scenes_project/scenes_app/static/py/analytics.py:78-90 | the distinct values have no duplicates and are exactly the values that occur |
| Counting.Counted | scenes_project/scenes_app/static/py/analytics.py:78-90 | one entry per distinct value, in first-appearance order, paired with its number of occurrences |
| Counting.InsertByCount | scenes_project/scenes_app/static/py/analytics.py:80 | inserting into a list sorted by descending count keeps it sorted and adds one entry |
| Counting.InsertByCountPermutes | scenes_project/scenes_app/static/py/analytics.py:80 | the insertion only adds the new entry: the multiset grows by exactly that pair |
| Counting.SortByCount | scenes_project/scenes_app/static/py/analytics.py:80 | `order_by('-count')` gives a descending-by-count permutation of its input |
| Counting.MostCommon | scenes_project/scenes_app/signals.py:127-128 | `most_common(n)` is the first n entries of the count-sorted distribution, or all of it when there are fewer |
| Counting.MostCommonEntries | scenes_project/scenes_app/signals.py:127-128 | each entry is a distinct value of the list with its number of occurrences, largest count first |
| Counting.MostCommonTop | scenes_project/scenes_app/signals.py:127-128 | n entries unless there are fewer distinct values, and no value left out occurs more often than any value kept |
| Counting.DistributionFacts | scenes_project/scenes_app/static/py/analytics.py:78-90 | a value distribution lists every occurring value exactly once, each with its number of occurrences (at least 1), in descending order of count |
| Counting.DistributionMembers | scenes_project/scenes_app/static/py/analytics.py:78-90 | sorting by count keeps exactly the counted pairs |
| Counting.DistributionCounts | scenes_project/scenes_app/static/py/analytics.py:78-80 | every entry's count is its value's number of occurrences, and at least 1 |
| Counting.DistributionNoDuplicates | scenes_project/scenes_app/static/py/analytics.py:78-80 | no value appears twice in a distribution |
| Counting.DistributionLabels | scenes_project/scenes_app/static/py/analytics.py:78-80 | a value is a label of the distribution iff it occurs in the data |
| Analytics.OrDefault | scenes_project/scenes_app/static/py/analytics.py:171-172 | `min or 18` / `max or 65`: a non-zero aggregate is kept, a missing or zero one gives the default |
| Analytics.MinOf | scenes_project/scenes_app/static/py/analytics.py:167-170 | the `Min` aggregate is missing exactly on an empty table, and otherwise is an element no larger than any other |
| Analytics.MaxOf | scenes_project/scenes_app/static/py/analytics.py:167-170 | the `Max` aggregate is missing exactly on an empty table, and otherwise is an element no smaller than any other |
| Analytics.BucketsFromClosedForm | scenes_project/scenes_app/static/py/analytics.py:181-188 | `range(min, max + 1, step)`: the i-th start is min + step·i, every start is at most max and the next would pass it |
| Analytics.ParseRangeKeyOfBucket | scenes_project/scenes_app/static/py/analytics.py:198-207 | reading a bucket key back with `int(...)` gives that bucket's own bounds (`N+` as at-least N, `a-b` as a to b) |
| Analytics.FirstMatch | scenes_project/scenes_app/static/py/analytics.py:196-209 | the bucket the `break` stops at holds the age and no earlier bucket does; none means no bucket holds it |
| Analytics.RangeKeys | scenes_project/scenes_app/static/py/analytics.py:177-192 | the keys built are the keys of the five-year buckets for a spread of at most 20 years, else of the ten-year buckets |
| Analytics.FiveYearKeys | scenes_project/scenes_app/static/py/analytics.py:179-184 | the loop builds `start-end` for every fifth start, the last one ending at the maximum |
| Analytics.TenYearKeys | scenes_project/scenes_app/static/py/analytics.py:186-192 | the loop builds `start-end` for every tenth start, and `start+` for a start equal to the maximum |
| Analytics.SpecOf | scenes_project/scenes_app/static/py/analytics.py:198-207 | a bucket's range holds exactly the ages in the bucket |
| Analytics.ReadKey | scenes_project/scenes_app/static/py/analytics.py:198-207 | one key of the counting loop parses to its bucket's range |
| Analytics.MatchingKey | scenes_project/scenes_app/static/py/analytics.py:196-209 | the inner loop stops at the first bucket whose key holds the age, or finds none |
| Analytics.CountAges | scenes_project/scenes_app/static/py/analytics.py:194-209 | after the loop each bucket's count is the number of ages whose first matching bucket it is |
| Analytics.CalculateDynamicAgeRanges | scenes_project/scenes_app/static/py/analytics.py:162-211 | the returned dictionary is the bucket keys in insertion order, each with its tally |
| Analytics.AgeBucketShapes | scenes_project/scenes_app/static/py/analytics.py:176-192 | the number of buckets, each bucket's start, end and openness, and its key text |
| Analytics.AgeBucketsDisjoint | scenes_project/scenes_app/static/py/analytics.py:176-192 | two different buckets never share an age |
| Analytics.AgeBucketsCover | scenes_project/scenes_app/static/py/analytics.py:176-209 | every age from minimum to maximum is counted in bucket (age - min) / step |
| Analytics.TallySum | scenes_project/scenes_app/static/py/analytics.py:194-209 | when every age has a bucket, the counts add up to the number of ages |
| Analytics.AgeCountsSum | scenes_project/scenes_app/static/py/analytics.py:162-211 | with at least one scene and a non-zero minimum age, the counts add up to the number of scenes |
| Analytics.AgeRangeKeysDistinct | scenes_project/scenes_app/static/py/analytics.py:176-192 | the keys are pairwise different, so no dictionary entry overwrites another |
| Analytics.RecentActivity | scenes_project/scenes_app/static/py/analytics.py:214-230 | zero with no scenes; otherwise this month is the total, this week is a tenth of the total (exactly 1 below ten scenes) and today is a seventh of the week, rounded down |
| Analytics.TruncatedChart | scenes_project/scenes_app/static/py/analytics.py:312-321 | a positive limit keeps the first `limit` entries, no limit keeps all; labels and data pair up entry by entry |
| Analytics.AnalyticsApiDataFacts | scenes_project/scenes_app/static/py/analytics.py:299-330 | an error exactly when there are no scenes; otherwise the country options are every country of a scene, the country chart is a prefix of the full distribution within the limit, and the age chart is the bucket dictionary |
| Analytics.CountryOptions | scenes_project/scenes_app/static/py/analytics.py:424-427 | the country drop-down lists exactly the countries some scene has |
| Analytics.CountryChart | scenes_project/scenes_app/static/py/analytics.py:313-321 | the country chart is a prefix of the full distribution, no longer than a positive limit |
| Analytics.Lookup | scenes_project/scenes_app/static/py/analytics.py:397-406 | `filters.get(key)` gives a value stored under the key, or none when the key is absent |
| Analytics.Where | scenes_project/scenes_app/static/py/analytics.py:398 | `queryset.filter(field=value)` keeps exactly the scenes whose field has that value |
| Analytics.WhereAge | scenes_project/scenes_app/static/py/analytics.py:410-417 | the age filter keeps exactly the scenes whose effeminate age is in the range |
| Analytics.FilterField | scenes_project/scenes_app/static/py/analytics.py:397-404 | a text filter restricts only when its key is present, truthy and not 'all' |
| Analytics.FilteredScenesAdmit | scenes_project/scenes_app/static/py/analytics.py:397-417 | the result is an error exactly when the ageRange value raises; otherwise it holds exactly the scenes passing every active condition |
| Analytics.AgeRangeFilterForms | scenes_project/scenes_app/static/py/analytics.py:407-417 | `N+` keeps ages from N, `a-b` keeps a to b, and a value with neither sign, empty or 'all' keeps every age |
| Analytics.NoMatchReport | scenes_project/scenes_app/static/py/analytics.py:436-465 | with no match: four empty charts, zero totals, the fixed message and the filter lists of all scenes |
| Analytics.NoFiltersSameCharts | scenes_project/scenes_app/static/py/analytics.py:377-510 | with no filters the filtered charts equal the full report's charts |
| Analytics.BucketsFrom | scenes_project/scenes_app/static/py/analytics.py:179-192 | the buckets are empty exactly when the start lies above the top age |
| Analytics.FiveYearBucketHolds | scenes_project/scenes_app/static/py/analytics.py:179-184 | every age between the bounds lies in the five-year bucket at (age - min) / 5 |
| Analytics.TenYearBucketHolds | scenes_project/scenes_app/static/py/analytics.py:186-192 | every age between the bounds lies in the ten-year bucket at (age - min) / 10 |
| Analytics.FirstMatchIs | scenes_project/scenes_app/static/py/analytics.py:196-209 | an age is counted in the first bucket that holds it, and in none when no bucket does |
| Analytics.AgeRangesOf | scenes_project/scenes_app/static/py/analytics.py:177-211 | the ranges returned pair each bucket's key with its tally, in bucket order |
| Analytics.CountriesMembers | scenes_project/scenes_app/static/py/analytics.py:424-427 | a country is offered exactly when some scene has it |
| Analytics.PrefixChart | scenes_project/scenes_app/static/py/analytics.py:312-321 | a truncated chart has as many labels as values, at most the limit when it is positive, and its labels are the first labels of the data |
| Comparison.LabelPieces | scenes_project/scenes_app/static/js/analytics-comparison.js:113-116 | one `key: value` piece per active filter, in order, with the filter's value |
| Comparison.LabelAllData | scenes_project/scenes_app/static/js/analytics-comparison.js:105-118 | the label is 'All Data' exactly when no filter is active, and otherwise starts with the first active key and its value |
| Comparison.ScenesChart | scenes_project/scenes_app/static/js/analytics-comparison.js:188-243 | the scene-count chart has one bar per snapshot: its label against its total scenes |
| Comparison.FavoritesChart | scenes_project/scenes_app/static/js/analytics-comparison.js:188-243 | the favourites chart has one bar per snapshot: its label against its total favourites |
| Comparison.Without | scenes_project/scenes_app/static/js/analytics-comparison.js:175 | the filter keeps exactly the snapshots with a different id |
| Comparison.WithoutAppend | scenes_project/scenes_app/static/js/analytics-comparison.js:175 | the filter keeps the order of the kept snapshots |
| Comparison.WithoutAbsent | scenes_project/scenes_app/static/js/analytics-comparison.js:175 | removing an id no snapshot carries changes nothing |
| Comparison.AnalyticsComparison.constructor | scenes_project/scenes_app/static/js/analytics-comparison.js:3-9 | starts with no snapshots and the charts hidden |
| Comparison.AnalyticsComparison.Render | scenes_project/scenes_app/static/js/analytics-comparison.js:162-259 | the charts are shown exactly with two or more snapshots, and then redrawn from the current snapshots |
| Comparison.AnalyticsComparison.SaveCurrentSnapshot | scenes_project/scenes_app/static/js/analytics-comparison.js:79-103 | refused with the matching message at three snapshots or without data; otherwise one snapshot of the current data, filters and label is appended, with at most three kept |
| Comparison.AnalyticsComparison.RemoveSnapshot | scenes_project/scenes_app/static/js/analytics-comparison.js:174-179 | the snapshots become those with a different id, and the charts stay consistent with them |
| Comparison.AnalyticsComparison.ClearAllComparisons | scenes_project/scenes_app/static/js/analytics-comparison.js:181-186 | no snapshots remain and the charts are hidden |
| Comparison.SnapshotOutlivesReload | scenes_project/scenes_app/static/js/analytics-comparison.js:90-96 | a saved snapshot keeps the data it copied when the dashboard later loads new data |
| Comparison.AnalyzeDataLayout | scenes_project/scenes_app/static/js/analytics-comparison.js:330-383 | the age and engagement insights always sit in the middle, the country one first when there are country labels, the emotion one last when there are emotion labels |
| Comparison.AnalyzeDataKinds | scenes_project/scenes_app/static/js/analytics-comparison.js:330-383 | a trend insight appears only first and only with country labels, a content insight only last and only with emotion labels |
| Comparison.AnalyzeDataShape | scenes_project/scenes_app/static/js/analytics-comparison.js:330-383 | two to four insights: age and engagement always, country exactly with country labels, emotion exactly with emotion labels |
| Comparison.AnalyzeDataRecommendations | scenes_project/scenes_app/static/js/analytics-comparison.js:350-367 | the engagement advice follows the >20 and >10 favourite-rate thresholds; the age advice reports large gaps exactly when the averages differ by more than 10 |
| Comparison.TenthsOfPercent | scenes_project/scenes_app/static/js/analytics-comparison.js:338 | the tenths `toFixed(1)` prints for the share in percent: the nearest tenth, a tie rounded up |
| Comparison.PercentAboveIff | scenes_project/scenes_app/static/js/analytics-comparison.js:338-379 | with scenes present, the printed percentage is above the 50 or 40 threshold exactly when the share is at least 0.05 points above it |
| Comparison.RoundedShareNotAbove | scenes_project/scenes_app/static/js/analytics-comparison.js:338-344 | 2001 of 4000 scenes is more than half, but prints "50.0", which is not above 50 |
| Comparison.GenerateInsights | scenes_project/scenes_app/static/js/analytics-comparison.js:320-328 | an error notice exactly when there is no data; otherwise the analysed insights |
| Comparison.InsightColor | scenes_project/scenes_app/static/js/analytics-comparison.js:408-416 | the colour is gray exactly when the type is not one of the four known |
| Comparison.InsightColorsKnown | scenes_project/scenes_app/static/js/analytics-comparison.js:330-416 | every insight analyzeData produces gets a known colour, never gray |
| AnalyticsDashboard.EscapeHtml | scenes_project/scenes_app/static/js/analytics.js:683-692 | the escaped text is at least as long and holds no raw `< > " '` |
| AnalyticsDashboard.EscapeHtmlRoundTrip | scenes_project/scenes_app/static/js/analytics.js:683-692 | the escaped title displays as the original text: reading the entities back gives the input |
| AnalyticsDashboard.EscapeHtmlPlain | scenes_project/scenes_app/static/js/analytics.js:683-692 | a text without any of the five special characters is left unchanged |
| AnalyticsDashboard.BuildQuery | scenes_project/scenes_app/static/js/analytics.js:127-138 | the query is `chart_limit` (0 when falsy) followed by every other parameter with a truthy value, in key order |
| AnalyticsDashboard.ExtraParamsMembers | scenes_project/scenes_app/static/js/analytics.js:133-137 | a later query entry is exactly a parameter other than `chart_limit` with a truthy value, written as text |
| AnalyticsDashboard.QueryStartsWithChartLimit | scenes_project/scenes_app/static/js/analytics.js:130-137 | the query starts with `chart_limit`, which appears nowhere else, and is 0 unless the parameter is truthy |
| AnalyticsDashboard.DoughnutChart | scenes_project/scenes_app/static/js/analytics.js:283-320 | a doughnut chart of the labels and data, or the 'No Data' placeholder with one unit when there are no labels |
| AnalyticsDashboard.AgeRangesChart | scenes_project/scenes_app/static/js/analytics.js:396-431 | the age-range bar chart of the labels and data, or 'No Data' with a zero bar when there are no labels |
| AnalyticsDashboard.DataKeyPlain | scenes_project/scenes_app/static/js/analytics.js:530 | a chart name without '-' is read under itself |
| AnalyticsDashboard.DataKeyAgeRanges | scenes_project/scenes_app/static/js/analytics.js:530 | `age-ranges` is read under `age_ranges` |
| AnalyticsDashboard.ChartDataKeys | scenes_project/scenes_app/static/js/analytics.js:523-531 | each of the four chart names reads its own entry of the response |
| AnalyticsDashboard.Rows | scenes_project/scenes_app/static/js/analytics.js:633-647 | one row per label |
| AnalyticsDashboard.AppendRows | scenes_project/scenes_app/static/js/analytics.js:633-635 | the `forEach` appends exactly the `label,count` rows of the chart, in order |
| AnalyticsDashboard.RowReadsBack | scenes_project/scenes_app/static/js/analytics.js:633-635 | a row split at the comma gives back the label and the count |
| AnalyticsDashboard.ExportLayout | scenes_project/scenes_app/static/js/analytics.js:620-648 | where each section of the CSV sits: the summary, then each distribution after a blank line and two header lines |
| AnalyticsDashboard.Dashboard.constructor | scenes_project/scenes_app/static/js/analytics.js:3-29 | no data and no charts; the loading panel when the chart library is present, else the error panel with its message |
| AnalyticsDashboard.Dashboard.ShowLoading | scenes_project/scenes_app/static/js/analytics.js:580-584 | only the loading panel is shown |
| AnalyticsDashboard.Dashboard.HideLoading | scenes_project/scenes_app/static/js/analytics.js:586-590 | only the content panel is shown |
| AnalyticsDashboard.Dashboard.ShowError | scenes_project/scenes_app/static/js/analytics.js:592-601 | only the error panel is shown, with the message |
| AnalyticsDashboard.Dashboard.LoadAnalytics | scenes_project/scenes_app/static/js/analytics.js:120-138 | the loading panel is shown and the request's query is built |
| AnalyticsDashboard.Dashboard.Receive | scenes_project/scenes_app/static/js/analytics.js:139-181 | a failed request or an error response shows the error and keeps the previous data and charts; otherwise the data is kept, the four charts drawn, the content shown and a message shown as a notice |
| AnalyticsDashboard.Dashboard.CreateCharts | scenes_project/scenes_app/static/js/analytics.js:256-432 | the previous charts are discarded and exactly the four charts of the data are drawn |
| AnalyticsDashboard.Dashboard.UpdateChartType | scenes_project/scenes_app/static/js/analytics.js:523-567 | with a drawn chart and an entry under its data key, the chart is redrawn with the new type from that entry; otherwise nothing changes |
| AnalyticsDashboard.Dashboard.RefreshCharts | scenes_project/scenes_app/static/js/analytics.js:570-578 | without data nothing changes; otherwise the charts are redrawn from the loaded data |
| AnalyticsDashboard.Dashboard.ExportAnalytics | scenes_project/scenes_app/static/js/analytics.js:614-660 | no file and an error notice without data; otherwise the CSV lines of the loaded data and a success notice |
| AnalyticsDashboard.EscapeChar | scenes_project/scenes_app/static/js/analytics.js:683-692 | an escaped character is never empty and holds none of < > " ' |
| AnalyticsDashboard.UnescapeEntity | scenes_project/scenes_app/static/js/analytics.js:683-692 | an entity escapeHtml writes reads back as its one character |
| AnalyticsDashboard.IntTextHasNoComma | scenes_project/scenes_app/static/js/analytics.js:633-635 | a count written in decimal holds no comma, so it never splits a CSV cell |
| Filters.Set | scenes_project/scenes_app/static/js/analytics-filters.js:108 | assigning a key keeps every existing key in its place, replaces only that key's value, and appends a new key at the end |
| Filters.SetDistinct | scenes_project/scenes_app/static/js/analytics-filters.js:108 | assigning a key never creates a second entry for it |
| Filters.SetExisting | scenes_project/scenes_app/static/js/analytics-filters.js:108 | assigning an existing key replaces its value in place |
| Filters.GetSet | scenes_project/scenes_app/static/js/analytics-filters.js:108 | after the assignment the key reads the new value and every other key reads what it did before |
| Filters.ActiveFilters | scenes_project/scenes_app/static/js/analytics-filters.js:277-279 | the active filters are exactly the keys whose value is not 'all' |
| Filters.HasActiveFiltersIff | scenes_project/scenes_app/static/js/analytics-filters.js:281-283 | there are active filters exactly when some value is not 'all' |
| Filters.FilterParamsMembers | scenes_project/scenes_app/static/js/analytics-filters.js:249-254 | a filter parameter is exactly a key of the filter object whose value is neither empty nor 'all' |
| Filters.ApplyParamsShape | scenes_project/scenes_app/static/js/analytics-filters.js:249-263 | the parameters are the filter parameters followed by `chart_limit`, so the notice counts only the filters |
| Filters.NonBlankMembers | scenes_project/scenes_app/static/js/analytics-filters.js:143-151 | the options added after 'all' are exactly the values that are not blank after trimming |
| Filters.PopulateSelect | scenes_project/scenes_app/static/js/analytics-filters.js:124-152 | one select holds 'all' first and then every non-blank value, in input order |
| Filters.AnalyticsFilters.constructor | scenes_project/scenes_app/static/js/analytics-filters.js:3-14 | the five keys start at 'all', and each select holds only 'all' |
| Filters.AnalyticsFilters.FilterChanged | scenes_project/scenes_app/static/js/analytics-filters.js:105-110 | the chosen value is stored under the key derived from the select's id; the rest of the object is kept |
| Filters.AnalyticsFilters.ClearAllFilters | scenes_project/scenes_app/static/js/analytics-filters.js:215-237 | every filter is back to 'all', none is active, and the reload is sent without parameters |
| Filters.AnalyticsFilters.ApplyFilters | scenes_project/scenes_app/static/js/analytics-filters.js:241-273 | the parameters handed to loadAnalytics and the notice naming the number of filters among them |
| Filters.AnalyticsFilters.PopulateFilterOptions | scenes_project/scenes_app/static/js/analytics-filters.js:113-213 | without filter lists nothing changes; otherwise each select is rebuilt as 'all' followed by the non-blank values |
| Filters.FieldFilterKeys | scenes_project/scenes_app/static/js/analytics-filters.js:105-108 | the country, setting and emotion selects store under their own names |
| Filters.FilterKeyJoined | scenes_project/scenes_app/static/js/analytics-filters.js:107 | an id `a-b-filter` stores under `ab` |
| Filters.QueryMapKeys | scenes_project/scenes_app/static/js/analytics-filters.js:249-263 | a key is in the server's query exactly when some parameter carries it |
| Filters.QueryMapLookup | scenes_project/scenes_app/static/js/analytics-filters.js:249-263 | a key all of whose parameters agree reads that value on the server |
| Filters.NotSent | scenes_project/scenes_app/static/js/analytics-filters.js:249-254 | a key that is absent, empty or 'all' in the filter object reaches the server in no form |
| Filters.Sent | scenes_project/scenes_app/static/js/analytics-filters.js:249-254 | a filter set to a value other than '' and 'all' reaches the server with that value |
| Filters.UnknownKeyIgnored | scenes_project/scenes_app/static/js/analytics-filters.js:105-110 | storing under a key the object lacks leaves another key's 'all' as it was and unsent |
| Filters.ExistingKeySet | scenes_project/scenes_app/static/js/analytics-filters.js:108 | storing under an existing key keeps the key set and its size, and the entry holds the new value |
| Filters.ChoiceApplied | scenes_project/scenes_app/static/js/analytics-filters.js:105-110 | choosing a real value for an existing text filter keeps the keys and sends that value to the server's filters |
| Filters.FilterReachesServer | scenes_project/scenes_app/static/js/analytics-filters.js:249-263 | a text filter holding a real value arrives in the server's query and becomes one of its filters |
| Filters.RealTimeAnalytics.constructor | scenes_project/scenes_app/static/js/analytics-filters.js:288-294 | polling starts disabled and without a timer |
| Filters.RealTimeAnalytics.Start | scenes_project/scenes_app/static/js/analytics-filters.js:354-364 | polling is enabled with a timer at the selected delay, and a notice says so |
| Filters.RealTimeAnalytics.Stop | scenes_project/scenes_app/static/js/analytics-filters.js:366-375 | polling is disabled, the timer cleared, and a notice says so |
| Filters.RealTimeAnalytics.ToggleChanged | scenes_project/scenes_app/static/js/analytics-filters.js:338-344 | checking the box starts polling at the selected delay, unchecking stops it |
| Filters.RealTimeAnalytics.IntervalChanged | scenes_project/scenes_app/static/js/analytics-filters.js:346-351 | a new interval restarts polling at the new delay only while it is enabled, and otherwise changes nothing |
| Filters.FilterKeyPlain | scenes_project/scenes_app/static/js/analytics-filters.js:107 | an id name-filter with no '-' or 'f' in the name stores under the name |
| Filters.FilterKeyAgeRange | scenes_project/scenes_app/static/js/analytics-filters.js:105-109 | as written, the id age-range-filter stores under 'agerange' |
| Filters.AgeRangeKeyIsNew | scenes_project/scenes_app/static/js/analytics-filters.js:3-14 | the filter object has 'ageRange', starting at 'all', and no 'agerange' key; 'ageRange' is a filter the server reads |
| Filters.AgeRangeChoiceIgnored | scenes_project/scenes_app/static/js/analytics-filters.js:105-263 | as written, choosing an age range adds 'agerange', leaves 'ageRange' at 'all', and the server receives no ageRange filter |
| Filters.AnalyticsFilters.FilterChangedIntended | scenes_project/scenes_app/static/js/analytics-filters.js:105-110 | the chosen value is stored under the filter's intended key, the options unchanged |
| Filters.AgeRangeChoiceApplied | scenes_project/scenes_app/static/js/analytics-filters.js:105-263 | with the intended key, choosing an age range updates 'ageRange' in place and the server receives it as a filter |
| CachedAnalytics.Take | scenes_project/scenes_app/utils/cached_analytics.py:467 | `s[:n]` has length min(len(s), n) |
| CachedAnalytics.CacheKeyShape | scenes_project/scenes_app/utils/cached_analytics.py:464-468 | a key is `analytics_`, the prefix, `_` and exactly the first 8 digest characters, and both parts read back |
| CachedAnalytics.CacheKeyInjective | scenes_project/scenes_app/utils/cached_analytics.py:464-468 | two equal keys have the same prefix and the same first 8 digest characters |
| CachedAnalytics.RangesKeyIsNotFieldKey | scenes_project/scenes_app/utils/cached_analytics.py:220-241 | an age-range key never equals a field-distribution key |
| CachedAnalytics.ReportKeyKind | scenes_project/scenes_app/utils/cached_analytics.py:32-64 | only a full analytics result is ever stored under a `full_analytics` key |
| CachedAnalytics.StoreKeepsKinds | scenes_project/scenes_app/utils/cached_analytics.py:64-287 | storing a value under a key of its own kind keeps every stored value under a key of its kind |
| CachedAnalytics.EmptyAnalyticsResponse | scenes_project/scenes_app/utils/cached_analytics.py:470-508 | the empty response carries the error, zero totals, four empty charts and zero recent activity |
| CachedAnalytics.FreshReport | scenes_project/scenes_app/utils/cached_analytics.py:154-213 | a fresh result carries no error |
| CachedAnalytics.TallyIsCount | scenes_project/scenes_app/utils/cached_analytics.py:257-285 | with disjoint buckets, the first-match count of a bucket equals the count of its own query |
| CachedAnalytics.FreshAgeRangesAgree | scenes_project/scenes_app/utils/cached_analytics.py:239-288 | the service's age ranges, one query per bucket, equal those of calculate_dynamic_age_ranges: same keys, same order, same counts |
| CachedAnalytics.AnalyticsCache.constructor | scenes_project/scenes_app/utils/cached_analytics.py:15-24 | the cache starts from a store whose values match their keys' kinds |
| CachedAnalytics.AnalyticsCache.GetCachedFieldDistribution | scenes_project/scenes_app/utils/cached_analytics.py:218-237 | a non-empty stored distribution is returned whatever the scenes; otherwise the scenes' distribution is computed, stored and returned |
| CachedAnalytics.AnalyticsCache.GetCachedAgeRanges | scenes_project/scenes_app/utils/cached_analytics.py:239-288 | a non-empty stored dictionary is returned whatever the scenes; otherwise the scenes' ranges are computed, stored and returned |
| CachedAnalytics.AnalyticsCache.GenerateFresh | scenes_project/scenes_app/utils/cached_analytics.py:79-216 | an unparsable age range is an error, no matching scene gives the empty response, and otherwise the result is assembled from the cached helpers, untruncated: each of the four distributions is the non-empty value already stored under its key, or else the one computed from the filtered scenes |
| CachedAnalytics.AnalyticsCache.Distributions | scenes_project/scenes_app/utils/cached_analytics.py:130-136 | each of the country, setting, emotion and age-range distributions is the non-empty value stored under its key before the call, or else the one computed from the filtered scenes (setting and emotion when their keys differ from the keys read before them) |
| CachedAnalytics.AnalyticsCache.AnalyzeScenesCached | scenes_project/scenes_app/utils/cached_analytics.py:26-77 | a stored result is returned marked cached, with nothing regenerated or stored; on a miss the result is the fresh generation's: the age-range error or the empty response with the store untouched and nothing cached, or the fresh report over the filtered scenes with each distribution served from the store or computed, then stored under the key and marked not cached |
| CachedAnalytics.AnalyticsCache.InvalidateCache | scenes_project/scenes_app/utils/cached_analytics.py:510-522 | every key under `analytics_<type>_` is dropped, or every `analytics_` key when the type is 'all', missing or empty, and nothing else |
| CachedAnalytics.InvalidatedKeyGone | scenes_project/scenes_app/utils/cached_analytics.py:510-522 | a key made with a prefix is matched by that prefix's pattern and by the whole-cache pattern |
| CachedAnalytics.StaleAgeRanges | scenes_project/scenes_app/utils/cached_analytics.py:239-245 | once non-empty age ranges are stored, a later call for other scenes returns the same ranges |
| Gallery.ValidFilesRule | scenes_project/scenes_app/static/js/gallery.js:92-103 | a file is kept exactly when it has an image type and at most 10 MB, the server's own rule; every file is either kept or alerted about, never both |
| Gallery.HandleFiles | scenes_project/scenes_app/static/js/gallery.js:89-146 | nothing for an empty selection; otherwise the kept files are the valid ones, nothing is sent without a valid file or a scene id, and otherwise exactly the valid files are posted |
| Gallery.UploadAlert | scenes_project/scenes_app/static/js/gallery.js:132-140 | a success shows the server's message; a failure shows its error, or 'Upload failed' when there is none |
| Gallery.Remove | scenes_project/scenes_app/static/js/gallery.js:313-324 | taking a card out shifts the later cards down by one |
| Gallery.Insert | scenes_project/scenes_app/static/js/gallery.js:313-324 | putting a card at a position shifts the later cards up by one |
| Gallery.RemoveInsertMultiset | scenes_project/scenes_app/static/js/gallery.js:313-324 | taking a card out and putting it back anywhere keeps the same cards |
| Gallery.MovePermutes | scenes_project/scenes_app/static/js/gallery.js:313-324 | a drop is a permutation: the dragged card lands right after (or before) the target, and every other card keeps its relative order |
| Gallery.RemoveInsert | scenes_project/scenes_app/static/js/gallery.js:313-324 | taking out what was just put in gives back the grid |
| Gallery.MoveLandsOnTarget | scenes_project/scenes_app/static/js/gallery.js:315-323 | with orders equal to positions, the dragged card lands exactly at the target's old position |
| Gallery.OrdersOf | scenes_project/scenes_app/static/js/gallery.js:336-343 | the posted orders are each card's parsed id with its position |
| Gallery.OrdersAreIndices | scenes_project/scenes_app/static/js/gallery.js:336-343 | the posted orders are exactly 0..n-1, strictly increasing |
| Gallery.SyncedOrders | scenes_project/scenes_app/static/js/gallery.js:315-316 | once renumbered, a card's `data-order` parses to its position |
| Gallery.IsPrimary | scenes_project/scenes_app/static/js/gallery.js:184 | `is_primary` is true exactly for the checkbox value 'on' |
| Gallery.RenumberedStep | scenes_project/scenes_app/static/js/gallery.js:336-343 | renumbering one more card keeps the ids and extends the posted orders by that card |
| Gallery.GalleryPage.constructor | scenes_project/scenes_app/static/js/gallery.js:284-294 | nothing is dragged, no image is being edited and the modal is hidden |
| Gallery.GalleryPage.DragStart | scenes_project/scenes_app/static/js/gallery.js:295-299 | the card becomes the dragged one |
| Gallery.GalleryPage.DragEnd | scenes_project/scenes_app/static/js/gallery.js:301-304 | no card is dragged |
| Gallery.GalleryPage.UpdateImageOrder | scenes_project/scenes_app/static/js/gallery.js:332-345 | every card keeps its id and takes its position as its order, and exactly those orders are posted |
| Gallery.GalleryPage.RenumberCard | scenes_project/scenes_app/static/js/gallery.js:336-343 | the card at the index takes the index as its order and is posted with its parsed id |
| Gallery.GalleryPage.Drop | scenes_project/scenes_app/static/js/gallery.js:311-327 | no drag or a drop on itself changes nothing; otherwise the dragged card moves after the target when its order is smaller, else before, and the new orders are posted |
| Gallery.GalleryPage.EditImage | scenes_project/scenes_app/static/js/gallery.js:149-150 | the image becomes the one being edited |
| Gallery.GalleryPage.EditDataLoaded | scenes_project/scenes_app/static/js/gallery.js:155-165 | the modal shows once the image's data is found |
| Gallery.GalleryPage.CloseEditModal | scenes_project/scenes_app/static/js/gallery.js:170-173 | the modal hides and no image is being edited |
| Gallery.GalleryPage.SubmitEdit | scenes_project/scenes_app/static/js/gallery.js:175-187 | nothing is sent without an image being edited; otherwise the update carries the form's fields, with `is_primary` true exactly for 'on' |
| Gallery.SubmitAfterCloseSendsNothing | scenes_project/scenes_app/static/js/gallery.js:170-177 | after the modal is closed, submitting sends nothing |
| Gallery.SyncedDropLandsOnTarget | scenes_project/scenes_app/static/js/gallery.js:311-343 | on a renumbered grid, a drop puts the dragged card exactly at the target's position and posts its id with that order |
| HeroCarousel.NextPrevInverse | scenes_project/scenes_app/static/js/hero-carousel.js:128-136 | next and previous targets are slide indices, undo each other, and differ from the current slide when there are two or more slides |
| HeroCarousel.SwipeAction | scenes_project/scenes_app/static/js/hero-carousel.js:237-251 | a swipe is ignored exactly when it is shorter than 50 or more vertical than horizontal; rightward goes back, leftward forward |
| HeroCarousel.IntervalForWidth | scenes_project/scenes_app/static/js/hero-carousel.js:258-282 | a width up to 480 gives 6000 ms, up to 768 gives 5500 ms, and wider screens 5000 ms |
| HeroCarousel.Carousel.constructor | scenes_project/scenes_app/static/js/hero-carousel.js:3-71 | slide 0, playing but with no timer yet, no transition, and the period for the screen width |
| HeroCarousel.Carousel.ShowSlide | scenes_project/scenes_app/static/js/hero-carousel.js:73-126 | a no-op while a transition runs or for the current slide; otherwise the lock is taken, and for an existing slide it becomes current with its cleanup scheduled |
| HeroCarousel.Carousel.TransitionCleanup | scenes_project/scenes_app/static/js/hero-carousel.js:120-125 | the 700 ms cleanup releases the transition lock |
| HeroCarousel.Carousel.NextSlide | scenes_project/scenes_app/static/js/hero-carousel.js:128-131 | the slide becomes (current + 1) mod n unless a transition runs or there is one slide |
| HeroCarousel.Carousel.PrevSlide | scenes_project/scenes_app/static/js/hero-carousel.js:133-136 | the slide becomes (current - 1 + n) mod n unless a transition runs or there is one slide |
| HeroCarousel.Carousel.GoToSlide | scenes_project/scenes_app/static/js/hero-carousel.js:138-143 | an index outside the slides changes nothing; otherwise it is shown, going forward exactly when it is above the current slide |
| HeroCarousel.Carousel.Play | scenes_project/scenes_app/static/js/hero-carousel.js:145-151 | playing, with exactly one timer at the current period |
| HeroCarousel.Carousel.Pause | scenes_project/scenes_app/static/js/hero-carousel.js:153-161 | not playing and no timer |
| HeroCarousel.Carousel.AutoplayTick | scenes_project/scenes_app/static/js/hero-carousel.js:150 | a timer tick advances to the next slide unless a transition runs |
| HeroCarousel.Carousel.KeyDown | scenes_project/scenes_app/static/js/hero-carousel.js:163-179 | space toggles playing; the arrows go to the previous or next slide; other keys change nothing |
| HeroCarousel.Carousel.HandleSwipe | scenes_project/scenes_app/static/js/hero-carousel.js:237-251 | an ignored swipe changes nothing; otherwise it goes to the previous or next slide |
| HeroCarousel.Carousel.TouchStart | scenes_project/scenes_app/static/js/hero-carousel.js:181-185 | the start point is recorded and autoplay pauses |
| HeroCarousel.Carousel.TouchEnd | scenes_project/scenes_app/static/js/hero-carousel.js:200-251 | the end point is recorded and the swipe handled: a swipe under 50 px or steeper than it is wide leaves the slide, a rightward one goes to the previous slide and a leftward one to the next (when not transitioning and with more than one slide) |
| HeroCarousel.Carousel.TouchResume | scenes_project/scenes_app/static/js/hero-carousel.js:206-210 | three seconds later autoplay resumes unless the carousel is hovered or focused |
| HeroCarousel.Carousel.MouseDown | scenes_project/scenes_app/static/js/hero-carousel.js:214-220 | a drag starts at the point |
| HeroCarousel.Carousel.MouseUp | scenes_project/scenes_app/static/js/hero-carousel.js:227-251 | without a drag nothing changes; otherwise the drag ends at the point and is handled as a swipe: under 50 px or steeper than wide leaves the slide, rightward goes to the previous slide and leftward to the next (when not transitioning and with more than one slide) |
| HeroCarousel.Carousel.MouseEnter | scenes_project/scenes_app/static/js/hero-carousel.js:44-46 | off mobile, hovering pauses autoplay; on mobile nothing changes |
| HeroCarousel.Carousel.MouseLeave | scenes_project/scenes_app/static/js/hero-carousel.js:38-46 | any drag ends, and off mobile autoplay restarts |
| HeroCarousel.Carousel.AdjustForScreenSize | scenes_project/scenes_app/static/js/hero-carousel.js:267-288 | the period follows the width, and a running timer is restarted at the new period |
| HeroCarousel.MissingSlideBlocksCarousel | scenes_project/scenes_app/static/js/hero-carousel.js:73-80 | an index with no slide leaves the lock taken with no cleanup scheduled, so the carousel stays blocked |
| Lightbox.Entries | scenes_project/scenes_app/static/js/lightBox.js:64-84 | only cards with an image and an id are listed, each with a non-empty caption ('Untitled' by default) |
| Lightbox.EntriesMembers | scenes_project/scenes_app/static/js/lightBox.js:64-84 | every listed card gives an entry, and every entry comes from a listed card |
| Lightbox.FindIndex | scenes_project/scenes_app/static/js/lightBox.js:40-41 | the first entry with the clicked id, or none when no entry has it |
| Lightbox.ZoomBy | scenes_project/scenes_app/static/js/lightBox.js:166-172 | the zoom becomes zoom + delta clamped to [0.5, 3] |
| Lightbox.MaxPan | scenes_project/scenes_app/static/js/lightBox.js:195-205 | the pan bound per axis is max(0, (image - container) / 2) |
| Lightbox.Constrain | scenes_project/scenes_app/static/js/lightBox.js:195-205 | the pan is clamped to the bound on each axis |
| Lightbox.Lightbox.constructor | scenes_project/scenes_app/static/js/lightBox.js:3-12 | no images, index 0, zoom 1, pan (0, 0), no drag, no touch, the modal hidden and no key listener |
| Lightbox.Lightbox.UpdateImageTransform | scenes_project/scenes_app/static/js/lightBox.js:180-193 | above zoom 1 the pan is clamped; otherwise it is kept |
| Lightbox.Lightbox.ResetZoom | scenes_project/scenes_app/static/js/lightBox.js:174-178 | zoom 1 and pan (0, 0) |
| Lightbox.Lightbox.ZoomImage | scenes_project/scenes_app/static/js/lightBox.js:166-172 | the zoom becomes the clamped sum, and a changed zoom above 1 clamps the pan |
| Lightbox.Lightbox.LoadCurrentImage | scenes_project/scenes_app/static/js/lightBox.js:86-109 | with images, the loader shows and the zoom is reset; without images nothing changes |
| Lightbox.Lightbox.ImageLoaded | scenes_project/scenes_app/static/js/lightBox.js:92-155 | the caption and counter of the current image; prev disabled exactly at the first image, next exactly at the last, arrows shown exactly with two or more |
| Lightbox.Lightbox.BuildImageList | scenes_project/scenes_app/static/js/lightBox.js:64-84 | the list is the entries of the grid, or empty without a grid |
| Lightbox.Lightbox.Open | scenes_project/scenes_app/static/js/lightBox.js:38-53 | the modal shows, the index is the first entry with the clicked id or 0, the image loads with the zoom reset, and one more key listener is registered |
| Lightbox.Lightbox.Close | scenes_project/scenes_app/static/js/lightBox.js:55-61 | the modal hides and the zoom is reset; the key listener is not among what it changes, because removeEventListener receives a new binding |
| Lightbox.Lightbox.NavigateImage | scenes_project/scenes_app/static/js/lightBox.js:157-164 | the index moves only when the new index is inside the list, with no wrap-around |
| Lightbox.Lightbox.Wheel | scenes_project/scenes_app/static/js/lightBox.js:210-214 | a wheel step zooms out by 0.15 for a positive delta, else in by 0.15, clamped |
| Lightbox.Lightbox.DoubleClick | scenes_project/scenes_app/static/js/lightBox.js:217-224 | zoom 1 becomes 2, any other zoom goes back to 1 with the pan reset |
| Lightbox.Lightbox.StartDrag | scenes_project/scenes_app/static/js/lightBox.js:237-242 | at zoom 1 or below nothing changes; above it a drag starts from the mouse position minus the pan |
| Lightbox.Lightbox.Drag | scenes_project/scenes_app/static/js/lightBox.js:244-250 | without a drag or at zoom 1 or below the pan is kept; otherwise it follows the mouse, clamped |
| Lightbox.Lightbox.EndDrag | scenes_project/scenes_app/static/js/lightBox.js:252-255 | no drag |
| Lightbox.Lightbox.TouchStart | scenes_project/scenes_app/static/js/lightBox.js:257-263 | one finger above zoom 1 starts a pan; two fingers record their distance |
| Lightbox.Lightbox.TouchMove | scenes_project/scenes_app/static/js/lightBox.js:265-277 | one finger pans (above zoom 1) without zooming; two fingers zoom by the ratio of distances, clamped, to the maximum from a zero start distance; a 0/0 ratio leaves the zoom unchanged (the source's NaN is under "## Left out") |
| Lightbox.Lightbox.TouchEnd | scenes_project/scenes_app/static/js/lightBox.js:279-281 | no touch is in progress |
| Lightbox.Lightbox.ModalClicked | scenes_project/scenes_app/static/js/lightBox.js:345-350 | a click on the background closes and resets the zoom; any other click changes nothing |
| Lightbox.Lightbox.HandleKeydown | scenes_project/scenes_app/static/js/lightBox.js:289-323 | the arrows and space navigate, + = and - zoom by 0.2, 0 resets, Escape closes; other keys keep the index and the modal |
| Lightbox.Lightbox.KeyDown | scenes_project/scenes_app/static/js/lightBox.js:289-323 | every registered listener handles the key in turn, so n listeners move n images, bounded by the list's ends |
| Lightbox.Lightbox.OpenIntended | scenes_project/scenes_app/static/js/lightBox.js:38-53 | with one listener kept for the lightbox's lifetime, opening leaves exactly one |
| Lightbox.Lightbox.CloseIntended | scenes_project/scenes_app/static/js/lightBox.js:55-61 | removing the listener open added leaves none |
| Lightbox.ReopenedLightboxSkipsAnImage | scenes_project/scenes_app/static/js/lightBox.js:46-58 | as written, after open, close and open again one ArrowRight press moves two images on |
| Lightbox.ReopenedLightboxIntended | scenes_project/scenes_app/static/js/lightBox.js:46-58 | with the intended listener handling the same presses move one image on |
| NavSearch.SuggestionText | scenes_project/scenes_app/static/js/nav-search.js:139-197 | display, else term, else text; empty exactly when all three are |
| NavSearch.HighlightKeepsText | scenes_project/scenes_app/static/js/nav-search.js:207-212 | wrapping the matches in strong tags leaves the text itself unchanged |
| NavSearch.HighlightMarksMatches | scenes_project/scenes_app/static/js/nav-search.js:207-212 | every emphasised piece equals the query, ignoring case |
| NavSearch.HighlightNoMatch | scenes_project/scenes_app/static/js/nav-search.js:207-212 | text with no occurrence of the query comes back unchanged |
| NavSearch.SubmitAllowed | scenes_project/scenes_app/static/js/nav-search.js:53-60 | the form submits exactly when the trimmed input is not empty |
| NavSearch.ItemsOf | scenes_project/scenes_app/static/js/nav-search.js:137-154 | one item per suggestion, in order, with its text, and only the item at the selected index marked |
| NavSearch.NavSearch.constructor | scenes_project/scenes_app/static/js/nav-search.js:6-17 | empty query, no selection (-1), no suggestions, no pending fetch, the dropdown hidden |
| NavSearch.NavSearch.HandleInput | scenes_project/scenes_app/static/js/nav-search.js:63-83 | the trimmed query is kept and the selection cleared; under two characters the dropdown hides, the suggestions empty and the pending fetch is dropped; otherwise a fetch of that query replaces any pending one |
| NavSearch.NavSearch.DebounceFires | scenes_project/scenes_app/static/js/nav-search.js:80-82 | the timer hands over the pending query, once |
| NavSearch.NavSearch.RenderSuggestions | scenes_project/scenes_app/static/js/nav-search.js:129-167 | no suggestions hides the dropdown; otherwise it shows and its items are those of the suggestions |
| NavSearch.NavSearch.FetchSucceeded | scenes_project/scenes_app/static/js/nav-search.js:112-122 | as written, the suggestions are replaced but the selected index is kept |
| NavSearch.NavSearch.FetchSucceededIntended | scenes_project/scenes_app/static/js/nav-search.js:112-122 | the suggestions are replaced and the selection cleared |
| NavSearch.NavSearch.FetchFailed | scenes_project/scenes_app/static/js/nav-search.js:123-126 | the dropdown hides |
| NavSearch.NavSearch.Focus | scenes_project/scenes_app/static/js/nav-search.js:38-42 | the dropdown shows exactly when there are suggestions or it was already shown |
| NavSearch.NavSearch.BlurTimeout | scenes_project/scenes_app/static/js/nav-search.js:44-50 | the dropdown hides and the selection is cleared |
| NavSearch.NavSearch.UpdateSelection | scenes_project/scenes_app/static/js/nav-search.js:169-194 | every item keeps its text and markup and is marked exactly when its index is the selection |
| NavSearch.NavSearch.SelectSuggestion | scenes_project/scenes_app/static/js/nav-search.js:196-205 | the input gets the suggestion's text, the dropdown hides, the selection clears and the form submits that text |
| NavSearch.NavSearch.ClickSuggestion | scenes_project/scenes_app/static/js/nav-search.js:160-166 | clicking item k submits the text of suggestion k |
| NavSearch.NavSearch.Keydown | scenes_project/scenes_app/static/js/nav-search.js:85-110 | with the dropdown hidden nothing changes; ArrowDown and ArrowUp move the selection within [-1, length - 1]; Enter submits the selected suggestion, or throws when the index lies past the list; Escape hides and clears |
| NavSearch.NavSearch.Submit | scenes_project/scenes_app/static/js/nav-search.js:53-60 | submission goes ahead exactly when the input holds a non-space character, and then submits it |
| NavSearch.StaleSelectionThrows | scenes_project/scenes_app/static/js/nav-search.js:88-122 | as written, selecting through the old list while the next fetch is pending and then pressing Enter on a shorter reply throws |
| NavSearch.StaleSelectionIntended | scenes_project/scenes_app/static/js/nav-search.js:88-122 | with the intended fetch handler the same keys are handled without an error |
| Signals.WordRun | scenes_project/scenes_app/signals.py:83 | the length of the leading run of word characters: all of them are word characters and the next one is not |
| Signals.FindWords | scenes_project/scenes_app/signals.py:83-176 | every word found has at least k characters, and only letters when the pattern asks for letters (which words they are: Signals.FindWordsAreRuns and Signals.RunsAreFound) |
| Signals.FindWordsAreRuns | scenes_project/scenes_app/signals.py:83 | every word found stands in the text between two word boundaries: made of word characters, with none just before or just after it |
| Signals.RunsAreFound | scenes_project/scenes_app/signals.py:83 | every run of word characters between two word boundaries that has at least k characters (and only letters, for the letter pattern) is found |
| Signals.FindWordsChars | scenes_project/scenes_app/signals.py:83-149 | every character of a word found occurs in the text |
| Signals.FindWordsDropLeading | scenes_project/scenes_app/signals.py:79-83 | characters that are not word characters in front of the text change no word found |
| Signals.FindWordsDropTrailing | scenes_project/scenes_app/signals.py:79-83 | characters that are not word characters after the text change no word found |
| Signals.FindWordsWeaker | scenes_project/scenes_app/signals.py:83-149 | a word of k1 or more letters is also found by the word-character pattern of length k2 <= k1 |
| Signals.LowerWords | scenes_project/scenes_app/signals.py:83-121 | words found in lower-cased text are lower-case and at least k long |
| Signals.TrimKeepsWords | scenes_project/scenes_app/signals.py:79-83 | stripping the title does not change the words found in it |
| Signals.TitleEvents | scenes_project/scenes_app/signals.py:78-86 | an empty title makes no call; otherwise the stripped title is added first, then its words |
| Signals.CharacterEventsBoth | scenes_project/scenes_app/signals.py:97-106 | the two character types are processed in order, each over appearance, hair and clothing |
| Signals.BoostFor | scenes_project/scenes_app/signals.py:133 | min(count - 1, 3) lies in 1..3 and below the count, and is count - 1 up to a count of 4 |
| Signals.Uncommon | scenes_project/scenes_app/signals.py:124 | a word is kept exactly when it is not a common word |
| Signals.SuggestionStore.constructor | scenes_project/scenes_app/signals.py:80 | the store has received no call |
| Signals.SuggestionStore.AddOrUpdate | scenes_project/scenes_app/signals.py:80-130 | one add-or-update call is recorded |
| Signals.SuggestionStore.RaiseFrequency | scenes_project/scenes_app/signals.py:134-135 | one frequency boost is recorded |
| Signals.AddWords | scenes_project/scenes_app/signals.py:84-86 | the store receives one add per uncommon word, in order |
| Signals.AddFieldWords | scenes_project/scenes_app/signals.py:100-106 | a value whose stripped length exceeds 2 adds its words; any other adds nothing |
| Signals.AddSectionWords | scenes_project/scenes_app/signals.py:98-116 | the fields of a detail section are processed in order |
| Signals.AddContentWords | scenes_project/scenes_app/signals.py:128-135 | the top words are added and boosted as TopEvents says |
| Signals.AddContentEntry | scenes_project/scenes_app/signals.py:128-135 | one top word is added when counted at least twice or at least six letters long, then boosted by min(count - 1, 3) when repeated |
| Signals.AddTitleWords | scenes_project/scenes_app/signals.py:78-86 | the store receives exactly the title's calls |
| Signals.AddBasicFields | scenes_project/scenes_app/signals.py:89-94 | country, setting and emotion are added when not empty |
| Signals.AddDetailWords | scenes_project/scenes_app/signals.py:96-116 | empty details add nothing; otherwise both character types, then the atmosphere |
| Signals.AddFullTextWords | scenes_project/scenes_app/signals.py:119-135 | a full text whose stripped length exceeds 10 adds its top words; any other adds nothing |
| Signals.TrainSuggestionsForScene | scenes_project/scenes_app/signals.py:68-135 | the store receives exactly the calls of TrainLog, in order: title, basic fields, details, full text |
| Signals.WordEventsFacts | scenes_project/scenes_app/signals.py:84-86 | an add of kind k for w is made exactly when w is among the words and is not common |
| Signals.SectionEventsFacts | scenes_project/scenes_app/signals.py:98-116 | every detail call adds an uncommon lower-case word of at least k letters with the section's kind |
| Signals.TopEventsAddsSound | scenes_project/scenes_app/signals.py:128-130 | every content add is a top word counted at least twice or at least six letters long |
| Signals.TopEventsAddsComplete | scenes_project/scenes_app/signals.py:128-130 | every top word counted at least twice or at least six letters long is added |
| Signals.TopEventsBoosts | scenes_project/scenes_app/signals.py:131-135 | every boost belongs to a top word counted more than once and is min(count - 1, 3) |
| Signals.TopWordsFacts | scenes_project/scenes_app/signals.py:127-135 | every call on the fifteen most common words is about one of the words, adds are content, boosts are 1..3 |
| Signals.ContentEventsFacts | scenes_project/scenes_app/signals.py:119-135 | every full-text call is about an uncommon lower-case word of four or more letters in the text |
| Signals.TitleAndDetailKinds | scenes_project/scenes_app/signals.py:78-116 | title calls add titles; detail calls add character or content terms |
| Signals.BasicEventsFacts | scenes_project/scenes_app/signals.py:89-94 | the country, setting and emotion adds carry exactly those values, and each is made exactly when the value is not empty |
| Signals.BasicKindFromBasicFields | scenes_project/scenes_app/signals.py:68-135 | only the basic fields add terms of the country, setting and emotion types |
| Signals.TrainLogBasicFields | scenes_project/scenes_app/signals.py:68-94 | in the whole training log, country, setting and emotion adds carry the scene's values, made exactly when not empty |
| Signals.TrainLogBoosts | scenes_project/scenes_app/signals.py:119-135 | every boost in the training log is 1..3 and about a content word of the full text |
| Signals.WordSet | scenes_project/scenes_app/signals.py:150-177 | the set holds exactly the words of the list |
| Signals.CurrentTermsMember | scenes_project/scenes_app/signals.py:145-177 | every scene's terms are among the current terms |
| Signals.Kept | scenes_project/scenes_app/signals.py:180 | the rows kept are exactly those whose term is current, in order |
| Signals.ObsoleteCount | scenes_project/scenes_app/signals.py:181 | the count is zero exactly when every row's term is current |
| Signals.KeptPlusObsolete | scenes_project/scenes_app/signals.py:180-182 | kept rows and deleted rows add up to the table |
| Signals.SuggestionTable.constructor | scenes_project/scenes_app/signals.py:180 | the table holds the given terms |
| Signals.CleanupUnusedSuggestions | scenes_project/scenes_app/signals.py:138-185 | the table keeps exactly the rows with a current term, and the count returned is the number deleted |
| Signals.TitleWordsSurvive | scenes_project/scenes_app/signals.py:83-149 | every title word trained is among the words cleanup collects from the title |
| Signals.DetailWordsSurvive | scenes_project/scenes_app/signals.py:96-173 | every detail word trained is among the detail terms cleanup collects |
| Signals.TextWordsSurvive | scenes_project/scenes_app/signals.py:119-177 | every full-text word trained is among the full-text terms cleanup collects |
| Signals.SectionSurvives | scenes_project/scenes_app/signals.py:98-173 | a word trained from a detail section is among that section's terms |
| Signals.TrainedWordsSurviveCleanup | scenes_project/scenes_app/signals.py:68-182 | the word suggestions a scene trains survive cleanup while the scene exists |
| Signals.CapitalisedTermsAreObsolete | scenes_project/scenes_app/signals.py:80-154 | a capitalised country is added as written, but cleanup collects it lower-cased, so that term is not among the current terms |
| MainJs.LowerIsR | scenes_project/scenes_app/static/js/main.js:59 | a key lower-cases to 'r' exactly when it is 'r' or 'R' |
| MainJs.RandomShortcutFires | scenes_project/scenes_app/static/js/main.js:56-64 | the shortcut fires exactly for a plain r or R outside inputs, text areas and editable content, and then goes to /random/ |
| MainJs.FavoriteCountText | scenes_project/scenes_app/static/js/main.js:224 | the text is the count between parentheses, and the count reads back from between them |
| MainJs.CookieParts | scenes_project/scenes_app/static/js/main.js:300 | splitting a trimmed cookie on '=' gives at least one part |
| MainJs.CsrfFirstMatch | scenes_project/scenes_app/static/js/main.js:298-305 | the first cookie named csrftoken decides the token, whatever follows it |
| MainJs.CsrfNoMatch | scenes_project/scenes_app/static/js/main.js:298-306 | with no cookie named csrftoken the token is the empty string |
| MainJs.CookieValueBetween | scenes_project/scenes_app/static/js/main.js:300 | a cookie name=v=w gives the name and v; what follows a second '=' is lost |
| MainJs.GetCsrfToken | scenes_project/scenes_app/static/js/main.js:291-306 | a non-empty window token wins; otherwise the value of the first csrftoken cookie, undefined when it has no '=', or the empty string |
| MainJs.NewCountFacts | scenes_project/scenes_app/static/js/main.js:312 | an add counts one more; a removal never goes below 0, counts one fewer from 1 up, and undoes an add |
| MainJs.CurrentCountOf | scenes_project/scenes_app/static/js/main.js:311-315 | the badge reads back the number written into it |
| MainJs.NavBadge.constructor | scenes_project/scenes_app/static/js/main.js:309 | the badge holds the given text and visibility |
| MainJs.NavBadge.UpdateNavFavoriteCount | scenes_project/scenes_app/static/js/main.js:308-321 | as written, a positive new count is written and shown; a count of 0 hides the badge and keeps its old text |
| MainJs.NavBadge.UpdateNavFavoriteCountIntended | scenes_project/scenes_app/static/js/main.js:308-321 | the new count is always written and reads back, and the badge is hidden exactly when it is 0 |
| MainJs.NavBadge.InitNavFavoriteCount | scenes_project/scenes_app/static/js/main.js:324-334 | a positive total is written and shown; otherwise the badge is unchanged |
| MainJs.StaleBadgeMiscounts | scenes_project/scenes_app/static/js/main.js:311-319 | as written, removing the only favourite and adding it again shows 2 for one favourite |
| MainJs.StaleBadgeIntended | scenes_project/scenes_app/static/js/main.js:311-319 | with the intended update the same steps show 1 |
| FindEmptyScenes.MissingChecksAppend | find_empty_scenes.py:24-49 | the checks of two lists are those of the first list, then those of the second |
| FindEmptyScenes.SectionChecks | find_empty_scenes.py:24-49 | a section's three checks run in order, one issue for each empty field |
| FindEmptyScenes.SceneIssuesByTable | find_empty_scenes.py:23-49 | with details, the scene's issues are those of the nine checks in order: effeminate, masculine, atmosphere |
| FindEmptyScenes.MissingChecksSize | find_empty_scenes.py:24-49 | at most one issue per check |
| FindEmptyScenes.MissingChecksMembers | find_empty_scenes.py:24-49 | each issue names a check whose field is empty, and every such check is named |
| FindEmptyScenes.MissingChecksFacts | find_empty_scenes.py:24-49 | at most one issue per check, exactly the empty checks named, and none exactly when every field is filled |
| FindEmptyScenes.SceneIssuesFacts | find_empty_scenes.py:19-49 | without details exactly "No details field"; otherwise at most nine issues, exactly the empty fields, and none exactly when all nine are filled |
| FindEmptyScenes.CheckField | find_empty_scenes.py:26-49 | one check appends an issue exactly when the field is empty |
| FindEmptyScenes.CheckSection | find_empty_scenes.py:24-49 | a section's checks append that section's issues |
| FindEmptyScenes.ListIssues | find_empty_scenes.py:19-49 | the list built is the scene's issue list |
| FindEmptyScenes.ReportedAppend | find_empty_scenes.py:51-52 | keeping the reports with issues distributes over concatenation |
| FindEmptyScenes.ReportedMembers | find_empty_scenes.py:51-52 | a report is kept exactly when it has issues, and no more reports come out than went in |
| FindEmptyScenes.ReportsAppend | find_empty_scenes.py:18-52 | the reports of two lists of scenes are those of the first, then those of the second |
| FindEmptyScenes.ReportsSnoc | find_empty_scenes.py:51-52 | one more scene adds its report at the end exactly when it has issues |
| FindEmptyScenes.ReportsStep | find_empty_scenes.py:18-52 | the same, for each prefix of the scene list |
| FindEmptyScenes.ReportsFacts | find_empty_scenes.py:12-63 | a scene is reported exactly when it has issues, with those issues, and there are no more reports than scenes |
| FindEmptyScenes.FindScenesWithMissingDetails | find_empty_scenes.py:12-63 | the list returned is the reports of the scenes, in order, and the printed part is its first min(10, n) reports |
| ImageTags.SizeFieldNames | scenes_project/scenes_app/templatetags/image_tags.py:19-27 | each known size names its own field, and every other size falls back to medium_image |
| ImageTags.FalsyGivesEmpty | scenes_project/scenes_app/templatetags/image_tags.py:8-9 | a falsy image gives the empty string, whatever the size |
| ImageTags.MethodResultWins | scenes_project/scenes_app/templatetags/image_tags.py:13-16 | a truthy get_image_url result is returned unchanged |
| ImageTags.MethodRaisesGivesEmpty | scenes_project/scenes_app/templatetags/image_tags.py:13-46 | a get_image_url that raises gives the empty string, whatever the fields hold |
| ImageTags.SizeFieldUrl | scenes_project/scenes_app/templatetags/image_tags.py:27-32 | past the method, a truthy size field with a url gives that url |
| ImageTags.OriginalFallback | scenes_project/scenes_app/templatetags/image_tags.py:36-46 | past the method, with no usable size field, the original's url is used when it has one, and otherwise the result is empty |
| ImageTags.ResultFromASource | scenes_project/scenes_app/templatetags/image_tags.py:6-46 | the result is empty or a url one of the three sources gave |
| ImageTags.UrlErrorSkipsFallback | scenes_project/scenes_app/templatetags/image_tags.py:30-46 | as written, a size field whose url raises gives the empty string although the original has a url |
| ImageTags.IntendedFallsBack | scenes_project/scenes_app/templatetags/image_tags.py:30-41 | with the intended step, whenever the size field gives no url, the original's url is used when it has one |
| ImageTags.IntendedAgreesElsewhere | scenes_project/scenes_app/templatetags/image_tags.py:30-34 | the intended filter differs from the written one only where a size field's url raises |

## Left out

- Rendering, class toggling beyond the visibility flags named above, Chart.js, Toastify and alerts, scrolling, fullscreen, focus and the history API: their effects are opaque outputs or parameters.
- Concurrency: each fetch reply and each timer firing is one event, delivered as a method call; interleavings of concurrent requests are not modelled. AnalyticsDashboard.Dashboard.Receive draws the charts within the reply, where analytics.js:152-154 draws them in a 100 ms `setTimeout` after `hideLoading` and analytics.js:160-164 calls `populateFilterOptions` from a 200 ms timer; the state once both timers have fired is the same, but the moments in between (content shown before its charts, filters not yet filled) are not modelled.
- The Django ORM, sessions, Redis and the file system: tables are sequences or sets of records, the cache is a map, and the tie order of `order_by('-count')` among equal counts is left unspecified, so distributions are taken as given where ties matter.
- Django's `Paginator.get_page` is foreign code; it is modelled by its documented behaviour (a non-integer gives page 1, a page outside the range gives the last page).
- The md5 digest in the analytics cache key is a function parameter; only the key's shape is proved.
- CachedAnalytics.AnalyticsCache.Distributions: the setting and emotion values are stated only when their keys differ from the keys read before them. The digest is an arbitrary function here, so two eight-character digests could coincide; the real md5 prefixes of the three field parameters are not computed.
- Floating point: average ages, `favorite_rate`, `round(…, 1)`, the `toFixed` text of the insight descriptions and the zoom percentage text (the threshold comparisons of the two shares are the exception, see Comparison.PercentAbove); server-rounded averages are tenths held as integers, and no rounding is claimed.
- Comparison.PercentAbove: the `toFixed(1)` text is taken as the exact share rounded to the nearest tenth, ties up. The source divides and multiplies in binary floating point first, so a share within a rounding error of a tie may print the other tenth.
- Counting.SortByCount: the order among equal counts is not stated. Python's stable sort keeps first appearance, and the database's `order_by('-count')` leaves it open.
- Negative ages: ages are natural numbers, since the age-range keys are re-parsed as "s-e" and a negative bound would not parse.
- `analyze_details_field`, `analyze_atmosphere_details`, the most-favourited lists and `check_data_sync` in the analytics code compute display data only and are not modelled; the cached details and atmosphere analyses likewise.
- `SearchSuggestion`, `SceneImage` and `SearchQuery` are not part of this model: `add_or_update_suggestion` is abstract, so whether it normalises case is not known, and `get_image_url` is a parameter whose falsy result is the empty string.
- Signals.CleanupUnusedSuggestions: the `except` path that logs and returns 0 on a database error is not modelled.
- Signals: the post-delete handlers that remove image files and folders are file-system I/O and are not modelled.
- Signals.WordRun: `\w` is the ASCII letters, digits and `_`. In Python 3 `re`, every Unicode letter and digit is a word character. So here a non-ASCII letter ends a run of word characters, but in the source it does not.
- Signals.FindWords: word boundaries are ASCII only. In the source, a non-ASCII letter is a word character, so the title "Résumé" has no `\b` beside its é and `\b[a-zA-Z]{3,}\b` finds nothing in it; the model finds "sum". The same gap reaches Signals.TrainLog, Signals.SceneTerms and Signals.CleanupUnusedSuggestions: non-ASCII letters split words here, and the cleanup's `\w` words lose their non-ASCII letters.
- Signals.LowerWords: lower-casing (Common.Lower) changes only A-Z. Python's `str.lower` and JavaScript's `toLowerCase` also lower-case non-ASCII letters (É becomes é); the model leaves those unchanged.
- NavSearch.Highlight: the match ignores case only for A-Z (Common.Lower). The source's `new RegExp(…, 'gi')` also folds non-ASCII letters, so there the query "é" highlights "É" and here it does not; NavSearch.HighlightMarksMatches and NavSearch.HighlightNoMatch state the ASCII folding.
- Common.Trim: white space is the six ASCII characters space, tab, LF, CR, VT and FF. Unicode white space is not modelled, nor the separators `\x1c`-`\x1f` that Python's `strip` and `int()` also remove. Common.PyInt and Common.JsParseInt read only ASCII digits; Python's `int()` also accepts other Unicode decimal digits.
- AdvancedPagination.Controller.ChangePageSize: requires a page size of at least 1; a `NaN` or zero size from a malformed select value is not modelled.
- MainJs: main.js as shipped does not parse. Line 350 ends with a stray `/` after `})();`, and that `/` starts a regular-expression literal that runs into the line break at main.js:351, which is a SyntaxError. So no part of the script runs, including the R shortcut, `getCsrfToken`, `updateNavFavoriteCount` and `initNavFavoriteCount`. The MainJs members model the functions' text as if the stray `/` were the `//` of a comment. They also assume the `nav-favorite-count` element exists. The rest of the file (copy buttons, random-scene fetch, mobile menu, viewport and lazy loading) is DOM-only.
- Gallery: setPrimary, deleteImage, the lightbox hand-off and the alert markup are requests or DOM and are not modelled.
- HeroCarousel: destroy, touchmove and focus handling only pause or resume and are covered by Pause and Play; the slide markup and classes are not modelled.
- Lightbox: initialisation, toggleFullscreen and showKeyboardHelp are DOM-only; the modal-click listener is added on every open like the key listener, but a repeated close is idempotent, so only the key listener's count is modelled.
- Lightbox.Lightbox.TouchMove: for a two-finger move whose start distance and current distance are both 0, the source computes 0/0 = NaN. `zoomImage` then sets the zoom to NaN, because `Math.min` and `Math.max` pass NaN on, and every later zoom stays NaN until `resetZoom`. The zoom here is a real number, so the model leaves it unchanged in that case.
- Nav search: one input and its dropdown are modelled; the desktop and mobile inputs share the same selection and suggestion state, and the suggestion counts in the markup are not modelled.
- Print, `console` and logger output are left out.

## Findings

| source | as written | input that shows it | evidently intended | confidence | as-written member | corrected member |
|---|---|---|---|---|---|---|
| scenes_project/scenes_app/static/js/analytics-filters.js:105-109 | the change handler strips '-filter' and then the first '-', so the age-range select stores its value under 'agerange', a key the filter object does not have, and 'ageRange' stays 'all' | choosing "25-34" in `age-range-filter` | the value goes under 'ageRange' and reaches the server as an ageRange filter | high, not executed | Filters.AnalyticsFilters.FilterChanged, Filters.FilterKeyAgeRange, Filters.AgeRangeChoiceIgnored | Filters.AnalyticsFilters.FilterChangedIntended, Filters.AgeRangeChoiceApplied |
| scenes_project/scenes_app/static/js/lightBox.js:46-58 | open adds `this.handleKeydown.bind(this)` as a listener, and close removes a different new binding, so every open leaves one more key listener | open, close, open again, then press ArrowRight | one listener at a time, so ArrowRight moves one image on | high, not executed | Lightbox.Lightbox.Open, Lightbox.Lightbox.Close, Lightbox.ReopenedLightboxSkipsAnImage | Lightbox.Lightbox.OpenIntended, Lightbox.Lightbox.CloseIntended, Lightbox.ReopenedLightboxIntended |
| scenes_project/scenes_app/static/js/nav-search.js:112-122 | a new suggestion list keeps the old selected index, which can lie past its end; Enter then passes `undefined` to selectSuggestion, which throws | two suggestions shown, ArrowDown twice while the next query is pending, a reply of one suggestion, then Enter | the selection is cleared when new suggestions arrive | medium, not executed | NavSearch.NavSearch.FetchSucceeded, NavSearch.StaleSelectionThrows | NavSearch.NavSearch.FetchSucceededIntended, NavSearch.StaleSelectionIntended |
| scenes_project/scenes_app/static/js/main.js:308-321 | a count of 0 only hides the badge, keeping its old text, and the next update reads that stale text (this is the function's text: as shipped, main.js does not parse at all, see "## Left out") | badge "1", remove the only favourite, add it again | the badge shows 1 | medium, not executed | MainJs.NavBadge.UpdateNavFavoriteCount, MainJs.StaleBadgeMiscounts | MainJs.NavBadge.UpdateNavFavoriteCountIntended, MainJs.StaleBadgeIntended |
| scenes_project/scenes_app/templatetags/image_tags.py:30-34 | `hasattr(field, 'url')` re-raises any exception other than AttributeError, outside the inner `try`, so the outer handler returns '' and the original-image fallback is skipped | size "large" whose `large_image.url` raises while `original_image` has a URL; that needs a storage backend whose `url()` raises (a remote backend that fails while building the URL, say). With the project's own storage the path is not reached: settings.py:89-90 configures only `MEDIA_URL` and `MEDIA_ROOT`, so files use `FileSystemStorage`, whose `url()` joins `MEDIA_URL` and the file name without touching the disk, so even a missing file does not raise | a size field whose URL cannot be read is passed over and the original's URL is used | low, not executed | ImageTags.ImageUrl, ImageTags.UrlErrorSkipsFallback | ImageTags.ImageUrlIntended, ImageTags.IntendedFallsBack |

The rest of the model keeps the code as written, for example the lightbox's keyboard handler calls the written `Close`; each corrected member stands beside its as-written twin with its intended property proved.

=== FILE: advanced_pagination.dfy ===
/**
 * The AJAX pagination controller of the scene list (AdvancedPagination):
 * a loading guard, page state that the server decides, page-size
 * re-targeting, and bounded keyboard, button and jump navigation. Fetch
 * responses and timers are events: LoadSucceeded, LoadFailed,
 * WatchdogFired (the 10 s safety timeout) and CleanupTimerFired (the
 * 100 ms forced cleanup after every load).
 */
module AdvancedPagination {
  import opened Common

  /** JavaScript `parseInt(x) || d`: NaN and 0 fall back to `d`. */
  function ParseIntOr(text: Option<string>, d: int): (r: int)
    ensures r != 0 || d == 0
  {
    if text.None? then d
    else match JsParseInt(text.value)
      case None => d
      case Some(n) => if n == 0 then d else n
  }

  /** A hexadecimal URL value such as `?page=0x2` is read by `parseInt` as that number. */
  lemma ParseIntOrHex(h: string, d: int)
    requires h != [] && AllHexDigits(h) && HexValue(h) != 0
    ensures ParseIntOr(Some("0x" + h), d) == HexValue(h)
  {
    JsParseIntHex(h);
  }

  /**
   * The page changePageSize asks for: the page of the new size that holds
   * the first item of the current page, `floor((page - 1) * old / new) + 1`.
   */
  function PageSizeTarget(currentPage: int, oldSize: int, newSize: int): int
    requires newSize >= 1
  {
    (currentPage - 1) * oldSize / newSize + 1
  }

  /** The first item of the current page lies on the re-targeted page, which is never below 1. */
  lemma PageSizeTargetKeepsFirstItem(currentPage: int, oldSize: int, newSize: int)
    requires currentPage >= 1 && oldSize >= 1 && newSize >= 1
    ensures var t := PageSizeTarget(currentPage, oldSize, newSize);
      t >= 1 && (t - 1) * newSize <= (currentPage - 1) * oldSize < t * newSize
  {
    var item := (currentPage - 1) * oldSize;
    var q := item / newSize;
    assert item == q * newSize + item % newSize;
  }

  /** Which page a key press asks for, if any (the loading guard aside). */
  function KeyTarget(key: string, tagName: string, currentPage: int, totalPages: int): Option<int>
  {
    if tagName == "INPUT" || tagName == "TEXTAREA" then None
    else if key == "ArrowLeft" && currentPage > 1 then Some(currentPage - 1)
    else if key == "ArrowRight" && currentPage < totalPages then Some(currentPage + 1)
    else if key == "Home" && currentPage > 1 then Some(1)
    else if key == "End" && currentPage < totalPages then Some(totalPages)
    else None
  }

  /**
   * Each key acts only on its side of the range and never asks for the
   * current page, in every state. Before the first load `totalPages` is
   * still 1 while `currentPage` comes from the URL, so the range claim is
   * stated for a current page inside 1..totalPages: only then is every
   * target an existing page.
   */
  lemma KeyTargetBounds(key: string, tagName: string, currentPage: int, totalPages: int)
    ensures var t := KeyTarget(key, tagName, currentPage, totalPages);
      && (t.Some? ==> t.value != currentPage)
      && (tagName == "INPUT" || tagName == "TEXTAREA" ==> t.None?)
      && ((key == "ArrowLeft" || key == "Home") && tagName != "INPUT" && tagName != "TEXTAREA" ==>
            (t.Some? <==> currentPage > 1) && (t.Some? ==> t.value == if key == "Home" then 1 else currentPage - 1))
      && ((key == "ArrowRight" || key == "End") && tagName != "INPUT" && tagName != "TEXTAREA" ==>
            (t.Some? <==> currentPage < totalPages) && (t.Some? ==> t.value == if key == "End" then totalPages else currentPage + 1))
      && (1 <= currentPage <= totalPages && t.Some? ==> 1 <= t.value <= totalPages)
  {
  }

  /** The jump-to-page button's test: a number from 1 to the last page (NaN fails every comparison). */
  function JumpTarget(value: string, totalPages: int): Option<int>
  {
    match JsParseInt(value)
    case None => None
    case Some(p) => if p >= 1 && p <= totalPages then Some(p) else None
  }

  lemma JumpTargetAccepts(value: string, totalPages: int)
    ensures JumpTarget(value, totalPages).Some? <==>
      JsParseInt(value).Some? && 1 <= JsParseInt(value).value <= totalPages
    ensures JumpTarget(value, totalPages).Some? ==> JumpTarget(value, totalPages) == JsParseInt(value)
  {
  }

  /** A page button's `data-page`: acted on when it parses to a non-zero number. */
  function ButtonTarget(dataPage: string): Option<int>
  {
    match JsParseInt(dataPage)
    case None => None
    case Some(p) => if p == 0 then None else Some(p)
  }

  lemma ButtonTargetIgnoresZeroAndNaN(dataPage: string)
    ensures ButtonTarget(dataPage).None? <==> JsParseInt(dataPage).None? || JsParseInt(dataPage) == Some(0)
  {
  }

  /** A request the controller has sent: the page, the size, and whether success pushes history. */
  datatype LoadRequest = LoadRequest(page: int, pageSize: int, updateHistory: bool)

  /** The state object pushed with `history.pushState`. */
  datatype HistoryState = HistoryState(page: int, pageSize: int)

  /** The fields of a successful JSON answer that the controller reads. */
  datatype PageData = PageData(currentPage: int, totalPages: int, pageSize: int)

  class Controller {
    var currentPage: int
    var totalPages: int
    var pageSize: int
    var isLoading: bool
    /** The 10 s safety timeout is armed. */
    var watchdogPending: bool
    /** Fetches sent and not yet answered. */
    var outstanding: seq<LoadRequest>
    /** Every fetch sent, in order. */
    var requests: seq<LoadRequest>
    /** Entries pushed onto the browser history, in order. */
    var history: seq<HistoryState>
    /** 100 ms forced cleanups scheduled and not yet run. */
    var pendingCleanups: nat

    /** While loading, a fetch is in flight and the safety timeout is armed. */
    predicate Valid()
      reads this
    {
      isLoading ==> watchdogPending && |outstanding| >= 1
    }

    /** `new AdvancedPagination()`: defaults, then updateFromURL. */
    constructor (urlPage: Option<string>, urlPageSize: Option<string>)
      ensures Valid()
      ensures currentPage == ParseIntOr(urlPage, 1) && pageSize == ParseIntOr(urlPageSize, 10)
      ensures totalPages == 1 && !isLoading && !watchdogPending
      ensures outstanding == [] && requests == [] && history == [] && pendingCleanups == 0
    {
      currentPage := 1;
      totalPages := 1;
      pageSize := 10;
      isLoading := false;
      watchdogPending := false;
      outstanding := [];
      requests := [];
      history := [];
      pendingCleanups := 0;
      new;
      UpdateFromURL(urlPage, urlPageSize);
    }

    /** updateFromURL: page and size from the address bar, defaulting to 1 and 10. */
    method UpdateFromURL(urlPage: Option<string>, urlPageSize: Option<string>)
      modifies this
      ensures currentPage == ParseIntOr(urlPage, 1) && pageSize == ParseIntOr(urlPageSize, 10)
      ensures totalPages == old(totalPages) && isLoading == old(isLoading)
      ensures watchdogPending == old(watchdogPending) && outstanding == old(outstanding)
      ensures requests == old(requests) && history == old(history) && pendingCleanups == old(pendingCleanups)
    {
      currentPage := ParseIntOr(urlPage, 1);
      pageSize := ParseIntOr(urlPageSize, 10);
    }

    /** loadPage up to the fetch: ignored while loading, otherwise marks loading and sends one request. */
    method LoadPage(page: int, size: int, updateHistory: bool)
      requires Valid()
      modifies this
      ensures Valid()
      ensures old(isLoading) ==> unchanged(this)
      ensures !old(isLoading) ==>
        && isLoading && watchdogPending
        && outstanding == old(outstanding) + [LoadRequest(page, size, updateHistory)]
        && requests == old(requests) + [LoadRequest(page, size, updateHistory)]
        && currentPage == old(currentPage) && totalPages == old(totalPages) && pageSize == old(pageSize)
        && history == old(history) && pendingCleanups == old(pendingCleanups)
    {
      if isLoading {
        return;
      }
      isLoading := true;
      watchdogPending := true;
      var req := LoadRequest(page, size, updateHistory);
      outstanding := outstanding + [req];
      requests := requests + [req];
    }

    /** goToPage with the current page size. */
    method GoToPage(page: int)
      requires Valid()
      modifies this
      ensures Valid()
      ensures old(isLoading) ==> unchanged(this)
      ensures !old(isLoading) ==> requests == old(requests) + [LoadRequest(page, pageSize, true)]
      ensures pageSize == old(pageSize) && currentPage == old(currentPage)
    {
      LoadPage(page, pageSize, true);
    }

    /**
     * changePageSize: the size is stored before loading, so it changes even
     * when the load is then ignored because another is in flight.
     */
    method ChangePageSize(newSize: int)
      requires Valid() && newSize >= 1
      modifies this
      ensures Valid()
      ensures pageSize == newSize && currentPage == old(currentPage)
      ensures !old(isLoading) ==>
        requests == old(requests) + [LoadRequest(PageSizeTarget(old(currentPage), old(pageSize), newSize), newSize, true)]
      ensures old(isLoading) ==> requests == old(requests) && outstanding == old(outstanding)
    {
      var target := PageSizeTarget(currentPage, pageSize, newSize);
      pageSize := newSize;
      LoadPage(target, newSize, true);
    }

    /** A click on a page button. */
    method ButtonClicked(dataPage: string)
      requires Valid()
      modifies this
      ensures Valid()
      ensures ButtonTarget(dataPage).None? || old(isLoading) ==> unchanged(this)
      ensures ButtonTarget(dataPage).Some? && !old(isLoading) ==>
        requests == old(requests) + [LoadRequest(ButtonTarget(dataPage).value, pageSize, true)]
    {
      var target := ButtonTarget(dataPage);
      if target.Some? && !isLoading {
        GoToPage(target.value);
      }
    }

    /** A click on the jump button with the jump field's text. */
    method JumpClicked(value: string)
      requires Valid()
      modifies this
      ensures Valid()
      ensures JumpTarget(value, old(totalPages)).None? || old(isLoading) ==> unchanged(this)
      ensures JumpTarget(value, old(totalPages)).Some? && !old(isLoading) ==>
        requests == old(requests) + [LoadRequest(JumpTarget(value, old(totalPages)).value, pageSize, true)]
    {
      var target := JumpTarget(value, totalPages);
      if target.Some? && !isLoading {
        GoToPage(target.value);
      }
    }

    /** A key press outside any pagination widget. */
    method KeyPressed(key: string, tagName: string)
      requires Valid()
      modifies this
      ensures Valid()
      ensures KeyTarget(key, tagName, old(currentPage), old(totalPages)).None? || old(isLoading) ==> unchanged(this)
      ensures KeyTarget(key, tagName, old(currentPage), old(totalPages)).Some? && !old(isLoading) ==>
        requests == old(requests) + [LoadRequest(KeyTarget(key, tagName, old(currentPage), old(totalPages)).value, pageSize, true)]
    {
      var target := KeyTarget(key, tagName, currentPage, totalPages);
      if target.Some? && !isLoading {
        GoToPage(target.value);
      }
    }

    /** Back/forward: a state with a non-zero page reloads it without pushing history, anything else rereads the URL. */
    method PopState(state: Option<HistoryState>, urlPage: Option<string>, urlPageSize: Option<string>)
      requires Valid()
      modifies this
      ensures Valid()
      ensures state.Some? && state.value.page != 0 && !old(isLoading) ==>
        requests == old(requests) + [LoadRequest(state.value.page, state.value.pageSize, false)]
      ensures state.Some? && state.value.page != 0 && old(isLoading) ==> unchanged(this)
      ensures state.None? || state.value.page == 0 ==>
        currentPage == ParseIntOr(urlPage, 1) && pageSize == ParseIntOr(urlPageSize, 10) && requests == old(requests)
      ensures history == old(history)
    {
      if state.Some? && state.value.page != 0 {
        LoadPage(state.value.page, state.value.pageSize, false);
      } else {
        UpdateFromURL(urlPage, urlPageSize);
      }
    }

    /** refresh(): reload the current page without pushing history. */
    method Refresh()
      requires Valid()
      modifies this
      ensures Valid()
      ensures !old(isLoading) ==> requests == old(requests) + [LoadRequest(old(currentPage), old(pageSize), false)]
      ensures old(isLoading) ==> unchanged(this)
    {
      LoadPage(currentPage, pageSize, false);
    }

    /**
     * The answer to the k-th outstanding fetch arrived and parsed: the
     * server's page state is adopted, history is pushed only for loads that
     * asked for it, and the `finally` block ends loading and schedules the
     * forced cleanup.
     */
    method LoadSucceeded(k: nat, data: PageData)
      requires Valid() && k < |outstanding|
      modifies this
      ensures Valid()
      ensures currentPage == data.currentPage && totalPages == data.totalPages && pageSize == data.pageSize
      ensures history == old(history) +
        (if old(outstanding)[k].updateHistory then [HistoryState(old(outstanding)[k].page, old(outstanding)[k].pageSize)] else [])
      ensures !isLoading && !watchdogPending
      ensures outstanding == old(outstanding)[..k] + old(outstanding)[k + 1..]
      ensures requests == old(requests) && pendingCleanups == old(pendingCleanups) + 1
    {
      var req := outstanding[k];
      outstanding := outstanding[..k] + outstanding[k + 1..];
      if req.updateHistory {
        history := history + [HistoryState(req.page, req.pageSize)];
      }
      currentPage := data.currentPage;
      totalPages := data.totalPages;
      pageSize := data.pageSize;
      isLoading := false;
      watchdogPending := false;
      pendingCleanups := pendingCleanups + 1;
    }

    /** The k-th outstanding fetch failed (network error, non-2xx status or bad JSON): only the `finally` block runs. */
    method LoadFailed(k: nat)
      requires Valid() && k < |outstanding|
      modifies this
      ensures Valid()
      ensures currentPage == old(currentPage) && totalPages == old(totalPages) && pageSize == old(pageSize)
      ensures history == old(history) && requests == old(requests)
      ensures !isLoading && !watchdogPending
      ensures outstanding == old(outstanding)[..k] + old(outstanding)[k + 1..]
      ensures pendingCleanups == old(pendingCleanups) + 1
    {
      outstanding := outstanding[..k] + outstanding[k + 1..];
      isLoading := false;
      watchdogPending := false;
      pendingCleanups := pendingCleanups + 1;
    }

    /** The 10 s safety timeout ran forceCleanupLoading. */
    method WatchdogFired()
      requires Valid() && watchdogPending
      modifies this
      ensures Valid()
      ensures !isLoading && !watchdogPending
      ensures currentPage == old(currentPage) && totalPages == old(totalPages) && pageSize == old(pageSize)
      ensures outstanding == old(outstanding) && requests == old(requests) && history == old(history)
      ensures pendingCleanups == old(pendingCleanups)
    {
      watchdogPending := false;
      isLoading := false;
    }

    /** A 100 ms forced cleanup ran: loading ends even if a newer load is in flight. */
    method CleanupTimerFired()
      requires Valid() && pendingCleanups > 0
      modifies this
      ensures Valid()
      ensures !isLoading && pendingCleanups == old(pendingCleanups) - 1
      ensures watchdogPending == old(watchdogPending)
      ensures currentPage == old(currentPage) && totalPages == old(totalPages) && pageSize == old(pageSize)
      ensures outstanding == old(outstanding) && requests == old(requests) && history == old(history)
    {
      pendingCleanups := pendingCleanups - 1;
      isLoading := false;
    }
  }

  /**
   * A full round: a load that is accepted and answered leaves the controller
   * idle on the server's page, with exactly one history entry pushed.
   */
  method LoadRoundTrip(c: Controller, page: int, size: int, data: PageData)
    requires c.Valid() && !c.isLoading && c.outstanding == []
    modifies c
    ensures c.Valid() && !c.isLoading
    ensures c.currentPage == data.currentPage && c.totalPages == data.totalPages && c.pageSize == data.pageSize
    ensures c.history == old(c.history) + [HistoryState(page, size)]
    ensures c.requests == old(c.requests) + [LoadRequest(page, size, true)]
    ensures c.outstanding == []
  {
    c.LoadPage(page, size, true);
    c.LoadSucceeded(0, data);
  }
}

=== FILE: analytics.dfy ===
/**
 * The analytics helpers of the server (static/py/analytics.py): dynamic
 * age buckets and their counts, the "recent activity" estimate, chart
 * truncation for the API, and the filtered variant with its ageRange
 * parser. The database is a sequence of scene rows plus the scene ids of
 * the favourite rows; value distributions are computed by `Counting`.
 */
module Analytics {
  import opened Common
  import opened Models
  import opened Counting
  import Views

  // ---------------------------------------------------------------------
  // Age buckets (calculate_dynamic_age_ranges)

  /** `aggregate or default`: a missing aggregate and an aggregate of 0 both give the default. */
  function OrDefault(agg: Option<nat>, default: nat): (r: nat)
    ensures agg.Some? && agg.value != 0 ==> r == agg.value
    ensures agg.None? || agg.value == 0 ==> r == default
  {
    if agg.Some? && agg.value != 0 then agg.value else default
  }

  /** The database `Min` aggregate; `None` on an empty table. */
  function MinOf(xs: seq<nat>): (r: Option<nat>)
    ensures r.None? <==> xs == []
    ensures r.Some? ==> r.value in xs && forall i :: 0 <= i < |xs| ==> r.value <= xs[i]
  {
    if xs == [] then None
    else
      var rest := MinOf(xs[1..]);
      if rest.Some? && rest.value < xs[0] then rest else Some(xs[0])
  }

  /** The database `Max` aggregate; `None` on an empty table. */
  function MaxOf(xs: seq<nat>): (r: Option<nat>)
    ensures r.None? <==> xs == []
    ensures r.Some? ==> r.value in xs && forall i :: 0 <= i < |xs| ==> xs[i] <= r.value
  {
    if xs == [] then None
    else
      var rest := MaxOf(xs[1..]);
      if rest.Some? && rest.value > xs[0] then rest else Some(xs[0])
  }

  /** A bucket `start-end`, or `start+` when `open`. */
  datatype AgeBucket = AgeBucket(start: nat, end: nat, open: bool)

  predicate InBucket(age: int, b: AgeBucket)
  {
    if b.open then age >= b.start else b.start <= age <= b.end
  }

  function BucketKey(b: AgeBucket): string
  {
    if b.open then NatToString(b.start) + "+"
    else NatToString(b.start) + "-" + NatToString(b.end)
  }

  function KeysOf(bs: seq<AgeBucket>): (r: seq<string>)
    ensures |r| == |bs| && forall i :: 0 <= i < |bs| ==> r[i] == BucketKey(bs[i])
  {
    seq(|bs|, i requires 0 <= i < |bs| => BucketKey(bs[i]))
  }

  /** The bucket starting at `start`: it ends `width` later but not past `hi`, and is open only if asked and `start == hi`. */
  function MakeBucket(start: nat, hi: nat, width: nat, markOpen: bool): AgeBucket
  {
    AgeBucket(start, if start + width < hi then start + width else hi, markOpen && start == hi)
  }

  /** One bucket per `start` of `range(start, hi + 1, step)`. */
  function BucketsFrom(start: nat, hi: nat, step: nat, width: nat, markOpen: bool): (r: seq<AgeBucket>)
    requires step >= 1
    ensures r == [] <==> start > hi
    decreases if start <= hi then hi - start + 1 else 0
  {
    if start > hi then []
    else [MakeBucket(start, hi, width, markOpen)] + BucketsFrom(start + step, hi, step, width, markOpen)
  }

  /** The closed form of the range: the i-th start is start + step * i, every start is at most hi, and the next one would pass it. */
  lemma {:induction false} BucketsFromClosedForm(start: nat, hi: nat, step: nat, width: nat, markOpen: bool)
    requires step >= 1
    ensures var r := BucketsFrom(start, hi, step, width, markOpen);
      && (forall i :: 0 <= i < |r| ==> r[i] == MakeBucket(start + step * i, hi, width, markOpen) && start + step * i <= hi)
      && start + step * |r| > hi
    decreases if start <= hi then hi - start + 1 else 0
  {
    if start <= hi {
      var r := BucketsFrom(start, hi, step, width, markOpen);
      var rest := BucketsFrom(start + step, hi, step, width, markOpen);
      BucketsFromClosedForm(start + step, hi, step, width, markOpen);
      forall i | 0 <= i < |r|
        ensures r[i] == MakeBucket(start + step * i, hi, width, markOpen) && start + step * i <= hi
      {
        if i > 0 {
          assert r[i] == rest[i - 1];
          MulSucc(step, i - 1);
        }
      }
      MulSucc(step, |rest|);
    }
  }

  lemma MulSucc(step: nat, i: nat)
    ensures step * (i + 1) == step * i + step
  {
  }

  /** Five-year buckets for a spread of at most 20 years, ten-year buckets with a final `max+` otherwise. */
  function Buckets(lo: nat, hi: nat): seq<AgeBucket>
  {
    if hi - lo <= 20 then BucketsFrom(lo, hi, 5, 4, false) else BucketsFrom(lo, hi, 10, 9, true)
  }

  /** The bounds of the buckets: minimum and maximum age, with 18 and 65 when missing or 0. */
  function AgeBounds(ages: seq<nat>): (nat, nat)
  {
    (OrDefault(MinOf(ages), 18), OrDefault(MaxOf(ages), 65))
  }

  /** What the ageRange text and the bucket keys are read as. */
  datatype RangeSpec = AtLeast(lo: int) | Between(lo: int, hi: int) | NoRange | Malformed

  predicate Matches(age: int, r: RangeSpec)
  {
    match r
    case AtLeast(lo) => age >= lo
    case Between(lo, hi) => lo <= age <= hi
    case _ => false
  }

  /** `int(s.replace('+', ''))`; ValueError is `Malformed`. */
  function ParsePlus(s: string): RangeSpec
  {
    match PyInt(RemoveChar(s, '+'))
    case None => Malformed
    case Some(n) => AtLeast(n)
  }

  /** `a, b = map(int, s.split('-'))`; a wrong number of parts or a bad integer is `Malformed`. */
  function ParseDash(s: string): RangeSpec
  {
    var parts := Split(s, '-');
    if |parts| != 2 then Malformed
    else
      match (PyInt(parts[0]), PyInt(parts[1]))
      case (Some(a), Some(b)) => Between(a, b)
      case _ => Malformed
  }

  /** How the counting loop reads a bucket key. */
  function ParseRangeKey(key: string): RangeSpec
  {
    if '+' in key then ParsePlus(key) else ParseDash(key)
  }

  /** How the filtered analytics read an ageRange value: `+`, else `-`, else no filter. */
  function ParseAgeRangeFilter(v: string): RangeSpec
  {
    if '+' in v then ParsePlus(v)
    else if '-' in v then ParseDash(v)
    else NoRange
  }

  lemma ParsePlusOfNumber(n: nat)
    ensures '+' in NatToString(n) + "+"
    ensures ParsePlus(NatToString(n) + "+") == AtLeast(n)
  {
    var d := NatToString(n);
    assert (d + "+")[|d|] == '+';
    DigitsExclude(d, '+');
    RemoveCharAppend(d, "+", '+');
    RemoveCharAbsent(d, '+');
    assert RemoveChar("+", '+') == [];
    assert RemoveChar(d + "+", '+') == d;
    PyIntOfNatToString(n);
  }

  lemma ParseDashOfNumbers(a: nat, b: nat)
    ensures '+' !in NatToString(a) + "-" + NatToString(b)
    ensures '-' in NatToString(a) + "-" + NatToString(b)
    ensures ParseDash(NatToString(a) + "-" + NatToString(b)) == Between(a, b)
  {
    DashSplit(NatToString(a), NatToString(b));
    PyIntOfNatToString(a);
    PyIntOfNatToString(b);
  }

  /** Two digit strings joined by '-' split back into the two. */
  lemma DashSplit(x: string, y: string)
    requires AllDigits(x) && AllDigits(y)
    ensures '+' !in x + "-" + y && '-' in x + "-" + y
    ensures Split(x + "-" + y, '-') == [x, y]
  {
    DigitsExclude(x, '+');
    DigitsExclude(y, '+');
    DigitsExclude(x, '-');
    DigitsExclude(y, '-');
    assert x + "-" + y == x + ['-'] + y;
    assert (x + "-" + y)[|x|] == '-';
    SplitAround(x, '-', y);
  }

  /** Reading a bucket's key back gives the bucket's own bounds, so the key matches exactly the bucket's ages. */
  lemma ParseRangeKeyOfBucket(b: AgeBucket)
    ensures ParseRangeKey(BucketKey(b)) == if b.open then AtLeast(b.start) else Between(b.start, b.end)
  {
    if b.open {
      ParsePlusOfNumber(b.start);
    } else {
      ParseDashOfNumbers(b.start, b.end);
    }
  }

  /** Index of the first bucket holding `age`: the one the counting loop's `break` stops at. */
  function FirstMatch(age: int, bs: seq<AgeBucket>): (r: Option<nat>)
    ensures r.Some? ==> r.value < |bs| && InBucket(age, bs[r.value])
    ensures r.Some? ==> forall k :: 0 <= k < r.value ==> !InBucket(age, bs[k])
    ensures r.None? ==> forall k :: 0 <= k < |bs| ==> !InBucket(age, bs[k])
  {
    if bs == [] then None
    else if InBucket(age, bs[0]) then Some(0)
    else
      var rest := FirstMatch(age, bs[1..]);
      if rest.None? then None else Some(rest.value + 1)
  }

  function Bump(t: seq<nat>, m: Option<nat>): (r: seq<nat>)
    ensures |r| == |t|
  {
    if m.Some? && m.value < |t| then t[m.value := t[m.value] + 1] else t
  }

  /** For every bucket, the number of ages whose first matching bucket it is. */
  function Tally(ages: seq<nat>, bs: seq<AgeBucket>): (r: seq<nat>)
    ensures |r| == |bs|
  {
    if ages == [] then seq(|bs|, _ => 0)
    else Bump(Tally(ages[..|ages| - 1], bs), FirstMatch(ages[|ages| - 1], bs))
  }

  /** The dictionary `calculate_dynamic_age_ranges` returns, as (key, count) pairs in insertion order. */
  function AgeRanges(ages: seq<nat>): (r: seq<(string, nat)>)
  {
    var (lo, hi) := AgeBounds(ages);
    var bs := Buckets(lo, hi);
    var t := Tally(ages, bs);
    seq(|bs|, i requires 0 <= i < |bs| => (BucketKey(bs[i]), t[i]))
  }

  lemma KeysOfCons(b: AgeBucket, rest: seq<AgeBucket>)
    ensures KeysOf([b] + rest) == [BucketKey(b)] + KeysOf(rest)
  {
  }

  /** The keys from `start` on: the key of the bucket at `start`, then the keys after it. */
  lemma KeysStep(start: nat, hi: nat, step: nat, width: nat, markOpen: bool)
    requires step >= 1 && start <= hi
    ensures KeysOf(BucketsFrom(start, hi, step, width, markOpen))
      == [BucketKey(MakeBucket(start, hi, width, markOpen))] + KeysOf(BucketsFrom(start + step, hi, step, width, markOpen))
  {
    KeysOfCons(MakeBucket(start, hi, width, markOpen), BucketsFrom(start + step, hi, step, width, markOpen));
  }

  /** The key-building loops of calculate_dynamic_age_ranges: one key per bucket, in order. */
  method RangeKeys(lo: nat, hi: nat) returns (keys: seq<string>)
    ensures keys == KeysOf(Buckets(lo, hi))
  {
    if hi - lo <= 20 {
      keys := FiveYearKeys(lo, hi);
    } else {
      keys := TenYearKeys(lo, hi);
    }
  }

  /** The loop for a narrow spread: `start-end` every five years, the last one ending at `hi`. */
  method FiveYearKeys(lo: nat, hi: nat) returns (keys: seq<string>)
    ensures keys == KeysOf(BucketsFrom(lo, hi, 5, 4, false))
  {
    keys := [];
    var start := lo;
    while start <= hi
      invariant keys + KeysOf(BucketsFrom(start, hi, 5, 4, false)) == KeysOf(BucketsFrom(lo, hi, 5, 4, false))
      decreases if start <= hi then hi - start + 1 else 0
    {
      var end := if start + 4 < hi then start + 4 else hi;
      KeysStep(start, hi, 5, 4, false);
      keys := keys + [NatToString(start) + "-" + NatToString(end)];
      start := start + 5;
    }
  }

  /** The loop for a wide spread: `start-end` every ten years, and `hi+` for a start equal to `hi`. */
  method TenYearKeys(lo: nat, hi: nat) returns (keys: seq<string>)
    ensures keys == KeysOf(BucketsFrom(lo, hi, 10, 9, true))
  {
    keys := [];
    var start := lo;
    while start <= hi
      invariant keys + KeysOf(BucketsFrom(start, hi, 10, 9, true)) == KeysOf(BucketsFrom(lo, hi, 10, 9, true))
      decreases if start <= hi then hi - start + 1 else 0
    {
      var end := if start + 9 < hi then start + 9 else hi;
      var key := if start == hi then NatToString(start) + "+" else NatToString(start) + "-" + NatToString(end);
      KeysStep(start, hi, 10, 9, true);
      assert key == BucketKey(MakeBucket(start, hi, 9, true));
      keys := keys + [key];
      start := start + 10;
    }
  }

  /** The range a bucket's key stands for. */
  function SpecOf(b: AgeBucket): (r: RangeSpec)
    ensures forall age :: Matches(age, r) <==> InBucket(age, b)
  {
    if b.open then AtLeast(b.start) else Between(b.start, b.end)
  }

  /** One key of the counting loop read back with `int()`: it stands for its bucket's range. */
  method ReadKey(key: string, ghost b: AgeBucket) returns (spec: RangeSpec)
    requires key == BucketKey(b)
    ensures spec == SpecOf(b)
  {
    spec := ParseRangeKey(key);
    ParseRangeKeyOfBucket(b);
  }

  lemma FirstMatchIs(age: int, bs: seq<AgeBucket>, j: int)
    requires 0 <= j <= |bs|
    requires forall k :: 0 <= k < j ==> !InBucket(age, bs[k])
    requires j < |bs| ==> InBucket(age, bs[j])
    ensures FirstMatch(age, bs) == if j < |bs| then Some(j) else None
  {
  }

  /**
   * The inner loop of the counting: walk the keys in order, read each, and
   * stop at the first one whose range holds `age`.
   */
  method MatchingKey(age: nat, keys: seq<string>, ghost bs: seq<AgeBucket>) returns (m: Option<nat>)
    requires keys == KeysOf(bs)
    ensures m == FirstMatch(age, bs)
  {
    var j := 0;
    while j < |keys|
      invariant 0 <= j <= |keys|
      invariant forall k :: 0 <= k < j ==> !InBucket(age, bs[k])
    {
      var spec := ReadKey(keys[j], bs[j]);
      assert Matches(age, spec) <==> InBucket(age, bs[j]);
      if spec.AtLeast? && age >= spec.lo {
        FirstMatchIs(age, bs, j);
        return Some(j);
      } else if spec.Between? && spec.lo <= age <= spec.hi {
        FirstMatchIs(age, bs, j);
        return Some(j);
      }
      j := j + 1;
    }
    FirstMatchIs(age, bs, j);
    return None;
  }

  /**
   * calculate_dynamic_age_ranges: build the bucket keys with count 0, then
   * count every age in the first bucket whose key holds it.
   */
  method CalculateDynamicAgeRanges(ages: seq<nat>) returns (ranges: seq<(string, nat)>)
    ensures ranges == AgeRanges(ages)
  {
    var lo := OrDefault(MinOf(ages), 18);
    var hi := OrDefault(MaxOf(ages), 65);
    var keys := RangeKeys(lo, hi);
    var counts := CountAges(ages, keys, Buckets(lo, hi));
    ranges := seq(|keys|, k requires 0 <= k < |keys| => (keys[k], counts[k]));
    AgeRangesOf(ages, keys, counts);
  }

  /** The counting loop over the scenes: each age adds one to the first bucket whose key holds it. */
  method CountAges(ages: seq<nat>, keys: seq<string>, ghost bs: seq<AgeBucket>) returns (counts: seq<nat>)
    requires keys == KeysOf(bs)
    ensures counts == Tally(ages, bs)
  {
    counts := seq(|keys|, _ => 0);
    assert |keys| == |bs|;
    assert counts == Tally(ages[..0], bs);
    var i := 0;
    while i < |ages|
      invariant 0 <= i <= |ages|
      invariant counts == Tally(ages[..i], bs)
    {
      var m := MatchingKey(ages[i], keys, bs);
      counts := Bump(counts, m);
      TallyStep(ages, i, bs);
      i := i + 1;
    }
    assert ages[..|ages|] == ages;
  }

  lemma TallyStep(ages: seq<nat>, i: nat, bs: seq<AgeBucket>)
    requires i < |ages|
    ensures Tally(ages[..i + 1], bs) == Bump(Tally(ages[..i], bs), FirstMatch(ages[i], bs))
  {
    assert ages[..i + 1][..i] == ages[..i];
  }

  lemma AgeRangesOf(ages: seq<nat>, keys: seq<string>, counts: seq<nat>)
    requires keys == KeysOf(Buckets(AgeBounds(ages).0, AgeBounds(ages).1))
    requires counts == Tally(ages, Buckets(AgeBounds(ages).0, AgeBounds(ages).1))
    ensures seq(|keys|, k requires 0 <= k < |keys| => (keys[k], counts[k])) == AgeRanges(ages)
  {
  }

  /**
   * The bucket shapes: the k-th five-year bucket starts at lo + 5k and ends
   * at min(start + 4, hi), never open; the k-th ten-year bucket starts at
   * lo + 10k, ends at min(start + 9, hi), and is the open `start+` bucket
   * exactly when start == hi. There is one bucket per start up to hi.
   */
  lemma AgeBucketShapes(lo: nat, hi: nat)
    ensures var bs := Buckets(lo, hi);
      var step := if hi - lo <= 20 then 5 else 10;
      && |bs| == (if lo <= hi then (hi - lo) / step + 1 else 0)
      && forall k :: 0 <= k < |bs| ==>
          && bs[k].start == lo + step * k <= hi
          && bs[k].end == (if bs[k].start + step - 1 < hi then bs[k].start + step - 1 else hi)
          && (bs[k].open <==> hi - lo > 20 && bs[k].start == hi)
          && (BucketKey(bs[k]) == if bs[k].open then NatToString(bs[k].start) + "+"
                                  else NatToString(bs[k].start) + "-" + NatToString(bs[k].end))
  {
    var bs := Buckets(lo, hi);
    if hi - lo <= 20 {
      BucketsFromClosedForm(lo, hi, 5, 4, false);
    } else {
      BucketsFromClosedForm(lo, hi, 10, 9, true);
    }
    if lo <= hi {
      assert lo + (if hi - lo <= 20 then 5 else 10) * (|bs| - 1) <= hi;
    }
  }

  /** Two different buckets never share an age, over all integers (not only between min and max). */
  lemma AgeBucketsDisjoint(lo: nat, hi: nat, age: int, i: nat, j: nat)
    requires i < j < |Buckets(lo, hi)|
    ensures !(InBucket(age, Buckets(lo, hi)[i]) && InBucket(age, Buckets(lo, hi)[j]))
  {
    var bs := Buckets(lo, hi);
    AgeBucketShapes(lo, hi);
    assert bs[i].start < bs[j].start;
    if hi - lo <= 20 {
      assert bs[i].end <= bs[i].start + 4 < bs[j].start;
    } else {
      assert !bs[i].open;
      assert bs[i].end <= bs[i].start + 9 < bs[j].start;
    }
  }

  /** Every age from min to max lies in a bucket: the one at index (age - lo) / step, which is also the first. */
  lemma AgeBucketsCover(lo: nat, hi: nat, age: int)
    requires lo <= age <= hi
    ensures var step := if hi - lo <= 20 then 5 else 10;
      FirstMatch(age, Buckets(lo, hi)) == Some((age - lo) / step)
  {
    var bs := Buckets(lo, hi);
    var k: nat;
    if hi - lo <= 20 {
      k := (age - lo) / 5;
      FiveYearBucketHolds(lo, hi, age);
    } else {
      k := (age - lo) / 10;
      TenYearBucketHolds(lo, hi, age);
    }
    var m := FirstMatch(age, bs);
    if m != Some(k) {
      AgeBucketsDisjoint(lo, hi, age, m.value, k);
    }
  }

  lemma FiveYearBucketHolds(lo: nat, hi: nat, age: int)
    requires lo <= age <= hi
    ensures var bs := BucketsFrom(lo, hi, 5, 4, false);
      (age - lo) / 5 < |bs| && InBucket(age, bs[(age - lo) / 5])
  {
    var bs := BucketsFrom(lo, hi, 5, 4, false);
    BucketsFromClosedForm(lo, hi, 5, 4, false);
    var k := (age - lo) / 5;
    assert 5 * k <= age - lo < 5 * k + 5;
    assert k < |bs|;
    assert bs[k] == MakeBucket(lo + 5 * k, hi, 4, false);
  }

  lemma TenYearBucketHolds(lo: nat, hi: nat, age: int)
    requires lo <= age <= hi
    ensures var bs := BucketsFrom(lo, hi, 10, 9, true);
      (age - lo) / 10 < |bs| && InBucket(age, bs[(age - lo) / 10])
  {
    var bs := BucketsFrom(lo, hi, 10, 9, true);
    BucketsFromClosedForm(lo, hi, 10, 9, true);
    var k := (age - lo) / 10;
    assert 10 * k <= age - lo < 10 * k + 10;
    assert k < |bs|;
    assert bs[k] == MakeBucket(lo + 10 * k, hi, 9, true);
  }

  function Sum(t: seq<nat>): nat
  {
    if t == [] then 0 else t[0] + Sum(t[1..])
  }

  lemma {:induction false} SumBump(t: seq<nat>, k: nat)
    requires k < |t|
    ensures Sum(t[k := t[k] + 1]) == Sum(t) + 1
  {
    if k > 0 {
      assert t[k := t[k] + 1][1..] == t[1..][k - 1 := t[1..][k - 1] + 1];
      SumBump(t[1..], k - 1);
    }
  }

  lemma {:induction false} SumZeros(n: nat)
    ensures Sum(seq(n, _ => 0)) == 0
  {
    if n > 0 {
      assert seq(n, _ => 0)[1..] == seq(n - 1, _ => 0);
      SumZeros(n - 1);
    }
  }

  /** When every age has a bucket, the counts add up to the number of ages. */
  lemma {:induction false} TallySum(ages: seq<nat>, bs: seq<AgeBucket>)
    requires forall i :: 0 <= i < |ages| ==> FirstMatch(ages[i], bs).Some?
    ensures Sum(Tally(ages, bs)) == |ages|
  {
    if ages == [] {
      SumZeros(|bs|);
    } else {
      var init := ages[..|ages| - 1];
      assert forall i :: 0 <= i < |init| ==> init[i] == ages[i];
      TallySum(init, bs);
      SumBump(Tally(init, bs), FirstMatch(ages[|ages| - 1], bs).value);
    }
  }

  function Values(ranges: seq<(string, nat)>): (r: seq<nat>)
    ensures |r| == |ranges| && forall i :: 0 <= i < |r| ==> r[i] == ranges[i].1
  {
    seq(|ranges|, i requires 0 <= i < |ranges| => ranges[i].1)
  }

  /**
   * With at least one scene and a non-zero minimum age, every scene is
   * counted exactly once: the bucket counts add up to the number of scenes.
   */
  lemma AgeCountsSum(ages: seq<nat>)
    requires ages != [] && MinOf(ages).value != 0
    ensures Sum(Values(AgeRanges(ages))) == |ages|
  {
    var (lo, hi) := AgeBounds(ages);
    var bs := Buckets(lo, hi);
    forall i | 0 <= i < |ages| ensures FirstMatch(ages[i], bs).Some? {
      AgeBucketsCover(lo, hi, ages[i]);
    }
    TallySum(ages, bs);
    assert Values(AgeRanges(ages)) == Tally(ages, bs);
  }

  /** The bucket keys are pairwise different, so the dictionary has one entry per bucket. */
  lemma AgeRangeKeysDistinct(lo: nat, hi: nat)
    ensures NoDuplicates(KeysOf(Buckets(lo, hi)))
  {
    var bs := Buckets(lo, hi);
    AgeBucketShapes(lo, hi);
    forall i, j | 0 <= i < j < |bs| ensures BucketKey(bs[i]) != BucketKey(bs[j]) {
      ParseRangeKeyOfBucket(bs[i]);
      ParseRangeKeyOfBucket(bs[j]);
      assert bs[i].start < bs[j].start;
    }
  }

  // ---------------------------------------------------------------------
  // Recent activity (calculate_recent_activity)

  datatype Activity = Activity(today: nat, thisWeek: nat, thisMonth: nat)

  /**
   * The estimate: all zero with no scenes; otherwise the month is every
   * scene, the week a tenth of them (at least one) and the day a seventh of
   * the week, each capped by the total.
   */
  function RecentActivity(total: nat): (r: Activity)
    ensures total == 0 ==> r == Activity(0, 0, 0)
    ensures total > 0 ==> r.today <= r.thisWeek <= r.thisMonth == total && r.thisWeek >= 1
    ensures total >= 10 ==> r.thisWeek * 10 <= total < (r.thisWeek + 1) * 10
    ensures 0 < total < 10 ==> r.thisWeek == 1
    ensures r.today == r.thisWeek / 7
  {
    if total == 0 then Activity(0, 0, 0)
    else
      var threshold := if total / 10 > 1 then total / 10 else 1;
      Activity(if threshold / 7 < total then threshold / 7 else total,
               if threshold < total then threshold else total,
               total)
  }

  // ---------------------------------------------------------------------
  // Charts and the API payload (get_analytics_api_data)

  datatype Chart = Chart(labels: seq<string>, data: seq<int>)

  datatype Charts = Charts(countries: Chart, settings: Chart, emotions: Chart, ageRanges: Chart)

  datatype FilterOptions = FilterOptions(countries: seq<string>, settings: seq<string>, emotions: seq<string>)

  /** The integer statistics; averages and the favourite rate are floating point and not modelled. */
  datatype Stats = Stats(totalScenes: nat, totalFavorites: nat, minEff: nat, maxEff: nat, minMasc: nat, maxMasc: nat)

  datatype AnalyticsResponse =
    | Failure(error: string)
    | Report(charts: Charts, filters: FilterOptions, stats: Stats, message: Option<string>)

  /** The scene table and the scene id of every favourite row. */
  datatype Database = Database(scenes: seq<Scene>, favoriteSceneIds: seq<int>)

  function ChartOf(d: seq<(string, nat)>): Chart
  {
    Chart(Labels(d), Counts(d))
  }

  /** `d[:limit] if limit > 0 else d`. */
  function Truncate<T>(d: seq<T>, limit: int): seq<T>
  {
    if limit > 0 && limit < |d| then d[..limit] else d
  }

  function Countries(scenes: seq<Scene>): (r: seq<string>)
    ensures |r| == |scenes| && forall i :: 0 <= i < |r| ==> r[i] == scenes[i].country
  {
    seq(|scenes|, i requires 0 <= i < |scenes| => scenes[i].country)
  }

  function Settings(scenes: seq<Scene>): (r: seq<string>)
    ensures |r| == |scenes| && forall i :: 0 <= i < |r| ==> r[i] == scenes[i].setting
  {
    seq(|scenes|, i requires 0 <= i < |scenes| => scenes[i].setting)
  }

  function Emotions(scenes: seq<Scene>): (r: seq<string>)
    ensures |r| == |scenes| && forall i :: 0 <= i < |r| ==> r[i] == scenes[i].emotion
  {
    seq(|scenes|, i requires 0 <= i < |scenes| => scenes[i].emotion)
  }

  function MascAges(scenes: seq<Scene>): (r: seq<nat>)
    ensures |r| == |scenes| && forall i :: 0 <= i < |r| ==> r[i] == scenes[i].mascAge
  {
    seq(|scenes|, i requires 0 <= i < |scenes| => scenes[i].mascAge)
  }

  /** The integer part of the statistics over `scenes` (min and max `or 0`). */
  function StatsOf(scenes: seq<Scene>, totalFavorites: nat): Stats
  {
    Stats(|scenes|, totalFavorites,
          OrDefault(MinOf(EffAges(scenes)), 0), OrDefault(MaxOf(EffAges(scenes)), 0),
          OrDefault(MinOf(MascAges(scenes)), 0), OrDefault(MaxOf(MascAges(scenes)), 0))
  }

  /** The three charts (truncated) and the age-range chart for `scenes`. */
  function ChartsOf(scenes: seq<Scene>, chartLimit: int): Charts
  {
    var ranges := AgeRanges(EffAges(scenes));
    Charts(ChartOf(Truncate(Distribution(Countries(scenes)), chartLimit)),
           ChartOf(Truncate(Distribution(Settings(scenes)), chartLimit)),
           ChartOf(Truncate(Distribution(Emotions(scenes)), chartLimit)),
           Chart(Labels(ranges), Counts(ranges)))
  }

  /** Every value of each field over `scenes`, for the filter drop-downs. */
  function OptionsOf(scenes: seq<Scene>): FilterOptions
  {
    FilterOptions(Labels(Distribution(Countries(scenes))),
                  Labels(Distribution(Settings(scenes))),
                  Labels(Distribution(Emotions(scenes))))
  }

  /**
   * get_analytics_api_data over analyze_scenes: an empty table is the
   * analysis error, returned as it is; otherwise the charts of all scenes,
   * truncated for display only.
   */
  function AnalyticsApiData(db: Database, chartLimit: int): AnalyticsResponse
  {
    if db.scenes == [] then Failure("No scenes available for analysis")
    else Report(ChartsOf(db.scenes, chartLimit), OptionsOf(db.scenes),
                StatsOf(db.scenes, |db.favoriteSceneIds|), None)
  }

  /**
   * A positive chart limit keeps the first `chartLimit` entries of each
   * distribution and no limit keeps all; labels and data always have the
   * same length and pair up entry by entry.
   */
  lemma TruncatedChart(d: seq<(string, nat)>, chartLimit: int)
    ensures var c := ChartOf(Truncate(d, chartLimit));
      var n := if chartLimit > 0 && chartLimit < |d| then chartLimit else |d|;
      && |c.labels| == |c.data| == n
      && forall i :: 0 <= i < n ==> c.labels[i] == d[i].0 && c.data[i] == d[i].1
  {
  }

  /**
   * The API payload: an error exactly when there are no scenes; otherwise
   * the filter lists hold every value of every field whatever the chart
   * limit, the three field charts are the first entries of the full
   * distributions, and the age-range chart is the bucket dictionary.
   */
  lemma AnalyticsApiDataFacts(db: Database, chartLimit: int)
    ensures AnalyticsApiData(db, chartLimit).Failure? <==> db.scenes == []
    ensures AnalyticsApiData(db, chartLimit).Report? ==>
      var r := AnalyticsApiData(db, chartLimit);
      var d := Distribution(Countries(db.scenes));
      && (forall c :: c in r.filters.countries <==> exists s :: s in db.scenes && s.country == c)
      && |r.charts.countries.labels| == |r.charts.countries.data|
      && (chartLimit > 0 ==> |r.charts.countries.labels| <= chartLimit)
      && r.charts.countries.labels == Labels(d)[..|r.charts.countries.labels|]
      && r.charts.ageRanges.labels == Labels(AgeRanges(EffAges(db.scenes)))
      && r.charts.ageRanges.data == Counts(AgeRanges(EffAges(db.scenes)))
  {
    if db.scenes != [] {
      CountryOptions(db.scenes);
      CountryChart(db.scenes, chartLimit);
    }
  }

  /** The country drop-down lists exactly the countries some scene has. */
  lemma CountryOptions(scenes: seq<Scene>)
    ensures forall c :: c in OptionsOf(scenes).countries <==> exists s :: s in scenes && s.country == c
  {
    DistributionLabels(Countries(scenes));
    CountriesMembers(scenes);
  }

  lemma CountriesMembers(scenes: seq<Scene>)
    ensures forall c :: c in Countries(scenes) <==> exists s :: s in scenes && s.country == c
  {
    forall c ensures c in Countries(scenes) <==> exists s :: s in scenes && s.country == c {
      if c in Countries(scenes) {
        var i :| 0 <= i < |scenes| && Countries(scenes)[i] == c;
        assert scenes[i] in scenes;
      }
    }
  }

  /** The country chart is a prefix of the full distribution, no longer than a positive limit. */
  lemma CountryChart(scenes: seq<Scene>, chartLimit: int)
    ensures var c := ChartsOf(scenes, chartLimit).countries;
      var d := Distribution(Countries(scenes));
      && |c.labels| == |c.data|
      && (chartLimit > 0 ==> |c.labels| <= chartLimit)
      && c.labels == Labels(d)[..|c.labels|]
  {
    PrefixChart(Distribution(Countries(scenes)), chartLimit);
  }

  lemma PrefixChart(d: seq<(string, nat)>, chartLimit: int)
    ensures var c := ChartOf(Truncate(d, chartLimit));
      && |c.labels| == |c.data|
      && (chartLimit > 0 ==> |c.labels| <= chartLimit)
      && c.labels == Labels(d)[..|c.labels|]
  {
    TruncatedChart(d, chartLimit);
  }

  // ---------------------------------------------------------------------
  // Filtered analytics (get_filtered_analytics_data)

  type FilterDict = seq<(string, Views.FilterValue)>

  /** `filters.get(key)`: the first entry with that key. */
  function Lookup(filters: FilterDict, key: string): (r: Option<Views.FilterValue>)
    ensures r.Some? ==> (key, r.value) in filters
    ensures r.None? ==> forall v :: (key, v) !in filters
  {
    if filters == [] then None
    else if filters[0].0 == key then Some(filters[0].1)
    else Lookup(filters[1..], key)
  }

  predicate Truthy(v: Views.FilterValue)
  {
    match v
    case Text(s) => s != ""
    case Number(n) => n != 0
  }

  /** `key in filters and filters[key] and filters[key] != 'all'`. */
  predicate Active(filters: FilterDict, key: string)
  {
    var v := Lookup(filters, key);
    v.Some? && Truthy(v.value) && v.value != Views.Text("all")
  }

  /** The text the database compares a filter value with. */
  function FilterText(v: Views.FilterValue): string
  {
    match v
    case Text(s) => s
    case Number(n) => IntToString(n)
  }

  /** The age condition: none, a parsed range, or `Malformed` when parsing raises (a number raises too). */
  function AgeCondition(filters: FilterDict): RangeSpec
  {
    if !Active(filters, "ageRange") then NoRange
    else
      match Lookup(filters, "ageRange").value
      case Text(s) => ParseAgeRangeFilter(s)
      case Number(_) => Malformed
  }

  /** Whether one scene passes the country, setting, emotion and age conditions. */
  predicate Admits(filters: FilterDict, s: Scene)
  {
    && (Active(filters, "country") ==> s.country == FilterText(Lookup(filters, "country").value))
    && (Active(filters, "setting") ==> s.setting == FilterText(Lookup(filters, "setting").value))
    && (Active(filters, "emotion") ==> s.emotion == FilterText(Lookup(filters, "emotion").value))
    && (AgeCondition(filters) == NoRange || Matches(s.effAge, AgeCondition(filters)))
  }

  /** The three text columns the filters compare. */
  datatype SceneField = CountryField | SettingField | EmotionField

  /** The filter key and column name of a field. */
  function FieldName(f: SceneField): string
  {
    match f
    case CountryField => "country"
    case SettingField => "setting"
    case EmotionField => "emotion"
  }

  function FieldValue(s: Scene, f: SceneField): string
  {
    match f
    case CountryField => s.country
    case SettingField => s.setting
    case EmotionField => s.emotion
  }

  /** `queryset.filter(field=value)`, order kept. */
  function Where(scenes: seq<Scene>, field: SceneField, value: string): (r: seq<Scene>)
    ensures forall s :: s in r <==> s in scenes && FieldValue(s, field) == value
  {
    if scenes == [] then []
    else
      assert scenes == [scenes[0]] + scenes[1..];
      (if FieldValue(scenes[0], field) == value then [scenes[0]] else []) + Where(scenes[1..], field, value)
  }

  function WhereAge(scenes: seq<Scene>, spec: RangeSpec): (r: seq<Scene>)
    ensures forall s :: s in r <==> s in scenes && Matches(s.effAge, spec)
  {
    if scenes == [] then []
    else
      assert scenes == [scenes[0]] + scenes[1..];
      (if Matches(scenes[0].effAge, spec) then [scenes[0]] else []) + WhereAge(scenes[1..], spec)
  }

  /** One text filter: applied when its key is active, with the key's text. */
  function FilterField(scenes: seq<Scene>, filters: FilterDict, field: SceneField): (r: seq<Scene>)
    ensures forall s :: s in r <==>
      s in scenes && (Active(filters, FieldName(field)) ==> FieldValue(s, field) == FilterText(Lookup(filters, FieldName(field)).value))
  {
    if Active(filters, FieldName(field)) then Where(scenes, field, FilterText(Lookup(filters, FieldName(field)).value)) else scenes
  }

  /** The queryset after the filters; `None` when the ageRange value raises. */
  function FilteredScenes(scenes: seq<Scene>, filters: FilterDict): Option<seq<Scene>>
  {
    var q := FilterField(FilterField(FilterField(scenes, filters, CountryField), filters, SettingField), filters, EmotionField);
    match AgeCondition(filters)
    case Malformed => None
    case NoRange => Some(q)
    case spec => Some(WhereAge(q, spec))
  }

  function CountIn(ids: seq<int>, scenes: seq<Scene>): nat
  {
    if ids == [] then 0
    else (if exists s :: s in scenes && s.id == ids[0] then 1 else 0) + CountIn(ids[1..], scenes)
  }

  const NoMatchMessage := "No scenes match the selected filters"

  /**
   * get_filtered_analytics_data: an error when the age filter raises; the
   * empty report with its message when nothing matches; otherwise the
   * charts of the matching scenes. The filter lists always cover all scenes.
   */
  function FilteredAnalyticsData(db: Database, filters: FilterDict, chartLimit: int): AnalyticsResponse
  {
    match FilteredScenes(db.scenes, filters)
    case None => Failure("Filtered analytics error: invalid age range")
    case Some(q) =>
      if q == [] then
        Report(Charts(Chart([], []), Chart([], []), Chart([], []), Chart([], [])),
               OptionsOf(db.scenes), Stats(0, 0, 0, 0, 0, 0), Some(NoMatchMessage))
      else
        Report(ChartsOf(q, chartLimit), OptionsOf(db.scenes),
               StatsOf(q, CountIn(db.favoriteSceneIds, q)), None)
  }

  /**
   * The filters keep exactly the scenes that pass every active condition:
   * a value that is missing, empty or 'all' does not restrict.
   */
  lemma FilteredScenesAdmit(scenes: seq<Scene>, filters: FilterDict)
    ensures FilteredScenes(scenes, filters).None? <==> AgeCondition(filters) == Malformed
    ensures FilteredScenes(scenes, filters).Some? ==>
      forall s :: s in FilteredScenes(scenes, filters).value <==> s in scenes && Admits(filters, s)
  {
    var q1 := FilterField(scenes, filters, CountryField);
    var q2 := FilterField(q1, filters, SettingField);
    var q3 := FilterField(q2, filters, EmotionField);
    assert FieldName(CountryField) == "country" && FieldName(SettingField) == "setting" && FieldName(EmotionField) == "emotion";
  }

  /** "N+" keeps the ages from N; "a-b" keeps a to b; a value with neither sign, empty or 'all' keeps every age. */
  lemma AgeRangeFilterForms(a: nat, b: nat, v: string)
    ensures ParseAgeRangeFilter(NatToString(a) + "+") == AtLeast(a)
    ensures ParseAgeRangeFilter(NatToString(a) + "-" + NatToString(b)) == Between(a, b)
    ensures '+' !in v && '-' !in v ==> ParseAgeRangeFilter(v) == NoRange
    ensures AgeCondition([("ageRange", Views.Text("all"))]) == NoRange
    ensures AgeCondition([("ageRange", Views.Text(""))]) == NoRange
  {
    ParsePlusOfNumber(a);
    ParseDashOfNumbers(a, b);
  }

  /**
   * When nothing matches, the report has four empty charts, zero totals,
   * the fixed message, and still the filter lists of every scene.
   */
  lemma NoMatchReport(db: Database, filters: FilterDict, chartLimit: int)
    requires FilteredScenes(db.scenes, filters) == Some([])
    ensures var r := FilteredAnalyticsData(db, filters, chartLimit);
      && r.Report?
      && r.charts.countries.labels == r.charts.settings.labels == r.charts.emotions.labels == r.charts.ageRanges.labels == []
      && r.charts.countries.data == r.charts.settings.data == r.charts.emotions.data == r.charts.ageRanges.data == []
      && r.stats.totalScenes == 0 && r.stats.totalFavorites == 0
      && r.message == Some("No scenes match the selected filters")
      && r.filters == OptionsOf(db.scenes)
  {
  }

  /** With no active filter the filtered report is the full report over every scene, apart from the favourites count. */
  lemma NoFiltersSameCharts(db: Database, chartLimit: int)
    requires db.scenes != []
    ensures FilteredAnalyticsData(db, [], chartLimit).Report?
    ensures FilteredAnalyticsData(db, [], chartLimit).charts == AnalyticsApiData(db, chartLimit).charts
  {
    assert FilteredScenes(db.scenes, []) == Some(db.scenes);
  }
}

=== FILE: analytics_comparison.dfy ===
/**
 * Snapshot comparison and rule-based insights of the analytics page
 * (static/js/analytics-comparison.js). A snapshot holds the dashboard's
 * data and filters as values, so the deep copy of the source is a value
 * copy here. Toasts are recorded as the last notice the component raised.
 */
module Comparison {
  import opened Common
  import Analytics
  import AnalyticsDashboard
  import Filters

  const MaxComparisons: nat := 3

  datatype Snapshot = Snapshot(id: int, timestamp: string, data: AnalyticsDashboard.ApiData,
                               filters: Filters.FilterMap, labelText: string)

  /** `filters[key]` inside a template: a missing key prints as "undefined". */
  function FilterText(f: Filters.FilterMap, key: string): string
  {
    match Filters.Get(f, key)
    case Some(v) => v
    case None => "undefined"
  }

  /** One "key: value" piece per active filter, in key order. */
  function LabelPieces(f: Filters.FilterMap, keys: seq<string>): (r: seq<string>)
    ensures |r| == |keys|
    ensures forall i :: 0 <= i < |keys| ==> r[i] == keys[i] + ": " + FilterText(f, keys[i])
  {
    if keys == [] then []
    else [keys[0] + ": " + FilterText(f, keys[0])] + LabelPieces(f, keys[1..])
  }

  /** generateSnapshotLabel for a filter panel's map. */
  function Label(f: Filters.FilterMap): string
  {
    var active := Filters.ActiveFilters(f);
    if |active| == 0 then "All Data" else Join(LabelPieces(f, active), ", ")
  }

  /** Without a filter panel there are no active filters. */
  function SnapshotLabel(panel: Option<Filters.FilterMap>): string
  {
    if panel.None? then "All Data" else Label(panel.value)
  }

  lemma {:induction false} JoinKeepsColon(parts: seq<string>, sep: string)
    requires |parts| >= 1 && ':' in parts[0]
    ensures ':' in Join(parts, sep)
  {
    if |parts| > 1 {
      var j := Join(parts, sep);
      assert j == parts[0] + (sep + Join(parts[1..], sep));
      var k :| 0 <= k < |parts[0]| && parts[0][k] == ':';
      assert j[k] == ':';
    }
  }

  /**
   * The label is 'All Data' exactly when no filter is active; otherwise it
   * starts with the first active key and its value.
   */
  lemma LabelAllData(f: Filters.FilterMap)
    ensures Label(f) == "All Data" <==> !Filters.HasActiveFilters(f)
    ensures Filters.HasActiveFilters(f) ==>
      var k := Filters.ActiveFilters(f)[0];
      StartsWith(Label(f), k + ": " + FilterText(f, k))
  {
    var active := Filters.ActiveFilters(f);
    if |active| > 0 {
      var pieces := LabelPieces(f, active);
      var p0 := active[0] + ": " + FilterText(f, active[0]);
      assert pieces[0] == p0;
      assert p0[|active[0]|] == ':';
      JoinKeepsColon(pieces, ", ");
      assert ':' !in "All Data";
      var j := Join(pieces, ", ");
      if |pieces| > 1 {
        assert j == p0 + (", " + Join(pieces[1..], ", "));
      }
      assert j[..|p0|] == p0;
    }
  }

  /** A bar chart over the snapshots: their labels against one statistic. */
  datatype ComparisonChart = ComparisonChart(labels: seq<string>, data: seq<int>)

  function ScenesChart(snaps: seq<Snapshot>): (r: ComparisonChart)
    ensures |r.labels| == |r.data| == |snaps|
    ensures forall i :: 0 <= i < |snaps| ==> r.labels[i] == snaps[i].labelText && r.data[i] == snaps[i].data.totalScenes
  {
    ComparisonChart(seq(|snaps|, i requires 0 <= i < |snaps| => snaps[i].labelText),
                    seq(|snaps|, i requires 0 <= i < |snaps| => snaps[i].data.totalScenes))
  }

  function FavoritesChart(snaps: seq<Snapshot>): (r: ComparisonChart)
    ensures |r.labels| == |r.data| == |snaps|
    ensures forall i :: 0 <= i < |snaps| ==> r.labels[i] == snaps[i].labelText && r.data[i] == snaps[i].data.totalFavorites
  {
    ComparisonChart(seq(|snaps|, i requires 0 <= i < |snaps| => snaps[i].labelText),
                    seq(|snaps|, i requires 0 <= i < |snaps| => snaps[i].data.totalFavorites))
  }

  /** removeSnapshot's filter: every snapshot whose id differs, in order. */
  function Without(snaps: seq<Snapshot>, id: int): (r: seq<Snapshot>)
    ensures |r| <= |snaps|
    ensures forall s :: s in r <==> s in snaps && s.id != id
  {
    if snaps == [] then []
    else (if snaps[0].id != id then [snaps[0]] else []) + Without(snaps[1..], id)
  }

  /** The filter distributes over concatenation, so the kept snapshots stay in order. */
  lemma {:induction false} WithoutAppend(a: seq<Snapshot>, b: seq<Snapshot>, id: int)
    ensures Without(a + b, id) == Without(a, id) + Without(b, id)
  {
    if a == [] {
      assert a + b == b;
    } else {
      assert (a + b)[0] == a[0];
      assert (a + b)[1..] == a[1..] + b;
      WithoutAppend(a[1..], b, id);
      var head := if a[0].id != id then [a[0]] else [];
      assert Without(a + b, id) == head + (Without(a[1..], id) + Without(b, id));
    }
  }

  /** Removing an id that no snapshot carries changes nothing. */
  lemma {:induction false} WithoutAbsent(snaps: seq<Snapshot>, id: int)
    requires forall i :: 0 <= i < |snaps| ==> snaps[i].id != id
    ensures Without(snaps, id) == snaps
  {
    if snaps != [] {
      WithoutAbsent(snaps[1..], id);
    }
  }

  class AnalyticsComparison {
    const dashboard: AnalyticsDashboard.Dashboard
    /** The dashboard's filter panel, when it has one. */
    const panel: Option<Filters.AnalyticsFilters>
    var comparisonData: seq<Snapshot>
    /** Whether the comparison charts' container is unhidden. */
    var chartsVisible: bool
    var scenesChart: Option<ComparisonChart>
    var favoritesChart: Option<ComparisonChart>
    var toast: Option<string>

    /**
     * At most three snapshots; the charts are shown exactly when there are
     * two or more, and then they describe the current snapshots.
     */
    predicate Valid()
      reads this
    {
      && |comparisonData| <= MaxComparisons
      && (chartsVisible <==> |comparisonData| > 1)
      && (|comparisonData| > 1 ==>
            scenesChart == Some(ScenesChart(comparisonData)) && favoritesChart == Some(FavoritesChart(comparisonData)))
    }

    constructor(dashboard: AnalyticsDashboard.Dashboard, panel: Option<Filters.AnalyticsFilters>)
      ensures Valid() && comparisonData == [] && !chartsVisible
      ensures this.dashboard == dashboard && this.panel == panel
      ensures scenesChart.None? && favoritesChart.None? && toast.None?
    {
      this.dashboard := dashboard;
      this.panel := panel;
      comparisonData := [];
      chartsVisible := false;
      scenesChart, favoritesChart := None, None;
      toast := None;
    }

    /** renderSnapshots' visibility rule followed by updateComparisonCharts. */
    method Render()
      requires |comparisonData| <= MaxComparisons
      modifies this
      ensures Valid()
      ensures comparisonData == old(comparisonData) && toast == old(toast)
      ensures |comparisonData| < 2 ==> scenesChart == old(scenesChart) && favoritesChart == old(favoritesChart)
    {
      chartsVisible := |comparisonData| > 1;
      if |comparisonData| < 2 {
        return;
      }
      scenesChart := Some(ScenesChart(comparisonData));
      favoritesChart := Some(FavoritesChart(comparisonData));
    }

    /**
     * saveCurrentSnapshot: refused with three snapshots or without data;
     * otherwise exactly one snapshot of the current data, filters and label
     * is appended.
     */
    method SaveCurrentSnapshot(now: int, timestamp: string)
      requires Valid()
      modifies this
      ensures Valid()
      ensures |old(comparisonData)| >= MaxComparisons ==>
        comparisonData == old(comparisonData) && toast == Some("Maximum 3 comparisons allowed. Remove one first.")
      ensures |old(comparisonData)| < MaxComparisons && dashboard.analyticsData.None? ==>
        comparisonData == old(comparisonData) && toast == Some("No data to save. Load analytics first.")
      ensures |old(comparisonData)| < MaxComparisons && dashboard.analyticsData.Some? ==>
        var f := if panel.Some? then Some(panel.value.filters) else None;
        && comparisonData == old(comparisonData) + [Snapshot(now, timestamp, dashboard.analyticsData.value,
                                                            if f.Some? then f.value else [], SnapshotLabel(f))]
        && toast == Some("Snapshot saved successfully!")
    {
      if |comparisonData| >= MaxComparisons {
        toast := Some("Maximum 3 comparisons allowed. Remove one first.");
        return;
      }
      if dashboard.analyticsData.None? {
        toast := Some("No data to save. Load analytics first.");
        return;
      }
      var f := if panel.Some? then Some(panel.value.filters) else None;
      var snapshot := Snapshot(now, timestamp, dashboard.analyticsData.value,
                               if f.Some? then f.value else [], SnapshotLabel(f));
      comparisonData := comparisonData + [snapshot];
      Render();
      toast := Some("Snapshot saved successfully!");
    }

    method RemoveSnapshot(id: int)
      requires Valid()
      modifies this
      ensures Valid()
      ensures comparisonData == Without(old(comparisonData), id)
      ensures toast == Some("Snapshot removed")
    {
      comparisonData := Without(comparisonData, id);
      Render();
      toast := Some("Snapshot removed");
    }

    method ClearAllComparisons()
      requires Valid()
      modifies this
      ensures Valid() && comparisonData == [] && !chartsVisible
      ensures toast == Some("All comparisons cleared")
    {
      comparisonData := [];
      Render();
      toast := Some("All comparisons cleared");
    }
  }

  /**
   * A saved snapshot keeps the data it was taken from when the dashboard
   * later receives a new response.
   */
  method SnapshotOutlivesReload(c: AnalyticsComparison, now: int, timestamp: string,
                                result: AnalyticsDashboard.FetchResult)
    requires c.Valid() && c.dashboard.Valid() && |c.comparisonData| < MaxComparisons
    requires c.dashboard.analyticsData.Some?
    modifies c, c.dashboard
    ensures |c.comparisonData| == |old(c.comparisonData)| + 1
    ensures c.comparisonData[|c.comparisonData| - 1].data == old(c.dashboard.analyticsData.value)
  {
    c.SaveCurrentSnapshot(now, timestamp);
    c.dashboard.Receive(result);
  }

  // ---------------------------------------------------------------------
  // Insights

  datatype InsightKind = Trend | Pattern | Engagement | Content

  /** The `type` string of an insight. */
  function KindName(k: InsightKind): string
  {
    match k
    case Trend => "trend"
    case Pattern => "pattern"
    case Engagement => "engagement"
    case Content => "content"
  }

  /** The title of an insight card, fixed by its type. */
  function Title(k: InsightKind): string
  {
    match k
    case Trend => "Geographic Concentration"
    case Pattern => "Age Dynamics"
    case Engagement => "User Engagement"
    case Content => "Emotional Tone"
  }

  /** The recommendations analyzeData chooses from. */
  datatype Advice =
    | DiversifyCountries | GoodGeography
    | LargeAgeGaps | BalancedAges
    | HighEngagement | ModerateEngagement | LowEngagement
    | VaryEmotions | GoodEmotions

  function AdviceText(a: Advice): string
  {
    match a
    case DiversifyCountries => "Consider diversifying with scenes from other countries."
    case GoodGeography => "Good geographic diversity in your collection."
    case LargeAgeGaps => "Large age gaps are common in your scenes."
    case BalancedAges => "Relatively balanced age representation."
    case HighEngagement => "High engagement rate!"
    case ModerateEngagement => "Moderate engagement."
    case LowEngagement => "Consider improving scene quality to increase favorites."
    case VaryEmotions => "Consider adding more emotional variety."
    case GoodEmotions => "Good emotional balance in your collection."
  }

  /** An insight card: its type (which fixes its title) and its recommendation. */
  datatype Insight = Insight(kind: InsightKind, recommendation: Advice)

  /** The statistics analyzeData reads, as exact numbers. */
  datatype InsightStats = InsightStats(totalScenes: nat, avgEffAge: real, avgMascAge: real, favoriteRate: real)

  /**
   * The number of tenths `toFixed(1)` prints for `count / total * 100`:
   * the share in tenths of a percent, rounded half up.
   */
  function TenthsOfPercent(count: nat, total: nat): (r: nat)
    requires total > 0
    ensures r * (2 * total) <= 2000 * count + total < (r + 1) * (2 * total)
  {
    (2000 * count + total) / (2 * total)
  }

  /**
   * Whether the `toFixed(1)` text of `count / total * 100` exceeds the
   * threshold once JavaScript reads it back as a number: a zero total
   * prints "Infinity" for a positive count and "NaN" (never greater)
   * otherwise; a count that is not positive prints no more than 0.
   */
  predicate PercentAbove(count: int, total: nat, threshold: nat)
  {
    if total == 0 then count > 0
    else count > 0 && TenthsOfPercent(count, total) > threshold * 10
  }

  /**
   * With scenes present, the printed percentage is above `t` exactly when
   * the share is at least `t + 0.05` percent (20 * count / total >= 20 * t + 1
   * tenths of a percent, multiplied out).
   */
  lemma PercentAboveIff(count: int, total: nat, t: nat)
    requires total > 0
    ensures PercentAbove(count, total, t) <==> 2000 * count >= (20 * t + 1) * total
  {
    if count > 0 {
      var r := TenthsOfPercent(count, total);
      if r > t * 10 {
        assert (t * 10 + 1) * (2 * total) <= r * (2 * total) by {
          MulMono(t * 10 + 1, r, 2 * total);
        }
      } else {
        assert (r + 1) * (2 * total) <= (t * 10 + 1) * (2 * total) by {
          MulMono(r + 1, t * 10 + 1, 2 * total);
        }
      }
    } else {
      assert (20 * t + 1) * total > 0 by {
        MulMono(1, 20 * t + 1, total);
      }
    }
  }

  lemma MulMono(a: nat, b: nat, c: nat)
    requires a <= b
    ensures a * c <= b * c
  {
  }

  /**
   * 2001 of 4000 scenes is 50.025 percent, printed "50.0", which is not
   * above 50.
   */
  lemma RoundedShareNotAbove(count: nat, total: nat)
    requires count == 2001 && total == 4000
    ensures count * 100 > 50 * total && !PercentAbove(count, total, 50)
  {
    PercentAboveIff(count, total, 50);
  }

  function Abs(x: real): real
  {
    if x < 0.0 then -x else x
  }

  function CountryInsight(c: Analytics.Chart, total: nat): Insight
    requires |c.labels| > 0
  {
    var count := if |c.data| > 0 then c.data[0] else 0;
    Insight(Trend, if PercentAbove(count, total, 50) then DiversifyCountries else GoodGeography)
  }

  function AgeInsight(s: InsightStats): Insight
  {
    Insight(Pattern, if Abs(s.avgEffAge - s.avgMascAge) > 10.0 then LargeAgeGaps else BalancedAges)
  }

  function EngagementInsight(s: InsightStats): Insight
  {
    Insight(Engagement,
            if s.favoriteRate > 20.0 then HighEngagement
            else if s.favoriteRate > 10.0 then ModerateEngagement
            else LowEngagement)
  }

  function EmotionInsight(c: Analytics.Chart, total: nat): Insight
    requires |c.labels| > 0
  {
    var count := if |c.data| > 0 then c.data[0] else 0;
    Insight(Content, if PercentAbove(count, total, 40) then VaryEmotions else GoodEmotions)
  }

  /** analyzeData: country, age, engagement and emotion insights, in that order. */
  function AnalyzeData(charts: Analytics.Charts, s: InsightStats): seq<Insight>
  {
    (if |charts.countries.labels| > 0 then [CountryInsight(charts.countries, s.totalScenes)] else [])
    + [AgeInsight(s), EngagementInsight(s)]
    + (if |charts.emotions.labels| > 0 then [EmotionInsight(charts.emotions, s.totalScenes)] else [])
  }

  /** Where each insight sits: k is 1 with a country insight in front, else 0. */
  lemma AnalyzeDataLayout(charts: Analytics.Charts, s: InsightStats)
    ensures var r := AnalyzeData(charts, s);
      var k := if |charts.countries.labels| > 0 then 1 else 0;
      && |r| == k + 2 + (if |charts.emotions.labels| > 0 then 1 else 0)
      && r[k] == AgeInsight(s) && r[k + 1] == EngagementInsight(s)
      && (k == 1 ==> r[0] == CountryInsight(charts.countries, s.totalScenes))
      && (|r| == k + 3 ==> r[k + 2] == EmotionInsight(charts.emotions, s.totalScenes))
  {
    var r := AnalyzeData(charts, s);
    var pre := if |charts.countries.labels| > 0 then [CountryInsight(charts.countries, s.totalScenes)] else [];
    var mid := [AgeInsight(s), EngagementInsight(s)];
    var post := if |charts.emotions.labels| > 0 then [EmotionInsight(charts.emotions, s.totalScenes)] else [];
    assert r == pre + mid + post;
    var k := |pre|;
    assert r[k] == mid[0] && r[k + 1] == mid[1];
    assert |post| == 1 ==> r[k + 2] == post[0];
  }

  /** Which insight sits where: a country insight only first, an emotion insight only last. */
  lemma AnalyzeDataKinds(charts: Analytics.Charts, s: InsightStats)
    ensures var r := AnalyzeData(charts, s);
      forall i :: 0 <= i < |r| ==>
        && (r[i].kind == Trend <==> |charts.countries.labels| > 0 && i == 0)
        && (r[i].kind == Content <==> |charts.emotions.labels| > 0 && i == |r| - 1)
        && (r[i].kind == Pattern ==> r[i] == AgeInsight(s))
        && (r[i].kind == Engagement ==> r[i] == EngagementInsight(s))
  {
    AnalyzeDataLayout(charts, s);
    var r := AnalyzeData(charts, s);
    var k := if |charts.countries.labels| > 0 then 1 else 0;
    forall i | 0 <= i < |r|
      ensures && (r[i].kind == Trend <==> |charts.countries.labels| > 0 && i == 0)
              && (r[i].kind == Content <==> |charts.emotions.labels| > 0 && i == |r| - 1)
              && (r[i].kind == Pattern ==> r[i] == AgeInsight(s))
              && (r[i].kind == Engagement ==> r[i] == EngagementInsight(s))
    {
      if i < k {
        assert r[i].kind == Trend;
      } else if i == k {
        assert r[i].kind == Pattern;
      } else if i == k + 1 {
        assert r[i].kind == Engagement;
      } else {
        assert r[i].kind == Content;
      }
    }
  }

  /**
   * Two to four insights: the age and engagement ones always, a country
   * insight first exactly when there are country labels, an emotion
   * insight last exactly when there are emotion labels.
   */
  lemma AnalyzeDataShape(charts: Analytics.Charts, s: InsightStats)
    ensures var r := AnalyzeData(charts, s);
      && 2 <= |r| <= 4
      && (exists i :: 0 <= i < |r| && r[i].kind == Pattern)
      && (exists i :: 0 <= i < |r| && r[i].kind == Engagement)
      && ((exists i :: 0 <= i < |r| && r[i].kind == Trend) <==> |charts.countries.labels| > 0)
      && ((exists i :: 0 <= i < |r| && r[i].kind == Content) <==> |charts.emotions.labels| > 0)
      && (r[0].kind == Trend <==> |charts.countries.labels| > 0)
      && (r[|r| - 1].kind == Content <==> |charts.emotions.labels| > 0)
  {
    AnalyzeDataLayout(charts, s);
    AnalyzeDataKinds(charts, s);
    var r := AnalyzeData(charts, s);
    var k := if |charts.countries.labels| > 0 then 1 else 0;
    assert r[k].kind == Pattern && r[k + 1].kind == Engagement;
    assert |charts.countries.labels| > 0 ==> r[0].kind == Trend;
    assert |charts.emotions.labels| > 0 ==> r[|r| - 1].kind == Content;
  }

  /**
   * The engagement recommendation follows the >20 / >10 thresholds on the
   * favourite rate, and the age one reports a gap exactly when the averages
   * differ by more than 10 years.
   */
  lemma AnalyzeDataRecommendations(charts: Analytics.Charts, s: InsightStats)
    ensures forall i :: 0 <= i < |AnalyzeData(charts, s)| && AnalyzeData(charts, s)[i].kind == Engagement ==>
      AnalyzeData(charts, s)[i].recommendation ==
        if s.favoriteRate > 20.0 then HighEngagement
        else if s.favoriteRate > 10.0 then ModerateEngagement
        else LowEngagement
    ensures forall i :: 0 <= i < |AnalyzeData(charts, s)| && AnalyzeData(charts, s)[i].kind == Pattern ==>
      (AnalyzeData(charts, s)[i].recommendation == LargeAgeGaps <==>
       s.avgEffAge - s.avgMascAge > 10.0 || s.avgMascAge - s.avgEffAge > 10.0)
  {
    AnalyzeDataKinds(charts, s);
  }

  /** The outcome of generateInsights: an error notice without data, else the insights. */
  datatype InsightsOutcome = NoData(toast: string) | Rendered(insights: seq<Insight>, toast: string)

  function GenerateInsights(data: Option<(Analytics.Charts, InsightStats)>): (r: InsightsOutcome)
    ensures r.NoData? <==> data.None?
    ensures r.Rendered? ==> r.insights == AnalyzeData(data.value.0, data.value.1)
  {
    if data.None? then NoData("No data available for insights")
    else Rendered(AnalyzeData(data.value.0, data.value.1), "Insights generated successfully!")
  }

  /** getInsightColor: the four known types have their colours, anything else is gray. */
  function InsightColor(kind: string): (r: string)
    ensures r != "gray" <==> kind in {"trend", "pattern", "engagement", "content"}
  {
    if kind == "trend" then "blue"
    else if kind == "pattern" then "green"
    else if kind == "engagement" then "purple"
    else if kind == "content" then "orange"
    else "gray"
  }

  /** Every insight analyzeData produces has its own colour, never the gray fallback. */
  lemma InsightColorsKnown(charts: Analytics.Charts, s: InsightStats)
    ensures forall i :: 0 <= i < |AnalyzeData(charts, s)| ==> InsightColor(KindName(AnalyzeData(charts, s)[i].kind)) != "gray"
  {
  }
}

=== FILE: analytics_dashboard.dfy ===
/**
 * The analytics dashboard page (static/js/analytics.js): the request it
 * builds, the data it keeps, the charts it draws (as configurations), the
 * three panels it toggles, the CSV export and the HTML escaping of titles.
 * The network, the chart library and the DOM are not modelled: a response
 * arrives as a parameter, and every element the code looks up is present.
 */
module AnalyticsDashboard {
  import opened Common
  import Analytics

  // ---------------------------------------------------------------------
  // escapeHtml

  predicate HtmlSpecial(c: char)
  {
    c == '&' || c == '<' || c == '>' || c == '"' || c == '\''
  }

  function EscapeChar(c: char): (r: string)
    ensures |r| >= 1
    ensures forall i :: 0 <= i < |r| ==> r[i] != '<' && r[i] != '>' && r[i] != '"' && r[i] != '\''
  {
    if c == '&' then "&amp;"
    else if c == '<' then "&lt;"
    else if c == '>' then "&gt;"
    else if c == '"' then "&quot;"
    else if c == '\'' then "&#039;"
    else [c]
  }

  /** Every `& < > " '` becomes its entity; the output holds no raw `< > " '`. */
  function EscapeHtml(text: string): (r: string)
    ensures |r| >= |text|
    ensures forall i :: 0 <= i < |r| ==> r[i] != '<' && r[i] != '>' && r[i] != '"' && r[i] != '\''
  {
    if text == [] then []
    else
      var e := EscapeChar(text[0]);
      var rest := EscapeHtml(text[1..]);
      assert forall i :: |e| <= i < |e + rest| ==> (e + rest)[i] == rest[i - |e|];
      e + rest
  }

  /**
   * The entity at the start of `s`, if any, recognised by its second
   * character: the character it stands for and its length.
   */
  function EntityAt(s: string): (r: Option<(char, nat)>)
    ensures r.Some? ==> 1 <= r.value.1 <= |s|
  {
    if |s| < 2 || s[0] != '&' then None
    else if s[1] == 'a' then (if StartsWith(s, "&amp;") then Some(('&', 5)) else None)
    else if s[1] == 'l' then (if StartsWith(s, "&lt;") then Some(('<', 4)) else None)
    else if s[1] == 'g' then (if StartsWith(s, "&gt;") then Some(('>', 4)) else None)
    else if s[1] == 'q' then (if StartsWith(s, "&quot;") then Some(('"', 6)) else None)
    else if s[1] == '#' then (if StartsWith(s, "&#039;") then Some(('\'', 6)) else None)
    else None
  }

  /** The browser's reading of the five entities, and of every other character as itself. */
  function UnescapeHtml(s: string): string
    decreases |s|
  {
    if s == [] then []
    else
      match EntityAt(s)
      case Some((c, n)) => [c] + UnescapeHtml(s[n..])
      case None => [s[0]] + UnescapeHtml(s[1..])
  }

  /** An escaped character reads back as itself, whatever follows it. */
  lemma UnescapeEscapedChar(c: char, rest: string)
    ensures UnescapeHtml(EscapeChar(c) + rest) == [c] + UnescapeHtml(rest)
  {
    var e := EscapeChar(c);
    if HtmlSpecial(c) {
      EntityOfEscape(c);
      UnescapeEntity(e, c, rest);
    } else {
      assert e == [c] && (e + rest)[0] == c;
      assert (e + rest)[1..] == rest;
    }
  }

  /** Each of the five entities is recognised, with its own length. */
  lemma EntityOfEscape(c: char)
    requires HtmlSpecial(c)
    ensures |EscapeChar(c)| >= 2 && EntityAt(EscapeChar(c)) == Some((c, |EscapeChar(c)|))
  {
    var e := EscapeChar(c);
    assert e[..|e|] == e;
  }

  /** An entity is read the same whatever follows it. */
  lemma UnescapeEntity(e: string, c: char, rest: string)
    requires |e| >= 2 && EntityAt(e) == Some((c, |e|))
    ensures UnescapeHtml(e + rest) == [c] + UnescapeHtml(rest)
  {
    var s := e + rest;
    assert s[0] == e[0] && s[1] == e[1];
    assert s[..|e|] == e;
    assert s[|e|..] == rest;
    forall p: string | StartsWith(e, p) ensures StartsWith(s, p) {
      assert s[..|p|] == e[..|p|];
    }
    assert EntityAt(s) == EntityAt(e);
  }

  /** The escaped title displays as the original text. */
  lemma {:induction false} EscapeHtmlRoundTrip(text: string)
    ensures UnescapeHtml(EscapeHtml(text)) == text
  {
    if text != [] {
      EscapeHtmlRoundTrip(text[1..]);
      UnescapeEscapedChar(text[0], EscapeHtml(text[1..]));
      assert text == [text[0]] + text[1..];
    }
  }

  /** A text with none of the five characters is left exactly as it is. */
  lemma {:induction false} EscapeHtmlPlain(text: string)
    requires forall i :: 0 <= i < |text| ==> !HtmlSpecial(text[i])
    ensures EscapeHtml(text) == text
  {
    if text != [] {
      EscapeHtmlPlain(text[1..]);
      assert text == [text[0]] + text[1..];
    }
  }

  // ---------------------------------------------------------------------
  // loadAnalytics: the query string

  /** The JavaScript values a parameter can hold. */
  datatype JsValue = JsNumber(n: int) | JsString(s: string) | JsNaN | JsUndefined

  predicate JsTruthy(v: JsValue)
  {
    match v
    case JsNumber(n) => n != 0
    case JsString(s) => s != ""
    case JsNaN => false
    case JsUndefined => false
  }

  /** `String(v)`, as URLSearchParams writes it. */
  function JsText(v: JsValue): string
  {
    match v
    case JsNumber(n) => IntToString(n)
    case JsString(s) => s
    case JsNaN => "NaN"
    case JsUndefined => "undefined"
  }

  /** The params object, in `Object.keys` order. */
  type Params = seq<(string, JsValue)>

  function ParamValue(params: Params, key: string): JsValue
  {
    if params == [] then JsUndefined
    else if params[0].0 == key then params[0].1
    else ParamValue(params[1..], key)
  }

  /** The parameters after `chart_limit`: every other key whose value is truthy, in order. */
  function ExtraParams(params: Params): seq<(string, string)>
  {
    if params == [] then []
    else
      var (k, v) := params[|params| - 1];
      ExtraParams(params[..|params| - 1]) +
        (if k != "chart_limit" && JsTruthy(v) then [(k, JsText(v))] else [])
  }

  /** The query: `chart_limit` first (0 when falsy or missing), then the other truthy parameters. */
  function QueryOf(params: Params): seq<(string, string)>
  {
    var limit := ParamValue(params, "chart_limit");
    [("chart_limit", if JsTruthy(limit) then JsText(limit) else "0")] + ExtraParams(params)
  }

  /** The `URLSearchParams` loop of loadAnalytics. */
  method BuildQuery(params: Params) returns (query: seq<(string, string)>)
    ensures query == QueryOf(params)
  {
    var limit := ParamValue(params, "chart_limit");
    query := [("chart_limit", if JsTruthy(limit) then JsText(limit) else "0")];
    var i := 0;
    while i < |params|
      invariant 0 <= i <= |params|
      invariant query == QueryOf(params)[..1] + ExtraParams(params[..i])
    {
      assert params[..i + 1][..i] == params[..i];
      var (k, v) := params[i];
      if k != "chart_limit" && JsTruthy(v) {
        query := query + [(k, JsText(v))];
      }
      i := i + 1;
    }
    assert params[..i] == params;
  }

  /** A later entry of the query is exactly a parameter other than `chart_limit` with a truthy value. */
  lemma {:induction false} ExtraParamsMembers(params: Params, k: string, t: string)
    ensures (k, t) in ExtraParams(params) <==>
      exists v :: (k, v) in params && k != "chart_limit" && JsTruthy(v) && t == JsText(v)
  {
    if params != [] {
      var init := params[..|params| - 1];
      ExtraParamsMembers(init, k, t);
      assert params == init + [params[|params| - 1]];
      if (k, t) in ExtraParams(params) && (k, t) !in ExtraParams(init) {
        assert (k, params[|params| - 1].1) in params;
      }
      if exists v :: (k, v) in params && k != "chart_limit" && JsTruthy(v) && t == JsText(v) {
        var v :| (k, v) in params && k != "chart_limit" && JsTruthy(v) && t == JsText(v);
        if (k, v) !in init {
          assert (k, v) == params[|params| - 1];
        }
      }
    }
  }

  /** The query starts with `chart_limit`, which appears nowhere else. */
  lemma QueryStartsWithChartLimit(params: Params)
    ensures QueryOf(params)[0].0 == "chart_limit"
    ensures forall i :: 1 <= i < |QueryOf(params)| ==> QueryOf(params)[i].0 != "chart_limit"
    ensures JsTruthy(ParamValue(params, "chart_limit")) || QueryOf(params)[0].1 == "0"
  {
    forall i | 1 <= i < |QueryOf(params)| ensures QueryOf(params)[i].0 != "chart_limit" {
      var e := QueryOf(params)[i];
      assert e in ExtraParams(params);
      ExtraParamsMembers(params, e.0, e.1);
    }
  }

  // ---------------------------------------------------------------------
  // The data, the charts and the panels

  /** The fields of an API response the dashboard reads; an empty `error` or `message` is absent. */
  datatype ApiData = ApiData(error: string, charts: Analytics.Charts, totalScenes: int, totalFavorites: int,
                             avgEffText: string, avgMascText: string, message: string)

  datatype FetchResult = NetworkError(reason: string) | Received(data: ApiData)

  /** What a chart is drawn from: its type, labels and data. */
  datatype ChartConfig = ChartConfig(kind: string, labels: seq<string>, data: seq<int>)

  /** A doughnut chart; no labels give the grey 'No Data' placeholder with one unit. */
  function DoughnutChart(c: Analytics.Chart): (r: ChartConfig)
    ensures r.kind == "doughnut" && r.labels != []
    ensures c.labels != [] ==> r.labels == c.labels && r.data == c.data
    ensures c.labels == [] ==> r.labels == ["No Data"] && r.data == [1]
  {
    if |c.labels| > 0 then ChartConfig("doughnut", c.labels, c.data)
    else ChartConfig("doughnut", ["No Data"], [1])
  }

  /** The age-range bar chart; no labels give the 'No Data' placeholder with a zero bar. */
  function AgeRangesChart(c: Analytics.Chart): (r: ChartConfig)
    ensures r.kind == "bar" && r.labels != []
    ensures c.labels != [] ==> r.labels == c.labels && r.data == c.data
    ensures c.labels == [] ==> r.labels == ["No Data"] && r.data == [0]
  {
    if |c.labels| > 0 then ChartConfig("bar", c.labels, c.data)
    else ChartConfig("bar", ["No Data"], [0])
  }

  /** `analyticsData.charts[name]` for the four chart names of the response. */
  function ChartData(charts: Analytics.Charts, name: string): Option<Analytics.Chart>
  {
    if name == "countries" then Some(charts.countries)
    else if name == "settings" then Some(charts.settings)
    else if name == "emotions" then Some(charts.emotions)
    else if name == "age_ranges" then Some(charts.ageRanges)
    else None
  }

  /** The key a chart name is read under: its first '-' becomes '_'. */
  function DataKey(chartName: string): string
  {
    ReplaceFirst(chartName, "-", "_")
  }

  /** A name without '-' is read under itself. */
  lemma DataKeyPlain(name: string)
    requires '-' !in name
    ensures DataKey(name) == name
  {
    NoOccurrence(name, '-');
  }

  /** The age-range chart is read under `age_ranges`. */
  lemma DataKeyAgeRanges()
    ensures DataKey("age-ranges") == "age_ranges"
  {
    var name := "age-ranges";
    assert name[3] == '-' && '-' !in name[..3];
    FirstOccurrence(name, '-', 3);
    assert name[..3] + "_" + name[4..] == "age_ranges";
  }

  /** The four charts createCharts draws, under the names it stores them by. */
  function ChartsFor(d: ApiData): map<string, ChartConfig>
  {
    map["countries" := DoughnutChart(d.charts.countries),
        "settings" := DoughnutChart(d.charts.settings),
        "emotions" := DoughnutChart(d.charts.emotions),
        "age-ranges" := AgeRangesChart(d.charts.ageRanges)]
  }

  /** Exactly one of the loading, content and error panels is shown. */
  predicate ExactlyOneShown(loading: bool, content: bool, error: bool)
  {
    (loading && !content && !error) || (!loading && content && !error) || (!loading && !content && error)
  }

  // ---------------------------------------------------------------------
  // exportAnalytics

  /** `data[index]` as the CSV writes it; a missing entry is `undefined`. */
  function DataText(data: seq<int>, i: nat): string
  {
    if i < |data| then IntToString(data[i]) else "undefined"
  }

  /** One "label,count" row per label. */
  function Rows(c: Analytics.Chart): (r: seq<string>)
    ensures |r| == |c.labels|
  {
    seq(|c.labels|, i requires 0 <= i < |c.labels| => c.labels[i] + "," + DataText(c.data, i))
  }

  /** The lines of the exported CSV: the summary, then the three distributions. */
  function ExportLines(d: ApiData): seq<string>
  {
    ["Analytics Summary",
     "Total Scenes," + IntToString(d.totalScenes),
     "Total Favorites," + IntToString(d.totalFavorites),
     "Average Effeminate Age," + d.avgEffText,
     "Average Masculine Age," + d.avgMascText,
     "",
     "Country Distribution", "Country,Count"] + Rows(d.charts.countries) +
    ["", "Setting Distribution", "Setting,Count"] + Rows(d.charts.settings) +
    ["", "Emotion Distribution", "Emotion,Count"] + Rows(d.charts.emotions)
  }

  /** One `forEach` over a chart's labels. */
  method AppendRows(lines: seq<string>, c: Analytics.Chart) returns (out: seq<string>)
    ensures out == lines + Rows(c)
  {
    out := lines;
    var i := 0;
    while i < |c.labels|
      invariant 0 <= i <= |c.labels|
      invariant out == lines + Rows(c)[..i]
    {
      assert Rows(c)[..i + 1] == Rows(c)[..i] + [Rows(c)[i]];
      out := out + [c.labels[i] + "," + DataText(c.data, i)];
      i := i + 1;
    }
    assert Rows(c)[..i] == Rows(c);
  }

  lemma IntTextHasNoComma(n: int)
    ensures ',' !in IntToString(n)
  {
    DigitsExclude(NatToString(if n < 0 then -n else n), ',');
  }

  /**
   * A row reads back as its label and count: split at the comma, the first
   * part is the label and the second parses to the count (for a label
   * without a comma, since labels are written unquoted).
   */
  lemma RowReadsBack(c: Analytics.Chart, i: nat)
    requires i < |c.labels| && i < |c.data|
    requires ',' !in c.labels[i]
    ensures Split(Rows(c)[i], ',') == [c.labels[i], IntToString(c.data[i])]
    ensures JsParseInt(Split(Rows(c)[i], ',')[1]) == Some(c.data[i])
  {
    IntTextHasNoComma(c.data[i]);
    SplitAround(c.labels[i], ',', IntToString(c.data[i]));
    JsParseIntOfIntToString(c.data[i]);
  }

  /** Where each section sits: the country rows from line 8, each section after a blank line and two headers. */
  lemma ExportLayout(d: ApiData)
    ensures var lines := ExportLines(d);
      var nc := |d.charts.countries.labels|;
      var ns := |d.charts.settings.labels|;
      var ne := |d.charts.emotions.labels|;
      && |lines| == 17 + nc + ns + ne - 3
      && lines[8..8 + nc] == Rows(d.charts.countries)
      && lines[8 + nc..11 + nc] == ["", "Setting Distribution", "Setting,Count"]
      && lines[11 + nc..11 + nc + ns] == Rows(d.charts.settings)
      && lines[11 + nc + ns..14 + nc + ns] == ["", "Emotion Distribution", "Emotion,Count"]
      && lines[14 + nc + ns..] == Rows(d.charts.emotions)
  {
    var head := ExportLines(d)[..8];
    var m1: seq<string> := ["", "Setting Distribution", "Setting,Count"];
    var m2: seq<string> := ["", "Emotion Distribution", "Emotion,Count"];
    assert ExportLines(d) == head + Rows(d.charts.countries) + m1 + Rows(d.charts.settings) + m2 + Rows(d.charts.emotions);
    SectionSlices(head, Rows(d.charts.countries), m1, Rows(d.charts.settings), m2, Rows(d.charts.emotions));
  }

  /** Where the parts of `h + a + m1 + b + m2 + c` sit, for an 8-line head and 3-line separators. */
  lemma SectionSlices<T>(h: seq<T>, a: seq<T>, m1: seq<T>, b: seq<T>, m2: seq<T>, c: seq<T>)
    requires |h| == 8 && |m1| == 3 && |m2| == 3
    ensures var s := h + a + m1 + b + m2 + c;
      && |s| == 14 + |a| + |b| + |c|
      && s[8..8 + |a|] == a
      && s[8 + |a|..11 + |a|] == m1
      && s[11 + |a|..11 + |a| + |b|] == b
      && s[11 + |a| + |b|..14 + |a| + |b|] == m2
      && s[14 + |a| + |b|..] == c
  {
  }

  // ---------------------------------------------------------------------
  // The dashboard

  class Dashboard {
    var analyticsData: Option<ApiData>
    var charts: map<string, ChartConfig>
    var loadingShown: bool
    var contentShown: bool
    var errorShown: bool
    var errorMessage: string
    var toast: Option<string>

    predicate Valid()
      reads this
    {
      ExactlyOneShown(loadingShown, contentShown, errorShown)
    }

    /** Without the chart library the error panel is shown; otherwise the first load starts. */
    constructor(chartLibraryLoaded: bool)
      ensures Valid()
      ensures analyticsData.None? && charts == map[] && toast.None?
      ensures chartLibraryLoaded ==> loadingShown
      ensures !chartLibraryLoaded ==> errorShown && errorMessage == "Chart.js library is not loaded. Please refresh the page."
    {
      analyticsData := None;
      charts := map[];
      toast := None;
      errorMessage := "";
      if chartLibraryLoaded {
        loadingShown, contentShown, errorShown := true, false, false;
      } else {
        loadingShown, contentShown, errorShown := false, false, true;
        errorMessage := "Chart.js library is not loaded. Please refresh the page.";
      }
    }

    method ShowLoading()
      modifies this
      ensures Valid() && loadingShown
      ensures analyticsData == old(analyticsData) && charts == old(charts) && errorMessage == old(errorMessage) && toast == old(toast)
    {
      loadingShown, contentShown, errorShown := true, false, false;
    }

    method HideLoading()
      modifies this
      ensures Valid() && contentShown
      ensures analyticsData == old(analyticsData) && charts == old(charts) && errorMessage == old(errorMessage) && toast == old(toast)
    {
      loadingShown, contentShown, errorShown := false, true, false;
    }

    method ShowError(message: string)
      modifies this
      ensures Valid() && errorShown && errorMessage == message
      ensures analyticsData == old(analyticsData) && charts == old(charts) && toast == old(toast)
    {
      loadingShown, contentShown, errorShown := false, false, true;
      errorMessage := message;
    }

    /** The start of loadAnalytics: the loading panel and the request's query. */
    method LoadAnalytics(params: Params) returns (query: seq<(string, string)>)
      modifies this
      ensures Valid() && loadingShown
      ensures query == QueryOf(params)
      ensures analyticsData == old(analyticsData) && charts == old(charts) && toast == old(toast)
    {
      ShowLoading();
      query := BuildQuery(params);
    }

    /**
     * The rest of loadAnalytics, once the response arrives: a failed
     * request or a response with an error shows the error and keeps the
     * previous data and charts; otherwise the data is kept, the charts are
     * redrawn, the content shown and a message becomes a notice.
     */
    method Receive(result: FetchResult)
      modifies this
      ensures Valid()
      ensures result.NetworkError? ==>
        errorShown && errorMessage == result.reason &&
        analyticsData == old(analyticsData) && charts == old(charts) && toast == old(toast)
      ensures result.Received? && result.data.error != "" ==>
        errorShown && errorMessage == result.data.error &&
        analyticsData == old(analyticsData) && charts == old(charts) && toast == old(toast)
      ensures result.Received? && result.data.error == "" ==>
        && contentShown
        && analyticsData == Some(result.data)
        && charts == ChartsFor(result.data)
        && toast == (if result.data.message != "" then Some(result.data.message) else old(toast))
    {
      if result.NetworkError? {
        ShowError(result.reason);
        return;
      }
      var data := result.data;
      if data.error != "" {
        ShowError(data.error);
        return;
      }
      analyticsData := Some(data);
      CreateCharts(data);
      HideLoading();
      if data.message != "" {
        toast := Some(data.message);
      }
    }

    /** createCharts: the previous charts are discarded and the four charts of `d` drawn. */
    method CreateCharts(d: ApiData)
      modifies this
      ensures charts == ChartsFor(d)
      ensures analyticsData == old(analyticsData) && toast == old(toast) && errorMessage == old(errorMessage)
      ensures loadingShown == old(loadingShown) && contentShown == old(contentShown) && errorShown == old(errorShown)
    {
      charts := map[];
      charts := charts["countries" := DoughnutChart(d.charts.countries)];
      charts := charts["settings" := DoughnutChart(d.charts.settings)];
      charts := charts["emotions" := DoughnutChart(d.charts.emotions)];
      charts := charts["age-ranges" := AgeRangesChart(d.charts.ageRanges)];
    }

    /**
     * updateChartType: with a drawn chart and loaded data whose entry under
     * the data key exists, the chart is redrawn with the new type from that
     * entry (no placeholder here); otherwise nothing changes.
     */
    method UpdateChartType(chartName: string, newType: string)
      modifies this
      ensures analyticsData == old(analyticsData) && toast == old(toast) && errorMessage == old(errorMessage)
      ensures loadingShown == old(loadingShown) && contentShown == old(contentShown) && errorShown == old(errorShown)
      ensures chartName !in old(charts) || analyticsData.None? || ChartData(analyticsData.value.charts, DataKey(chartName)).None? ==>
        charts == old(charts)
      ensures chartName in old(charts) && analyticsData.Some? && ChartData(analyticsData.value.charts, DataKey(chartName)).Some? ==>
        var c := ChartData(analyticsData.value.charts, DataKey(chartName)).value;
        charts == old(charts)[chartName := ChartConfig(newType, c.labels, c.data)]
    {
      if chartName !in charts || analyticsData.None? {
        return;
      }
      var chartData := ChartData(analyticsData.value.charts, DataKey(chartName));
      if chartData.None? {
        return;
      }
      charts := charts[chartName := ChartConfig(newType, chartData.value.labels, chartData.value.data)];
    }

    /** refreshCharts: without data nothing changes; otherwise the charts are redrawn from the loaded data. */
    method RefreshCharts()
      modifies this
      ensures analyticsData.None? ==> charts == old(charts)
      ensures analyticsData.Some? ==> charts == ChartsFor(analyticsData.value)
      ensures analyticsData == old(analyticsData) && toast == old(toast) && errorMessage == old(errorMessage)
      ensures loadingShown == old(loadingShown) && contentShown == old(contentShown) && errorShown == old(errorShown)
    {
      if analyticsData.None? {
        return;
      }
      CreateCharts(analyticsData.value);
    }

    /** exportAnalytics: no file without data; otherwise the CSV lines of the loaded data. */
    method ExportAnalytics() returns (file: Option<seq<string>>)
      modifies this
      ensures analyticsData.None? ==> file.None? && toast == Some("No data to export. Please load analytics first.")
      ensures analyticsData.Some? ==> file == Some(ExportLines(analyticsData.value)) && toast == Some("Analytics report exported successfully!")
      ensures analyticsData == old(analyticsData) && charts == old(charts) && errorMessage == old(errorMessage)
      ensures loadingShown == old(loadingShown) && contentShown == old(contentShown) && errorShown == old(errorShown)
    {
      if analyticsData.None? {
        toast := Some("No data to export. Please load analytics first.");
        return None;
      }
      var d := analyticsData.value;
      var lines := ["Analytics Summary",
                    "Total Scenes," + IntToString(d.totalScenes),
                    "Total Favorites," + IntToString(d.totalFavorites),
                    "Average Effeminate Age," + d.avgEffText,
                    "Average Masculine Age," + d.avgMascText,
                    "",
                    "Country Distribution", "Country,Count"];
      lines := AppendRows(lines, d.charts.countries);
      lines := lines + ["", "Setting Distribution", "Setting,Count"];
      lines := AppendRows(lines, d.charts.settings);
      lines := lines + ["", "Emotion Distribution", "Emotion,Count"];
      lines := AppendRows(lines, d.charts.emotions);
      file := Some(lines);
      toast := Some("Analytics report exported successfully!");
    }
  }

  /** Updating a chart reads the entry of the data with the chart's name, `age-ranges` reading `age_ranges`. */
  lemma ChartDataKeys(charts: Analytics.Charts)
    ensures ChartData(charts, DataKey("age-ranges")) == Some(charts.ageRanges)
    ensures ChartData(charts, DataKey("countries")) == Some(charts.countries)
    ensures ChartData(charts, DataKey("settings")) == Some(charts.settings)
    ensures ChartData(charts, DataKey("emotions")) == Some(charts.emotions)
  {
    DataKeyAgeRanges();
    DataKeyPlain("countries");
    DataKeyPlain("settings");
    DataKeyPlain("emotions");
  }
}

=== FILE: analytics_filters.dfy ===
/**
 * The filter panel and the real-time switch of the analytics page
 * (static/js/analytics-filters.js). The filter object is a list of
 * (key, value) pairs in insertion order, as `Object.keys` sees it; the
 * parameters it produces are those the dashboard's loadAnalytics receives.
 */
module Filters {
  import opened Common
  import Views
  import AnalyticsDashboard

  type FilterMap = seq<(string, string)>

  predicate DistinctKeys(f: FilterMap)
  {
    forall i, j :: 0 <= i < j < |f| ==> f[i].0 != f[j].0
  }

  function KeySet(f: FilterMap): set<string>
  {
    set i | 0 <= i < |f| :: f[i].0
  }

  /** `filters[key]`. */
  function Get(f: FilterMap, key: string): Option<string>
  {
    if f == [] then None
    else if f[0].0 == key then Some(f[0].1)
    else Get(f[1..], key)
  }

  lemma KeySetCons(p: (string, string), rest: FilterMap)
    ensures KeySet([p] + rest) == {p.0} + KeySet(rest)
  {
    var r := [p] + rest;
    forall k | k in KeySet(r) ensures k in {p.0} + KeySet(rest) {
      var i :| 0 <= i < |r| && r[i].0 == k;
      if i > 0 { assert rest[i - 1].0 == k; }
    }
    forall k | k in KeySet(rest) ensures k in KeySet(r) {
      var i :| 0 <= i < |rest| && rest[i].0 == k;
      assert r[i + 1].0 == k;
    }
    assert r[0].0 == p.0;
  }

  /** `filters[key] = value`: an existing key keeps its place, a new key goes last. */
  function Set(f: FilterMap, key: string, value: string): (r: FilterMap)
    ensures |r| == if key in KeySet(f) then |f| else |f| + 1
    ensures KeySet(r) == KeySet(f) + {key}
    ensures key !in KeySet(f) ==> r == f + [(key, value)]
    ensures forall i :: 0 <= i < |f| ==> r[i].0 == f[i].0
    ensures forall i :: 0 <= i < |f| && f[i].0 != key ==> r[i] == f[i]
  {
    if f == [] then
      KeySetCons((key, value), []);
      [(key, value)]
    else
      KeySetCons(f[0], f[1..]);
      assert f == [f[0]] + f[1..];
      if f[0].0 == key then
        KeySetCons((key, value), f[1..]);
        [(key, value)] + f[1..]
      else
        var rest := Set(f[1..], key, value);
        KeySetCons(f[0], rest);
        [f[0]] + rest
  }

  /** Setting a key never creates a second entry for it. */
  lemma SetDistinct(f: FilterMap, key: string, value: string)
    requires DistinctKeys(f)
    ensures DistinctKeys(Set(f, key, value))
  {
    var r := Set(f, key, value);
    if key !in KeySet(f) {
      forall i, j | 0 <= i < j < |r| ensures r[i].0 != r[j].0 {
        if j == |f| {
          assert r[i].0 == f[i].0 && f[i].0 in KeySet(f);
        }
      }
    }
  }

  /** Setting an existing key replaces its value in place. */
  lemma {:induction false} SetExisting(f: FilterMap, i: nat, value: string)
    requires DistinctKeys(f) && i < |f|
    ensures Set(f, f[i].0, value) == f[i := (f[i].0, value)]
  {
    var key := f[i].0;
    if i > 0 {
      var tail := f[1..];
      assert f[0].0 != key;
      assert tail[i - 1] == f[i];
      TailDistinct(f);
      SetExisting(tail, i - 1, value);
      assert Set(f, key, value) == [f[0]] + Set(tail, key, value);
      assert f[i := (key, value)] == [f[0]] + tail[i - 1 := (key, value)];
    }
  }

  lemma TailDistinct(f: FilterMap)
    requires DistinctKeys(f) && f != []
    ensures DistinctKeys(f[1..])
  {
    var tail := f[1..];
    forall a, b | 0 <= a < b < |tail| ensures tail[a].0 != tail[b].0 {
      assert tail[a] == f[a + 1] && tail[b] == f[b + 1];
    }
  }

  lemma {:induction false} GetSet(f: FilterMap, key: string, value: string, other: string)
    ensures Get(Set(f, key, value), key) == Some(value)
    ensures other != key ==> Get(Set(f, key, value), other) == Get(f, other)
  {
    if f != [] && f[0].0 != key {
      GetSet(f[1..], key, value, other);
    }
  }

  const InitialFilters: FilterMap :=
    [("country", "all"), ("setting", "all"), ("emotion", "all"), ("ageRange", "all"), ("dateRange", "all")]

  /** The key the change handler writes: the id without "-filter", then without its first '-'. */
  function FilterKey(filterId: string): string
  {
    ReplaceFirst(ReplaceFirst(filterId, "-filter", ""), "-", "")
  }

  /** The parameters applyFilters sends for the filters: each value that is neither empty nor 'all'. */
  function FilterParams(f: FilterMap): AnalyticsDashboard.Params
  {
    if f == [] then []
    else
      var (k, v) := f[|f| - 1];
      FilterParams(f[..|f| - 1]) + (if v != "all" && v != "" then [(k, AnalyticsDashboard.JsString(v))] else [])
  }

  /** `parseInt(document.getElementById('chart-limit')?.value || 0)`. */
  function ChartLimitParam(select: Option<string>): AnalyticsDashboard.JsValue
  {
    if select.None? || select.value == "" then AnalyticsDashboard.JsNumber(0)
    else
      match JsParseInt(select.value)
      case None => AnalyticsDashboard.JsNaN
      case Some(n) => AnalyticsDashboard.JsNumber(n)
  }

  /** The whole parameter object: the filters, then `chart_limit`. */
  function ApplyParams(f: FilterMap, select: Option<string>): AnalyticsDashboard.Params
  {
    FilterParams(f) + [("chart_limit", ChartLimitParam(select))]
  }

  function AppliedToast(filterCount: nat): string
  {
    if filterCount > 0 then IntToString(filterCount) + " filter(s) applied successfully!" else "All filters cleared!"
  }

  /** getActiveFilters: the keys whose value is not 'all', in key order. */
  function ActiveFilters(f: FilterMap): (r: seq<string>)
    ensures forall k :: k in r <==> exists i :: 0 <= i < |f| && f[i].0 == k && f[i].1 != "all"
  {
    if f == [] then []
    else
      var rest := ActiveFilters(f[1..]);
      assert forall i :: 1 <= i < |f| ==> f[i] == f[1..][i - 1];
      (if f[0].1 != "all" then [f[0].0] else []) + rest
  }

  /** hasActiveFilters. */
  predicate HasActiveFilters(f: FilterMap)
  {
    |ActiveFilters(f)| > 0
  }

  lemma HasActiveFiltersIff(f: FilterMap)
    ensures HasActiveFilters(f) <==> exists i :: 0 <= i < |f| && f[i].1 != "all"
  {
    if HasActiveFilters(f) {
      assert ActiveFilters(f)[0] in ActiveFilters(f);
    }
    if exists i :: 0 <= i < |f| && f[i].1 != "all" {
      var i :| 0 <= i < |f| && f[i].1 != "all";
      assert f[i].0 in ActiveFilters(f);
    }
  }

  /** Each filter parameter is a key of the filter object with a value that is neither empty nor 'all', and back. */
  lemma {:induction false} FilterParamsMembers(f: FilterMap, k: string, v: string)
    ensures (k, AnalyticsDashboard.JsString(v)) in FilterParams(f) <==> (k, v) in f && v != "all" && v != ""
    ensures forall p :: p in FilterParams(f) ==> p.1.JsString?
  {
    if f != [] {
      var init := f[..|f| - 1];
      var last := f[|f| - 1];
      FilterParamsMembers(init, k, v);
      assert f == init + [last];
      assert (k, v) in f <==> (k, v) in init || (k, v) == last;
      var tail: AnalyticsDashboard.Params := if last.1 != "all" && last.1 != "" then [(last.0, AnalyticsDashboard.JsString(last.1))] else [];
      assert FilterParams(f) == FilterParams(init) + tail;
    }
  }

  /** The count in the notice leaves `chart_limit` out: it is the number of filter parameters. */
  lemma ApplyParamsShape(f: FilterMap, select: Option<string>)
    ensures var p := ApplyParams(f, select);
      && p[|p| - 1] == ("chart_limit", ChartLimitParam(select))
      && p[..|p| - 1] == FilterParams(f)
      && |p| - 1 == |FilterParams(f)|
  {
  }

  /** The non-blank values of a field, in input order: the options after 'all'. */
  function NonBlank(values: seq<string>): seq<string>
  {
    if values == [] then []
    else
      var x := values[|values| - 1];
      NonBlank(values[..|values| - 1]) + (if Trim(x) != "" then [x] else [])
  }

  /** The options after 'all' are exactly the values that are not blank. */
  lemma {:induction false} NonBlankMembers(values: seq<string>)
    ensures forall x :: x in NonBlank(values) <==> x in values && Trim(x) != ""
  {
    if values != [] {
      var init := values[..|values| - 1];
      NonBlankMembers(init);
      assert values == init + [values[|values| - 1]];
    }
  }

  /** One select of populateFilterOptions: 'all' first, then every non-blank value. */
  method PopulateSelect(values: seq<string>) returns (options: seq<string>)
    ensures options == ["all"] + NonBlank(values)
  {
    var appended: seq<string> := [];
    var i := 0;
    while i < |values|
      invariant 0 <= i <= |values|
      invariant appended == NonBlank(values[..i])
    {
      var next := values[..i + 1];
      assert next[..i] == values[..i] && next[i] == values[i];
      if Trim(values[i]) != "" {
        appended := appended + [values[i]];
      }
      i := i + 1;
    }
    assert values[..i] == values;
    options := ["all"] + appended;
  }

  /** The option lists the server sends for the drop-downs. */
  datatype FilterLists = FilterLists(countries: seq<string>, settings: seq<string>, emotions: seq<string>)

  class AnalyticsFilters {
    var filters: FilterMap
    var countryOptions: seq<string>
    var settingOptions: seq<string>
    var emotionOptions: seq<string>

    /** The five initial keys keep their places, and no key appears twice. */
    predicate Valid()
      reads this
    {
      && DistinctKeys(filters)
      && |filters| >= 5
      && (forall i :: 0 <= i < 5 ==> filters[i].0 == InitialFilters[i].0)
    }

    constructor()
      ensures Valid() && filters == InitialFilters
      ensures countryOptions == settingOptions == emotionOptions == ["all"]
    {
      filters := InitialFilters;
      countryOptions, settingOptions, emotionOptions := ["all"], ["all"], ["all"];
    }

    /** The change handler of a select, as written: the value goes under FilterKey of its id. */
    method FilterChanged(filterId: string, value: string)
      requires Valid()
      modifies this
      ensures Valid()
      ensures filters == Set(old(filters), FilterKey(filterId), value)
      ensures countryOptions == old(countryOptions) && settingOptions == old(settingOptions) && emotionOptions == old(emotionOptions)
    {
      SetDistinct(filters, FilterKey(filterId), value);
      filters := Set(filters, FilterKey(filterId), value);
    }

    /** The change handler with the intended key, the camel-case name of the select. */
    method FilterChangedIntended(filterId: string, value: string)
      requires Valid()
      modifies this
      ensures Valid()
      ensures filters == Set(old(filters), IntendedFilterKey(filterId), value)
      ensures countryOptions == old(countryOptions) && settingOptions == old(settingOptions) && emotionOptions == old(emotionOptions)
    {
      SetDistinct(filters, IntendedFilterKey(filterId), value);
      filters := Set(filters, IntendedFilterKey(filterId), value);
    }

    /** clearAllFilters: every filter back to 'all' (extra keys dropped); the reload has no parameters. */
    method ClearAllFilters() returns (params: AnalyticsDashboard.Params)
      requires Valid()
      modifies this
      ensures Valid() && filters == InitialFilters && params == []
      ensures !HasActiveFilters(filters)
      ensures countryOptions == old(countryOptions) && settingOptions == old(settingOptions) && emotionOptions == old(emotionOptions)
    {
      filters := InitialFilters;
      HasActiveFiltersIff(filters);
      params := [];
    }

    /**
     * applyFilters: the parameters handed to loadAnalytics, built key by
     * key, and the notice with the number of filters among them.
     */
    method ApplyFilters(chartLimitSelect: Option<string>) returns (params: AnalyticsDashboard.Params, toast: string)
      ensures params == ApplyParams(filters, chartLimitSelect)
      ensures toast == AppliedToast(|params| - 1)
    {
      params := [];
      var i := 0;
      while i < |filters|
        invariant 0 <= i <= |filters|
        invariant params == FilterParams(filters[..i])
      {
        assert filters[..i + 1][..i] == filters[..i];
        var (k, v) := filters[i];
        if v != "all" && v != "" {
          params := params + [(k, AnalyticsDashboard.JsString(v))];
        }
        i := i + 1;
      }
      assert filters[..i] == filters;
      var filterCount := |params|;
      params := params + [("chart_limit", ChartLimitParam(chartLimitSelect))];
      toast := AppliedToast(filterCount);
    }

    /** populateFilterOptions: without filter lists nothing changes; otherwise each select is rebuilt. */
    method PopulateFilterOptions(lists: Option<FilterLists>)
      modifies this
      ensures filters == old(filters)
      ensures lists.None? ==>
        countryOptions == old(countryOptions) && settingOptions == old(settingOptions) && emotionOptions == old(emotionOptions)
      ensures lists.Some? ==>
        && countryOptions == ["all"] + NonBlank(lists.value.countries)
        && settingOptions == ["all"] + NonBlank(lists.value.settings)
        && emotionOptions == ["all"] + NonBlank(lists.value.emotions)
    {
      if lists.None? {
        return;
      }
      countryOptions := PopulateSelect(lists.value.countries);
      settingOptions := PopulateSelect(lists.value.settings);
      emotionOptions := PopulateSelect(lists.value.emotions);
    }
  }

  // ---------------------------------------------------------------------
  // The key written for each select

  /** For a name without 'f', "-filter" first occurs right after the name. */
  lemma DropFilterSuffix(name: string)
    requires 'f' !in name
    ensures ReplaceFirst(name + "-filter", "-filter", "") == name
  {
    var s := name + "-filter";
    assert s[|name|..] == "-filter";
    forall j | 0 <= j < |name| ensures !StartsWith(s[j..], "-filter") {
      assert s[j..][1] == s[j + 1];
      if j + 1 < |name| {
        assert s[j + 1] == name[j + 1];
      }
    }
    assert IndexOf(s, "-filter") == Some(|name|);
    assert s[..|name|] == name;
  }

  lemma FilterKeyPlain(name: string)
    requires 'f' !in name && '-' !in name
    ensures FilterKey(name + "-filter") == name
  {
    DropFilterSuffix(name);
    NoOccurrence(name, '-');
  }

  /** The three field selects write their own keys. */
  lemma FieldFilterKeys(name: string)
    requires name == "country" || name == "setting" || name == "emotion"
    ensures FilterKey(name + "-filter") == name
  {
    assert 'f' !in name && '-' !in name;
    FilterKeyPlain(name);
  }

  /** An id "a-b-filter" loses "-filter" and then the '-' between its two parts. */
  lemma FilterKeyJoined(a: string, b: string)
    requires 'f' !in a && 'f' !in b && '-' !in a && '-' !in b
    ensures FilterKey(a + "-" + b + "-filter") == a + b
  {
    var t := a + "-" + b;
    assert forall j :: 0 <= j < |t| ==> t[j] == (if j < |a| then a[j] else if j == |a| then '-' else b[j - |a| - 1]);
    DropFilterSuffix(t);
    assert t[..|a|] == a && t[|a| + 1..] == b;
    FirstOccurrence(t, '-', |a|);
  }

  /**
   * The age select's id, "age-range-filter", loses "-filter" and then its
   * remaining '-': the key is "agerange". The id is given by its two parts.
   */
  lemma FilterKeyAgeRange(a: string, b: string)
    requires a == "age" && b == "range"
    ensures FilterKey(a + "-" + b + "-filter") == "agerange"
  {
    AgeRangeParts(a, b);
    FilterKeyJoined(a, b);
  }

  lemma AgeRangeParts(a: string, b: string)
    requires a == "age" && b == "range"
    ensures 'f' !in a && '-' !in a && 'f' !in b && '-' !in b
    ensures a + b == "agerange"
  {
  }

  /** The key the handler evidently means: the filter object's own key for each select. */
  function IntendedFilterKey(filterId: string): string
  {
    if filterId == "age-range-filter" then "ageRange" else FilterKey(filterId)
  }

  // ---------------------------------------------------------------------
  // What the server receives

  /** The query dictionary the server reads from the parameters (a repeated key keeps its last value). */
  function QueryMap(pairs: seq<(string, string)>): map<string, string>
  {
    if pairs == [] then map[]
    else QueryMap(pairs[..|pairs| - 1])[pairs[|pairs| - 1].0 := pairs[|pairs| - 1].1]
  }

  lemma {:induction false} QueryMapKeys(pairs: seq<(string, string)>, k: string)
    ensures k in QueryMap(pairs) <==> exists i :: 0 <= i < |pairs| && pairs[i].0 == k
  {
    if pairs != [] {
      var init := pairs[..|pairs| - 1];
      QueryMapKeys(init, k);
      if exists i :: 0 <= i < |pairs| && pairs[i].0 == k {
        var i :| 0 <= i < |pairs| && pairs[i].0 == k;
        if i < |init| { assert init[i].0 == k; }
      }
    }
  }

  lemma {:induction false} QueryMapLookup(pairs: seq<(string, string)>, k: string, t: string)
    requires (k, t) in pairs
    requires forall i :: 0 <= i < |pairs| && pairs[i].0 == k ==> pairs[i].1 == t
    ensures k in QueryMap(pairs) && QueryMap(pairs)[k] == t
  {
    var init := pairs[..|pairs| - 1];
    var last := pairs[|pairs| - 1];
    assert pairs == init + [last];
    if last.0 != k {
      assert (k, t) in init;
      QueryMapLookup(init, k, t);
    }
  }

  /** Filters in which `key` is absent, empty or 'all' send no parameter named `key`. */
  lemma {:induction false} FilterParamsKeys(f: FilterMap, key: string)
    requires forall i :: 0 <= i < |f| && f[i].0 == key ==> f[i].1 == "all" || f[i].1 == ""
    ensures forall i :: 0 <= i < |FilterParams(f)| ==> FilterParams(f)[i].0 != key
  {
    if f != [] {
      FilterParamsKeys(f[..|f| - 1], key);
    }
  }

  /** A key that is absent, empty or 'all' in the filter object reaches the server in no form. */
  lemma NotSent(f: FilterMap, key: string, select: Option<string>)
    requires key != "chart_limit"
    requires forall i :: 0 <= i < |f| && f[i].0 == key ==> f[i].1 == "all" || f[i].1 == ""
    ensures key !in QueryMap(AnalyticsDashboard.QueryOf(ApplyParams(f, select)))
  {
    FilterParamsKeys(f, key);
    var params := ApplyParams(f, select);
    assert forall i :: 0 <= i < |params| ==> params[i].0 != key;
    var q := AnalyticsDashboard.QueryOf(params);
    forall i | 0 <= i < |q| ensures q[i].0 != key {
      if i > 0 {
        var e := q[i];
        assert e in AnalyticsDashboard.ExtraParams(params);
        AnalyticsDashboard.ExtraParamsMembers(params, e.0, e.1);
      }
    }
    QueryMapKeys(q, key);
  }

  /** A filter set to a value other than '' and 'all' reaches the server with that value. */
  lemma Sent(f: FilterMap, key: string, value: string, select: Option<string>)
    requires DistinctKeys(f) && (key, value) in f
    requires key != "chart_limit" && value != "all" && value != ""
    ensures var query := QueryMap(AnalyticsDashboard.QueryOf(ApplyParams(f, select)));
      key in query && query[key] == value
  {
    var params := ApplyParams(f, select);
    var q := AnalyticsDashboard.QueryOf(params);
    FilterParamsMembers(f, key, value);
    assert (key, AnalyticsDashboard.JsString(value)) in params;
    AnalyticsDashboard.ExtraParamsMembers(params, key, value);
    assert (key, value) in q;
    forall i | 0 <= i < |q| && q[i].0 == key ensures q[i].1 == value {
      var e := q[i];
      assert i > 0;
      assert e in AnalyticsDashboard.ExtraParams(params);
      AnalyticsDashboard.ExtraParamsMembers(params, key, e.1);
      var w :| (key, w) in params && AnalyticsDashboard.JsTruthy(w) && e.1 == AnalyticsDashboard.JsText(w);
      assert (key, w) in FilterParams(f);
      FilterParamsMembers(f, key, w.s);
      var j :| 0 <= j < |f| && f[j] == (key, w.s);
      var j' :| 0 <= j' < |f| && f[j'] == (key, value);
    }
    QueryMapLookup(q, key, value);
  }

  /**
   * As written, choosing an age range only sets "agerange": the filter
   * object's "ageRange" stays 'all', no parameter named "ageRange" is
   * sent, and the server applies no age filter.
   */
  lemma AgeRangeChoiceIgnored(a: string, b: string, value: string, chartLimitSelect: Option<string>)
    requires a == "age" && b == "range" && value != "" && value != "all"
    ensures var f := Set(InitialFilters, FilterKey(a + "-" + b + "-filter"), value);
      && Get(f, "ageRange") == Some("all")
      && Get(f, "agerange") == Some(value)
      && var query := QueryMap(AnalyticsDashboard.QueryOf(ApplyParams(f, chartLimitSelect)));
         && "ageRange" !in query
         && forall v :: ("ageRange", v) !in Views.AnalyticsFilterDict(query)
  {
    FilterKeyAgeRange(a, b);
    AgeRangeKeyIsNew();
    UnknownKeyIgnored(InitialFilters, "agerange", "ageRange", value, chartLimitSelect);
  }

  lemma AgeRangeKeyIsNew()
    ensures "agerange" !in KeySet(InitialFilters) && "ageRange" in KeySet(InitialFilters) && "ageRange" in Views.TextFilterParams
    ensures Get(InitialFilters, "ageRange") == Some("all")
    ensures forall i :: 0 <= i < |InitialFilters| && InitialFilters[i].0 == "ageRange" ==> InitialFilters[i].1 == "all"
  {
    var f := InitialFilters;
    assert f[3].0 == "ageRange";
    assert Views.TextFilterParams[3] == "ageRange";
    forall i | 0 <= i < |f| ensures f[i].0 != "agerange" {
      assert f[i].0 in ["country", "setting", "emotion", "ageRange", "dateRange"];
    }
  }

  /** Setting a key the filters do not have leaves another key's 'all' unsent. */
  lemma UnknownKeyIgnored(f0: FilterMap, key: string, other: string, value: string, select: Option<string>)
    requires key !in KeySet(f0) && other in KeySet(f0) && other in Views.TextFilterParams
    requires forall i :: 0 <= i < |f0| && f0[i].0 == other ==> f0[i].1 == "all"
    ensures var f := Set(f0, key, value);
      && Get(f, other) == Get(f0, other)
      && Get(f, key) == Some(value)
      && var query := QueryMap(AnalyticsDashboard.QueryOf(ApplyParams(f, select)));
         && other !in query
         && forall v :: (other, v) !in Views.AnalyticsFilterDict(query)
  {
    var f := Set(f0, key, value);
    assert other != key;
    GetSet(f0, key, value, other);
    assert f == f0 + [(key, value)];
    forall i | 0 <= i < |f| && f[i].0 == other
      ensures f[i].1 == "all"
    {
      assert i < |f0| && f[i] == f0[i];
    }
    assert other != "chart_limit";
    NotSent(f, other, select);
    Views.AnalyticsFilterRules(QueryMap(AnalyticsDashboard.QueryOf(ApplyParams(f, select))), other);
  }

  /**
   * With the intended key the choice replaces the 'all' of "ageRange",
   * the filter object keeps its five keys, and the server receives the
   * age range.
   */
  lemma AgeRangeChoiceApplied(id: string, value: string, chartLimitSelect: Option<string>)
    requires id == "age-range-filter" && value != "" && value != "all"
    ensures var f := Set(InitialFilters, IntendedFilterKey(id), value);
      && KeySet(f) == KeySet(InitialFilters) && |f| == 5
      && Get(f, "ageRange") == Some(value)
      && var query := QueryMap(AnalyticsDashboard.QueryOf(ApplyParams(f, chartLimitSelect)));
         && "ageRange" in query && query["ageRange"] == value
         && (exists v :: ("ageRange", v) in Views.AnalyticsFilterDict(query))
  {
    assert DistinctKeys(InitialFilters);
    assert InitialFilters[3].0 == "ageRange";
    ChoiceApplied(InitialFilters, 3, value, chartLimitSelect);
  }

  /** Choosing a real value for an existing text filter keeps the keys and sends that value. */
  lemma ChoiceApplied(f0: FilterMap, i: nat, value: string, select: Option<string>)
    requires DistinctKeys(f0) && i < |f0| && f0[i].0 in Views.TextFilterParams
    requires value != "" && value != "all"
    ensures var f := Set(f0, f0[i].0, value);
      && KeySet(f) == KeySet(f0) && |f| == |f0|
      && Get(f, f0[i].0) == Some(value)
      && var query := QueryMap(AnalyticsDashboard.QueryOf(ApplyParams(f, select)));
         && f0[i].0 in query && query[f0[i].0] == value
         && (exists v :: (f0[i].0, v) in Views.AnalyticsFilterDict(query))
  {
    var key := f0[i].0;
    ExistingKeySet(f0, i, value);
    FilterReachesServer(Set(f0, key, value), key, value, select);
  }

  /** Setting an existing key keeps the keys and their number, and the entry holds the new value. */
  lemma ExistingKeySet(f0: FilterMap, i: nat, value: string)
    requires DistinctKeys(f0) && i < |f0|
    ensures var f := Set(f0, f0[i].0, value);
      && KeySet(f) == KeySet(f0) && |f| == |f0|
      && Get(f, f0[i].0) == Some(value)
      && DistinctKeys(f) && (f0[i].0, value) in f
  {
    var key := f0[i].0;
    assert key in KeySet(f0);
    var f := Set(f0, key, value);
    SetExisting(f0, i, value);
    assert f[i] == (key, value);
    GetSet(f0, key, value, "");
    SetDistinct(f0, key, value);
  }

  /** A text filter holding a real value reaches the server and becomes a filter of the analytics query. */
  lemma FilterReachesServer(f: FilterMap, key: string, value: string, select: Option<string>)
    requires DistinctKeys(f) && (key, value) in f
    requires key in Views.TextFilterParams && value != "all" && value != ""
    ensures var query := QueryMap(AnalyticsDashboard.QueryOf(ApplyParams(f, select)));
      && key in query && query[key] == value
      && (exists v :: (key, v) in Views.AnalyticsFilterDict(query))
  {
    Sent(f, key, value, select);
    Views.AnalyticsFilterRules(QueryMap(AnalyticsDashboard.QueryOf(ApplyParams(f, select))), key);
  }

  // ---------------------------------------------------------------------
  // Real-time updates

  /** A running `setInterval` timer; a NaN delay runs as 0. */
  datatype Timer = Timer(delay: int)

  function DelayOf(selectValue: string): int
  {
    match JsParseInt(selectValue)
    case None => 0
    case Some(n) => n
  }

  class RealTimeAnalytics {
    var isEnabled: bool
    var updateInterval: Option<Timer>
    var toast: Option<string>

    /** Polling is on exactly when a timer is held. */
    predicate Valid()
      reads this
    {
      isEnabled <==> updateInterval.Some?
    }

    constructor()
      ensures Valid() && !isEnabled && updateInterval.None? && toast.None?
    {
      isEnabled, updateInterval, toast := false, None, None;
    }

    /** startRealTimeUpdates: enabled, with a timer at the selected delay. */
    method Start(intervalSelect: string)
      modifies this
      ensures Valid() && isEnabled && updateInterval == Some(Timer(DelayOf(intervalSelect)))
      ensures toast == Some("Real-time updates enabled")
    {
      isEnabled := true;
      updateInterval := Some(Timer(DelayOf(intervalSelect)));
      toast := Some("Real-time updates enabled");
    }

    /** stopRealTimeUpdates: disabled, and the timer cleared. */
    method Stop()
      modifies this
      ensures Valid() && !isEnabled && updateInterval.None?
      ensures toast == Some("Real-time updates disabled")
    {
      isEnabled := false;
      if updateInterval.Some? {
        updateInterval := None;
      }
      toast := Some("Real-time updates disabled");
    }

    /** The checkbox: checked starts polling, unchecked stops it. */
    method ToggleChanged(checked: bool, intervalSelect: string)
      modifies this
      ensures Valid() && isEnabled == checked
      ensures checked ==> updateInterval == Some(Timer(DelayOf(intervalSelect)))
    {
      if checked {
        Start(intervalSelect);
      } else {
        Stop();
      }
    }

    /** A new interval restarts polling at the new delay only while it is enabled. */
    method IntervalChanged(intervalSelect: string)
      requires Valid()
      modifies this
      ensures Valid()
      ensures old(isEnabled) ==> isEnabled && updateInterval == Some(Timer(DelayOf(intervalSelect)))
      ensures !old(isEnabled) ==> isEnabled == old(isEnabled) && updateInterval == old(updateInterval) && toast == old(toast)
    {
      if isEnabled {
        Stop();
        Start(intervalSelect);
      }
    }
  }
}

=== FILE: cached_analytics.dfy ===
/**
 * The cached analytics service (utils/cached_analytics.py). The cache is
 * a map from key to stored value; the md5 digest of a key's parameters is
 * a function the service is given. Only the full analytics result, the
 * field distributions and the age ranges are modelled as cached values.
 */
module CachedAnalytics {
  import opened Common
  import opened Models
  import opened Counting
  import opened Analytics
  import Views

  const KeyPrefix := "analytics_"

  /** `s[:n]`. */
  function Take(s: string, n: nat): (r: string)
    ensures |r| == if |s| < n then |s| else n
  {
    if |s| <= n then s else s[..n]
  }

  /** `f"analytics_{prefix}_{digest[:8]}"`. */
  function CacheKey(prefix: string, digest: string): string
  {
    KeyPrefix + prefix + "_" + Take(digest, 8)
  }

  /** The prefix part of a key of the form `analytics_<prefix>_<8 characters>`. */
  function PrefixOf(key: string): string
  {
    if |key| >= 19 then key[10..|key| - 9] else ""
  }

  /** The digest part of such a key. */
  function DigestOf(key: string): string
  {
    if |key| >= 19 then key[|key| - 8..] else ""
  }

  /**
   * With a digest of at least 8 characters (an md5 hex digest has 32), the
   * key starts with `analytics_`, has the prefix and then `_` and exactly
   * the first 8 digest characters, and both parts can be read back.
   */
  lemma CacheKeyShape(prefix: string, digest: string)
    requires |digest| >= 8
    ensures var k := CacheKey(prefix, digest);
      && |k| == |prefix| + 19
      && StartsWith(k, KeyPrefix + prefix + "_")
      && PrefixOf(k) == prefix
      && DigestOf(k) == digest[..8]
  {
    var k := CacheKey(prefix, digest);
    assert k == KeyPrefix + prefix + "_" + digest[..8];
    assert k[10..|k| - 9] == prefix;
    assert k[|k| - 8..] == digest[..8];
    assert k[..|KeyPrefix + prefix + "_"|] == KeyPrefix + prefix + "_";
  }

  /** Keys with different prefixes never collide, so each kind of cached value has its own keys. */
  lemma CacheKeyInjective(p1: string, d1: string, p2: string, d2: string)
    requires |d1| >= 8 && |d2| >= 8
    requires CacheKey(p1, d1) == CacheKey(p2, d2)
    ensures p1 == p2 && d1[..8] == d2[..8]
  {
    CacheKeyShape(p1, d1);
    CacheKeyShape(p2, d2);
  }

  lemma RangesKeyIsNotFieldKey(d1: string, d2: string)
    requires |d1| >= 8 && |d2| >= 8
    ensures CacheKey("age_ranges", d1) != CacheKey("field_dist", d2)
  {
    if CacheKey("age_ranges", d1) == CacheKey("field_dist", d2) {
      CacheKeyInjective("age_ranges", d1, "field_dist", d2);
    }
  }

  /** What a key's digest is computed from: the JSON of these parameters. */
  datatype KeyParams =
    | FullParams(limitCharts: int, limitFavorites: int, filters: FilterDict)
    | FieldParams(field: string)
    | NoParams

  /** A stored analytics result: the data, or an error with its message. */
  datatype CachedReport =
    | CachedReport(error: Option<string>, stats: Stats, charts: Charts,
                   countryData: seq<(string, nat)>, settingData: seq<(string, nat)>,
                   emotionData: seq<(string, nat)>, ageRanges: seq<(string, nat)>, recent: Activity)
    | CachedFailure(message: string)

  /** `analytics_data.get('error')` is truthy. */
  predicate HasError(r: CachedReport)
  {
    r.CachedFailure? || (r.error.Some? && r.error.value != "")
  }

  datatype CacheValue =
    | ReportValue(report: CachedReport)
    | DistValue(dist: seq<(string, nat)>)
    | RangesValue(ranges: seq<(string, nat)>)

  /** `if cached_data:` — a dictionary result is never empty; a list or dictionary of counts may be. */
  predicate NonEmpty(v: CacheValue)
  {
    match v
    case ReportValue(_) => true
    case DistValue(d) => d != []
    case RangesValue(r) => r != []
  }

  /** Each kind of value lives under keys of its own prefix. */
  predicate StoredKind(key: string, v: CacheValue)
  {
    match v
    case ReportValue(_) => PrefixOf(key) == "full_analytics"
    case DistValue(_) => PrefixOf(key) == "field_dist"
    case RangesValue(_) => PrefixOf(key) == "age_ranges"
  }

  /** Under a `full_analytics` key only a report can be stored. */
  lemma ReportKeyKind(k: string, v: CacheValue)
    requires StoredKind(k, v) && PrefixOf(k) == "full_analytics"
    ensures v.ReportValue?
  {
    assert |PrefixOf(k)| == 14;
  }

  /** Storing a value of the kind its key names keeps every stored value of its key's kind. */
  lemma StoreKeepsKinds(store: map<string, CacheValue>, key: string, v: CacheValue)
    requires KindsMatch(store) && StoredKind(key, v)
    ensures KindsMatch(store[key := v])
  {
  }

  /**
   * `if cached_data: return cached_data`, else compute: the value `got` is
   * the non-empty one stored under `key` in `s`, or else `computed`.
   */
  predicate Served(s: map<string, CacheValue>, key: string, got: CacheValue, computed: CacheValue)
  {
    if key in s && NonEmpty(s[key]) then s[key] == got else got == computed
  }

  /** `key` is present in `a` iff in `b`, with the same value. */
  predicate Unchanged(a: map<string, CacheValue>, b: map<string, CacheValue>, key: string)
  {
    (key in a <==> key in b) && (key in a ==> a[key] == b[key])
  }

  /**
   * The four distributions of a fresh result against the store `s` and
   * the keys they are read under (country, setting, emotion, ranges).
   */
  predicate ServedFour(s: map<string, CacheValue>, ck: string, sk: string, ek: string, rk: string, q: seq<Scene>,
                       countryData: seq<(string, nat)>, settingData: seq<(string, nat)>,
                       emotionData: seq<(string, nat)>, ageRanges: seq<(string, nat)>)
  {
    && Served(s, ck, DistValue(countryData), DistValue(Distribution(Countries(q))))
    && (sk != ck ==> Served(s, sk, DistValue(settingData), DistValue(Distribution(Settings(q)))))
    && (ek != ck && ek != sk ==> Served(s, ek, DistValue(emotionData), DistValue(Distribution(Emotions(q)))))
    && Served(s, rk, RangesValue(ageRanges), RangesValue(AgeRanges(EffAges(q))))
  }

  /**
   * Each value was served from the store as it stood when its key was
   * read; a key no earlier step wrote reads the same in the first store.
   */
  lemma ServedEarlier(s0: map<string, CacheValue>, s1: map<string, CacheValue>, s2: map<string, CacheValue>,
                      s3: map<string, CacheValue>, ck: string, sk: string, ek: string, rk: string, q: seq<Scene>,
                      countryData: seq<(string, nat)>, settingData: seq<(string, nat)>,
                      emotionData: seq<(string, nat)>, ageRanges: seq<(string, nat)>)
    requires Served(s0, ck, DistValue(countryData), DistValue(Distribution(Countries(q))))
    requires Served(s1, sk, DistValue(settingData), DistValue(Distribution(Settings(q))))
    requires Served(s2, ek, DistValue(emotionData), DistValue(Distribution(Emotions(q))))
    requires Served(s3, rk, RangesValue(ageRanges), RangesValue(AgeRanges(EffAges(q))))
    requires sk != ck ==> Unchanged(s0, s1, sk)
    requires ek != ck && ek != sk ==> Unchanged(s0, s2, ek)
    requires Unchanged(s0, s3, rk)
    ensures ServedFour(s0, ck, sk, ek, rk, q, countryData, settingData, emotionData, ageRanges)
  {
  }

  /** Every stored value is of the kind its key's prefix names. */
  predicate KindsMatch(store: map<string, CacheValue>)
  {
    forall k :: k in store ==> StoredKind(k, store[k])
  }

  datatype CacheInfo = CacheInfo(cached: bool, key: string, source: string)

  /** _empty_analytics_response: the error text, zero statistics and four empty charts. */
  function EmptyAnalyticsResponse(): (r: CachedReport)
    ensures r.CachedReport? && HasError(r)
    ensures r.charts.countries.labels == r.charts.settings.labels == r.charts.emotions.labels == r.charts.ageRanges.labels == []
    ensures r.charts.countries.data == r.charts.settings.data == r.charts.emotions.data == r.charts.ageRanges.data == []
    ensures r.stats.totalScenes == 0 && r.stats.totalFavorites == 0
    ensures r.recent == RecentActivity(0)
  {
    CachedReport(Some("No scenes available for analysis"), Stats(0, 0, 0, 0, 0, 0),
                 Charts(Chart([], []), Chart([], []), Chart([], []), Chart([], [])),
                 [], [], [], [], Activity(0, 0, 0))
  }

  /** The fresh result assembled from the statistics of `q` and its four distributions. */
  function FreshReport(q: seq<Scene>, totalFavorites: nat, countryData: seq<(string, nat)>, settingData: seq<(string, nat)>,
                       emotionData: seq<(string, nat)>, ageRanges: seq<(string, nat)>): (r: CachedReport)
    ensures r.CachedReport? && !HasError(r)
  {
    CachedReport(None, StatsOf(q, totalFavorites),
                 Charts(ChartOf(countryData), ChartOf(settingData), ChartOf(emotionData),
                        Chart(Labels(ageRanges), Counts(ageRanges))),
                 countryData, settingData, emotionData, ageRanges, RecentActivity(|q|))
  }

  function FieldValues(scenes: seq<Scene>, field: string): seq<string>
  {
    if field == "country" then Countries(scenes)
    else if field == "setting" then Settings(scenes)
    else Emotions(scenes)
  }

  /** The three field names select their own values. */
  lemma FieldValuesNamed(q: seq<Scene>)
    ensures FieldValues(q, "country") == Countries(q)
    ensures FieldValues(q, "setting") == Settings(q)
    ensures FieldValues(q, "emotion") == Emotions(q)
  {
    assert "setting"[0] != "country"[0];
    assert "emotion"[0] != "country"[0] && "emotion"[0] != "setting"[0];
  }

  /** How many of `ages` a bucket's own query counts (`__gte`/`__lte` filters). */
  function CountInBucket(ages: seq<nat>, b: AgeBucket): nat
  {
    if ages == [] then 0
    else CountInBucket(ages[..|ages| - 1], b) + (if InBucket(ages[|ages| - 1], b) then 1 else 0)
  }

  /** The fresh age ranges of _get_cached_age_ranges: the same keys, each counted by its own query. */
  function FreshAgeRanges(ages: seq<nat>): seq<(string, nat)>
  {
    var (lo, hi) := AgeBounds(ages);
    var bs := Buckets(lo, hi);
    seq(|bs|, i requires 0 <= i < |bs| => (BucketKey(bs[i]), CountInBucket(ages, bs[i])))
  }

  /** With pairwise disjoint buckets, the first-match tally of a bucket is its own count. */
  lemma {:induction false} TallyIsCount(ages: seq<nat>, bs: seq<AgeBucket>, i: nat)
    requires i < |bs|
    requires forall a: int, j, k :: 0 <= j < k < |bs| ==> !(InBucket(a, bs[j]) && InBucket(a, bs[k]))
    ensures Tally(ages, bs)[i] == CountInBucket(ages, bs[i])
  {
    if ages != [] {
      var init := ages[..|ages| - 1];
      var a := ages[|ages| - 1];
      TallyIsCount(init, bs, i);
      if InBucket(a, bs[i]) {
        assert FirstMatch(a, bs) == Some(i);
      }
    }
  }

  /**
   * The cached service's age ranges equal those of
   * calculate_dynamic_age_ranges for every list of ages: the same keys in
   * the same order, and the same counts, because the buckets are disjoint
   * and the `start+` bucket counts every age from its start.
   */
  lemma FreshAgeRangesAgree(ages: seq<nat>)
    ensures FreshAgeRanges(ages) == AgeRanges(ages)
  {
    var (lo, hi) := AgeBounds(ages);
    var bs := Buckets(lo, hi);
    forall a: int, j, k | 0 <= j < k < |bs| ensures !(InBucket(a, bs[j]) && InBucket(a, bs[k])) {
      AgeBucketsDisjoint(lo, hi, a, j, k);
    }
    forall i | 0 <= i < |bs| ensures Tally(ages, bs)[i] == CountInBucket(ages, bs[i]) {
      TallyIsCount(ages, bs, i);
    }
  }

  class AnalyticsCache {
    var store: map<string, CacheValue>
    const digest: KeyParams -> string

    ghost predicate Valid()
      reads this
    {
      && (forall p :: |digest(p)| == 32)
      && KindsMatch(store)
    }

    constructor(digest: KeyParams -> string, initial: map<string, CacheValue>)
      requires forall p :: |digest(p)| == 32
      requires forall k :: k in initial ==> StoredKind(k, initial[k])
      ensures Valid() && this.digest == digest && store == initial
    {
      this.digest := digest;
      store := initial;
    }

    function FullKey(limitCharts: int, limitFavorites: int, filters: FilterDict): string
    {
      CacheKey("full_analytics", digest(FullParams(limitCharts, limitFavorites, filters)))
    }

    function FieldKey(field: string): string
    {
      CacheKey("field_dist", digest(FieldParams(field)))
    }

    function RangesKey(): string
    {
      CacheKey("age_ranges", digest(NoParams))
    }

    /**
     * _get_cached_field_distribution: a non-empty stored distribution is
     * returned whatever `scenes` is (the key does not depend on it);
     * otherwise the distribution of `scenes` is computed and stored.
     */
    method GetCachedFieldDistribution(field: string, scenes: seq<Scene>) returns (d: seq<(string, nat)>)
      requires Valid()
      modifies this
      ensures Valid()
      ensures var key := FieldKey(field);
        if key in old(store) && NonEmpty(old(store)[key])
        then old(store)[key] == DistValue(d) && store == old(store)
        else d == Distribution(FieldValues(scenes, field)) && store == old(store)[key := DistValue(d)]
    {
      var key := FieldKey(field);
      CacheKeyShape("field_dist", digest(FieldParams(field)));
      if key in store && NonEmpty(store[key]) && store[key].DistValue? {
        return store[key].dist;
      }
      d := Distribution(FieldValues(scenes, field));
      store := store[key := DistValue(d)];
    }

    /**
     * _get_cached_age_ranges: a non-empty stored dictionary is returned
     * whatever `scenes` is; otherwise the ranges of `scenes` are computed,
     * one query per bucket, and stored.
     */
    method GetCachedAgeRanges(scenes: seq<Scene>) returns (r: seq<(string, nat)>)
      requires Valid()
      modifies this
      ensures Valid()
      ensures var key := RangesKey();
        if key in old(store) && NonEmpty(old(store)[key])
        then old(store)[key] == RangesValue(r) && store == old(store)
        else r == AgeRanges(EffAges(scenes)) && store == old(store)[key := RangesValue(r)]
    {
      var key := RangesKey();
      CacheKeyShape("age_ranges", digest(NoParams));
      if key in store && NonEmpty(store[key]) && store[key].RangesValue? {
        return store[key].ranges;
      }
      r := FreshAgeRanges(EffAges(scenes));
      FreshAgeRangesAgree(EffAges(scenes));
      store := store[key := RangesValue(r)];
    }

    /**
     * _generate_fresh_analytics: filter the scenes (an age range that does
     * not parse is an error), answer the empty response when nothing is
     * left, otherwise assemble the result from the cached helpers. The
     * charts are never truncated: the chart limit only enters the key.
     */
    method GenerateFresh(filters: FilterDict, db: Database) returns (report: CachedReport)
      requires Valid()
      modifies this
      ensures Valid()
      ensures FilteredScenes(db.scenes, filters).None? ==>
        report == CachedFailure("Cached analytics error: invalid age range") && store == old(store)
      ensures FilteredScenes(db.scenes, filters) == Some([]) ==>
        report == EmptyAnalyticsResponse() && store == old(store)
      ensures match FilteredScenes(db.scenes, filters)
        case Some(q) => q != [] ==>
          && report.CachedReport?
          && report == FreshReport(q, if filters != [] then CountIn(db.favoriteSceneIds, q) else |db.favoriteSceneIds|,
                                   report.countryData, report.settingData, report.emotionData, report.ageRanges)
          && ServedAll(old(store), q, report.countryData, report.settingData, report.emotionData, report.ageRanges)
        case None => true
    {
      var filtered := FilteredScenes(db.scenes, filters);
      if filtered.None? {
        return CachedFailure("Cached analytics error: invalid age range");
      }
      var q := filtered.value;
      if |q| == 0 {
        return EmptyAnalyticsResponse();
      }
      var totalFavorites := if filters != [] then CountIn(db.favoriteSceneIds, q) else |db.favoriteSceneIds|;
      var countryData, settingData, emotionData, ageRanges := Distributions(q);
      report := FreshReport(q, totalFavorites, countryData, settingData, emotionData, ageRanges);
    }

    /**
     * Each of the four distributions is the non-empty value stored under
     * its key in `s`, or else the one computed from `q`. The setting and
     * emotion clauses are stated for keys that differ from the keys read
     * before them: the digest is an arbitrary function here, so two
     * eight-character digests may coincide.
     */
    ghost predicate ServedAll(s: map<string, CacheValue>, q: seq<Scene>, countryData: seq<(string, nat)>,
                              settingData: seq<(string, nat)>, emotionData: seq<(string, nat)>, ageRanges: seq<(string, nat)>)
    {
      ServedFour(s, FieldKey("country"), FieldKey("setting"), FieldKey("emotion"), RangesKey(), q,
                 countryData, settingData, emotionData, ageRanges)
    }

    /**
     * The four distributions of a fresh result, each from its cache helper:
     * a stored non-empty one is returned, one that was not is computed
     * from `q`.
     */
    method Distributions(q: seq<Scene>)
      returns (countryData: seq<(string, nat)>, settingData: seq<(string, nat)>,
               emotionData: seq<(string, nat)>, ageRanges: seq<(string, nat)>)
      requires Valid()
      modifies this
      ensures Valid()
      ensures ServedAll(old(store), q, countryData, settingData, emotionData, ageRanges)
    {
      var ck, sk, ek, rk := FieldKey("country"), FieldKey("setting"), FieldKey("emotion"), RangesKey();
      RangesKeyIsNotFieldKey(digest(NoParams), digest(FieldParams("country")));
      RangesKeyIsNotFieldKey(digest(NoParams), digest(FieldParams("setting")));
      RangesKeyIsNotFieldKey(digest(NoParams), digest(FieldParams("emotion")));
      FieldValuesNamed(q);
      ghost var s0 := store;
      countryData := GetCachedFieldDistribution("country", q);
      ghost var s1 := store;
      settingData := GetCachedFieldDistribution("setting", q);
      ghost var s2 := store;
      emotionData := GetCachedFieldDistribution("emotion", q);
      ghost var s3 := store;
      ageRanges := GetCachedAgeRanges(q);
      assert Unchanged(s0, s3, rk);
      assert ek != ck && ek != sk ==> Unchanged(s0, s2, ek);
      assert sk != ck ==> Unchanged(s0, s1, sk);
      ServedEarlier(s0, s1, s2, s3, ck, sk, ek, rk, q, countryData, settingData, emotionData, ageRanges);
    }

    /**
     * analyze_scenes_cached: a stored result is returned with
     * `cached = true` and nothing regenerated; otherwise the result of
     * `GenerateFresh` (the age-range error, the empty response, or the
     * fresh report over the filtered scenes with its four distributions)
     * is returned and, unless it carries an error, stored under the key
     * with `cached = false`; an error result leaves the store as it was.
     */
    method AnalyzeScenesCached(limitCharts: int, limitFavorites: int, filters: FilterDict, db: Database)
      returns (report: CachedReport, info: Option<CacheInfo>)
      requires Valid()
      modifies this
      ensures Valid()
      ensures var key := FullKey(limitCharts, limitFavorites, filters);
        key in old(store) ==>
          && report == old(store)[key].report
          && info == Some(CacheInfo(true, key, "redis"))
          && store == old(store)
      ensures var key := FullKey(limitCharts, limitFavorites, filters);
        key !in old(store) ==>
          && (HasError(report) ==> info.None? && key !in store)
          && (!HasError(report) ==> info == Some(CacheInfo(false, key, "database")) && key in store && store[key] == ReportValue(report))
      ensures var key := FullKey(limitCharts, limitFavorites, filters);
        key !in old(store) ==>
          match FilteredScenes(db.scenes, filters)
          case None =>
            report == CachedFailure("Cached analytics error: invalid age range") && store == old(store)
          case Some(q) =>
            if q == [] then report == EmptyAnalyticsResponse() && store == old(store)
            else
              && report.CachedReport?
              && report == FreshReport(q, if filters != [] then CountIn(db.favoriteSceneIds, q) else |db.favoriteSceneIds|,
                                       report.countryData, report.settingData, report.emotionData, report.ageRanges)
              && ServedAll(old(store), q, report.countryData, report.settingData, report.emotionData, report.ageRanges)
    {
      var key := FullKey(limitCharts, limitFavorites, filters);
      CacheKeyShape("full_analytics", digest(FullParams(limitCharts, limitFavorites, filters)));
      if key in store {
        ReportKeyKind(key, store[key]);
      }
      if key in store && store[key].ReportValue? {
        return store[key].report, Some(CacheInfo(true, key, "redis"));
      }
      report := GenerateFresh(filters, db);
      if HasError(report) {
        return report, None;
      }
      StoreKeepsKinds(store, key, ReportValue(report));
      store := store[key := ReportValue(report)];
      info := Some(CacheInfo(false, key, "database"));
    }

    /**
     * invalidate_cache: drop every key under `analytics_<type>_`, or every
     * `analytics_` key when the type is 'all' or falsy (missing or empty).
     */
    method InvalidateCache(cacheType: Option<string>)
      requires Valid()
      modifies this
      ensures Valid()
      ensures var pattern := if cacheType.None? || cacheType == Some("") || cacheType == Some("all") then KeyPrefix
                             else KeyPrefix + cacheType.value + "_";
        store == map k | k in old(store) && !StartsWith(k, pattern) :: old(store)[k]
    {
      var pattern := if cacheType.None? || cacheType == Some("") || cacheType == Some("all") then KeyPrefix
                     else KeyPrefix + cacheType.value + "_";
      store := map k | k in store && !StartsWith(k, pattern) :: store[k];
    }
  }

  /** Invalidating a prefix removes every key made with that prefix, whatever its digest. */
  lemma InvalidatedKeyGone(prefix: string, digest: string)
    requires |digest| >= 8
    ensures StartsWith(CacheKey(prefix, digest), KeyPrefix + prefix + "_")
    ensures StartsWith(CacheKey(prefix, digest), KeyPrefix)
  {
    CacheKeyShape(prefix, digest);
    var k := CacheKey(prefix, digest);
    assert k[..10] == (KeyPrefix + prefix + "_")[..10];
  }

  /**
   * The age-range and field-distribution keys ignore the queryset: once a
   * non-empty value is stored, a later call for other scenes returns it.
   */
  method StaleAgeRanges(c: AnalyticsCache, first: seq<Scene>, later: seq<Scene>)
    returns (r1: seq<(string, nat)>, r2: seq<(string, nat)>)
    requires c.Valid()
    modifies c
    ensures r1 != [] ==> r2 == r1
    ensures c.RangesKey() !in old(c.store) ==> r1 == AgeRanges(EffAges(first))
  {
    r1 := c.GetCachedAgeRanges(first);
    r2 := c.GetCachedAgeRanges(later);
  }
}

=== FILE: common.dfy ===
/**
 * Shared vocabulary for the Scenes model: an option type, and the few
 * Python and JavaScript string built-ins that the modelled code relies on
 * (`int()`, `parseInt`, `strip`/`trim`, `lower`/`toLowerCase`, `split`,
 * `join`, `replace`). Only ASCII characters are modelled: white space,
 * digits, letters and case are the ASCII ones.
 */
module Common {

  datatype Option<T> = None | Some(value: T)

  /** Appending the empty sequence on either side changes nothing. */
  lemma ConcatEmpty<T>(a: seq<T>)
    ensures a + [] == a && [] + a == a
  {
  }

  /** Concatenation is associative. */
  lemma ConcatAssoc<T>(a: seq<T>, b: seq<T>, c: seq<T>)
    ensures a + (b + c) == a + b + c
  {
  }

  predicate IsDigit(c: char) { '0' <= c <= '9' }

  predicate AllDigits(s: string) { forall i :: 0 <= i < |s| ==> IsDigit(s[i]) }

  /** The number a string of decimal digits denotes. */
  function DigitsValue(s: string): nat
    requires AllDigits(s)
  {
    if s == [] then 0 else 10 * DigitsValue(s[..|s| - 1]) + (s[|s| - 1] as int - '0' as int)
  }

  /** Decimal rendering of a natural number (Python `str`, JavaScript `String`). */
  function NatToString(n: nat): (s: string)
    ensures |s| >= 1 && AllDigits(s) && DigitsValue(s) == n
  {
    if n < 10 then [('0' as int + n) as char]
    else
      var s := NatToString(n / 10) + [('0' as int + n % 10) as char];
      assert s[..|s| - 1] == NatToString(n / 10);
      s
  }

  function IntToString(i: int): string
  {
    if i < 0 then "-" + NatToString(-i) else NatToString(i)
  }

  /** Length of the longest prefix of `s` made of digits. */
  function DigitRun(s: string): (k: nat)
    ensures k <= |s| && AllDigits(s[..k]) && (k < |s| ==> !IsDigit(s[k]))
  {
    if s == [] || !IsDigit(s[0]) then 0
    else
      var k := 1 + DigitRun(s[1..]);
      assert forall i :: 1 <= i < k ==> s[..k][i] == s[1..][..k - 1][i - 1];
      k
  }

  /** The ASCII white space that both `str.strip` and `String.trim` remove. */
  predicate IsSpace(c: char)
  {
    c == ' ' || c == '\t' || c == '\n' || c == '\r' || c == '\U{0B}' || c == '\U{0C}'
  }

  function TrimStart(s: string): (r: string)
    ensures |r| <= |s| && r == s[|s| - |r|..]
    ensures r == [] || !IsSpace(r[0])
    ensures forall i :: 0 <= i < |s| - |r| ==> IsSpace(s[i])
  {
    if s != [] && IsSpace(s[0]) then TrimStart(s[1..]) else s
  }

  function TrimEnd(s: string): (r: string)
    ensures |r| <= |s| && r == s[..|r|]
    ensures r == [] || !IsSpace(r[|r| - 1])
    ensures forall i :: |r| <= i < |s| ==> IsSpace(s[i])
  {
    if s != [] && IsSpace(s[|s| - 1]) then TrimEnd(s[..|s| - 1]) else s
  }

  /** Python `str.strip()` and JavaScript `String.prototype.trim()`. */
  function Trim(s: string): string
  {
    TrimEnd(TrimStart(s))
  }

  /** The part of `t` after an optional leading sign. */
  function Unsigned(t: string): string
  {
    if t != [] && (t[0] == '-' || t[0] == '+') then t[1..] else t
  }

  function Signed(t: string, n: nat): int
  {
    if t != [] && t[0] == '-' then -(n as int) else n
  }

  predicate IsHexDigit(c: char) { IsDigit(c) || 'a' <= c <= 'f' || 'A' <= c <= 'F' }

  predicate AllHexDigits(s: string) { forall i :: 0 <= i < |s| ==> IsHexDigit(s[i]) }

  function HexDigitValue(c: char): nat
    requires IsHexDigit(c)
  {
    if IsDigit(c) then c as int - '0' as int
    else if 'a' <= c <= 'f' then c as int - 'a' as int + 10
    else c as int - 'A' as int + 10
  }

  /** The number a string of hexadecimal digits denotes. */
  function HexValue(s: string): nat
    requires AllHexDigits(s)
  {
    if s == [] then 0 else 16 * HexValue(s[..|s| - 1]) + HexDigitValue(s[|s| - 1])
  }

  /** Length of the longest prefix of `s` made of hexadecimal digits. */
  function HexRun(s: string): (k: nat)
    ensures k <= |s| && AllHexDigits(s[..k]) && (k < |s| ==> !IsHexDigit(s[k]))
  {
    if s == [] || !IsHexDigit(s[0]) then 0
    else
      var k := 1 + HexRun(s[1..]);
      assert forall i :: 1 <= i < k ==> s[..k][i] == s[1..][..k - 1][i - 1];
      k
  }

  /** The `0x` or `0X` prefix that makes `parseInt` read hexadecimal. */
  predicate HexPrefixed(body: string)
  {
    |body| >= 2 && body[0] == '0' && (body[1] == 'x' || body[1] == 'X')
  }

  /**
   * JavaScript `parseInt(s)` with no radix: leading white space, an
   * optional sign, then the longest run of digits, hexadecimal after a
   * `0x`/`0X` prefix; `None` stands for NaN.
   */
  function JsParseInt(s: string): (r: Option<int>)
  {
    var t := TrimStart(s);
    var body := Unsigned(t);
    if HexPrefixed(body) then
      var k := HexRun(body[2..]);
      if k == 0 then None else Some(Signed(t, HexValue(body[2..][..k])))
    else
      var k := DigitRun(body);
      if k == 0 then None else Some(Signed(t, DigitsValue(body[..k])))
  }

  /**
   * Python's decimal integer literal as `int()` reads it: digits, where
   * single underscores may stand between two digits (PEP 515).
   */
  predicate PyDigits(s: string)
  {
    && s != []
    && (forall i :: 0 <= i < |s| ==> IsDigit(s[i]) || s[i] == '_')
    && (forall i :: 0 <= i < |s| && s[i] == '_' ==> 0 < i < |s| - 1 && IsDigit(s[i + 1]))
  }

  /** With the underscores removed, a Python literal is plain digits. */
  lemma PyDigitsDigits(s: string)
    requires PyDigits(s)
    ensures AllDigits(RemoveChar(s, '_'))
  {
    var r := RemoveChar(s, '_');
    forall i | 0 <= i < |r| ensures IsDigit(r[i]) {
      assert r[i] != '_';
      assert multiset(s)[r[i]] == multiset(r)[r[i]] > 0;
      assert r[i] in s;
      var j :| 0 <= j < |s| && s[j] == r[i];
    }
  }

  /**
   * Python `int(s)` on a string: surrounding white space, an optional sign
   * and a decimal literal, nothing else; `None` stands for ValueError.
   */
  function PyInt(s: string): (r: Option<int>)
  {
    var t := Trim(s);
    var body := Unsigned(t);
    if PyDigits(body) then
      PyDigitsDigits(body);
      Some(Signed(t, DigitsValue(RemoveChar(body, '_'))))
    else None
  }

  lemma {:induction false} DigitRunOfDigits(s: string)
    requires AllDigits(s)
    ensures DigitRun(s) == |s|
  {
    if s != [] {
      DigitRunOfDigits(s[1..]);
    }
  }

  /** `String(i)` has no white space at either end, and its sign and digits give back `i`. */
  lemma IntToStringParts(i: int)
    ensures var n: nat := if i < 0 then -i else i;
      && TrimStart(IntToString(i)) == IntToString(i)
      && TrimEnd(IntToString(i)) == IntToString(i)
      && Unsigned(IntToString(i)) == NatToString(n)
      && Signed(IntToString(i), n) == i
  {
    var n: nat := if i < 0 then -i else i;
    var d := NatToString(n);
    var s := IntToString(i);
    assert s[|s| - 1] == d[|d| - 1];
    assert !IsSpace(s[0]) && !IsSpace(s[|s| - 1]);
  }

  /** `parseInt` reads back what `String(n)` wrote. */
  lemma JsParseIntOfIntToString(i: int)
    ensures JsParseInt(IntToString(i)) == Some(i)
  {
    var n: nat := if i < 0 then -i else i;
    var d := NatToString(n);
    IntToStringParts(i);
    DigitRunOfDigits(d);
    assert d[..|d|] == d;
    assert !HexPrefixed(d) by {
      if |d| >= 2 {
        assert IsDigit(d[1]);
      }
    }
  }

  /** `int()` reads back what `str(n)` wrote. */
  lemma PyIntOfIntToString(i: int)
    ensures PyInt(IntToString(i)) == Some(i)
  {
    var n: nat := if i < 0 then -i else i;
    var d := NatToString(n);
    IntToStringParts(i);
    DigitsExclude(d, '_');
    RemoveCharAbsent(d, '_');
  }

  lemma PyIntOfNatToString(n: nat)
    ensures PyInt(NatToString(n)) == Some(n)
  {
    PyIntOfIntToString(n);
  }

  lemma {:induction false} HexRunOfHex(s: string)
    requires AllHexDigits(s)
    ensures HexRun(s) == |s|
  {
    if s != [] {
      HexRunOfHex(s[1..]);
    }
  }

  /** A string that neither starts nor ends with white space is its own `strip()`. */
  lemma TrimUnspaced(s: string)
    requires s != [] && !IsSpace(s[0]) && !IsSpace(s[|s| - 1])
    ensures TrimStart(s) == s && Trim(s) == s
  {
  }

  /** `parseInt` reads the digits after a `0x` prefix as hexadecimal. */
  lemma JsParseIntHex(h: string)
    requires h != [] && AllHexDigits(h)
    ensures JsParseInt("0x" + h) == Some(HexValue(h))
  {
    var s := "0x" + h;
    assert TrimStart(s) == s;
    assert s[2..] == h;
    HexRunOfHex(h);
    assert h[..|h|] == h;
  }

  /** Two groups of digits joined by one underscore form a Python literal. */
  lemma GroupedIsPyDigits(a: string, b: string)
    requires a != [] && b != [] && AllDigits(a) && AllDigits(b)
    ensures PyDigits(a + "_" + b)
  {
    var s := a + "_" + b;
    forall i | 0 <= i < |s| ensures if i == |a| then s[i] == '_' else IsDigit(s[i]) {
      if i < |a| {
        assert s[i] == a[i];
      } else if i > |a| {
        assert s[i] == b[i - |a| - 1];
      }
    }
    assert s[|a| + 1] == b[0];
  }

  lemma RemoveGroupUnderscore(a: string, b: string)
    requires AllDigits(a) && AllDigits(b)
    ensures RemoveChar(a + "_" + b, '_') == a + b
  {
    DigitsExclude(a, '_');
    DigitsExclude(b, '_');
    RemoveCharAppend(a + "_", b, '_');
    RemoveCharAppend(a, "_", '_');
    RemoveCharAbsent(a, '_');
    RemoveCharAbsent(b, '_');
    assert RemoveChar("_", '_') == [] by {
      assert "_"[1..] == [];
    }
    assert a + [] == a;
  }

  /** `int()` accepts one underscore between two groups of digits and ignores it (PEP 515). */
  lemma PyIntGrouped(a: string, b: string)
    requires a != [] && b != [] && AllDigits(a) && AllDigits(b)
    ensures PyInt(a + "_" + b) == Some(DigitsValue(a + b))
  {
    var s := a + "_" + b;
    assert s[0] == a[0] && s[|s| - 1] == b[|b| - 1];
    TrimUnspaced(s);
    assert Unsigned(s) == s;
    GroupedIsPyDigits(a, b);
    RemoveGroupUnderscore(a, b);
  }

  /** `int("2_5")` is 25. */
  lemma PyIntGroupedExample(a: string, b: string)
    requires a == "2" && b == "5"
    ensures PyInt(a + "_" + b) == Some(25)
  {
    PyIntGrouped(a, b);
    DigitsValueOfTwo(a + b, 25);
  }

  lemma DigitsValueOfTwo(d: string, n: nat)
    requires d == "25" && n == 25
    ensures AllDigits(d) && DigitsValue(d) == n
  {
    DigitsValueTwo(d);
  }

  lemma DigitsValueTwo(d: string)
    requires |d| == 2 && AllDigits(d)
    ensures DigitsValue(d) == 10 * (d[0] as int - '0' as int) + (d[1] as int - '0' as int)
  {
    var e := d[..1];
    assert e[..0] == [] && e[0] == d[0];
    assert DigitsValue(e) == e[0] as int - '0' as int;
    assert d[..|d| - 1] == e;
  }

  /** `parseInt("0x10")` is 16. */
  lemma JsParseIntHexExample(h: string)
    requires h == "10"
    ensures JsParseInt("0x" + h) == Some(16)
  {
    JsParseIntHex(h);
    HexValueTwo(h);
  }

  lemma HexValueTwo(h: string)
    requires |h| == 2 && AllHexDigits(h)
    ensures HexValue(h) == 16 * HexDigitValue(h[0]) + HexDigitValue(h[1])
  {
    var e := h[..1];
    assert e[..0] == [] && e[0] == h[0];
    assert HexValue(e) == HexDigitValue(e[0]);
    assert h[..|h| - 1] == e;
  }

  function LowerChar(c: char): char
  {
    if 'A' <= c <= 'Z' then (c as int + 32) as char else c
  }

  /** ASCII `str.lower()` / `String.prototype.toLowerCase()`. */
  function Lower(s: string): (r: string)
    ensures |r| == |s| && forall i :: 0 <= i < |s| ==> r[i] == LowerChar(s[i])
  {
    seq(|s|, i requires 0 <= i < |s| => LowerChar(s[i]))
  }

  predicate StartsWith(s: string, p: string)
  {
    |p| <= |s| && s[..|p|] == p
  }

  /** Index of the first occurrence of `p` in `s` (`str.find`, `indexOf`). */
  function IndexOf(s: string, p: string): (r: Option<nat>)
    ensures r.Some? ==> r.value + |p| <= |s| && StartsWith(s[r.value..], p)
    ensures r.Some? ==> forall j :: 0 <= j < r.value ==> !StartsWith(s[j..], p)
    ensures r.None? ==> forall j :: 0 <= j <= |s| ==> !StartsWith(s[j..], p)
    decreases |s|
  {
    if StartsWith(s, p) then Some(0)
    else if s == [] then None
    else
      var rest := IndexOf(s[1..], p);
      assert forall j :: 1 <= j <= |s| ==> s[j..] == s[1..][j - 1..];
      if rest.None? then None else Some(rest.value + 1)
  }

  predicate Contains(s: string, p: string) { IndexOf(s, p).Some? }

  /** JavaScript `s.replace(p, rep)` with a string pattern: first occurrence only. */
  function ReplaceFirst(s: string, p: string, rep: string): string
  {
    match IndexOf(s, p)
    case None => s
    case Some(i) => s[..i] + rep + s[i + |p|..]
  }

  /** The first occurrence of a one-character pattern is at the first index holding it. */
  lemma FirstOccurrence(s: string, c: char, i: nat)
    requires i < |s| && s[i] == c && c !in s[..i]
    ensures IndexOf(s, [c]) == Some(i)
  {
    assert s[i..][..1] == [c];
    forall j | 0 <= j < i ensures !StartsWith(s[j..], [c]) {
      assert s[..i][j] == s[j];
      assert s[j..][0] == s[j];
    }
  }

  /** A character that does not occur is not found. */
  lemma NoOccurrence(s: string, c: char)
    requires c !in s
    ensures IndexOf(s, [c]) == None
  {
    forall j | 0 <= j <= |s| ensures !StartsWith(s[j..], [c]) {
      if j < |s| {
        assert s[j..][0] == s[j];
      }
    }
  }

  /** Python `s.replace(c, '')` for one character: every occurrence goes. */
  function RemoveChar(s: string, c: char): (r: string)
    ensures c !in r
    ensures forall x :: x != c ==> multiset(r)[x] == multiset(s)[x]
  {
    if s == [] then []
    else
      assert s == [s[0]] + s[1..];
      (if s[0] == c then [] else [s[0]]) + RemoveChar(s[1..], c)
  }

  /** Position of the first `c` in `s`. */
  function CharIndex(s: string, c: char): (i: nat)
    requires c in s
    ensures i < |s| && s[i] == c && c !in s[..i]
  {
    if s[0] == c then 0
    else
      var i := 1 + CharIndex(s[1..], c);
      assert s[..i] == [s[0]] + s[1..][..i - 1];
      i
  }

  /** `s.split(sep)` for a one-character separator, in Python and JavaScript alike. */
  function Split(s: string, sep: char): (parts: seq<string>)
    ensures |parts| >= 1
    ensures forall k :: 0 <= k < |parts| ==> sep !in parts[k]
    ensures Join(parts, [sep]) == s
    decreases |s|
  {
    if sep !in s then [s]
    else
      var i := CharIndex(s, sep);
      var rest := Split(s[i + 1..], sep);
      assert s == s[..i] + [sep] + s[i + 1..];
      [s[..i]] + rest
  }

  lemma RemoveCharAbsent(s: string, c: char)
    requires c !in s
    ensures RemoveChar(s, c) == s
  {
    if s != [] {
      assert c !in s[1..];
      RemoveCharAbsent(s[1..], c);
      assert s == [s[0]] + s[1..];
    }
  }

  lemma {:induction false} RemoveCharAppend(a: string, b: string, c: char)
    ensures RemoveChar(a + b, c) == RemoveChar(a, c) + RemoveChar(b, c)
  {
    if a != [] {
      assert (a + b)[1..] == a[1..] + b;
      RemoveCharAppend(a[1..], b, c);
    } else {
      assert a + b == b;
    }
  }

  /** Splitting `a + sep + b` where neither side holds `sep` gives back the two sides. */
  lemma SplitAround(a: string, sep: char, b: string)
    requires sep !in a && sep !in b
    ensures Split(a + [sep] + b, sep) == [a, b]
  {
    var s := a + [sep] + b;
    assert s[|a|] == sep;
    var i := CharIndex(s, sep);
    assert s[..|a|] == a;
    assert s[i + 1..] == b;
  }

  /** Splitting at the first separator: the text before it, then the split of the rest. */
  lemma SplitFirst(a: string, sep: char, b: string)
    requires sep !in a
    ensures Split(a + [sep] + b, sep) == [a] + Split(b, sep)
  {
    var s := a + [sep] + b;
    assert s[|a|] == sep;
    var i := CharIndex(s, sep);
    assert s[..i] == a;
    assert s[i + 1..] == b;
  }

  lemma DigitsExclude(s: string, c: char)
    requires AllDigits(s) && !IsDigit(c)
    ensures c !in s
  {
  }

  /** `sep.join(parts)` / `parts.join(sep)`. */
  function Join(parts: seq<string>, sep: string): string
  {
    if |parts| == 0 then ""
    else if |parts| == 1 then parts[0]
    else parts[0] + sep + Join(parts[1..], sep)
  }
}

=== FILE: counting.dfy ===
/**
 * Value counting as done by `Counter.most_common` and by the database's
 * `values(f).annotate(count=Count(f)).order_by('-count')`: every distinct
 * value once, with its number of occurrences, largest count first. The
 * contracts state the descending order and that nothing is gained or
 * lost; the order among equal counts is the one `SortByCount` happens to
 * produce and is not stated (Python's stable sort keeps first
 * appearance, the database leaves it open).
 */
module Counting {

  function Occurrences<T(==,!new)>(xs: seq<T>, x: T): nat
  {
    multiset(xs)[x]
  }

  predicate NoDuplicates<T(==,!new)>(s: seq<T>)
  {
    forall i, j :: 0 <= i < j < |s| ==> s[i] != s[j]
  }

  /** The distinct values of `xs`, in order of first appearance. */
  function Distinct<T(==,!new)>(xs: seq<T>): (d: seq<T>)
    ensures NoDuplicates(d)
    ensures forall x :: x in d <==> x in xs
  {
    if xs == [] then []
    else
      var init := xs[..|xs| - 1];
      var rest := Distinct(init);
      assert xs == init + [xs[|xs| - 1]];
      if xs[|xs| - 1] in rest then rest else rest + [xs[|xs| - 1]]
  }

  /** Each distinct value with its count, in order of first appearance. */
  function Counted<T(==,!new)>(xs: seq<T>): (r: seq<(T, nat)>)
    ensures |r| == |Distinct(xs)|
    ensures forall i :: 0 <= i < |r| ==> r[i] == (Distinct(xs)[i], Occurrences(xs, Distinct(xs)[i]))
  {
    var d := Distinct(xs);
    seq(|d|, i requires 0 <= i < |d| => (d[i], Occurrences(xs, d[i])))
  }

  predicate DescendingByCount<T>(ps: seq<(T, nat)>)
  {
    forall i, j :: 0 <= i < j < |ps| ==> ps[i].1 >= ps[j].1
  }

  /** Places `p` before the first entry whose count does not exceed its own. */
  function InsertByCount<T>(p: (T, nat), s: seq<(T, nat)>): (r: seq<(T, nat)>)
    requires DescendingByCount(s)
    ensures DescendingByCount(r)
    ensures |r| == |s| + 1
    ensures forall k :: 0 <= k < |r| ==> r[k].1 <= p.1 || (s != [] && r[k].1 <= s[0].1)
  {
    if s == [] || p.1 >= s[0].1 then [p] + s
    else [s[0]] + InsertByCount(p, s[1..])
  }

  lemma {:induction false} InsertByCountPermutes<T>(p: (T, nat), s: seq<(T, nat)>)
    requires DescendingByCount(s)
    ensures multiset(InsertByCount(p, s)) == multiset(s) + multiset{p}
  {
    if s != [] && p.1 < s[0].1 {
      InsertByCountPermutes(p, s[1..]);
      assert s == [s[0]] + s[1..];
    }
  }

  /** An insertion sort on descending count. */
  function SortByCount<T>(ps: seq<(T, nat)>): (r: seq<(T, nat)>)
    ensures DescendingByCount(r)
    ensures multiset(r) == multiset(ps)
    ensures |r| == |ps|
  {
    if ps == [] then []
    else
      assert ps == [ps[0]] + ps[1..];
      InsertByCountPermutes(ps[0], SortByCount(ps[1..]));
      InsertByCount(ps[0], SortByCount(ps[1..]))
  }

  /** The database's and `Counter`'s value distribution of `xs`. */
  function Distribution<T(==,!new)>(xs: seq<T>): seq<(T, nat)>
  {
    SortByCount(Counted(xs))
  }

  /** `Counter(xs).most_common(n)`: the first `n` entries of the distribution, or all of them. */
  function MostCommon<T(==,!new)>(xs: seq<T>, n: nat): (r: seq<(T, nat)>)
    ensures |r| == if n < |Distribution(xs)| then n else |Distribution(xs)|
    ensures r == Distribution(xs)[..|r|]
  {
    var d := Distribution(xs);
    if n < |d| then d[..n] else d
  }

  function Labels<T>(ps: seq<(T, nat)>): (r: seq<T>)
    ensures |r| == |ps| && forall i :: 0 <= i < |ps| ==> r[i] == ps[i].0
  {
    seq(|ps|, i requires 0 <= i < |ps| => ps[i].0)
  }

  function Counts<T>(ps: seq<(T, nat)>): (r: seq<nat>)
    ensures |r| == |ps| && forall i :: 0 <= i < |ps| ==> r[i] == ps[i].1
  {
    seq(|ps|, i requires 0 <= i < |ps| => ps[i].1)
  }

  lemma NoDuplicatesMultiset<T(!new)>(s: seq<T>, x: T)
    requires NoDuplicates(s)
    ensures multiset(s)[x] <= 1
  {
    if s != [] {
      assert s == [s[0]] + s[1..];
      NoDuplicatesMultiset(s[1..], x);
      if x == s[0] {
        assert x !in s[1..];
      }
    }
  }

  lemma RepeatedMultiset<T(!new)>(s: seq<T>, i: int, j: int)
    requires 0 <= i < j < |s| && s[i] == s[j]
    ensures multiset(s)[s[i]] >= 2
  {
    assert s == s[..j] + [s[j]] + s[j + 1..];
    assert s[i] in s[..j];
  }

  /**
   * The distribution lists every value of `xs` exactly once, each with its
   * number of occurrences (at least one), in descending order of count.
   */
  lemma DistributionFacts<T(!new)>(xs: seq<T>)
    ensures var d := Distribution(xs);
      && DescendingByCount(d)
      && NoDuplicates(Labels(d))
      && (forall x :: x in Labels(d) <==> x in xs)
      && (forall i :: 0 <= i < |d| ==> d[i].1 == Occurrences(xs, d[i].0) >= 1)
  {
    DistributionCounts(xs);
    DistributionNoDuplicates(xs);
    DistributionLabels(xs);
  }

  /** Sorting keeps the entries: the distribution and the counted list hold the same pairs. */
  lemma DistributionMembers<T(!new)>(xs: seq<T>)
    ensures forall p :: p in Distribution(xs) <==> p in Counted(xs)
  {
    var c := Counted(xs);
    var d := Distribution(xs);
    forall p ensures p in d <==> p in c {
      assert p in d <==> p in multiset(d);
      assert p in c <==> p in multiset(c);
    }
  }

  lemma DistributionCounts<T(!new)>(xs: seq<T>)
    ensures var d := Distribution(xs);
      forall i :: 0 <= i < |d| ==> d[i].1 == Occurrences(xs, d[i].0) >= 1
  {
    var c := Counted(xs);
    var d := Distribution(xs);
    DistributionMembers(xs);
    forall i | 0 <= i < |d|
      ensures d[i].1 == Occurrences(xs, d[i].0) >= 1
    {
      assert d[i] in c;
      var k :| 0 <= k < |c| && c[k] == d[i];
      assert Distinct(xs)[k] in xs;
    }
  }

  lemma DistributionNoDuplicates<T(!new)>(xs: seq<T>)
    ensures NoDuplicates(Labels(Distribution(xs)))
  {
    var c := Counted(xs);
    var d := Distribution(xs);
    assert NoDuplicates(c) by {
      forall i, j | 0 <= i < j < |c| ensures c[i] != c[j] {
        assert Distinct(xs)[i] != Distinct(xs)[j];
      }
    }
    forall i, j | 0 <= i < j < |d|
      ensures Labels(d)[i] != Labels(d)[j]
    {
      if d[i].0 == d[j].0 {
        DistributionCounts(xs);
        assert d[i] == d[j];
        RepeatedMultiset(d, i, j);
        NoDuplicatesMultiset(c, d[i]);
      }
    }
  }

  lemma DistributionLabels<T(!new)>(xs: seq<T>)
    ensures forall x :: x in Labels(Distribution(xs)) <==> x in xs
  {
    var c := Counted(xs);
    var d := Distribution(xs);
    DistributionMembers(xs);
    forall x
      ensures x in Labels(d) <==> x in xs
    {
      if x in xs {
        var k :| 0 <= k < |Distinct(xs)| && Distinct(xs)[k] == x;
        assert c[k] in d;
        var i :| 0 <= i < |d| && d[i] == c[k];
        assert Labels(d)[i] == x;
      }
      if x in Labels(d) {
        var i :| 0 <= i < |d| && Labels(d)[i] == x;
        assert d[i] in c;
        var k :| 0 <= k < |c| && c[k] == d[i];
        assert Distinct(xs)[k] in xs;
      }
    }
  }

  /**
   * Each entry of `most_common(n)` is a distinct value of `xs` with its
   * number of occurrences, largest count first.
   */
  lemma MostCommonEntries<T(!new)>(xs: seq<T>, n: nat)
    ensures var r := MostCommon(xs, n);
      && DescendingByCount(r)
      && NoDuplicates(Labels(r))
      && (forall i :: 0 <= i < |r| ==> r[i].0 in xs && r[i].1 == Occurrences(xs, r[i].0))
  {
    var d := Distribution(xs);
    var r := MostCommon(xs, n);
    DistributionFacts(xs);
    forall i | 0 <= i < |r| ensures r[i].0 in xs && r[i].1 == Occurrences(xs, r[i].0) {
      assert r[i] == d[i] && Labels(d)[i] == d[i].0;
    }
    forall i, j | 0 <= i < j < |r| ensures Labels(r)[i] != Labels(r)[j] {
      assert Labels(d)[i] == r[i].0 && Labels(d)[j] == r[j].0;
    }
  }

  /**
   * `most_common(n)` keeps the `n` most frequent values: `n` of them
   * unless there are fewer distinct values, and no value left out occurs
   * more often than any value kept.
   */
  lemma MostCommonTop<T(!new)>(xs: seq<T>, n: nat)
    ensures var r := MostCommon(xs, n);
      && |r| == (if n < |Distinct(xs)| then n else |Distinct(xs)|)
      && (forall x, i :: x in xs && x !in Labels(r) && 0 <= i < |r| ==> Occurrences(xs, x) <= r[i].1)
  {
    var d := Distribution(xs);
    var r := MostCommon(xs, n);
    DistributionFacts(xs);
    forall x, i | x in xs && x !in Labels(r) && 0 <= i < |r| ensures Occurrences(xs, x) <= r[i].1 {
      var j :| 0 <= j < |d| && Labels(d)[j] == x;
      assert forall k :: 0 <= k < |r| ==> Labels(r)[k] == Labels(d)[k];
      assert d[i] == r[i];
    }
  }
}

=== FILE: find_empty_scenes.dfy ===
/**
 * The missing-details report (find_empty_scenes.py): for every scene, the
 * list of detail fields that are empty or absent, and the scenes that have
 * at least one, in table order.
 */
module FindEmptyScenes {
  import opened Common
  import opened Models

  /** The three detail sections the script inspects. */
  datatype SectionName = Effeminate | Masculine | Atmosphere

  /** The six detail fields the script inspects. */
  datatype FieldName = Appearance | Hair | Clothing | Lighting | Scent | Sound

  function SectionKey(s: SectionName): string
  {
    match s
    case Effeminate => "effeminate"
    case Masculine => "masculine"
    case Atmosphere => "atmosphere"
  }

  function FieldKey(f: FieldName): string
  {
    match f
    case Appearance => "appearance"
    case Hair => "hair"
    case Clothing => "clothing"
    case Lighting => "lighting"
    case Scent => "scent"
    case Sound => "sound"
  }

  /** One entry of a scene's issue list. */
  datatype Issue = NoDetailsField | Missing(section: SectionName, field: FieldName)

  /** The text the script stores for an issue. */
  function IssueText(i: Issue): string
  {
    match i
    case NoDetailsField => "No details field"
    case Missing(section, field) => "Missing " + SectionKey(section) + " " + FieldKey(field)
  }

  /** The nine (section, field) pairs, in the order the script checks them. */
  const Checks: seq<(SectionName, FieldName)> := [
    (Effeminate, Appearance), (Effeminate, Hair), (Effeminate, Clothing),
    (Masculine, Appearance), (Masculine, Hair), (Masculine, Clothing),
    (Atmosphere, Lighting), (Atmosphere, Scent), (Atmosphere, Sound)]

  /** A field is falsy when it is absent or empty. */
  predicate Empty(d: Details, section: SectionName, field: FieldName)
  {
    FieldOf(SectionOf(d, SectionKey(section)), FieldKey(field)) == ""
  }

  /** The issue list the table of checks gives: one `Missing` per empty field, in table order. */
  function MissingChecks(d: Details, checks: seq<(SectionName, FieldName)>): seq<Issue>
  {
    if checks == [] then []
    else Check(d, checks[0].0, checks[0].1) + MissingChecks(d, checks[1..])
  }

  /** One `if not section.get(field)` of the script. */
  function Check(d: Details, section: SectionName, field: FieldName): seq<Issue>
  {
    if Empty(d, section, field) then [Missing(section, field)] else []
  }

  /** The three checks of one section, in the order given. */
  function SectionIssues(d: Details, s: SectionName, x: FieldName, y: FieldName, z: FieldName): seq<Issue>
  {
    Check(d, s, x) + Check(d, s, y) + Check(d, s, z)
  }

  /** The issue list of one scene: no details at all, or the three sections one after another. */
  function SceneIssues(d: Details): seq<Issue>
  {
    if |d| == 0 then [NoDetailsField]
    else
      SectionIssues(d, Effeminate, Appearance, Hair, Clothing)
      + SectionIssues(d, Masculine, Appearance, Hair, Clothing)
      + SectionIssues(d, Atmosphere, Lighting, Scent, Sound)
  }

  /** Checking two tables one after the other gives the two issue lists one after the other. */
  lemma {:induction false} MissingChecksAppend(d: Details, a: seq<(SectionName, FieldName)>, b: seq<(SectionName, FieldName)>)
    ensures MissingChecks(d, a + b) == MissingChecks(d, a) + MissingChecks(d, b)
  {
    if a == [] {
      assert a + b == b;
    } else {
      var h := Check(d, a[0].0, a[0].1);
      assert (a + b)[0] == a[0] && (a + b)[1..] == a[1..] + b;
      assert MissingChecks(d, a + b) == h + MissingChecks(d, a[1..] + b);
      MissingChecksAppend(d, a[1..], b);
      ConcatAssoc(h, MissingChecks(d, a[1..]), MissingChecks(d, b));
    }
  }

  /** A table of three checks of one section is that section's issue list. */
  lemma SectionChecks(d: Details, s: SectionName, x: FieldName, y: FieldName, z: FieldName)
    ensures MissingChecks(d, [(s, x), (s, y), (s, z)]) == SectionIssues(d, s, x, y, z)
  {
    var c := [(s, x), (s, y), (s, z)];
    assert c[1..] == [(s, y), (s, z)];
    assert c[1..][1..] == [(s, z)];
    assert c[1..][1..][1..] == [];
    assert MissingChecks(d, c[1..][1..]) == Check(d, s, z) + [];
    assert MissingChecks(d, c[1..]) == Check(d, s, y) + MissingChecks(d, c[1..][1..]);
    assert MissingChecks(d, c) == Check(d, s, x) + MissingChecks(d, c[1..]);
    ConcatEmpty(Check(d, s, z));
    ConcatAssoc(Check(d, s, x), Check(d, s, y), Check(d, s, z));
  }

  /** The written-out checks are the table of checks taken in order. */
  lemma SceneIssuesByTable(d: Details)
    requires |d| != 0
    ensures SceneIssues(d) == MissingChecks(d, Checks)
  {
    var e := [(Effeminate, Appearance), (Effeminate, Hair), (Effeminate, Clothing)];
    var m := [(Masculine, Appearance), (Masculine, Hair), (Masculine, Clothing)];
    var a := [(Atmosphere, Lighting), (Atmosphere, Scent), (Atmosphere, Sound)];
    assert Checks == e + m + a;
    MissingChecksAppend(d, e + m, a);
    MissingChecksAppend(d, e, m);
    SectionChecks(d, Effeminate, Appearance, Hair, Clothing);
    SectionChecks(d, Masculine, Appearance, Hair, Clothing);
    SectionChecks(d, Atmosphere, Lighting, Scent, Sound);
  }

  /** At most one issue per check. */
  lemma {:induction false} MissingChecksSize(d: Details, checks: seq<(SectionName, FieldName)>)
    ensures |MissingChecks(d, checks)| <= |checks|
  {
    if checks != [] {
      MissingChecksSize(d, checks[1..]);
    }
  }

  /** Each issue names a check whose field is empty, and every such check is named. */
  lemma {:induction false} MissingChecksMembers(d: Details, checks: seq<(SectionName, FieldName)>)
    ensures forall i :: i in MissingChecks(d, checks) <==>
      exists k :: 0 <= k < |checks| && Empty(d, checks[k].0, checks[k].1) && i == Missing(checks[k].0, checks[k].1)
  {
    if checks != [] {
      var rest := checks[1..];
      MissingChecksMembers(d, rest);
      forall i ensures i in MissingChecks(d, checks) <==>
        exists k :: 0 <= k < |checks| && Empty(d, checks[k].0, checks[k].1) && i == Missing(checks[k].0, checks[k].1)
      {
        if i in MissingChecks(d, rest) {
          var k :| 0 <= k < |rest| && Empty(d, rest[k].0, rest[k].1) && i == Missing(rest[k].0, rest[k].1);
          assert checks[k + 1] == rest[k];
        }
        if exists k :: 0 <= k < |checks| && Empty(d, checks[k].0, checks[k].1) && i == Missing(checks[k].0, checks[k].1) {
          var k :| 0 <= k < |checks| && Empty(d, checks[k].0, checks[k].1) && i == Missing(checks[k].0, checks[k].1);
          if k > 0 {
            assert rest[k - 1] == checks[k];
          }
        }
      }
    }
  }

  /**
   * The table's issue list: at most one issue per check, each naming a
   * check whose field is empty, every empty check named, and nothing at
   * all exactly when every field is filled.
   */
  lemma MissingChecksFacts(d: Details, checks: seq<(SectionName, FieldName)>)
    ensures var r := MissingChecks(d, checks);
      && |r| <= |checks|
      && (forall i :: i in r <==> exists k :: 0 <= k < |checks| && Empty(d, checks[k].0, checks[k].1) && i == Missing(checks[k].0, checks[k].1))
      && (r == [] <==> forall k :: 0 <= k < |checks| ==> !Empty(d, checks[k].0, checks[k].1))
  {
    var r := MissingChecks(d, checks);
    MissingChecksSize(d, checks);
    MissingChecksMembers(d, checks);
    if r != [] {
      assert r[0] in r;
    }
    forall k | 0 <= k < |checks| && Empty(d, checks[k].0, checks[k].1) ensures r != [] {
      assert Missing(checks[k].0, checks[k].1) in r;
    }
  }

  /**
   * A scene's issues: exactly ["No details field"] without details;
   * otherwise at most nine, each an empty field among the nine, every
   * empty one listed, and none exactly when all nine are filled.
   */
  lemma SceneIssuesFacts(d: Details)
    ensures |d| == 0 ==> SceneIssues(d) == [NoDetailsField]
    ensures |SceneIssues(d)| <= 9
    ensures |d| != 0 ==>
      && (forall i :: i in SceneIssues(d) <==> exists k :: 0 <= k < 9 && Empty(d, Checks[k].0, Checks[k].1) && i == Missing(Checks[k].0, Checks[k].1))
      && (SceneIssues(d) == [] <==> forall k :: 0 <= k < 9 ==> !Empty(d, Checks[k].0, Checks[k].1))
  {
    if |d| != 0 {
      SceneIssuesByTable(d);
      MissingChecksFacts(d, Checks);
    }
  }

  /** One `if not section.get(field): issues.append(...)`, on the section already looked up. */
  method CheckField(d: Details, section: Section, name: SectionName, field: FieldName, issues0: seq<Issue>)
    returns (issues: seq<Issue>)
    requires section == SectionOf(d, SectionKey(name))
    ensures issues == issues0 + Check(d, name, field)
  {
    issues := issues0;
    if FieldOf(section, FieldKey(field)) == "" {
      issues := issues + [Missing(name, field)];
    }
  }

  /** `section = details.get(name, {})` and its three checks. */
  method CheckSection(d: Details, name: SectionName, x: FieldName, y: FieldName, z: FieldName, issues0: seq<Issue>)
    returns (issues: seq<Issue>)
    ensures issues == issues0 + SectionIssues(d, name, x, y, z)
  {
    var section := SectionOf(d, SectionKey(name));
    issues := CheckField(d, section, name, x, issues0);
    issues := CheckField(d, section, name, y, issues);
    issues := CheckField(d, section, name, z, issues);
    ConcatAssoc(issues0, Check(d, name, x), Check(d, name, y));
    ConcatAssoc(issues0, Check(d, name, x) + Check(d, name, y), Check(d, name, z));
  }

  /** The body of the scene loop: the issue list built by appends. */
  method ListIssues(d: Details) returns (issues: seq<Issue>)
    ensures issues == SceneIssues(d)
  {
    issues := [];
    if |d| == 0 {
      issues := issues + [NoDetailsField];
      return;
    }
    ConcatEmpty(SectionIssues(d, Effeminate, Appearance, Hair, Clothing));
    issues := CheckSection(d, Effeminate, Appearance, Hair, Clothing, issues);
    issues := CheckSection(d, Masculine, Appearance, Hair, Clothing, issues);
    issues := CheckSection(d, Atmosphere, Lighting, Scent, Sound, issues);
  }

  /** A reported scene and its issues. */
  datatype Report = Report(scene: Scene, issues: seq<Issue>)

  /** Every scene paired with its issue list, in scene order. */
  function Tagged(scenes: seq<Scene>): seq<Report>
  {
    seq(|scenes|, k requires 0 <= k < |scenes| => Report(scenes[k], SceneIssues(scenes[k].details)))
  }

  /** The `if issues:` filter: the reports whose issue list is not empty, in order. */
  function Reported(rs: seq<Report>): seq<Report>
  {
    if rs == [] then []
    else (if rs[0].issues != [] then [rs[0]] else []) + Reported(rs[1..])
  }

  /** The `missing_details` list: the scenes with issues, in scene order. */
  function Reports(scenes: seq<Scene>): seq<Report>
  {
    Reported(Tagged(scenes))
  }

  /** Filtering two lists one after the other gives the two filtered lists one after the other. */
  lemma {:induction false} ReportedAppend(a: seq<Report>, b: seq<Report>)
    ensures Reported(a + b) == Reported(a) + Reported(b)
  {
    if a == [] {
      assert a + b == b;
    } else {
      var h := if a[0].issues != [] then [a[0]] else [];
      assert (a + b)[0] == a[0] && (a + b)[1..] == a[1..] + b;
      assert Reported(a + b) == h + Reported(a[1..] + b);
      ReportedAppend(a[1..], b);
      ConcatAssoc(h, Reported(a[1..]), Reported(b));
    }
  }

  /** The filter keeps exactly the reports with issues, and never lengthens the list. */
  lemma {:induction false} ReportedMembers(rs: seq<Report>)
    ensures |Reported(rs)| <= |rs|
    ensures forall r :: r in Reported(rs) <==> r in rs && r.issues != []
  {
    if rs != [] {
      ReportedMembers(rs[1..]);
      assert rs == [rs[0]] + rs[1..];
    }
  }

  /** The reports of two runs of scenes one after the other are the two lists of reports one after the other. */
  lemma ReportsAppend(a: seq<Scene>, b: seq<Scene>)
    ensures Reports(a + b) == Reports(a) + Reports(b)
  {
    var t, ta, tb := Tagged(a + b), Tagged(a), Tagged(b);
    forall k | 0 <= k < |t| ensures t[k] == (ta + tb)[k] {
      if k < |a| {
        assert (a + b)[k] == a[k];
      } else {
        assert (a + b)[k] == b[k - |a|];
      }
    }
    assert t == ta + tb;
    ReportedAppend(Tagged(a), Tagged(b));
  }

  /** One more scene adds its report at the end exactly when it has issues. */
  lemma ReportsSnoc(scenes: seq<Scene>, scene: Scene)
    ensures var issues := SceneIssues(scene.details);
      Reports(scenes + [scene]) == Reports(scenes) + (if issues != [] then [Report(scene, issues)] else [])
  {
    var r := Report(scene, SceneIssues(scene.details));
    var t := Tagged([scene]);
    assert t[0] == r;
    assert t == [r];
    assert Reported(t) == (if r.issues != [] then [r] else []) + Reported([]);
    ConcatEmpty(if r.issues != [] then [r] else []);
    ReportsAppend(scenes, [scene]);
  }

  /** The same, for the prefixes of one list of scenes. */
  lemma ReportsStep(scenes: seq<Scene>, i: nat)
    requires i < |scenes|
    ensures var issues := SceneIssues(scenes[i].details);
      Reports(scenes[..i + 1]) == Reports(scenes[..i]) + (if issues != [] then [Report(scenes[i], issues)] else [])
  {
    assert scenes[..i + 1] == scenes[..i] + [scenes[i]];
    ReportsSnoc(scenes[..i], scenes[i]);
  }

  /**
   * A scene is reported exactly when its issue list is not empty, with
   * that list; every report is of such a scene; there are at most as many
   * reports as scenes.
   */
  lemma ReportsFacts(scenes: seq<Scene>)
    ensures |Reports(scenes)| <= |scenes|
    ensures forall r :: r in Reports(scenes) ==> r.scene in scenes && r.issues == SceneIssues(r.scene.details) && r.issues != []
    ensures forall k :: 0 <= k < |scenes| && SceneIssues(scenes[k].details) != [] ==>
      Report(scenes[k], SceneIssues(scenes[k].details)) in Reports(scenes)
  {
    var t := Tagged(scenes);
    ReportedMembers(t);
    forall r | r in t ensures r.scene in scenes && r.issues == SceneIssues(r.scene.details) {
      var k :| 0 <= k < |t| && t[k] == r;
    }
    forall k | 0 <= k < |scenes| ensures Report(scenes[k], SceneIssues(scenes[k].details)) in t {
      assert t[k] == Report(scenes[k], SceneIssues(scenes[k].details));
    }
  }

  /** How many reports the script prints: the first ten. */
  const ShownReports: nat := 10

  /**
   * find_scenes_with_missing_details: the issue list of every scene, the
   * scenes with issues in order, all of them returned and only the first
   * ten shown.
   */
  method FindScenesWithMissingDetails(scenes: seq<Scene>) returns (missing: seq<Report>, shown: seq<Report>)
    ensures missing == Reports(scenes)
    ensures |shown| == (if |missing| < ShownReports then |missing| else ShownReports)
    ensures shown == missing[..|shown|]
  {
    missing := [];
    var i := 0;
    while i < |scenes|
      invariant 0 <= i <= |scenes|
      invariant missing == Reports(scenes[..i])
    {
      var scene := scenes[i];
      var issues := ListIssues(scene.details);
      ReportsStep(scenes, i);
      if issues != [] {
        missing := missing + [Report(scene, issues)];
      }
      i := i + 1;
    }
    assert scenes[..i] == scenes;
    shown := if |missing| < ShownReports then missing else missing[..ShownReports];
  }
}

=== FILE: gallery.dfy ===
/**
 * The scene gallery page (static/js/gallery.js): client-side upload
 * validation, drag-and-drop reordering of the image cards, and the edit
 * form's guard. The image grid is the sequence of cards in DOM order, each
 * with its `data-image-id` and `data-order` attributes as text; alerts are
 * returned as the sequence of messages shown.
 */
module Gallery {
  import opened Common
  import Views

  datatype GalleryFile = GalleryFile(name: string, fileType: string, size: nat)

  /** The alert for a file the browser refuses; only image types can be too large. */
  function RejectAlert(f: GalleryFile): string
  {
    if !StartsWith(f.fileType, "image/") then "File " + f.name + " is not a valid image"
    else "File " + f.name + " is too large (max 10MB)"
  }

  /** handleFiles' filter: the files of an image type of at most 10 MB, in order. */
  function ValidFiles(files: seq<GalleryFile>): (r: seq<GalleryFile>)
    ensures |r| <= |files|
  {
    if files == [] then []
    else
      var f := files[|files| - 1];
      ValidFiles(files[..|files| - 1]) + (if Views.AcceptableImage(f.fileType, f.size) then [f] else [])
  }

  /** One alert per refused file, in order. */
  function RejectAlerts(files: seq<GalleryFile>): (r: seq<string>)
  {
    if files == [] then []
    else
      var f := files[|files| - 1];
      RejectAlerts(files[..|files| - 1]) + (if Views.AcceptableImage(f.fileType, f.size) then [] else [RejectAlert(f)])
  }

  /**
   * The browser applies the server's rule: a file is kept exactly when the
   * server would accept its type and size, and every file is either kept
   * or alerted about, never both.
   */
  lemma {:induction false} ValidFilesRule(files: seq<GalleryFile>)
    ensures forall f :: f in ValidFiles(files) <==> f in files && Views.AcceptableImage(f.fileType, f.size)
    ensures |ValidFiles(files)| + |RejectAlerts(files)| == |files|
  {
    if files != [] {
      var init := files[..|files| - 1];
      ValidFilesRule(init);
      assert files == init + [files[|files| - 1]];
    }
  }

  /** The outcome of handleFiles: the kept files, the alerts shown, and the upload sent, if any. */
  datatype FilesOutcome = FilesOutcome(valid: seq<GalleryFile>, alerts: seq<string>, upload: Option<seq<GalleryFile>>)

  /**
   * handleFiles: nothing for an empty selection; otherwise the files are
   * sorted into kept and alerted, and the kept ones are posted when there
   * are any and the page knows its scene.
   */
  method HandleFiles(files: seq<GalleryFile>, sceneId: Option<string>) returns (r: FilesOutcome)
    ensures files == [] ==> r == FilesOutcome([], [], None)
    ensures files != [] ==> r.valid == ValidFiles(files)
    ensures files != [] && r.valid == [] ==> r.alerts == RejectAlerts(files) && r.upload.None?
    ensures files != [] && r.valid != [] && (sceneId.None? || sceneId.value == "") ==>
      r.alerts == RejectAlerts(files) + ["Scene ID not found"] && r.upload.None?
    ensures files != [] && r.valid != [] && sceneId.Some? && sceneId.value != "" ==>
      r.alerts == RejectAlerts(files) && r.upload == Some(r.valid)
  {
    if |files| == 0 {
      return FilesOutcome([], [], None);
    }
    var valid: seq<GalleryFile> := [];
    var alerts: seq<string> := [];
    var i := 0;
    while i < |files|
      invariant 0 <= i <= |files|
      invariant valid == ValidFiles(files[..i]) && alerts == RejectAlerts(files[..i])
    {
      assert files[..i + 1][..i] == files[..i];
      var f := files[i];
      if StartsWith(f.fileType, "image/") {
        if f.size <= 10 * 1024 * 1024 {
          valid := valid + [f];
        } else {
          alerts := alerts + ["File " + f.name + " is too large (max 10MB)"];
        }
      } else {
        alerts := alerts + ["File " + f.name + " is not a valid image"];
      }
      i := i + 1;
    }
    assert files[..|files|] == files;
    if |valid| == 0 {
      return FilesOutcome(valid, alerts, None);
    }
    if sceneId.None? || sceneId.value == "" {
      return FilesOutcome(valid, alerts + ["Scene ID not found"], None);
    }
    r := FilesOutcome(valid, alerts, Some(valid));
  }

  /** The upload response's alert: the server's message on success, else its error or 'Upload failed'. */
  function UploadAlert(success: bool, message: string, error: string): (r: (bool, string))
    ensures r.0 == success
    ensures success ==> r.1 == message
    ensures !success && error != "" ==> r.1 == error
    ensures !success && error == "" ==> r.1 == "Upload failed"
  {
    if success then (true, message) else (false, if error != "" then error else "Upload failed")
  }

  // ---------------------------------------------------------------------
  // Reordering

  function Remove<T>(s: seq<T>, i: nat): (r: seq<T>)
    requires i < |s|
    ensures |r| == |s| - 1
    ensures forall k :: 0 <= k < i ==> r[k] == s[k]
    ensures forall k :: i <= k < |r| ==> r[k] == s[k + 1]
  {
    s[..i] + s[i + 1..]
  }

  function Insert<T>(s: seq<T>, k: nat, x: T): (r: seq<T>)
    requires k <= |s|
    ensures |r| == |s| + 1 && r[k] == x
    ensures forall m :: 0 <= m < k ==> r[m] == s[m]
    ensures forall m :: k < m < |r| ==> r[m] == s[m - 1]
  {
    s[..k] + [x] + s[k..]
  }

  /**
   * The drop handler's DOM move: the dragged card (at i) is taken out and
   * put back right after the target card (at j) or right before it.
   */
  function Move<T>(s: seq<T>, i: nat, j: nat, after: bool): seq<T>
    requires i < |s| && j < |s| && i != j
  {
    var rest := Remove(s, i);
    var t := if j > i then j - 1 else j;
    Insert(rest, if after then t + 1 else t, s[i])
  }

  /** Taking an element out and putting it back anywhere keeps the same multiset. */
  lemma {:induction false} RemoveInsertMultiset<T>(s: seq<T>, i: nat, p: nat)
    requires i < |s| && p < |s|
    ensures multiset(Insert(Remove(s, i), p, s[i])) == multiset(s)
  {
    var rest := Remove(s, i);
    assert rest == s[..i] + s[i + 1..];
    assert s == s[..i] + [s[i]] + s[i + 1..];
    assert multiset(s) == multiset(rest) + multiset{s[i]};
    assert rest == rest[..p] + rest[p..];
    assert Insert(rest, p, s[i]) == rest[..p] + [s[i]] + rest[p..];
  }

  /**
   * A move is a permutation: the same cards, the dragged one immediately
   * after (or before) the target, and every other card in its old order.
   */
  lemma MovePermutes<T>(s: seq<T>, i: nat, j: nat, after: bool)
    requires i < |s| && j < |s| && i != j
    ensures var r := Move(s, i, j, after);
      var t := if j > i then j - 1 else j;
      var p := if after then t + 1 else t;
      && |r| == |s| && multiset(r) == multiset(s)
      && r[p] == s[i]
      && (after ==> r[p - 1] == s[j])
      && (!after ==> r[p + 1] == s[j])
      && Remove(r, p) == Remove(s, i)
  {
    var rest := Remove(s, i);
    var t := if j > i then j - 1 else j;
    var p := if after then t + 1 else t;
    assert rest[t] == s[j];
    RemoveInsertMultiset(s, i, p);
    RemoveInsert(rest, p, s[i]);
  }

  /** Taking out what was just inserted gives back the sequence. */
  lemma RemoveInsert<T>(s: seq<T>, p: nat, x: T)
    requires p <= |s|
    ensures Remove(Insert(s, p, x), p) == s
  {
    var r := Insert(s, p, x);
    assert r[..p] == s[..p] && r[p + 1..] == s[p..];
  }

  /**
   * Once the orders are the card positions, the handler's test
   * `draggedOrder < targetOrder` is `i < j`, and the dragged card lands
   * exactly at the target's old position.
   */
  lemma MoveLandsOnTarget<T>(s: seq<T>, i: nat, j: nat)
    requires i < |s| && j < |s| && i != j
    ensures Move(s, i, j, i < j)[j] == s[i]
  {
    MovePermutes(s, i, j, i < j);
  }

  /** A card of the grid: its `data-image-id` and `data-order` texts. */
  datatype GridCard = GridCard(imageId: string, order: string)

  /** The orders posted by updateImageOrder: each card's parsed id and its position. */
  function OrdersOf(cards: seq<GridCard>): (r: seq<(Option<int>, nat)>)
    ensures |r| == |cards|
    ensures forall k :: 0 <= k < |cards| ==> r[k] == (JsParseInt(cards[k].imageId), k)
  {
    seq(|cards|, k requires 0 <= k < |cards| => (JsParseInt(cards[k].imageId), k))
  }

  /** Every card's `data-order` is its position. */
  predicate Synced(cards: seq<GridCard>)
  {
    forall k :: 0 <= k < |cards| ==> cards[k].order == IntToString(k)
  }

  /** The posted orders are exactly 0..n-1, one per card. */
  lemma OrdersAreIndices(cards: seq<GridCard>)
    ensures forall k :: 0 <= k < |OrdersOf(cards)| ==> OrdersOf(cards)[k].1 == k
    ensures forall k, m :: 0 <= k < m < |cards| ==> OrdersOf(cards)[k].1 < OrdersOf(cards)[m].1
  {
  }

  /** With synchronised orders, parsing two cards' orders compares their positions. */
  lemma SyncedOrders(cards: seq<GridCard>, i: nat, j: nat)
    requires Synced(cards) && i < |cards| && j < |cards|
    ensures JsParseInt(cards[i].order) == Some(i as int) && JsParseInt(cards[j].order) == Some(j as int)
  {
    JsParseIntOfIntToString(i);
    JsParseIntOfIntToString(j);
  }

  /** Whether a form field's value is `'on'`, the checkbox's submitted value. */
  function IsPrimary(field: Option<string>): (r: bool)
    ensures r <==> field == Some("on")
  {
    field == Some("on")
  }

  datatype ImageEdit = ImageEdit(imageId: int, caption: Option<string>, altText: Option<string>,
                                 description: Option<string>, isPrimary: bool)

  /** The first `k` cards of `c0` renumbered to their positions, the rest untouched, no id changed. */
  predicate RenumberedUpTo(cards: seq<GridCard>, c0: seq<GridCard>, k: nat)
  {
    && |cards| == |c0| && k <= |c0|
    && (forall m :: 0 <= m < |cards| ==> cards[m].imageId == c0[m].imageId)
    && (forall m :: 0 <= m < k ==> cards[m].order == IntToString(m))
  }

  lemma RenumberedStep(cards: seq<GridCard>, c0: seq<GridCard>, k: nat)
    requires RenumberedUpTo(cards, c0, k) && k < |cards|
    ensures RenumberedUpTo(cards[k := GridCard(cards[k].imageId, IntToString(k))], c0, k + 1)
    ensures (JsParseInt(cards[k].imageId), k) == OrdersOf(c0)[k]
    ensures OrdersOf(c0)[..k + 1] == OrdersOf(c0)[..k] + [OrdersOf(c0)[k]]
  {
  }

  class GalleryPage {
    var cards: seq<GridCard>
    /** The card being dragged, by position. */
    var dragged: Option<nat>
    /** The global `currentEditingImageId`; `None` is null. */
    var currentEditingImageId: Option<int>
    var editModalShown: bool

    predicate Valid()
      reads this
    {
      dragged.Some? ==> dragged.value < |cards|
    }

    constructor(cards: seq<GridCard>)
      ensures Valid() && this.cards == cards && dragged.None?
      ensures currentEditingImageId.None? && !editModalShown
    {
      this.cards := cards;
      dragged := None;
      currentEditingImageId := None;
      editModalShown := false;
    }

    method DragStart(i: nat)
      requires i < |cards|
      modifies this`dragged
      ensures Valid() && dragged == Some(i)
    {
      dragged := Some(i);
    }

    method DragEnd()
      modifies this`dragged
      ensures Valid() && dragged.None?
    {
      dragged := None;
    }

    /** updateImageOrder: every card's order becomes its position, and those orders are posted. */
    method UpdateImageOrder() returns (orders: seq<(Option<int>, nat)>)
      modifies this`cards
      ensures |cards| == |old(cards)| && Synced(cards)
      ensures forall k :: 0 <= k < |cards| ==> cards[k].imageId == old(cards)[k].imageId
      ensures orders == OrdersOf(old(cards))
    {
      ghost var c0 := cards;
      orders := [];
      var k := 0;
      while k < |cards|
        invariant k <= |cards| && RenumberedUpTo(cards, c0, k)
        invariant orders == OrdersOf(c0)[..k]
      {
        ghost var before := cards;
        var entry := RenumberCard(k);
        RenumberedStep(before, c0, k);
        orders := orders + [entry];
        k := k + 1;
      }
    }

    /** The forEach callback: the card at `index` is posted with its parsed id and takes `index` as its order. */
    method RenumberCard(index: nat) returns (entry: (Option<int>, nat))
      requires index < |cards|
      modifies this`cards
      ensures cards == old(cards)[index := GridCard(old(cards)[index].imageId, IntToString(index))]
      ensures entry == (JsParseInt(old(cards)[index].imageId), index)
    {
      entry := (JsParseInt(cards[index].imageId), index);
      cards := cards[index := GridCard(cards[index].imageId, IntToString(index))];
    }

    /**
     * A drop on the card at `target`: with a dragged card other than the
     * target, the dragged card is moved after the target when its order is
     * the smaller, else before it, and the orders are renumbered and posted.
     */
    method Drop(target: nat) returns (orders: Option<seq<(Option<int>, nat)>>)
      requires Valid() && target < |cards|
      modifies this`cards
      ensures Valid()
      ensures old(dragged).None? || old(dragged) == Some(target) ==> cards == old(cards) && orders.None?
      ensures old(dragged).Some? && old(dragged) != Some(target) ==>
        var i := old(dragged).value;
        var d, t := JsParseInt(old(cards)[i].order), JsParseInt(old(cards)[target].order);
        var moved := Move(old(cards), i, target, d.Some? && t.Some? && d.value < t.value);
        && |cards| == |moved| && Synced(cards)
        && (forall k :: 0 <= k < |cards| ==> cards[k].imageId == moved[k].imageId)
        && orders == Some(OrdersOf(moved))
    {
      if dragged.None? || dragged.value == target {
        return None;
      }
      var i := dragged.value;
      var d, t := JsParseInt(cards[i].order), JsParseInt(cards[target].order);
      cards := Move(cards, i, target, d.Some? && t.Some? && d.value < t.value);
      var posted := UpdateImageOrder();
      orders := Some(posted);
    }

    /** editImage: the image being edited is remembered (the form is filled once its data arrives). */
    method EditImage(imageId: int)
      modifies this`currentEditingImageId
      ensures currentEditingImageId == Some(imageId)
    {
      currentEditingImageId := Some(imageId);
    }

    /** The image's data arrived and it was found: the modal shows. */
    method EditDataLoaded(found: bool)
      modifies this`editModalShown
      ensures editModalShown == (found || old(editModalShown))
    {
      if found {
        editModalShown := true;
      }
    }

    method CloseEditModal()
      modifies this`editModalShown, this`currentEditingImageId
      ensures !editModalShown && currentEditingImageId.None?
    {
      editModalShown := false;
      currentEditingImageId := None;
    }

    /**
     * handleEditFormSubmit: nothing is sent without an image being edited
     * (null, or the falsy id 0); otherwise the update carries the form's
     * fields, with is_primary true exactly for 'on'.
     */
    method SubmitEdit(caption: Option<string>, altText: Option<string>, description: Option<string>,
                      isPrimaryField: Option<string>) returns (update: Option<ImageEdit>)
      ensures currentEditingImageId.None? || currentEditingImageId == Some(0) ==> update.None?
      ensures currentEditingImageId.Some? && currentEditingImageId.value != 0 ==>
        update == Some(ImageEdit(currentEditingImageId.value, caption, altText, description, isPrimaryField == Some("on")))
    {
      if currentEditingImageId.None? || currentEditingImageId.value == 0 {
        return None;
      }
      update := Some(ImageEdit(currentEditingImageId.value, caption, altText, description, IsPrimary(isPrimaryField)));
    }
  }

  /** After the edit modal is closed, submitting the form sends nothing. */
  method SubmitAfterCloseSendsNothing(page: GalleryPage, caption: Option<string>, isPrimaryField: Option<string>)
    returns (update: Option<ImageEdit>)
    modifies page`editModalShown, page`currentEditingImageId
    ensures page.currentEditingImageId.None?
    ensures update.None?
  {
    page.CloseEditModal();
    update := page.SubmitEdit(caption, None, None, isPrimaryField);
  }

  /**
   * Once the grid has been renumbered, dropping a card on another puts the
   * dragged card exactly where the target was, whichever way it was dragged.
   */
  method SyncedDropLandsOnTarget(page: GalleryPage, target: nat) returns (orders: Option<seq<(Option<int>, nat)>>)
    requires page.Valid() && target < |page.cards| && Synced(page.cards)
    requires page.dragged.Some? && page.dragged != Some(target)
    modifies page`cards
    ensures |page.cards| == |old(page.cards)| && Synced(page.cards)
    ensures page.cards[target].imageId == old(page.cards)[old(page.dragged).value].imageId
    ensures orders.Some? && |orders.value| == |old(page.cards)|
    ensures orders.value[target] == (JsParseInt(old(page.cards)[old(page.dragged).value].imageId), target)
  {
    var i := page.dragged.value;
    SyncedOrders(page.cards, i, target);
    MoveLandsOnTarget(page.cards, i, target);
    orders := page.Drop(target);
  }
}

=== FILE: hero_carousel.dfy ===
/**
 * The home-page hero carousel (static/js/hero-carousel.js). The carousel's
 * fields are the current slide, the transition lock, the autoplay flag and
 * timer, and the touch and mouse coordinates of a swipe. Timer callbacks (the
 * 700 ms transition cleanup, the autoplay tick, the delayed start and the
 * resume after a touch) are method calls; the browser window's width is a
 * parameter.
 */
module HeroCarousel {
  import opened Common

  datatype Direction = Next | Prev

  const MinSwipeDistance: real := 50.0

  /** The slide after `i`, wrapping to the first. */
  function NextIndex(i: int, n: nat): int
    requires n > 0
  {
    (i + 1) % n
  }

  /** The slide before `i`, wrapping to the last. */
  function PrevIndex(i: int, n: nat): int
    requires n > 0
  {
    (i - 1 + n) % n
  }

  lemma ModBelow(a: int, n: int)
    requires 0 <= a < n
    ensures a % n == a
  {
  }

  lemma ModOnce(a: int, n: int)
    requires 0 < n <= a < 2 * n
    ensures a % n == a - n
  {
    assert a == n + (a - n);
    assert (a - n) % n == a - n;
  }

  /** Within the slides, next and previous are inverse steps and stay in range. */
  lemma NextPrevInverse(i: int, n: nat)
    requires n > 0 && 0 <= i < n
    ensures 0 <= NextIndex(i, n) < n && 0 <= PrevIndex(i, n) < n
    ensures PrevIndex(NextIndex(i, n), n) == i && NextIndex(PrevIndex(i, n), n) == i
    ensures n > 1 ==> NextIndex(i, n) != i && PrevIndex(i, n) != i
  {
    if i + 1 < n {
      ModBelow(i + 1, n);
      ModOnce(i + n, n);
    } else {
      ModOnce(n, n);
      ModBelow(n - 1, n);
    }
    if i > 0 {
      ModOnce(i - 1 + n, n);
      ModBelow(i, n);
    } else {
      ModBelow(n - 1, n);
      ModOnce(n, n);
    }
  }

  function Abs(x: real): real
  {
    if x < 0.0 then -x else x
  }

  /** handleSwipe: no slide change for a short or mostly vertical move; rightwards goes back. */
  function SwipeAction(dx: real, dy: real): (r: Option<Direction>)
    ensures r.None? <==> Abs(dx) < MinSwipeDistance || Abs(dy) > Abs(dx)
    ensures r == Some(Prev) ==> dx >= MinSwipeDistance
    ensures r == Some(Next) ==> dx <= -MinSwipeDistance
  {
    if Abs(dx) < MinSwipeDistance || Abs(dy) > Abs(dx) then None
    else if dx > 0.0 then Some(Prev)
    else Some(Next)
  }

  /** getScreenSize from the window's inner width. */
  function ScreenSize(width: int): string
  {
    if width <= 480 then "xs"
    else if width <= 768 then "sm"
    else if width <= 1024 then "md"
    else if width <= 1440 then "lg"
    else "xl"
  }

  /** The autoplay period for a screen size, in milliseconds. */
  function IntervalFor(size: string): int
  {
    if size == "xs" then 6000 else if size == "sm" then 5500 else 5000
  }

  /** Narrow screens advance more slowly: 6000 ms up to 480 px, 5500 ms up to 768 px, 5000 ms above. */
  lemma IntervalForWidth(width: int)
    ensures width <= 480 ==> IntervalFor(ScreenSize(width)) == 6000
    ensures 480 < width <= 768 ==> IntervalFor(ScreenSize(width)) == 5500
    ensures width > 768 ==> IntervalFor(ScreenSize(width)) == 5000
  {
  }

  class Carousel {
    const slideCount: nat
    /** Whether hovering pauses autoplay: only on a screen that is not mobile. */
    const hoverPauses: bool
    var currentSlide: int
    var isPlaying: bool
    /** The running autoplay timer, by its period. */
    var interval: Option<int>
    var intervalDuration: int
    var touchStartX: real
    var touchStartY: real
    var touchEndX: real
    var touchEndY: real
    var isTransitioning: bool
    /** The 700 ms cleanup of the last transition has been scheduled and has not fired. */
    var cleanupPending: bool
    var isDragging: bool
    var lastDirection: Direction
    /** How many autoplay timers are running. */
    ghost var runningIntervals: nat

    /**
     * The current slide exists; a running timer belongs to a playing
     * carousel, uses the current period and is the only one running.
     */
    ghost predicate Valid()
      reads this
    {
      && slideCount > 0
      && 0 <= currentSlide < slideCount
      && (interval.Some? ==> isPlaying && interval.value == intervalDuration)
      && runningIntervals == (if interval.Some? then 1 else 0)
    }

    /** A transition in progress will be unlocked by its cleanup. */
    predicate Live()
      reads this
    {
      isTransitioning ==> cleanupPending
    }

    /** The constructor and init: slide 0, autoplay armed but not started, period for the width. */
    constructor(slideCount: nat, width: int, mobile: bool)
      requires slideCount > 0
      ensures Valid() && Live()
      ensures this.slideCount == slideCount && hoverPauses == !mobile
      ensures currentSlide == 0 && isPlaying && interval.None? && !isTransitioning
      ensures intervalDuration == IntervalFor(ScreenSize(width))
    {
      this.slideCount := slideCount;
      hoverPauses := !mobile;
      currentSlide := 0;
      isPlaying := true;
      interval := None;
      intervalDuration := IntervalFor(ScreenSize(width));
      touchStartX, touchStartY, touchEndX, touchEndY := 0.0, 0.0, 0.0, 0.0;
      isTransitioning := false;
      cleanupPending := false;
      isDragging := false;
      lastDirection := Next;
      runningIntervals := 0;
    }

    /**
     * showSlide: a no-op while a transition runs or for the current slide.
     * Otherwise the lock is taken; for an index with no slide the method
     * returns there, holding the lock with no cleanup scheduled.
     */
    method ShowSlide(index: int, direction: Direction)
      requires Valid()
      modifies this`isTransitioning, this`currentSlide, this`cleanupPending, this`lastDirection
      ensures Valid()
      ensures old(isTransitioning) || index == old(currentSlide) ==>
        isTransitioning == old(isTransitioning) && currentSlide == old(currentSlide) && cleanupPending == old(cleanupPending)
      ensures !old(isTransitioning) && index != old(currentSlide) && !(0 <= index < slideCount) ==>
        isTransitioning && currentSlide == old(currentSlide) && cleanupPending == old(cleanupPending)
      ensures !old(isTransitioning) && index != old(currentSlide) && 0 <= index < slideCount ==>
        isTransitioning && cleanupPending && currentSlide == index && lastDirection == direction
    {
      if isTransitioning || index == currentSlide {
        return;
      }
      isTransitioning := true;
      if !(0 <= index < slideCount) {
        return;
      }
      lastDirection := direction;
      currentSlide := index;
      cleanupPending := true;
    }

    /** The 700 ms cleanup timer fires and releases the lock. */
    method TransitionCleanup()
      requires Valid() && cleanupPending
      modifies this`isTransitioning, this`cleanupPending
      ensures Valid() && Live() && !isTransitioning
    {
      isTransitioning := false;
      cleanupPending := false;
    }

    method NextSlide()
      requires Valid()
      modifies this`isTransitioning, this`currentSlide, this`cleanupPending, this`lastDirection
      ensures Valid()
      ensures old(isTransitioning) ==>
        isTransitioning && cleanupPending == old(cleanupPending) && currentSlide == old(currentSlide)
      ensures !old(isTransitioning) && slideCount > 1 ==>
        currentSlide == NextIndex(old(currentSlide), slideCount) && isTransitioning && cleanupPending && lastDirection == Next
      ensures old(isTransitioning) || slideCount == 1 ==> currentSlide == old(currentSlide)
      ensures old(Live()) ==> Live()
    {
      NextPrevInverse(currentSlide, slideCount);
      ShowSlide(NextIndex(currentSlide, slideCount), Next);
    }

    method PrevSlide()
      requires Valid()
      modifies this`isTransitioning, this`currentSlide, this`cleanupPending, this`lastDirection
      ensures Valid()
      ensures old(isTransitioning) ==>
        isTransitioning && cleanupPending == old(cleanupPending) && currentSlide == old(currentSlide)
      ensures !old(isTransitioning) && slideCount > 1 ==>
        currentSlide == PrevIndex(old(currentSlide), slideCount) && isTransitioning && cleanupPending && lastDirection == Prev
      ensures old(isTransitioning) || slideCount == 1 ==> currentSlide == old(currentSlide)
      ensures old(Live()) ==> Live()
    {
      NextPrevInverse(currentSlide, slideCount);
      ShowSlide(PrevIndex(currentSlide, slideCount), Prev);
    }

    /** goToSlide: only an existing slide is shown, moving forward exactly when its index is larger. */
    method GoToSlide(index: int)
      requires Valid()
      modifies this`isTransitioning, this`currentSlide, this`cleanupPending, this`lastDirection
      ensures Valid()
      ensures old(isTransitioning) ==>
        isTransitioning && cleanupPending == old(cleanupPending) && currentSlide == old(currentSlide)
      ensures !(0 <= index < slideCount) ==>
        currentSlide == old(currentSlide) && isTransitioning == old(isTransitioning) && cleanupPending == old(cleanupPending)
      ensures 0 <= index < slideCount && !old(isTransitioning) && index != old(currentSlide) ==>
        currentSlide == index && lastDirection == (if index > old(currentSlide) then Next else Prev)
      ensures old(Live()) ==> Live()
    {
      if 0 <= index < slideCount {
        ShowSlide(index, if index > currentSlide then Next else Prev);
      }
    }

    /** play: any running timer is cleared, then a new one starts with the current period. */
    method Play()
      requires Valid()
      modifies this`isPlaying, this`interval, this`runningIntervals
      ensures Valid() && isPlaying && interval == Some(intervalDuration) && runningIntervals == 1
    {
      if isPlaying && interval.Some? {
        runningIntervals := runningIntervals - 1;
      }
      isPlaying := true;
      interval := Some(intervalDuration);
      runningIntervals := runningIntervals + 1;
    }

    /** pause: a playing carousel stops and its timer is cleared; otherwise nothing happens. */
    method Pause()
      requires Valid()
      modifies this`isPlaying, this`interval, this`runningIntervals
      ensures Valid() && !isPlaying && interval.None? && runningIntervals == 0
    {
      if isPlaying {
        isPlaying := false;
        if interval.Some? {
          interval := None;
          runningIntervals := 0;
        }
      }
    }

    /** The autoplay timer fires. */
    method AutoplayTick()
      requires Valid() && interval.Some?
      modifies this`isTransitioning, this`currentSlide, this`cleanupPending, this`lastDirection
      ensures Valid()
      ensures !old(isTransitioning) && slideCount > 1 ==> currentSlide == NextIndex(old(currentSlide), slideCount)
    {
      NextSlide();
    }

    /** The arrows move one slide; space toggles autoplay. */
    method KeyDown(key: string)
      requires Valid()
      modifies this`isTransitioning, this`currentSlide, this`cleanupPending, this`lastDirection
      modifies this`isPlaying, this`interval, this`runningIntervals
      ensures Valid()
      ensures key == " " ==> isPlaying == !old(isPlaying)
      ensures key == "ArrowRight" && !old(isTransitioning) && slideCount > 1 ==>
        currentSlide == NextIndex(old(currentSlide), slideCount)
      ensures key == "ArrowLeft" && !old(isTransitioning) && slideCount > 1 ==>
        currentSlide == PrevIndex(old(currentSlide), slideCount)
      ensures key != "ArrowLeft" && key != "ArrowRight" ==> currentSlide == old(currentSlide)
      ensures key != " " ==> isPlaying == old(isPlaying)
    {
      if key == "ArrowLeft" {
        PrevSlide();
      } else if key == "ArrowRight" {
        NextSlide();
      } else if key == " " {
        if isPlaying {
          Pause();
        } else {
          Play();
        }
      }
    }

    /** handleSwipe on the recorded start and end points. */
    method HandleSwipe()
      requires Valid()
      modifies this`isTransitioning, this`currentSlide, this`cleanupPending, this`lastDirection
      ensures Valid()
      ensures SwipeAction(touchEndX - touchStartX, touchEndY - touchStartY).None? ==>
        currentSlide == old(currentSlide) && isTransitioning == old(isTransitioning)
      ensures SwipeAction(touchEndX - touchStartX, touchEndY - touchStartY) == Some(Prev) && !old(isTransitioning) && slideCount > 1 ==>
        currentSlide == PrevIndex(old(currentSlide), slideCount)
      ensures SwipeAction(touchEndX - touchStartX, touchEndY - touchStartY) == Some(Next) && !old(isTransitioning) && slideCount > 1 ==>
        currentSlide == NextIndex(old(currentSlide), slideCount)
    {
      var action := SwipeAction(touchEndX - touchStartX, touchEndY - touchStartY);
      if action == Some(Prev) {
        PrevSlide();
      } else if action == Some(Next) {
        NextSlide();
      }
    }

    /** A touch begins: its point is recorded and autoplay pauses. */
    method TouchStart(x: real, y: real)
      requires Valid()
      modifies this`touchStartX, this`touchStartY, this`isPlaying, this`interval, this`runningIntervals
      ensures Valid() && touchStartX == x && touchStartY == y && !isPlaying && interval.None?
    {
      touchStartX, touchStartY := x, y;
      Pause();
    }

    /** A touch ends: its point is recorded and the swipe is handled. */
    method TouchEnd(x: real, y: real)
      requires Valid()
      modifies this`touchEndX, this`touchEndY, this`isTransitioning, this`currentSlide, this`cleanupPending, this`lastDirection
      ensures Valid() && touchEndX == x && touchEndY == y
      ensures SwipeAction(x - touchStartX, y - touchStartY).None? ==> currentSlide == old(currentSlide)
      ensures SwipeAction(x - touchStartX, y - touchStartY) == Some(Prev) && !old(isTransitioning) && slideCount > 1 ==>
        currentSlide == PrevIndex(old(currentSlide), slideCount)
      ensures SwipeAction(x - touchStartX, y - touchStartY) == Some(Next) && !old(isTransitioning) && slideCount > 1 ==>
        currentSlide == NextIndex(old(currentSlide), slideCount)
    {
      touchEndX, touchEndY := x, y;
      HandleSwipe();
    }

    /** Three seconds after a touch: autoplay resumes unless the carousel is hovered or focused. */
    method TouchResume(hovered: bool, focusWithin: bool)
      requires Valid()
      modifies this`isPlaying, this`interval, this`runningIntervals
      ensures Valid()
      ensures !hovered && !focusWithin ==> isPlaying && interval == Some(intervalDuration)
      ensures hovered || focusWithin ==> isPlaying == old(isPlaying) && interval == old(interval)
    {
      if !hovered && !focusWithin {
        Play();
      }
    }

    method MouseDown(x: real, y: real)
      modifies this`isDragging, this`touchStartX, this`touchStartY
      ensures isDragging && touchStartX == x && touchStartY == y
    {
      isDragging := true;
      touchStartX, touchStartY := x, y;
    }

    /** handleMouseUp: the end of a mouse drag is a swipe; without a drag nothing happens. */
    method MouseUp(x: real, y: real)
      requires Valid()
      modifies this`isDragging, this`touchEndX, this`touchEndY
      modifies this`isTransitioning, this`currentSlide, this`cleanupPending, this`lastDirection
      ensures Valid() && !isDragging
      ensures !old(isDragging) ==> currentSlide == old(currentSlide) && touchEndX == old(touchEndX) && touchEndY == old(touchEndY)
      ensures old(isDragging) ==> touchEndX == x && touchEndY == y
      ensures old(isDragging) && SwipeAction(x - touchStartX, y - touchStartY).None? ==> currentSlide == old(currentSlide)
      ensures old(isDragging) && SwipeAction(x - touchStartX, y - touchStartY) == Some(Prev) && !old(isTransitioning) && slideCount > 1 ==>
        currentSlide == PrevIndex(old(currentSlide), slideCount)
      ensures old(isDragging) && SwipeAction(x - touchStartX, y - touchStartY) == Some(Next) && !old(isTransitioning) && slideCount > 1 ==>
        currentSlide == NextIndex(old(currentSlide), slideCount)
    {
      if !isDragging {
        return;
      }
      isDragging := false;
      touchEndX, touchEndY := x, y;
      HandleSwipe();
    }

    /** Hovering pauses autoplay on a screen that is not mobile. */
    method MouseEnter()
      requires Valid()
      modifies this`isPlaying, this`interval, this`runningIntervals
      ensures Valid()
      ensures hoverPauses ==> !isPlaying && interval.None?
      ensures !hoverPauses ==> isPlaying == old(isPlaying) && interval == old(interval)
    {
      if hoverPauses {
        Pause();
      }
    }

    /** Leaving ends a mouse drag, then resumes autoplay on a screen that is not mobile. */
    method MouseLeave(x: real, y: real)
      requires Valid()
      modifies this`isDragging, this`touchEndX, this`touchEndY
      modifies this`isTransitioning, this`currentSlide, this`cleanupPending, this`lastDirection
      modifies this`isPlaying, this`interval, this`runningIntervals
      ensures Valid() && !isDragging
      ensures hoverPauses ==> isPlaying && interval == Some(intervalDuration)
      ensures !hoverPauses ==> isPlaying == old(isPlaying) && interval == old(interval)
    {
      MouseUp(x, y);
      if hoverPauses {
        Play();
      }
    }

    /** adjustForScreenSize: the period follows the width, and a running timer restarts with it. */
    method AdjustForScreenSize(width: int)
      requires Valid()
      modifies this`intervalDuration, this`isPlaying, this`interval, this`runningIntervals
      ensures Valid()
      ensures intervalDuration == IntervalFor(ScreenSize(width))
      ensures old(interval).Some? ==> isPlaying && interval == Some(intervalDuration)
      ensures old(interval).None? ==> interval.None? && isPlaying == old(isPlaying)
    {
      if isPlaying && interval.Some? {
        Pause();
        intervalDuration := IntervalFor(ScreenSize(width));
        Play();
      } else {
        intervalDuration := IntervalFor(ScreenSize(width));
      }
    }
  }

  /**
   * Showing an index with no slide leaves the lock taken with no cleanup
   * pending, and from then on every next, previous or go-to is a no-op.
   * No handler of the carousel reaches this state: goToSlide checks the
   * range first and next, previous and the autoplay tick work modulo the
   * slide count; it is what a direct showSlide call out of range does.
   */
  method MissingSlideBlocksCarousel(c: Carousel, target: int)
    requires c.Valid() && c.Live() && !c.isTransitioning && !c.cleanupPending
    requires !(0 <= target < c.slideCount)
    modifies c`isTransitioning, c`currentSlide, c`cleanupPending, c`lastDirection
    ensures c.Valid() && c.isTransitioning && !c.cleanupPending && !c.Live()
    ensures c.currentSlide == old(c.currentSlide)
  {
    c.ShowSlide(target, Next);
    var before := c.currentSlide;
    c.NextSlide();
    c.PrevSlide();
    c.GoToSlide(0);
    assert c.currentSlide == before;
  }
}

=== FILE: image_tags.dfy ===
/**
 * The `image_url` template filter (templatetags/image_tags.py): the URL of
 * one size variant of a gallery image, through the image's own
 * `get_image_url`, then the variant field named by the size, then the
 * original upload, and the empty string when none of them gives one or
 * something raises.
 */
module ImageTags {
  import opened Common

  /** A read or a call that either gives a value or raises an exception other than `AttributeError`. */
  datatype Access<T> = Value(v: T) | Raises

  /**
   * The `url` attribute of a file field: absent (reading it raises
   * `AttributeError`, so `hasattr` is false), a string, or a property that
   * raises some other exception.
   */
  datatype UrlAttr = NoUrl | Url(s: string) | UrlRaises

  /** A file field: whether it is truthy (a file is attached) and its `url` attribute. */
  datatype FileField = FileField(truthy: bool, url: UrlAttr)

  /**
   * A gallery image as the filter sees it: its `get_image_url` method, if
   * it has one (a falsy return, `None` or `''`, is the empty string here),
   * and its file-field attributes by name; a name missing from `fields` is
   * an attribute the object does not have.
   */
  datatype SceneImage = SceneImage(getImageUrl: Option<string -> Access<string>>, fields: map<string, FileField>)

  /** The filter's argument: something falsy (`None`, `''`) or an image. */
  datatype ImageArg = Falsy | Given(image: SceneImage)

  /** How the `try` block ends: a `return`, falling off its end, or an exception. */
  datatype Outcome = Returns(url: string) | FallsThrough | Raised

  const OriginalField: string := "original_image"
  const DefaultField: string := "medium_image"

  /** `size_field_map.get(size, 'medium_image')`. */
  function SizeField(size: string): string
  {
    if size == "original" then OriginalField
    else if size == "large" then "large_image"
    else if size == "medium" then "medium_image"
    else if size == "small" then "small_image"
    else if size == "thumbnail" then "thumbnail"
    else DefaultField
  }

  /** The five size names the filter knows. */
  predicate KnownSize(size: string)
  {
    size in {"original", "large", "medium", "small", "thumbnail"}
  }

  /**
   * Each known size names its own field (the size with `_image` appended,
   * except `thumbnail`, whose field is `thumbnail`), and every other size
   * falls back to `medium_image`.
   */
  lemma SizeFieldNames(size: string)
    ensures size == "original" ==> SizeField(size) == "original_image"
    ensures size == "large" ==> SizeField(size) == "large_image"
    ensures size == "medium" ==> SizeField(size) == "medium_image"
    ensures size == "small" ==> SizeField(size) == "small_image"
    ensures size == "thumbnail" ==> SizeField(size) == "thumbnail"
    ensures !KnownSize(size) ==> SizeField(size) == "medium_image"
    ensures SizeField(size) == "medium_image" <==> size == "medium" || !KnownSize(size)
  {
  }

  /** `if hasattr(scene_image, 'get_image_url')`: a truthy result is returned, a falsy one falls through. */
  function ViaMethod(img: SceneImage, size: string): Outcome
  {
    match img.getImageUrl
    case None => FallsThrough
    case Some(getImageUrl) =>
      match getImageUrl(size)
      case Raises => Raised
      case Value(u) => if u != "" then Returns(u) else FallsThrough
  }

  /**
   * `field = getattr(scene_image, field_name, None)` and
   * `if field and hasattr(field, 'url')`. A `url` property that raises
   * makes `hasattr` itself raise, outside the inner `try`.
   */
  function ViaSizeField(img: SceneImage, size: string): Outcome
  {
    var name := SizeField(size);
    if name in img.fields && img.fields[name].truthy then
      match img.fields[name].url
      case NoUrl => FallsThrough
      case Url(s) => Returns(s)
      case UrlRaises => Raised
    else FallsThrough
  }

  /**
   * The `original_image` fallback: its URL when the field is there and
   * truthy; a failing `.url` is swallowed by the inner bare `except`.
   */
  function ViaOriginal(img: SceneImage): Outcome
  {
    if OriginalField in img.fields && img.fields[OriginalField].truthy then
      match img.fields[OriginalField].url
      case Url(s) => Returns(s)
      case _ => FallsThrough
    else FallsThrough
  }

  /** The three steps of the outer `try`, each reached only when the ones before fell through. */
  function TryBlock(img: SceneImage, size: string): Outcome
  {
    var first := ViaMethod(img, size);
    if first != FallsThrough then first
    else
      var second := ViaSizeField(img, size);
      if second != FallsThrough then second
      else ViaOriginal(img)
  }

  /** image_url: '' for a falsy argument; the `try` block's return value; '' when it raises or falls through. */
  function ImageUrl(arg: ImageArg, size: string): string
  {
    match arg
    case Falsy => ""
    case Given(img) =>
      match TryBlock(img, size)
      case Returns(u) => u
      case _ => ""
  }

  /** A falsy argument gives the empty string, whatever the size. */
  lemma FalsyGivesEmpty(size: string)
    ensures ImageUrl(Falsy, size) == ""
  {
  }

  /** A truthy `get_image_url(size)` is returned unchanged, and nothing else is consulted. */
  lemma MethodResultWins(img: SceneImage, size: string, f: string -> Access<string>, u: string)
    requires img.getImageUrl == Some(f) && f(size) == Value(u) && u != ""
    ensures ImageUrl(Given(img), size) == u
  {
  }

  /** A `get_image_url` that raises gives the empty string, whatever the fields hold. */
  lemma MethodRaisesGivesEmpty(img: SceneImage, size: string, f: string -> Access<string>)
    requires img.getImageUrl == Some(f) && f(size) == Raises
    ensures ImageUrl(Given(img), size) == ""
  {
  }

  /** The size's field is consulted only when the method is missing or gives a falsy URL. */
  predicate MethodFallsThrough(img: SceneImage, size: string)
  {
    img.getImageUrl.None? || img.getImageUrl.value(size) == Value("")
  }

  /** Past the method, a truthy field for the size with a `url` gives that URL, even an empty one. */
  lemma SizeFieldUrl(img: SceneImage, size: string, s: string)
    requires MethodFallsThrough(img, size)
    requires SizeField(size) in img.fields
    requires img.fields[SizeField(size)] == FileField(true, Url(s))
    ensures ImageUrl(Given(img), size) == s
  {
  }

  /**
   * Past the method, when the size's field is missing, falsy or has no
   * `url`, the original upload's URL is used if it has one, and otherwise
   * the result is the empty string.
   */
  lemma OriginalFallback(img: SceneImage, size: string)
    requires MethodFallsThrough(img, size)
    requires var name := SizeField(size);
      name !in img.fields || !img.fields[name].truthy || img.fields[name].url == NoUrl
    ensures OriginalField in img.fields && img.fields[OriginalField].truthy && img.fields[OriginalField].url.Url? ==>
      ImageUrl(Given(img), size) == img.fields[OriginalField].url.s
    ensures !(OriginalField in img.fields && img.fields[OriginalField].truthy && img.fields[OriginalField].url.Url?) ==>
      ImageUrl(Given(img), size) == ""
  {
  }

  /**
   * The filter only ever returns the empty string or a URL one of its
   * sources gave: the method's result for the size, the size field's URL
   * or the original's URL.
   */
  lemma ResultFromASource(img: SceneImage, size: string)
    ensures var r := ImageUrl(Given(img), size);
      || r == ""
      || (img.getImageUrl.Some? && img.getImageUrl.value(size) == Value(r))
      || (SizeField(size) in img.fields && img.fields[SizeField(size)].url == Url(r))
      || (OriginalField in img.fields && img.fields[OriginalField].url == Url(r))
  {
  }

  /**
   * As written, a size field whose `url` property raises gives the empty
   * string even when the original upload has a URL: `hasattr` raises
   * outside the inner `try`, and the outer handler skips the fallback.
   * Such a `url` needs a storage backend whose `url()` raises; the
   * file-system storage only joins the media URL and the file name.
   */
  lemma UrlErrorSkipsFallback()
    ensures var img := SceneImage(None, map["large_image" := FileField(true, UrlRaises),
                                            "original_image" := FileField(true, Url("/media/a.jpg"))]);
      ImageUrl(Given(img), "large") == ""
  {
    var img := SceneImage(None, map["large_image" := FileField(true, UrlRaises),
                                    "original_image" := FileField(true, Url("/media/a.jpg"))]);
    assert SizeField("large") == "large_image";
    assert ViaSizeField(img, "large") == Raised;
  }

  /**
   * The intended size-field step: a `url` that cannot be read is passed
   * over, as the inner `try`/`except: pass` means to, so the original
   * upload is tried next.
   */
  function ViaSizeFieldIntended(img: SceneImage, size: string): Outcome
  {
    var name := SizeField(size);
    if name in img.fields && img.fields[name].truthy then
      match img.fields[name].url
      case Url(s) => Returns(s)
      case _ => FallsThrough
    else FallsThrough
  }

  /** image_url with the intended size-field step. */
  function ImageUrlIntended(arg: ImageArg, size: string): string
  {
    match arg
    case Falsy => ""
    case Given(img) =>
      var first := ViaMethod(img, size);
      var outcome :=
        if first != FallsThrough then first
        else
          var second := ViaSizeFieldIntended(img, size);
          if second != FallsThrough then second else ViaOriginal(img);
      match outcome
      case Returns(u) => u
      case _ => ""
  }

  /**
   * With the intended step, whenever the method falls through and the
   * size's field gives no URL, for whatever reason, the original upload's
   * URL is used when it has one.
   */
  lemma IntendedFallsBack(img: SceneImage, size: string)
    requires MethodFallsThrough(img, size)
    requires var name := SizeField(size);
      name !in img.fields || !img.fields[name].truthy || !img.fields[name].url.Url?
    requires OriginalField in img.fields && img.fields[OriginalField].truthy && img.fields[OriginalField].url.Url?
    ensures ImageUrlIntended(Given(img), size) == img.fields[OriginalField].url.s
  {
  }

  /** The two versions differ only where a size field's `url` raises; everywhere else they agree. */
  lemma IntendedAgreesElsewhere(arg: ImageArg, size: string)
    requires arg.Given? ==> var name := SizeField(size);
      !(name in arg.image.fields && arg.image.fields[name].truthy && arg.image.fields[name].url == UrlRaises)
    ensures ImageUrlIntended(arg, size) == ImageUrl(arg, size)
  {
  }
}

=== FILE: lightbox.dfy ===
/**
 * The image lightbox (static/js/lightBox.js): a singleton whose fields are
 * the image list, the current index, the zoom factor and the pan offset.
 * Zoom and pan are mathematical reals. DOM events are method calls; the
 * sizes the browser measures for the container and the displayed image are
 * the field `layout`, set by the page. Key listeners registered on the
 * document are counted, because the source registers a new one per open.
 */
module Lightbox {
  import opened Common

  const MinZoom: real := 0.5
  const MaxZoom: real := 3.0

  /** An image card of the grid: its `img` element's attributes, when it has one. */
  datatype Img = Img(dataLargeUrl: string, src: string, alt: string, width: string, height: string, fileSize: string)
  datatype Card = Card(img: Option<Img>, imageId: Option<string>)

  datatype Entry = Entry(id: string, largeUrl: string, caption: string, width: string, height: string, fileSize: string)

  /** `a || b` on strings. */
  function Or(a: string, b: string): string
  {
    if a != "" then a else b
  }

  /** A card is listed when it has an image and a non-empty image id. */
  predicate Listed(c: Card)
  {
    c.img.Some? && c.imageId.Some? && c.imageId.value != ""
  }

  function EntryOf(c: Card): Entry
    requires Listed(c)
  {
    var img := c.img.value;
    Entry(c.imageId.value, Or(img.dataLargeUrl, ReplaceFirst(img.src, "/medium/", "/large/")),
          Or(img.alt, "Untitled"), Or(img.width, "Unknown"), Or(img.height, "Unknown"), Or(img.fileSize, "Unknown"))
  }

  /** The entries of the listed cards, in grid order. */
  function Entries(cards: seq<Card>): (r: seq<Entry>)
    ensures |r| <= |cards|
    ensures forall e :: e in r ==> e.id != "" && e.caption != ""
  {
    if cards == [] then []
    else Entries(cards[..|cards| - 1]) + (if Listed(cards[|cards| - 1]) then [EntryOf(cards[|cards| - 1])] else [])
  }

  /** Every listed card has its entry, and every entry comes from a listed card. */
  lemma {:induction false} EntriesMembers(cards: seq<Card>)
    ensures forall c :: c in cards && Listed(c) ==> EntryOf(c) in Entries(cards)
    ensures forall e :: e in Entries(cards) ==> exists c :: c in cards && Listed(c) && e == EntryOf(c)
  {
    if cards != [] {
      var init := cards[..|cards| - 1];
      EntriesMembers(init);
      assert cards == init + [cards[|cards| - 1]];
      forall e | e in Entries(cards) ensures exists c :: c in cards && Listed(c) && e == EntryOf(c) {
        if e in Entries(init) {
          var c :| c in init && Listed(c) && e == EntryOf(c);
          assert c in cards;
        }
      }
    }
  }

  /** The first index whose id matches, as `findIndex`. */
  function FindIndex(list: seq<Entry>, id: string): (r: Option<nat>)
    ensures r.Some? ==> r.value < |list| && list[r.value].id == id
    ensures r.Some? ==> forall j :: 0 <= j < r.value ==> list[j].id != id
    ensures r.None? ==> forall j :: 0 <= j < |list| ==> list[j].id != id
  {
    if list == [] then None
    else if list[0].id == id then Some(0)
    else
      var rest := FindIndex(list[1..], id);
      if rest.None? then None else Some(rest.value + 1)
  }

  function Clamp(lo: real, hi: real, x: real): real
  {
    if x < lo then lo else if x > hi then hi else x
  }

  /** `Math.max(0.5, Math.min(3, zoom + delta))`. */
  function ZoomBy(zoom: real, delta: real): (r: real)
    ensures MinZoom <= r <= MaxZoom
    ensures MinZoom <= zoom + delta <= MaxZoom ==> r == zoom + delta
    ensures zoom + delta > MaxZoom ==> r == MaxZoom
    ensures zoom + delta < MinZoom ==> r == MinZoom
  {
    if zoom + delta > MaxZoom then MaxZoom else if zoom + delta < MinZoom then MinZoom else zoom + delta
  }

  /** How far the image may be panned along one axis: half the overhang, never negative. */
  function MaxPan(imageSize: real, containerSize: real): (r: real)
    ensures r >= 0.0
    ensures imageSize <= containerSize ==> r == 0.0
  {
    if imageSize - containerSize > 0.0 then (imageSize - containerSize) / 2.0 else 0.0
  }

  datatype Point = Point(x: real, y: real)
  datatype Layout = Layout(containerWidth: real, containerHeight: real, imageWidth: real, imageHeight: real)

  /** constrainPanPosition: each coordinate clamped to plus or minus its axis's MaxPan. */
  function Constrain(p: Point, l: Layout): (r: Point)
    ensures var mx, my := MaxPan(l.imageWidth, l.containerWidth), MaxPan(l.imageHeight, l.containerHeight);
      && -mx <= r.x <= mx && -my <= r.y <= my
      && (-mx <= p.x <= mx ==> r.x == p.x) && (-my <= p.y <= my ==> r.y == p.y)
  {
    var mx, my := MaxPan(l.imageWidth, l.containerWidth), MaxPan(l.imageHeight, l.containerHeight);
    Point(Clamp(-mx, mx, p.x), Clamp(-my, my, p.y))
  }

  /** `${index + 1} / ${length}`. */
  function CounterText(index: int, length: nat): string
  {
    IntToString(index + 1) + " / " + IntToString(length)
  }

  class Lightbox {
    var imageList: seq<Entry>
    var currentImageIndex: int
    var currentZoom: real
    var imagePosition: Point
    var isDragging: bool
    var dragStart: Point
    var touchStart: Option<Point>
    var lastTouchDistance: real
    var layout: Layout
    var modalShown: bool
    var loaderShown: bool
    /** What updateImageInfo wrote: caption, counter, and the previous/next buttons. */
    var caption: string
    var counter: string
    var prevDisabled: bool
    var nextDisabled: bool
    var arrowsShown: bool
    /** Keydown listeners registered on the document. */
    var keyHandlers: nat

    /** The zoom stays in [0.5, 3], and the index points into a non-empty list. */
    predicate Valid()
      reads this
    {
      && MinZoom <= currentZoom <= MaxZoom
      && (if imageList == [] then currentImageIndex == 0 else 0 <= currentImageIndex < |imageList|)
    }

    constructor(layout: Layout)
      ensures Valid() && imageList == [] && currentImageIndex == 0
      ensures currentZoom == 1.0 && imagePosition == Point(0.0, 0.0)
      ensures !isDragging && touchStart.None? && !modalShown && keyHandlers == 0 && this.layout == layout
    {
      imageList := [];
      currentImageIndex := 0;
      currentZoom := 1.0;
      imagePosition := Point(0.0, 0.0);
      isDragging := false;
      dragStart := Point(0.0, 0.0);
      touchStart := None;
      lastTouchDistance := 0.0;
      this.layout := layout;
      modalShown, loaderShown := false, false;
      caption, counter := "", "";
      prevDisabled, nextDisabled, arrowsShown := false, false, false;
      keyHandlers := 0;
    }

    /** updateImageTransform: with a zoom above 1 the pan is constrained to the layout. */
    method UpdateImageTransform()
      modifies this`imagePosition
      ensures currentZoom > 1.0 ==> imagePosition == Constrain(old(imagePosition), layout)
      ensures currentZoom <= 1.0 ==> imagePosition == old(imagePosition)
    {
      if currentZoom > 1.0 {
        imagePosition := Constrain(imagePosition, layout);
      }
    }

    /** resetZoom: zoom 1 and no pan. */
    method ResetZoom()
      requires Valid()
      modifies this`currentZoom, this`imagePosition
      ensures Valid() && currentZoom == 1.0 && imagePosition == Point(0.0, 0.0)
    {
      currentZoom := 1.0;
      imagePosition := Point(0.0, 0.0);
      UpdateImageTransform();
    }

    /** zoomImage: the zoom becomes ZoomBy(zoom, delta); the pan is then constrained if zoomed in. */
    method ZoomImage(delta: real)
      requires Valid()
      modifies this`currentZoom, this`imagePosition
      ensures Valid() && currentZoom == ZoomBy(old(currentZoom), delta)
      ensures currentZoom != old(currentZoom) && currentZoom > 1.0 ==> imagePosition == Constrain(old(imagePosition), layout)
      ensures currentZoom == old(currentZoom) || currentZoom <= 1.0 ==> imagePosition == old(imagePosition)
    {
      var newZoom := ZoomBy(currentZoom, delta);
      if newZoom != currentZoom {
        currentZoom := newZoom;
        UpdateImageTransform();
      }
    }

    /** loadCurrentImage up to the request: with images, the loader shows and the zoom resets. */
    method LoadCurrentImage()
      requires Valid()
      modifies this`loaderShown, this`currentZoom, this`imagePosition
      ensures Valid()
      ensures imageList != [] ==> loaderShown && currentZoom == 1.0 && imagePosition == Point(0.0, 0.0)
      ensures imageList == [] ==> loaderShown == old(loaderShown) && currentZoom == old(currentZoom) && imagePosition == old(imagePosition)
    {
      if imageList == [] {
        return;
      }
      loaderShown := true;
      ResetZoom();
    }

    /** The image (or its fallback) has loaded: updateImageInfo and the loader hides. */
    method ImageLoaded()
      requires Valid() && imageList != []
      modifies this`caption, this`counter, this`prevDisabled, this`nextDisabled, this`arrowsShown, this`loaderShown
      ensures !loaderShown
      ensures caption == imageList[currentImageIndex].caption
      ensures counter == CounterText(currentImageIndex, |imageList|)
      ensures prevDisabled <==> currentImageIndex == 0
      ensures nextDisabled <==> currentImageIndex == |imageList| - 1
      ensures arrowsShown <==> |imageList| > 1
    {
      caption := imageList[currentImageIndex].caption;
      counter := CounterText(currentImageIndex, |imageList|);
      prevDisabled := currentImageIndex == 0;
      nextDisabled := currentImageIndex == |imageList| - 1;
      arrowsShown := |imageList| > 1;
      loaderShown := false;
    }

    /** buildImageList: a fresh list of the grid's listed cards; no grid gives an empty list. */
    method BuildImageList(grid: Option<seq<Card>>)
      modifies this`imageList
      ensures imageList == (if grid.None? then [] else Entries(grid.value))
    {
      imageList := [];
      if grid.None? {
        return;
      }
      var cards := grid.value;
      var i := 0;
      while i < |cards|
        invariant 0 <= i <= |cards|
        invariant imageList == Entries(cards[..i])
      {
        assert cards[..i + 1][..i] == cards[..i];
        if Listed(cards[i]) {
          imageList := imageList + [EntryOf(cards[i])];
        }
        i := i + 1;
      }
      assert cards[..|cards|] == cards;
    }

    /**
     * open: the list is rebuilt, the index is the first entry with the
     * clicked id or 0, the modal shows and one more key listener is added.
     */
    method Open(clickedImageId: string, grid: Option<seq<Card>>)
      requires Valid()
      modifies this`imageList, this`currentImageIndex, this`modalShown, this`keyHandlers
      modifies this`loaderShown, this`currentZoom, this`imagePosition
      ensures Valid() && modalShown
      ensures imageList == (if grid.None? then [] else Entries(grid.value))
      ensures currentImageIndex == (match FindIndex(imageList, clickedImageId) case Some(i) => i as int case None => 0)
      ensures imageList != [] ==> currentZoom == 1.0 && imagePosition == Point(0.0, 0.0) && loaderShown
      ensures keyHandlers == old(keyHandlers) + 1
    {
      BuildImageList(grid);
      var index := FindIndex(imageList, clickedImageId);
      currentImageIndex := if index.Some? then index.value else 0;
      modalShown := true;
      keyHandlers := keyHandlers + 1;
      LoadCurrentImage();
    }

    /**
     * close, as written: the modal hides and the zoom resets, but the key
     * listener stays registered, because the function passed to
     * removeEventListener is a new binding, not the one that was added.
     */
    method Close()
      requires Valid()
      modifies this`modalShown, this`currentZoom, this`imagePosition
      ensures Valid() && !modalShown && currentZoom == 1.0 && imagePosition == Point(0.0, 0.0)
    {
      modalShown := false;
      ResetZoom();
    }

    /** navigateImage: the index moves by `direction` only when the result is inside the list. */
    method NavigateImage(direction: int)
      requires Valid()
      modifies this`currentImageIndex, this`loaderShown, this`currentZoom, this`imagePosition
      ensures Valid()
      ensures 0 <= old(currentImageIndex) + direction < |imageList| ==>
        currentImageIndex == old(currentImageIndex) + direction && currentZoom == 1.0 && imagePosition == Point(0.0, 0.0)
      ensures !(0 <= old(currentImageIndex) + direction < |imageList|) ==>
        currentImageIndex == old(currentImageIndex) && currentZoom == old(currentZoom) && imagePosition == old(imagePosition)
    {
      var newIndex := currentImageIndex + direction;
      if 0 <= newIndex < |imageList| {
        currentImageIndex := newIndex;
        LoadCurrentImage();
      }
    }

    /** A wheel turn: down zooms out by 0.15, anything else zooms in by 0.15. */
    method Wheel(deltaY: real)
      requires Valid()
      modifies this`currentZoom, this`imagePosition
      ensures Valid() && currentZoom == ZoomBy(old(currentZoom), if deltaY > 0.0 then -0.15 else 0.15)
    {
      ZoomImage(if deltaY > 0.0 then -0.15 else 0.15);
    }

    /** A double click takes zoom 1 to 2 and any other zoom back to 1. */
    method DoubleClick()
      requires Valid()
      modifies this`currentZoom, this`imagePosition
      ensures Valid() && currentZoom == (if old(currentZoom) == 1.0 then 2.0 else 1.0)
      ensures old(currentZoom) != 1.0 ==> imagePosition == Point(0.0, 0.0)
    {
      if currentZoom == 1.0 {
        ZoomImage(1.0);
      } else {
        ResetZoom();
      }
    }

    /** startDrag: only a zoomed-in image starts a drag. */
    method StartDrag(clientX: real, clientY: real)
      modifies this`isDragging, this`dragStart
      ensures currentZoom <= 1.0 ==> isDragging == old(isDragging) && dragStart == old(dragStart)
      ensures currentZoom > 1.0 ==> isDragging && dragStart == Point(clientX - imagePosition.x, clientY - imagePosition.y)
    {
      if currentZoom <= 1.0 {
        return;
      }
      isDragging := true;
      dragStart := Point(clientX - imagePosition.x, clientY - imagePosition.y);
    }

    /** drag: while dragging a zoomed-in image, the pan follows the mouse within the layout's bounds. */
    method Drag(clientX: real, clientY: real)
      modifies this`imagePosition
      ensures !isDragging || currentZoom <= 1.0 ==> imagePosition == old(imagePosition)
      ensures isDragging && currentZoom > 1.0 ==>
        imagePosition == Constrain(Point(clientX - dragStart.x, clientY - dragStart.y), layout)
    {
      if !isDragging || currentZoom <= 1.0 {
        return;
      }
      imagePosition := Point(clientX - dragStart.x, clientY - dragStart.y);
      UpdateImageTransform();
    }

    method EndDrag()
      modifies this`isDragging
      ensures !isDragging
    {
      isDragging := false;
    }

    /** handleTouchStart: one touch on a zoomed-in image anchors a pan; two touches record their distance. */
    method TouchStart(touches: seq<Point>, distance: real)
      modifies this`touchStart, this`lastTouchDistance
      ensures |touches| == 1 && currentZoom > 1.0 ==>
        touchStart == Some(Point(touches[0].x - imagePosition.x, touches[0].y - imagePosition.y))
          && lastTouchDistance == old(lastTouchDistance)
      ensures !(|touches| == 1 && currentZoom > 1.0) && |touches| == 2 ==>
        lastTouchDistance == distance && touchStart == old(touchStart)
      ensures !(|touches| == 1 && currentZoom > 1.0) && |touches| != 2 ==>
        lastTouchDistance == old(lastTouchDistance) && touchStart == old(touchStart)
    {
      if |touches| == 1 && currentZoom > 1.0 {
        touchStart := Some(Point(touches[0].x - imagePosition.x, touches[0].y - imagePosition.y));
      } else if |touches| == 2 {
        lastTouchDistance := distance;
      }
    }

    /**
     * handleTouchMove: one anchored touch pans, two touches zoom by half the
     * change of scale. A zero start distance with a positive distance is an
     * infinite scale, which the clamp turns into the largest zoom.
     */
    method TouchMove(touches: seq<Point>, distance: real)
      requires Valid()
      modifies this`imagePosition, this`currentZoom, this`lastTouchDistance
      ensures Valid()
      ensures |touches| == 1 && touchStart.Some? && currentZoom > 1.0 ==>
        imagePosition == Constrain(Point(touches[0].x - touchStart.value.x, touches[0].y - touchStart.value.y), layout)
      ensures |touches| == 1 && touchStart.Some? && currentZoom <= 1.0 ==>
        imagePosition == Point(touches[0].x - touchStart.value.x, touches[0].y - touchStart.value.y)
      ensures |touches| == 1 && touchStart.Some? ==> currentZoom == old(currentZoom)
      ensures !(|touches| == 1 && touchStart.Some?) && |touches| == 2 && old(lastTouchDistance) > 0.0 ==>
        currentZoom == ZoomBy(old(currentZoom), (distance / old(lastTouchDistance) - 1.0) * 0.5) && lastTouchDistance == distance
      ensures !(|touches| == 1 && touchStart.Some?) && |touches| == 2 && old(lastTouchDistance) == 0.0 && distance > 0.0 ==>
        currentZoom == MaxZoom
      ensures !(|touches| == 1 && touchStart.Some?) && |touches| == 2 && old(lastTouchDistance) == 0.0 && distance == 0.0 ==>
        currentZoom == old(currentZoom)
    {
      if |touches| == 1 && touchStart.Some? {
        imagePosition := Point(touches[0].x - touchStart.value.x, touches[0].y - touchStart.value.y);
        UpdateImageTransform();
      } else if |touches| == 2 {
        if lastTouchDistance > 0.0 {
          ZoomImage((distance / lastTouchDistance - 1.0) * 0.5);
        } else if distance > 0.0 {
          ZoomImage(MaxZoom);
        }
        lastTouchDistance := distance;
      }
    }

    method TouchEnd()
      modifies this`touchStart
      ensures touchStart.None?
    {
      touchStart := None;
    }

    /** A click on the modal's background or on the image container closes the lightbox. */
    method ModalClicked(onBackground: bool)
      requires Valid()
      modifies this`modalShown, this`currentZoom, this`imagePosition
      ensures Valid()
      ensures onBackground ==> !modalShown && currentZoom == 1.0 && imagePosition == Point(0.0, 0.0)
      ensures !onBackground ==> modalShown == old(modalShown) && currentZoom == old(currentZoom) && imagePosition == old(imagePosition)
    {
      if onBackground {
        Close();
      }
    }

    /**
     * One keydown listener's work: Escape closes, the arrows and space
     * navigate, + and = zoom in by 0.2, - zooms out by 0.2, 0 resets.
     * Fullscreen ('f') is not part of this model.
     */
    method HandleKeydown(key: string)
      requires Valid()
      modifies this`modalShown, this`currentImageIndex, this`loaderShown, this`currentZoom, this`imagePosition
      ensures Valid()
      ensures key == "ArrowLeft" ==>
        currentImageIndex == (if old(currentImageIndex) >= 1 then old(currentImageIndex) - 1 else old(currentImageIndex))
      ensures key == "ArrowRight" || key == " " ==>
        currentImageIndex == (if old(currentImageIndex) + 1 < |imageList| then old(currentImageIndex) + 1 else old(currentImageIndex))
      ensures key == "+" || key == "=" ==> currentZoom == ZoomBy(old(currentZoom), 0.2)
      ensures key == "-" ==> currentZoom == ZoomBy(old(currentZoom), -0.2)
      ensures key == "0" ==> currentZoom == 1.0 && imagePosition == Point(0.0, 0.0)
      ensures key == "Escape" ==> !modalShown && currentZoom == 1.0
      ensures key != "ArrowLeft" && key != "ArrowRight" && key != " " ==> currentImageIndex == old(currentImageIndex)
      ensures key != "Escape" ==> modalShown == old(modalShown)
    {
      if key == "Escape" {
        Close();
      } else if key == "ArrowLeft" {
        NavigateImage(-1);
      } else if key == "ArrowRight" || key == " " {
        NavigateImage(1);
      } else if key == "+" || key == "=" {
        ZoomImage(0.2);
      } else if key == "-" {
        ZoomImage(-0.2);
      } else if key == "0" {
        ResetZoom();
      }
    }

    /** A key press as the document delivers it: every registered listener handles it in turn. */
    method KeyDown(key: string)
      requires Valid()
      modifies this`modalShown, this`currentImageIndex, this`loaderShown, this`currentZoom, this`imagePosition
      ensures Valid()
      ensures key == "ArrowRight" && imageList != [] ==>
        currentImageIndex == Min(old(currentImageIndex) + keyHandlers, |imageList| - 1)
      ensures key == "ArrowLeft" ==> currentImageIndex == Max(old(currentImageIndex) - keyHandlers, 0)
      ensures keyHandlers == 0 ==> currentImageIndex == old(currentImageIndex) && currentZoom == old(currentZoom)
    {
      var n := 0;
      while n < keyHandlers
        invariant 0 <= n <= keyHandlers
        invariant Valid()
        invariant key == "ArrowRight" && imageList != [] ==>
          currentImageIndex == Min(old(currentImageIndex) + n, |imageList| - 1)
        invariant key == "ArrowLeft" ==> currentImageIndex == Max(old(currentImageIndex) - n, 0)
        invariant n == 0 ==> currentImageIndex == old(currentImageIndex) && currentZoom == old(currentZoom)
      {
        HandleKeydown(key);
        n := n + 1;
      }
    }

    /** open with one listener kept for the lightbox's lifetime: adding it again is a no-op. */
    method OpenIntended(clickedImageId: string, grid: Option<seq<Card>>)
      requires Valid()
      modifies this`imageList, this`currentImageIndex, this`modalShown, this`keyHandlers
      modifies this`loaderShown, this`currentZoom, this`imagePosition
      ensures Valid() && modalShown && keyHandlers == 1
      ensures imageList == (if grid.None? then [] else Entries(grid.value))
      ensures currentImageIndex == (match FindIndex(imageList, clickedImageId) case Some(i) => i as int case None => 0)
    {
      Open(clickedImageId, grid);
      keyHandlers := 1;
    }

    /** close removing the very listener open added. */
    method CloseIntended()
      requires Valid()
      modifies this`modalShown, this`currentZoom, this`imagePosition, this`keyHandlers
      ensures Valid() && !modalShown && keyHandlers == 0 && currentZoom == 1.0
    {
      Close();
      keyHandlers := 0;
    }
  }

  function Min(a: int, b: int): int { if a < b then a else b }
  function Max(a: int, b: int): int { if a > b then a else b }

  /**
   * As written: opening the lightbox a second time leaves two key
   * listeners, so one ArrowRight press moves two images on.
   */
  method ReopenedLightboxSkipsAnImage(lb: Lightbox, grid: seq<Card>)
    requires lb.Valid() && lb.keyHandlers == 0
    requires |Entries(grid)| >= 3
    modifies lb
    ensures lb.keyHandlers == 2
    ensures lb.currentImageIndex == 2
  {
    var first := Entries(grid)[0].id;
    lb.Open(first, Some(grid));
    lb.Close();
    lb.Open(first, Some(grid));
    lb.KeyDown("ArrowRight");
  }

  /** With the intended listener handling, the same presses move one image on. */
  method ReopenedLightboxIntended(lb: Lightbox, grid: seq<Card>)
    requires lb.Valid()
    requires |Entries(grid)| >= 3
    modifies lb
    ensures lb.keyHandlers == 1
    ensures lb.currentImageIndex == 1
  {
    var first := Entries(grid)[0].id;
    lb.OpenIntended(first, Some(grid));
    lb.CloseIntended();
    lb.OpenIntended(first, Some(grid));
    lb.KeyDown("ArrowRight");
  }
}

=== FILE: main_js.dfy ===
/**
 * The site-wide script (static/js/main.js): the random-scene keyboard
 * shortcut, the favourite count written after a toggle, the CSRF token
 * lookup and the favourites badge in the navigation bar. The file as
 * shipped does not parse (a stray `/` at the end of line 350 opens a
 * regular expression that meets the line break), so none of it runs; the
 * members here model what the functions' text does once that `/` is read
 * as the start of a `//` comment.
 */
module MainJs {
  import opened Common

  // ---------------------------------------------------------------------
  // Random-scene shortcut

  /** What the keydown listener reads from the event and its target. */
  datatype KeyEvent = KeyEvent(
    targetTag: string,
    targetEditable: bool,
    key: string,
    ctrlKey: bool,
    metaKey: bool,
    altKey: bool)

  const RandomRoute: string := "/random/"

  /**
   * The keydown listener: `Some(route)` when it prevents the default and
   * sends the page to `route`, `None` when it does nothing.
   */
  function RandomShortcut(e: KeyEvent): Option<string>
  {
    if e.targetTag != "INPUT" && e.targetTag != "TEXTAREA" && !e.targetEditable then
      if Lower(e.key) == "r" && !e.ctrlKey && !e.metaKey && !e.altKey then Some(RandomRoute) else None
    else None
  }

  /** `key.toLowerCase() === 'r'` holds for exactly the two keys `r` and `R`. */
  lemma LowerIsR(key: string)
    ensures Lower(key) == "r" <==> key == "r" || key == "R"
  {
    if Lower(key) == "r" {
      assert |key| == 1 && LowerChar(key[0]) == 'r';
      assert key == [key[0]];
    }
    if key == "R" {
      assert Lower(key)[0] == 'r';
    }
  }

  /**
   * The shortcut fires exactly for a plain `r` or `R` pressed outside
   * text inputs, and then it always goes to the random-scene route.
   */
  lemma RandomShortcutFires(e: KeyEvent)
    ensures RandomShortcut(e).Some? <==>
      && e.targetTag != "INPUT" && e.targetTag != "TEXTAREA" && !e.targetEditable
      && (e.key == "r" || e.key == "R")
      && !e.ctrlKey && !e.metaKey && !e.altKey
    ensures RandomShortcut(e).Some? ==> RandomShortcut(e).value == "/random/"
  {
    LowerIsR(e.key);
  }

  // ---------------------------------------------------------------------
  // Favourite count after a toggle

  /** `(${data.favorite_count})`: the count in decimal between parentheses. */
  function FavoriteCountText(n: int): (t: string)
    ensures |t| >= 3 && t[0] == '(' && t[|t| - 1] == ')'
    ensures JsParseInt(t[1..|t| - 1]) == Some(n)
  {
    var t := "(" + IntToString(n) + ")";
    assert t[1..|t| - 1] == IntToString(n);
    JsParseIntOfIntToString(n);
    t
  }

  // ---------------------------------------------------------------------
  // CSRF token

  /** A JavaScript string, or `undefined`. */
  datatype Token = Text(s: string) | Undefined

  /** `cookie.trim().split('=')`. */
  function CookieParts(cookie: string): (parts: seq<string>)
    ensures |parts| >= 1
  {
    Split(Trim(cookie), '=')
  }

  /** The first element of the destructured split. */
  function CookieName(cookie: string): string
  {
    CookieParts(cookie)[0]
  }

  /** The second element of the destructured split: `undefined` when there is no '='. */
  function CookieValue(cookie: string): Token
  {
    var parts := CookieParts(cookie);
    if |parts| > 1 then Text(parts[1]) else Undefined
  }

  const CsrfCookieName: string := "csrftoken"

  /** The value of the first cookie named `csrftoken`, or the empty string. */
  function CsrfFromCookies(cookies: seq<string>): Token
  {
    if cookies == [] then Text("")
    else if CookieName(cookies[0]) == CsrfCookieName then CookieValue(cookies[0])
    else CsrfFromCookies(cookies[1..])
  }

  /** The first matching cookie decides, whatever follows it. */
  lemma {:induction false} CsrfFirstMatch(cookies: seq<string>, i: nat)
    requires i < |cookies| && CookieName(cookies[i]) == CsrfCookieName
    requires forall j :: 0 <= j < i ==> CookieName(cookies[j]) != CsrfCookieName
    ensures CsrfFromCookies(cookies) == CookieValue(cookies[i])
  {
    if i > 0 {
      var rest := cookies[1..];
      assert rest[i - 1] == cookies[i];
      forall j | 0 <= j < i - 1 ensures CookieName(rest[j]) != CsrfCookieName {
        assert rest[j] == cookies[j + 1];
      }
      CsrfFirstMatch(rest, i - 1);
    }
  }

  /** With no cookie named `csrftoken` the token is the empty string. */
  lemma {:induction false} CsrfNoMatch(cookies: seq<string>)
    requires forall j :: 0 <= j < |cookies| ==> CookieName(cookies[j]) != CsrfCookieName
    ensures CsrfFromCookies(cookies) == Text("")
  {
    if cookies != [] {
      var rest := cookies[1..];
      forall j | 0 <= j < |rest| ensures CookieName(rest[j]) != CsrfCookieName {
        assert rest[j] == cookies[j + 1];
      }
      CsrfNoMatch(rest);
    }
  }

  /**
   * A cookie `name=v=w` (already trimmed) has name `name` and value `v`:
   * whatever follows a second '=' is lost.
   */
  lemma CookieValueBetween(name: string, v: string, w: string)
    requires '=' !in name && '=' !in v
    requires Trim(name + "=" + v + "=" + w) == name + "=" + v + "=" + w
    ensures CookieName(name + "=" + v + "=" + w) == name
    ensures CookieValue(name + "=" + v + "=" + w) == Text(v)
  {
    var c := name + "=" + v + "=" + w;
    assert c == name + ['='] + (v + ['='] + w);
    SplitFirst(name, '=', v + ['='] + w);
    SplitFirst(v, '=', w);
  }

  /**
   * getCsrfToken: a truthy `window.csrfToken` wins; otherwise the cookies
   * are scanned in order and the first one named `csrftoken` gives its value.
   */
  method GetCsrfToken(windowToken: string, documentCookie: string) returns (t: Token)
    ensures windowToken != "" ==> t == Text(windowToken)
    ensures windowToken == "" ==> t == CsrfFromCookies(Split(documentCookie, ';'))
  {
    if windowToken != "" {
      return Text(windowToken);
    }
    var cookies := Split(documentCookie, ';');
    var i := 0;
    while i < |cookies|
      invariant 0 <= i <= |cookies|
      invariant CsrfFromCookies(cookies) == CsrfFromCookies(cookies[i..])
    {
      var parts := CookieParts(cookies[i]);
      ghost var rest := cookies[i..];
      assert rest[0] == cookies[i] && rest[1..] == cookies[i + 1..];
      if parts[0] == CsrfCookieName {
        return if |parts| > 1 then Text(parts[1]) else Undefined;
      }
      i := i + 1;
    }
    return Text("");
  }

  // ---------------------------------------------------------------------
  // Navigation badge

  /** `parseInt(text) || 0`: NaN and 0 both read as 0. */
  function CurrentCount(text: string): int
  {
    match JsParseInt(text)
    case None => 0
    case Some(n) => n
  }

  /** One more on an add; one fewer, but never below 0, on a removal. */
  function NewCount(current: int, isAdding: bool): int
  {
    if isAdding then current + 1 else if current - 1 > 0 then current - 1 else 0
  }

  lemma NewCountFacts(current: int)
    ensures NewCount(current, true) == current + 1
    ensures NewCount(current, false) >= 0
    ensures current >= 1 ==> NewCount(current, false) == current - 1
    ensures current >= 0 ==> NewCount(NewCount(current, true), false) == current
  {
  }

  /** The badge reads back the number it was given. */
  lemma CurrentCountOf(n: int)
    ensures CurrentCount(IntToString(n)) == n
  {
    JsParseIntOfIntToString(n);
  }

  /** The `nav-favorite-count` element: its text and whether it has the `hidden` class. */
  class NavBadge {
    var text: string
    var hidden: bool

    constructor(text0: string, hidden0: bool)
      ensures text == text0 && hidden == hidden0
    {
      text := text0;
      hidden := hidden0;
    }

    /**
     * updateNavFavoriteCount as written: a positive new count is written
     * and shown; a count of 0 only hides the badge, and its old text stays.
     */
    method UpdateNavFavoriteCount(isAdding: bool)
      modifies this
      ensures var n := NewCount(CurrentCount(old(text)), isAdding);
        && (n > 0 ==> text == IntToString(n) && !hidden && CurrentCount(text) == n)
        && (n <= 0 ==> hidden && text == old(text))
    {
      var currentCount := CurrentCount(text);
      var newCount := NewCount(currentCount, isAdding);
      if newCount > 0 {
        text := IntToString(newCount);
        hidden := false;
        CurrentCountOf(newCount);
      } else {
        hidden := true;
      }
    }

    /**
     * The intended update: the new count is always written, so the text
     * is the count whether or not the badge is shown, and it is hidden
     * exactly when the count is 0.
     */
    method UpdateNavFavoriteCountIntended(isAdding: bool)
      modifies this
      ensures var n := NewCount(CurrentCount(old(text)), isAdding);
        && text == IntToString(n) && CurrentCount(text) == n && hidden == (n <= 0)
    {
      var newCount := NewCount(CurrentCount(text), isAdding);
      text := IntToString(newCount);
      hidden := newCount <= 0;
      CurrentCountOf(newCount);
    }

    /** initNavFavoriteCount: a positive `window.totalFavorites` is written and shown; otherwise nothing changes. */
    method InitNavFavoriteCount(totalFavorites: int)
      modifies this
      ensures totalFavorites > 0 ==> text == IntToString(totalFavorites) && !hidden && CurrentCount(text) == totalFavorites
      ensures totalFavorites <= 0 ==> text == old(text) && hidden == old(hidden)
    {
      if totalFavorites > 0 {
        text := IntToString(totalFavorites);
        hidden := false;
        CurrentCountOf(totalFavorites);
      }
    }
  }

  /**
   * With one favourite shown, removing it and adding it again leaves one
   * favourite, but the badge shows 2: the hidden badge kept its "1".
   */
  method StaleBadgeMiscounts() returns (shown: string, favourites: nat)
    ensures favourites == 1 && shown == "2"
  {
    var badge := new NavBadge("1", false);
    CurrentCountOf(1);
    badge.UpdateNavFavoriteCount(false);
    assert badge.hidden && badge.text == "1";
    badge.UpdateNavFavoriteCount(true);
    shown, favourites := badge.text, 1;
  }

  /** The same removal and add with the intended update: the badge shows 1. */
  method StaleBadgeIntended() returns (shown: string, favourites: nat)
    ensures favourites == 1 && shown == "1"
  {
    var badge := new NavBadge("1", false);
    CurrentCountOf(1);
    badge.UpdateNavFavoriteCountIntended(false);
    assert badge.text == "0";
    CurrentCountOf(0);
    badge.UpdateNavFavoriteCountIntended(true);
    shown, favourites := badge.text, 1;
  }
}

=== FILE: models.dfy ===
/**
 * The records the server-side code reads: a scene row and its free-form
 * `details` JSON, which is a dictionary of sections (`effeminate`,
 * `masculine`, `atmosphere`), each a dictionary of text fields.
 */
module Models {

  type Section = map<string, string>

  type Details = map<string, Section>

  /** A row of the scene table; ages are the integer columns and are taken to be non-negative. */
  datatype Scene = Scene(
    id: int,
    title: string,
    effAge: nat,
    mascAge: nat,
    country: string,
    setting: string,
    emotion: string,
    details: Details,
    fullText: string)

  /** `details.get(name, {})`. */
  function SectionOf(d: Details, name: string): Section
  {
    if name in d then d[name] else map[]
  }

  /** `section.get(name, '')`; a missing field reads as the empty string. */
  function FieldOf(s: Section, name: string): string
  {
    if name in s then s[name] else ""
  }

  /** The effeminate ages of a sequence of scenes, in the same order. */
  function EffAges(scenes: seq<Scene>): (r: seq<nat>)
    ensures |r| == |scenes| && forall i :: 0 <= i < |r| ==> r[i] == scenes[i].effAge
  {
    seq(|scenes|, i requires 0 <= i < |scenes| => scenes[i].effAge)
  }
}

=== FILE: nav_search.dfy ===
/**
 * The navigation bar's search box with autocomplete (static/js/nav-search.js).
 * One input and its dropdown are modelled; the debounce timer is the query
 * it will fetch, the network reply is a method call, and the rendered
 * dropdown is the list of its items.
 */
module NavSearch {
  import opened Common

  /** A suggestion from the server; a missing field is the empty string (falsy). */
  datatype Suggestion = Suggestion(display: string, term: string, text: string)

  /** The text shown and put into the input: display, else term, else text, else ''. */
  function SuggestionText(s: Suggestion): (r: string)
    ensures r == "" <==> s.display == "" && s.term == "" && s.text == ""
    ensures s.display != "" ==> r == s.display
    ensures s.display == "" && s.term != "" ==> r == s.term
    ensures s.display == "" && s.term == "" ==> r == s.text
  {
    if s.display != "" then s.display else if s.term != "" then s.term else s.text
  }

  /** The minimum trimmed query length that triggers a fetch. */
  const MinQueryLength := 2

  // ---------------------------------------------------------------------
  // highlightMatch: every case-insensitive occurrence of the query, left to
  // right and without overlap, is wrapped in <strong>.

  datatype Piece = Plain(c: char) | Strong(s: string)

  /** Whether `text` begins with `query`, ignoring ASCII case. */
  predicate MatchesAt(text: string, query: string)
  {
    |query| <= |text| && Lower(text[..|query|]) == Lower(query)
  }

  function Highlight(text: string, query: string): seq<Piece>
    requires query != ""
    decreases |text|
  {
    if text == [] then []
    else if MatchesAt(text, query) then [Strong(text[..|query|])] + Highlight(text[|query|..], query)
    else [Plain(text[0])] + Highlight(text[1..], query)
  }

  /** The characters of the pieces, tags left out. */
  function PlainText(pieces: seq<Piece>): string
  {
    if pieces == [] then ""
    else (match pieces[0] case Plain(c) => [c] case Strong(s) => s) + PlainText(pieces[1..])
  }

  /** The markup of the pieces. */
  function Render(pieces: seq<Piece>): string
  {
    if pieces == [] then ""
    else (match pieces[0] case Plain(c) => [c] case Strong(s) => "<strong>" + s + "</strong>") + Render(pieces[1..])
  }

  function HighlightMatch(text: string, query: string): string
  {
    if query == "" then text else Render(Highlight(text, query))
  }

  /** Highlighting only adds markup: without the tags the text is unchanged. */
  lemma {:induction false} HighlightKeepsText(text: string, query: string)
    requires query != ""
    ensures PlainText(Highlight(text, query)) == text
    decreases |text|
  {
    if text != [] {
      if MatchesAt(text, query) {
        HighlightKeepsText(text[|query|..], query);
        assert text == text[..|query|] + text[|query|..];
      } else {
        HighlightKeepsText(text[1..], query);
        assert text == [text[0]] + text[1..];
      }
    }
  }

  /** Every emphasised piece is an occurrence of the query, in any letter case. */
  lemma {:induction false} HighlightMarksMatches(text: string, query: string)
    requires query != ""
    ensures forall k :: 0 <= k < |Highlight(text, query)| && Highlight(text, query)[k].Strong? ==>
      Lower(Highlight(text, query)[k].s) == Lower(query)
    decreases |text|
  {
    if text != [] {
      var h := Highlight(text, query);
      if MatchesAt(text, query) {
        HighlightMarksMatches(text[|query|..], query);
        assert h == [Strong(text[..|query|])] + Highlight(text[|query|..], query);
      } else {
        HighlightMarksMatches(text[1..], query);
        assert h == [Plain(text[0])] + Highlight(text[1..], query);
      }
    }
  }

  /** A text with no occurrence of the query comes back with no markup. */
  lemma {:induction false} HighlightNoMatch(text: string, query: string)
    requires query != ""
    requires forall k :: 0 <= k < |text| ==> !MatchesAt(text[k..], query)
    ensures HighlightMatch(text, query) == text
    decreases |text|
  {
    if text != [] {
      assert text[0..] == text;
      forall k | 0 <= k < |text| - 1
        ensures !MatchesAt(text[1..][k..], query)
      {
        assert text[1..][k..] == text[k + 1..];
      }
      HighlightNoMatch(text[1..], query);
      assert text == [text[0]] + text[1..];
    }
  }

  /** The form's submit guard: a blank trimmed query is not submitted. */
  function SubmitAllowed(value: string): (r: bool)
    ensures r <==> exists i :: 0 <= i < |value| && !IsSpace(value[i])
  {
    Trim(value) != ""
  }

  // ---------------------------------------------------------------------

  /** A rendered dropdown row: the suggestion's text, its highlighted markup, and whether it is selected. */
  datatype Item = Item(text: string, markup: string, selected: bool)

  function ItemsOf(suggestions: seq<Suggestion>, selectedIndex: int, query: string): (r: seq<Item>)
    ensures |r| == |suggestions|
    ensures forall k :: 0 <= k < |r| ==> r[k].text == SuggestionText(suggestions[k]) && (r[k].selected <==> k == selectedIndex)
  {
    seq(|suggestions|, k requires 0 <= k < |suggestions| =>
      Item(SuggestionText(suggestions[k]), HighlightMatch(SuggestionText(suggestions[k]), query), k == selectedIndex))
  }

  datatype KeyOutcome = Handled | Threw

  class NavSearch {
    var currentQuery: string
    /** The query the pending debounce timer will fetch, if a timer is pending. */
    var pendingFetch: Option<string>
    var selectedIndex: int
    var suggestions: seq<Suggestion>
    var dropdownHidden: bool
    var items: seq<Item>
    var inputValue: string
    /** The query the form last submitted to the results page. */
    var submitted: Option<string>

    /** The selection points at a suggestion, or at none (-1). */
    predicate InRange()
      reads this
    {
      -1 <= selectedIndex < |suggestions|
    }

    constructor()
      ensures InRange() && selectedIndex == -1 && suggestions == [] && dropdownHidden
      ensures currentQuery == "" && pendingFetch.None? && items == [] && inputValue == "" && submitted.None?
    {
      currentQuery := "";
      pendingFetch := None;
      selectedIndex := -1;
      suggestions := [];
      dropdownHidden := true;
      items := [];
      inputValue := "";
      submitted := None;
    }

    /**
     * handleInput: the selection is reset and any pending fetch cancelled;
     * a trimmed query of fewer than two characters empties the suggestions
     * and hides the dropdown, a longer one schedules its own fetch.
     */
    method HandleInput(value: string)
      modifies this`inputValue, this`currentQuery, this`selectedIndex, this`pendingFetch,
               this`dropdownHidden, this`suggestions
      ensures InRange()
      ensures inputValue == value && currentQuery == Trim(value) && selectedIndex == -1
      ensures |currentQuery| < MinQueryLength ==> pendingFetch.None? && suggestions == [] && dropdownHidden
      ensures |currentQuery| >= MinQueryLength ==>
        pendingFetch == Some(currentQuery) && suggestions == old(suggestions) && dropdownHidden == old(dropdownHidden)
    {
      var query := Trim(value);
      if |query| < MinQueryLength {
        pendingFetch := None;
        dropdownHidden := true;
        suggestions := [];
      } else {
        pendingFetch := Some(query);
      }
      inputValue, currentQuery, selectedIndex := value, query, -1;
    }

    /** The debounce timer fires: the query it was set for is fetched. */
    method DebounceFires() returns (fetch: Option<string>)
      modifies this`pendingFetch
      ensures fetch == old(pendingFetch) && pendingFetch.None?
    {
      fetch := pendingFetch;
      pendingFetch := None;
    }

    /** renderSuggestions: an empty list hides the dropdown, otherwise its rows are rebuilt and shown. */
    method RenderSuggestions()
      modifies this`dropdownHidden, this`items
      ensures suggestions == [] ==> dropdownHidden && items == old(items)
      ensures suggestions != [] ==> !dropdownHidden && items == ItemsOf(suggestions, selectedIndex, currentQuery)
    {
      if |suggestions| == 0 {
        dropdownHidden := true;
        return;
      }
      items := ItemsOf(suggestions, selectedIndex, currentQuery);
      dropdownHidden := false;
    }

    /** A successful fetch as written: the new list is shown, the selection index is kept. */
    method FetchSucceeded(list: seq<Suggestion>)
      modifies this`suggestions, this`dropdownHidden, this`items
      ensures suggestions == list && selectedIndex == old(selectedIndex)
      ensures list == [] ==> dropdownHidden
      ensures list != [] ==> !dropdownHidden && items == ItemsOf(list, selectedIndex, currentQuery)
    {
      suggestions := list;
      RenderSuggestions();
    }

    /** A successful fetch that also clears the selection, keeping it within the new list. */
    method FetchSucceededIntended(list: seq<Suggestion>)
      modifies this`suggestions, this`selectedIndex, this`dropdownHidden, this`items
      ensures InRange()
      ensures suggestions == list && selectedIndex == -1
      ensures list == [] ==> dropdownHidden
      ensures list != [] ==> !dropdownHidden && items == ItemsOf(list, -1, currentQuery)
    {
      suggestions := list;
      selectedIndex := -1;
      RenderSuggestions();
    }

    /** A failed fetch hides the dropdown and keeps the old suggestions. */
    method FetchFailed()
      modifies this`dropdownHidden
      ensures dropdownHidden
    {
      dropdownHidden := true;
    }

    method Focus()
      modifies this`dropdownHidden
      ensures dropdownHidden == (old(dropdownHidden) && suggestions == [])
    {
      if |suggestions| > 0 {
        dropdownHidden := false;
      }
    }

    /** The delayed blur handler: hidden, with no selection. */
    method BlurTimeout()
      modifies this`dropdownHidden, this`selectedIndex
      ensures InRange() && dropdownHidden && selectedIndex == -1
    {
      dropdownHidden := true;
      selectedIndex := -1;
    }

    /** updateSelection: exactly the row at the selection index is marked. */
    method UpdateSelection()
      modifies this`items
      ensures |items| == |old(items)|
      ensures forall k :: 0 <= k < |items| ==>
        items[k] == Item(old(items)[k].text, old(items)[k].markup, k == selectedIndex)
    {
      var k := 0;
      while k < |items|
        invariant 0 <= k <= |items| && |items| == |old(items)|
        invariant forall m :: 0 <= m < k ==> items[m] == Item(old(items)[m].text, old(items)[m].markup, m == selectedIndex)
        invariant forall m :: k <= m < |items| ==> items[m] == old(items)[m]
      {
        items := items[k := Item(items[k].text, items[k].markup, k == selectedIndex)];
        k := k + 1;
      }
    }

    /** selectSuggestion: the input takes the suggestion's text, the dropdown closes and the form is submitted. */
    method SelectSuggestion(s: Suggestion)
      modifies this`inputValue, this`dropdownHidden, this`selectedIndex, this`submitted
      ensures InRange()
      ensures inputValue == SuggestionText(s) && dropdownHidden && selectedIndex == -1
      ensures submitted == Some(SuggestionText(s))
    {
      inputValue := SuggestionText(s);
      dropdownHidden := true;
      selectedIndex := -1;
      submitted := Some(inputValue);
    }

    /** A click on a rendered row selects that suggestion. */
    method ClickSuggestion(k: nat)
      requires k < |suggestions|
      modifies this`inputValue, this`dropdownHidden, this`selectedIndex, this`submitted
      ensures InRange() && submitted == Some(SuggestionText(suggestions[k]))
    {
      SelectSuggestion(suggestions[k]);
    }

    /**
     * handleKeydown, only while the dropdown shows: the arrows move the
     * selection within [-1, n-1], Enter submits the selected suggestion
     * (and throws when the index is past the list), Escape closes.
     */
    method Keydown(key: string) returns (outcome: KeyOutcome)
      modifies this`selectedIndex, this`items, this`inputValue, this`dropdownHidden, this`submitted
      ensures old(InRange()) ==> InRange() && outcome == Handled
      ensures old(dropdownHidden) ==> outcome == Handled && selectedIndex == old(selectedIndex) && submitted == old(submitted)
      ensures key == "ArrowDown" || key == "ArrowUp" ==> dropdownHidden == old(dropdownHidden) && submitted == old(submitted)
      ensures !old(dropdownHidden) && key == "ArrowDown" ==> selectedIndex == Min(old(selectedIndex) + 1, |suggestions| - 1)
      ensures !old(dropdownHidden) && key == "ArrowUp" ==> selectedIndex == Max(old(selectedIndex) - 1, -1)
      ensures !old(dropdownHidden) && key == "Enter" && old(selectedIndex) < 0 ==> submitted == old(submitted)
      ensures !old(dropdownHidden) && key == "Enter" && 0 <= old(selectedIndex) < |suggestions| ==>
        submitted == Some(SuggestionText(suggestions[old(selectedIndex)])) && selectedIndex == -1 && dropdownHidden
      ensures !old(dropdownHidden) && key == "Enter" && old(selectedIndex) >= |suggestions| ==>
        outcome == Threw && submitted == old(submitted)
      ensures !old(dropdownHidden) && key == "Escape" ==> dropdownHidden && selectedIndex == -1
    {
      outcome := Handled;
      if dropdownHidden {
        return;
      }
      if key == "ArrowDown" {
        selectedIndex := Min(selectedIndex + 1, |suggestions| - 1);
        UpdateSelection();
      } else if key == "ArrowUp" {
        selectedIndex := Max(selectedIndex - 1, -1);
        UpdateSelection();
      } else if key == "Enter" {
        if selectedIndex >= 0 {
          if selectedIndex >= |suggestions| {
            // `this.suggestions[i]` is undefined and reading its `display` throws
            return Threw;
          }
          SelectSuggestion(suggestions[selectedIndex]);
        }
      } else if key == "Escape" {
        dropdownHidden := true;
        selectedIndex := -1;
      }
    }

    /** The form's submit event: blocked for a blank query, otherwise the query goes to the results page. */
    method Submit() returns (allowed: bool)
      modifies this`submitted
      ensures allowed <==> SubmitAllowed(inputValue)
      ensures allowed ==> submitted == Some(inputValue)
      ensures !allowed ==> submitted == old(submitted)
    {
      allowed := Trim(inputValue) != "";
      if allowed {
        submitted := Some(inputValue);
      }
    }
  }

  function Min(a: int, b: int): int { if a <= b then a else b }
  function Max(a: int, b: int): int { if a >= b then a else b }

  /**
   * Arrow keys pressed while the next fetch is pending move the selection
   * through the old list; when the shorter new list arrives the index is
   * kept, lies past its end, and Enter throws instead of submitting.
   */
  method StaleSelectionThrows(q1: string, q2: string, a: Suggestion, b: Suggestion, c: Suggestion) returns (outcome: KeyOutcome)
    requires |Trim(q1)| >= MinQueryLength && |Trim(q2)| >= MinQueryLength
    ensures outcome == Threw
  {
    var nav := new NavSearch();
    nav.HandleInput(q1);
    var q1 := nav.DebounceFires();
    nav.FetchSucceeded([a, b]);
    nav.HandleInput(q2);
    assert !nav.dropdownHidden && |nav.suggestions| == 2 && nav.selectedIndex == -1;
    var _ := nav.Keydown("ArrowDown");
    assert !nav.dropdownHidden && nav.selectedIndex == 0;
    var _ := nav.Keydown("ArrowDown");
    assert nav.selectedIndex == 1;
    var q2 := nav.DebounceFires();
    nav.FetchSucceeded([c]);
    outcome := nav.Keydown("Enter");
  }

  /** The same keys with the intended fetch handler: Enter finds no selection and nothing throws. */
  method StaleSelectionIntended(q1: string, q2: string, a: Suggestion, b: Suggestion, c: Suggestion) returns (outcome: KeyOutcome)
    requires |Trim(q1)| >= MinQueryLength && |Trim(q2)| >= MinQueryLength
    ensures outcome == Handled
  {
    var nav := new NavSearch();
    nav.HandleInput(q1);
    var q1 := nav.DebounceFires();
    nav.FetchSucceededIntended([a, b]);
    nav.HandleInput(q2);
    var _ := nav.Keydown("ArrowDown");
    var _ := nav.Keydown("ArrowDown");
    var q2 := nav.DebounceFires();
    nav.FetchSucceededIntended([c]);
    outcome := nav.Keydown("Enter");
  }
}

=== FILE: signals.dfy ===
/**
 * The search-suggestion signals (signals.py): which terms a saved scene
 * contributes to the suggestion table, under which type and with which
 * frequency boost, and the periodic cleanup that deletes the suggestions no
 * current scene mentions. The suggestion store is an abstract log of the
 * calls made to it; the cleanup sees the table as its rows' terms.
 */
module Signals {
  import opened Common
  import opened Models
  import Counting

  // ---------------------------------------------------------------------
  // Word extraction: `re.findall(r'\b[a-zA-Z]{k,}\b', s)` and
  // `re.findall(r'\b\w{k,}\b', s)`.

  predicate IsAsciiLetter(c: char) { 'a' <= c <= 'z' || 'A' <= c <= 'Z' }

  /** The regular-expression word characters `\w`, ASCII only. */
  predicate IsWordChar(c: char) { IsAsciiLetter(c) || IsDigit(c) || c == '_' }

  predicate AllLetters(w: string) { forall j :: 0 <= j < |w| ==> IsAsciiLetter(w[j]) }

  predicate NoWordChars(s: string) { forall j :: 0 <= j < |s| ==> !IsWordChar(s[j]) }

  /** Lower-case ASCII letters only. */
  predicate LowerAscii(w: string) { forall j :: 0 <= j < |w| ==> 'a' <= w[j] <= 'z' }

  /** The length of the run of word characters at the start of `s`. */
  function WordRun(s: string): (n: nat)
    ensures n <= |s| && forall j :: 0 <= j < n ==> IsWordChar(s[j])
    ensures n < |s| ==> !IsWordChar(s[n])
    ensures s != [] && IsWordChar(s[0]) ==> n >= 1
  {
    if s == [] || !IsWordChar(s[0]) then 0 else 1 + WordRun(s[1..])
  }

  /**
   * The words the pattern finds: the maximal runs of word characters of at
   * least `k` characters, and with `lettersOnly` only those made of letters
   * alone (a run such as `abc1` has no word boundary after `abc`).
   */
  function FindWords(s: string, k: nat, lettersOnly: bool): (r: seq<string>)
    ensures forall i :: 0 <= i < |r| ==> |r[i]| >= k && |r[i]| >= 1
    ensures forall i :: 0 <= i < |r| ==> lettersOnly ==> AllLetters(r[i])
    decreases |s|
  {
    if s == [] then []
    else if !IsWordChar(s[0]) then FindWords(s[1..], k, lettersOnly)
    else
      var n := WordRun(s);
      var w := s[..n];
      (if n >= k && (!lettersOnly || AllLetters(w)) then [w] else []) + FindWords(s[n..], k, lettersOnly)
  }

  /** Every character of a found word comes from the text. */
  lemma {:induction false} FindWordsChars(s: string, k: nat, lo: bool)
    ensures forall w, j :: w in FindWords(s, k, lo) && 0 <= j < |w| ==> w[j] in s
    decreases |s|
  {
    if s != [] {
      var n := if IsWordChar(s[0]) then WordRun(s) else 1;
      FindWordsChars(s[n..], k, lo);
      forall w, j | w in FindWords(s, k, lo) && 0 <= j < |w|
        ensures w[j] in s
      {
        if w in FindWords(s[n..], k, lo) {
          var m :| 0 <= m < |s[n..]| && s[n..][m] == w[j];
          assert s[n + m] == w[j];
        } else {
          assert w == s[..n];
          assert s[j] == w[j];
        }
      }
    }
  }

  lemma {:induction false} WordRunAppend(s: string, b: string)
    requires NoWordChars(b)
    ensures WordRun(s + b) == WordRun(s)
    decreases |s|
  {
    if s == [] {
      assert s + b == b;
    } else if IsWordChar(s[0]) {
      assert (s + b)[1..] == s[1..] + b;
      WordRunAppend(s[1..], b);
    }
  }

  /** Non-word characters in front change nothing. */
  lemma {:induction false} FindWordsDropLeading(a: string, s: string, k: nat, lo: bool)
    requires NoWordChars(a)
    ensures FindWords(a + s, k, lo) == FindWords(s, k, lo)
    decreases |a|
  {
    if a == [] {
      assert a + s == s;
    } else {
      assert (a + s)[0] == a[0];
      assert (a + s)[1..] == a[1..] + s;
      FindWordsDropLeading(a[1..], s, k, lo);
    }
  }

  /** Non-word characters behind change nothing. */
  lemma {:induction false} FindWordsDropTrailing(s: string, b: string, k: nat, lo: bool)
    requires NoWordChars(b)
    ensures FindWords(s + b, k, lo) == FindWords(s, k, lo)
    decreases |s|
  {
    if s == [] {
      FindWordsDropLeading(b, [], k, lo);
      assert b + [] == b && s + b == b;
    } else if !IsWordChar(s[0]) {
      assert (s + b)[0] == s[0];
      assert (s + b)[1..] == s[1..] + b;
      FindWordsDropTrailing(s[1..], b, k, lo);
    } else {
      assert (s + b)[0] == s[0];
      var n := WordRun(s);
      WordRunAppend(s, b);
      assert (s + b)[..n] == s[..n];
      assert (s + b)[n..] == s[n..] + b;
      FindWordsDropTrailing(s[n..], b, k, lo);
    }
  }

  /** Every letters-only word of at least `k1` characters is also a word of at least `k2 <= k1`. */
  lemma {:induction false} FindWordsWeaker(s: string, k1: nat, k2: nat)
    requires k2 <= k1
    ensures forall w :: w in FindWords(s, k1, true) ==> w in FindWords(s, k2, false)
    decreases |s|
  {
    if s != [] {
      if !IsWordChar(s[0]) {
        FindWordsWeaker(s[1..], k1, k2);
      } else {
        FindWordsWeaker(s[WordRun(s)..], k1, k2);
      }
    }
  }

  /**
   * `w` stands at position `p` of `s` between word boundaries: it is made
   * of word characters, and neither the character before it nor the one
   * after it is one.
   */
  predicate RunAt(s: string, p: int, w: string)
  {
    && 0 <= p && p + |w| <= |s| && s[p..p + |w|] == w
    && (forall j :: 0 <= j < |w| ==> IsWordChar(w[j]))
    && (p == 0 || !IsWordChar(s[p - 1]))
    && (p + |w| == |s| || !IsWordChar(s[p + |w|]))
  }

  /** A run in a suffix is a run in the whole text, given a boundary where the suffix starts. */
  lemma RunInWhole(s: string, d: nat, p: nat, w: string)
    requires d <= |s| && RunAt(s[d..], p, w)
    requires p == 0 ==> d == 0 || !IsWordChar(s[d - 1])
    ensures RunAt(s, d + p, w)
  {
    assert s[d + p..d + p + |w|] == s[d..][p..p + |w|];
    if p > 0 {
      assert s[d + p - 1] == s[d..][p - 1];
    }
    if d + p + |w| < |s| {
      assert s[d + p + |w|] == s[d..][p + |w|];
    }
  }

  /** A run at or after position `d` is a run of the suffix from `d`. */
  lemma RunInSuffix(s: string, d: nat, p: nat, w: string)
    requires RunAt(s, p, w) && d <= p
    ensures RunAt(s[d..], p - d, w)
  {
    assert s[d..][p - d..p - d + |w|] == s[p..p + |w|];
    if p > d {
      assert s[d..][p - d - 1] == s[p - 1];
    }
    if p + |w| < |s| {
      assert s[d..][p - d + |w|] == s[p + |w|];
    }
  }

  /** Every word found is a whole run of word characters in the text. */
  lemma {:induction false} FindWordsAreRuns(s: string, k: nat, lo: bool, w: string)
    requires w in FindWords(s, k, lo)
    ensures exists p :: RunAt(s, p, w)
    decreases |s|
  {
    if !IsWordChar(s[0]) {
      FindWordsAreRuns(s[1..], k, lo, w);
      var p :| RunAt(s[1..], p, w);
      RunInWhole(s, 1, p, w);
    } else {
      var n := WordRun(s);
      if w == s[..n] && n >= k && (!lo || AllLetters(s[..n])) {
        assert RunAt(s, 0, w);
      } else {
        FindWordsAreRuns(s[n..], k, lo, w);
        var p :| RunAt(s[n..], p, w);
        assert p != 0 by {
          assert s[n..][p] == w[0];
        }
        RunInWhole(s, n, p, w);
      }
    }
  }

  /**
   * Every whole run of word characters that is long enough (and made of
   * letters, when only letters count) is found.
   */
  lemma {:induction false} RunsAreFound(s: string, k: nat, lo: bool, p: nat, w: string)
    requires RunAt(s, p, w) && |w| >= k && |w| >= 1 && (lo ==> AllLetters(w))
    ensures w in FindWords(s, k, lo)
    decreases |s|
  {
    assert s[p] == w[0];
    if !IsWordChar(s[0]) {
      RunInSuffix(s, 1, p, w);
      RunsAreFound(s[1..], k, lo, p - 1, w);
    } else {
      var n := WordRun(s);
      if p == 0 {
        assert forall j :: 0 <= j < |w| ==> s[j] == w[j];
        assert s[..n] == w;
      } else {
        RunInSuffix(s, n, p, w);
        RunsAreFound(s[n..], k, lo, p - n, w);
      }
    }
  }

  /** Words found in a lower-cased text are lower-case ASCII letters. */
  lemma LowerWords(s: string, k: nat)
    ensures forall w :: w in FindWords(Lower(s), k, true) ==> |w| >= k && LowerAscii(w)
  {
    var l := Lower(s);
    forall w | w in FindWords(l, k, true)
      ensures |w| >= k && LowerAscii(w)
    {
      FindWordsChars(l, k, true);
      forall j | 0 <= j < |w|
        ensures 'a' <= w[j] <= 'z'
      {
        var m :| 0 <= m < |l| && l[m] == w[j];
        assert l[m] == LowerChar(s[m]);
      }
    }
  }

  // ---------------------------------------------------------------------
  // Training

  /** The words never suggested. */
  const CommonWords: set<string> := {
    "the", "and", "with", "for", "are", "but", "not", "you", "all", "can", "had", "her", "was", "one",
    "our", "out", "day", "get", "has", "him", "his", "how", "its", "may", "new", "now", "old", "see",
    "two", "who", "boy", "did", "man", "men", "she", "use", "way", "that", "this", "have", "from",
    "they", "know", "want", "been", "good", "much", "some", "time", "very", "when", "come", "here",
    "just", "like", "long", "make", "many", "over", "such", "take", "than", "them", "well", "were",
    "what", "will", "would", "there", "could", "other"
  }

  const CharacterTypes: seq<string> := ["effeminate", "masculine"]
  const CharacterFields: seq<string> := ["appearance", "hair", "clothing"]
  const AtmosphereFields: seq<string> := ["lighting", "scent", "sound"]
  /** How many of the most frequent full-text words are considered. */
  const TopContentWords := 15

  /** The suggestion types 'title', 'country', 'setting', 'emotion', 'character' and 'content'. */
  datatype SuggestionType = TitleTerm | CountryTerm | SettingTerm | EmotionTerm | CharacterTerm | ContentTerm

  /** A call to the suggestion store: add or update a term, or raise its frequency. */
  datatype Event = Add(term: string, kind: SuggestionType) | Boost(term: string, amount: nat)

  /** One `Add` per word that is not a common word, in order. */
  function WordEvents(words: seq<string>, kind: SuggestionType): (r: seq<Event>)
  {
    if words == [] then []
    else
      var w := words[|words| - 1];
      WordEvents(words[..|words| - 1], kind) + (if w !in CommonWords then [Add(w, kind)] else [])
  }

  /** The words of one detail value, if its stripped length exceeds 2. */
  function FieldEvents(value: string, k: nat, kind: SuggestionType): seq<Event>
  {
    if value != "" && |Trim(value)| > 2 then WordEvents(FindWords(Lower(value), k, true), kind) else []
  }

  function SectionEvents(section: Section, fields: seq<string>, k: nat, kind: SuggestionType): seq<Event>
  {
    if fields == [] then []
    else SectionEvents(section, fields[..|fields| - 1], k, kind) + FieldEvents(FieldOf(section, fields[|fields| - 1]), k, kind)
  }

  /** The uncommon words of three or more letters of the stripped title. */
  function TitleWords(title: string): seq<Event>
  {
    WordEvents(FindWords(Lower(Trim(title)), 3, true), TitleTerm)
  }

  /** The stripped title, then its words. */
  function TitleEvents(title: string): (r: seq<Event>)
    ensures title == "" <==> r == []
    ensures title != "" ==> r[0] == Add(Trim(title), TitleTerm) && r[1..] == TitleWords(title)
  {
    if title == "" then []
    else [Add(Trim(title), TitleTerm)] + TitleWords(title)
  }

  function BasicEvents(scene: Scene): seq<Event>
  {
    (if scene.country != "" then [Add(scene.country, CountryTerm)] else [])
    + (if scene.setting != "" then [Add(scene.setting, SettingTerm)] else [])
    + (if scene.emotion != "" then [Add(scene.emotion, EmotionTerm)] else [])
  }

  /** The character words of the first `c` character types. */
  function CharacterEvents(details: Details, c: nat): seq<Event>
    requires c <= |CharacterTypes|
  {
    if c == 0 then []
    else CharacterEvents(details, c - 1) + SectionEvents(SectionOf(details, CharacterTypes[c - 1]), CharacterFields, 3, CharacterTerm)
  }

  lemma CharacterEventsBoth(details: Details)
    ensures CharacterEvents(details, |CharacterTypes|)
      == SectionEvents(SectionOf(details, CharacterTypes[0]), CharacterFields, 3, CharacterTerm)
       + SectionEvents(SectionOf(details, CharacterTypes[1]), CharacterFields, 3, CharacterTerm)
  {
    var s0 := SectionEvents(SectionOf(details, CharacterTypes[0]), CharacterFields, 3, CharacterTerm);
    assert CharacterEvents(details, 1) == [] + s0;
    assert [] + s0 == s0;
  }

  function DetailEvents(details: Details): seq<Event>
  {
    if details == map[] then []
    else
      CharacterEvents(details, |CharacterTypes|)
      + SectionEvents(SectionOf(details, "atmosphere"), AtmosphereFields, 4, ContentTerm)
  }

  /** `min(count - 1, 3)`, computed only for a repeated word. */
  function BoostFor(count: nat): (b: nat)
    requires count > 1
    ensures 1 <= b <= 3 && b < count
    ensures count <= 4 ==> b == count - 1
  {
    if count - 1 < 3 then count - 1 else 3
  }

  /** A frequent (count >= 2) or long (>= 6 letters) word is added, and a repeated one boosted. */
  function EntryEvents(entry: (string, nat)): seq<Event>
  {
    var (w, c) := entry;
    if c >= 2 || |w| >= 6 then [Add(w, ContentTerm)] + (if c > 1 then [Boost(w, BoostFor(c))] else [])
    else []
  }

  function TopEvents(top: seq<(string, nat)>): seq<Event>
  {
    if top == [] then [] else TopEvents(top[..|top| - 1]) + EntryEvents(top[|top| - 1])
  }

  /** The uncommon words of four or more letters of the full text. */
  function ContentWords(fullText: string): seq<string>
  {
    Uncommon(FindWords(Lower(fullText), 4, true))
  }

  function Uncommon(words: seq<string>): (r: seq<string>)
    ensures forall w :: w in r <==> w in words && w !in CommonWords
  {
    if words == [] then []
    else
      var w := words[|words| - 1];
      assert words == words[..|words| - 1] + [w];
      Uncommon(words[..|words| - 1]) + (if w !in CommonWords then [w] else [])
  }

  /** The top fifteen content words, counted, when the stripped text is longer than ten characters. */
  function ContentEvents(fullText: string): seq<Event>
  {
    if fullText != "" && |Trim(fullText)| > 10 then TopEvents(Counting.MostCommon(ContentWords(fullText), TopContentWords))
    else []
  }

  /** Every store call made when a scene is saved, in order. */
  function TrainLog(scene: Scene): seq<Event>
  {
    TitleEvents(scene.title) + BasicEvents(scene) + DetailEvents(scene.details) + ContentEvents(scene.fullText)
  }

  /** The suggestion store, seen through the calls made to it. */
  class SuggestionStore {
    var log: seq<Event>

    constructor()
      ensures log == []
    {
      log := [];
    }

    method AddOrUpdate(term: string, kind: SuggestionType)
      modifies this
      ensures log == old(log) + [Add(term, kind)]
    {
      log := log + [Add(term, kind)];
    }

    /** `suggestion.frequency += amount`, saved. */
    method RaiseFrequency(term: string, amount: nat)
      modifies this
      ensures log == old(log) + [Boost(term, amount)]
    {
      log := log + [Boost(term, amount)];
    }
  }

  method AddWords(store: SuggestionStore, words: seq<string>, kind: SuggestionType)
    modifies store
    ensures store.log == old(store.log) + WordEvents(words, kind)
  {
    var i := 0;
    while i < |words|
      invariant 0 <= i <= |words|
      invariant store.log == old(store.log) + WordEvents(words[..i], kind)
    {
      assert words[..i + 1][..i] == words[..i];
      if words[i] !in CommonWords {
        store.AddOrUpdate(words[i], kind);
      }
      i := i + 1;
    }
    assert words[..|words|] == words;
  }

  method AddFieldWords(store: SuggestionStore, value: string, k: nat, kind: SuggestionType)
    modifies store
    ensures store.log == old(store.log) + FieldEvents(value, k, kind)
  {
    if value != "" && |Trim(value)| > 2 {
      AddWords(store, FindWords(Lower(value), k, true), kind);
    }
  }

  method AddSectionWords(store: SuggestionStore, section: Section, fields: seq<string>, k: nat, kind: SuggestionType)
    modifies store
    ensures store.log == old(store.log) + SectionEvents(section, fields, k, kind)
  {
    var i := 0;
    ghost var done: seq<Event> := [];
    while i < |fields|
      invariant 0 <= i <= |fields|
      invariant done == SectionEvents(section, fields[..i], k, kind)
      invariant store.log == old(store.log) + done
    {
      SectionEventsSnoc(section, fields, i, k, kind);
      ghost var next := FieldEvents(FieldOf(section, fields[i]), k, kind);
      AddFieldWords(store, FieldOf(section, fields[i]), k, kind);
      Concat3(old(store.log), done, next);
      done := done + next;
      i := i + 1;
    }
    assert fields[..|fields|] == fields;
  }

  lemma SectionEventsSnoc(section: Section, fields: seq<string>, i: nat, k: nat, kind: SuggestionType)
    requires i < |fields|
    ensures SectionEvents(section, fields[..i + 1], k, kind)
      == SectionEvents(section, fields[..i], k, kind) + FieldEvents(FieldOf(section, fields[i]), k, kind)
  {
    assert fields[..i + 1][..i] == fields[..i];
  }

  method AddContentWords(store: SuggestionStore, top: seq<(string, nat)>)
    modifies store
    ensures store.log == old(store.log) + TopEvents(top)
  {
    var i := 0;
    while i < |top|
      invariant 0 <= i <= |top|
      invariant store.log == old(store.log) + TopEvents(top[..i])
    {
      AddContentEntry(store, top[i]);
      TopEventsStep(top, i);
      ConcatAssoc(old(store.log), TopEvents(top[..i]), EntryEvents(top[i]));
      i := i + 1;
    }
    assert top[..|top|] == top;
  }

  /** One of the most common words: added when frequent or long, then boosted when repeated. */
  method AddContentEntry(store: SuggestionStore, entry: (string, nat))
    modifies store
    ensures store.log == old(store.log) + EntryEvents(entry)
  {
    var (word, count) := entry;
    if count >= 2 || |word| >= 6 {
      ghost var log0 := store.log;
      store.AddOrUpdate(word, ContentTerm);
      if count > 1 {
        store.RaiseFrequency(word, BoostFor(count));
        ConcatAssoc(log0, [Add(word, ContentTerm)], [Boost(word, BoostFor(count))]);
      } else {
        ConcatEmpty([Add(word, ContentTerm)]);
      }
    } else {
      ConcatEmpty(store.log);
    }
  }

  lemma TopEventsStep(top: seq<(string, nat)>, i: nat)
    requires i < |top|
    ensures TopEvents(top[..i + 1]) == TopEvents(top[..i]) + EntryEvents(top[i])
  {
    assert top[..i + 1][..i] == top[..i];
  }

  method AddTitleWords(store: SuggestionStore, title: string)
    modifies store
    ensures store.log == old(store.log) + TitleEvents(title)
  {
    if title != "" {
      var titleClean := Trim(title);
      ghost var log0 := store.log;
      store.AddOrUpdate(titleClean, TitleTerm);
      var words := FindWords(Lower(titleClean), 3, true);
      AddWords(store, words, TitleTerm);
      ConcatAssoc(log0, [Add(titleClean, TitleTerm)], WordEvents(words, TitleTerm));
    }
  }

  method AddBasicFields(store: SuggestionStore, scene: Scene)
    modifies store
    ensures store.log == old(store.log) + BasicEvents(scene)
  {
    if scene.country != "" {
      store.AddOrUpdate(scene.country, CountryTerm);
    }
    if scene.setting != "" {
      store.AddOrUpdate(scene.setting, SettingTerm);
    }
    if scene.emotion != "" {
      store.AddOrUpdate(scene.emotion, EmotionTerm);
    }
  }

  method AddDetailWords(store: SuggestionStore, details: Details)
    modifies store
    ensures store.log == old(store.log) + DetailEvents(details)
  {
    if details != map[] {
      ghost var log0 := store.log;
      ghost var done: seq<Event> := [];
      var c := 0;
      while c < |CharacterTypes|
        invariant 0 <= c <= |CharacterTypes|
        invariant done == CharacterEvents(details, c)
        invariant store.log == log0 + done
      {
        ghost var next := SectionEvents(SectionOf(details, CharacterTypes[c]), CharacterFields, 3, CharacterTerm);
        AddSectionWords(store, SectionOf(details, CharacterTypes[c]), CharacterFields, 3, CharacterTerm);
        Concat3(log0, done, next);
        done := done + next;
        c := c + 1;
      }
      ghost var last := SectionEvents(SectionOf(details, "atmosphere"), AtmosphereFields, 4, ContentTerm);
      AddSectionWords(store, SectionOf(details, "atmosphere"), AtmosphereFields, 4, ContentTerm);
      Concat3(log0, done, last);
    }
  }

  method AddFullTextWords(store: SuggestionStore, fullText: string)
    modifies store
    ensures store.log == old(store.log) + ContentEvents(fullText)
  {
    if fullText != "" && |Trim(fullText)| > 10 {
      var contentWords := FindWords(Lower(fullText), 4, true);
      var filteredWords := Uncommon(contentWords);
      AddContentWords(store, Counting.MostCommon(filteredWords, TopContentWords));
    }
  }

  /** _train_suggestions_for_scene. */
  method TrainSuggestionsForScene(store: SuggestionStore, scene: Scene)
    modifies store
    ensures store.log == old(store.log) + TrainLog(scene)
  {
    ghost var log0 := store.log;
    ghost var a, b, c, d := TitleEvents(scene.title), BasicEvents(scene), DetailEvents(scene.details), ContentEvents(scene.fullText);
    AddTitleWords(store, scene.title);
    AddBasicFields(store, scene);
    AddDetailWords(store, scene.details);
    AddFullTextWords(store, scene.fullText);
    assert store.log == log0 + a + b + c + d;
    Concat4(log0, a, b, c, d);
  }

  lemma Concat3<T>(l: seq<T>, a: seq<T>, b: seq<T>)
    ensures l + a + b == l + (a + b)
  {
  }

  lemma Concat4<T>(l: seq<T>, a: seq<T>, b: seq<T>, c: seq<T>, d: seq<T>)
    ensures l + a + b + c + d == l + (a + b + c + d)
  {
  }

  // ---------------------------------------------------------------------
  // What training adds

  /** The word calls add exactly the uncommon words, under the given type. */
  lemma {:induction false} WordEventsFacts(words: seq<string>, kind: SuggestionType)
    ensures forall e :: e in WordEvents(words, kind) <==> e.Add? && e.kind == kind && e.term in words && e.term !in CommonWords
  {
    if words != [] {
      var init := words[..|words| - 1];
      WordEventsFacts(init, kind);
      assert words == init + [words[|words| - 1]];
    }
  }

  /** Each detail value adds only uncommon lower-case words of at least `k` letters. */
  lemma {:induction false} SectionEventsFacts(section: Section, fields: seq<string>, k: nat, kind: SuggestionType)
    ensures forall e :: e in SectionEvents(section, fields, k, kind) ==>
      e.Add? && e.kind == kind && e.term !in CommonWords && |e.term| >= k
      && LowerAscii(e.term)
  {
    if fields != [] {
      var init := fields[..|fields| - 1];
      SectionEventsFacts(section, init, k, kind);
      var value := FieldOf(section, fields[|fields| - 1]);
      WordEventsFacts(FindWords(Lower(value), k, true), kind);
      LowerWords(value, k);
      ghost var head, tail := SectionEvents(section, init, k, kind), FieldEvents(value, k, kind);
      assert SectionEvents(section, fields, k, kind) == head + tail;
      assert forall e :: e in tail ==> e in WordEvents(FindWords(Lower(value), k, true), kind);
    }
  }

  /** Every word the top entries add is a frequent or long one among them, added as content. */
  lemma {:induction false} TopEventsAddsSound(top: seq<(string, nat)>)
    ensures forall e :: e in TopEvents(top) && e.Add? ==>
      e.kind == ContentTerm && exists i :: 0 <= i < |top| && top[i].0 == e.term && (top[i].1 >= 2 || |e.term| >= 6)
  {
    if top != [] {
      var init := top[..|top| - 1];
      TopEventsAddsSound(init);
      assert TopEvents(top) == TopEvents(init) + EntryEvents(top[|top| - 1]);
      forall e | e in TopEvents(top) && e.Add?
        ensures e.kind == ContentTerm && exists i :: 0 <= i < |top| && top[i].0 == e.term && (top[i].1 >= 2 || |e.term| >= 6)
      {
        if e in TopEvents(init) {
          var i :| 0 <= i < |init| && init[i].0 == e.term && (init[i].1 >= 2 || |e.term| >= 6);
          assert top[i] == init[i];
        } else {
          assert top[|top| - 1].0 == e.term;
        }
      }
    }
  }

  /** Every frequent or long word among the top entries is added. */
  lemma {:induction false} TopEventsAddsComplete(top: seq<(string, nat)>, i: nat)
    requires i < |top| && (top[i].1 >= 2 || |top[i].0| >= 6)
    ensures Add(top[i].0, ContentTerm) in TopEvents(top)
  {
    var init := top[..|top| - 1];
    assert TopEvents(top) == TopEvents(init) + EntryEvents(top[|top| - 1]);
    if i < |init| {
      assert init[i] == top[i];
      TopEventsAddsComplete(init, i);
    } else {
      assert EntryEvents(top[i])[0] == Add(top[i].0, ContentTerm);
    }
  }

  /**
   * A word is boosted only when it occurs more than once, by
   * `min(count - 1, 3)`, which lies between 1 and 3.
   */
  lemma {:induction false} TopEventsBoosts(top: seq<(string, nat)>)
    ensures forall e :: e in TopEvents(top) ==> e.Boost? ==>
      1 <= e.amount <= 3 && exists i :: 0 <= i < |top| && top[i].0 == e.term && top[i].1 > 1 && e.amount == BoostFor(top[i].1)
  {
    if top != [] {
      var init := top[..|top| - 1];
      var last := top[|top| - 1];
      TopEventsBoosts(init);
      assert TopEvents(top) == TopEvents(init) + EntryEvents(last);
      forall e | e in TopEvents(top) && e.Boost?
        ensures 1 <= e.amount <= 3 && exists i :: 0 <= i < |top| && top[i].0 == e.term && top[i].1 > 1 && e.amount == BoostFor(top[i].1)
      {
        if e in TopEvents(init) {
          var i :| 0 <= i < |init| && init[i].0 == e.term && init[i].1 > 1 && e.amount == BoostFor(init[i].1);
          assert top[i] == init[i];
        } else {
          assert top[|top| - 1].0 == e.term;
        }
      }
    }
  }

  /** Whatever the top entries of a word list add or boost is a word of the list. */
  lemma TopWordsFacts(words: seq<string>)
    ensures forall e :: e in TopEvents(Counting.MostCommon(words, TopContentWords)) ==>
      && e.term in words
      && (e.Add? ==> e.kind == ContentTerm)
      && (e.Boost? ==> 1 <= e.amount <= 3)
  {
    var top := Counting.MostCommon(words, TopContentWords);
    var d := Counting.Distribution(words);
    Counting.DistributionFacts(words);
    TopEventsAddsSound(top);
    TopEventsBoosts(top);
    forall e | e in TopEvents(top)
      ensures e.term in words
    {
      var i :| 0 <= i < |top| && top[i].0 == e.term;
      assert top[i] == d[i];
      assert Counting.Labels(d)[i] == e.term;
    }
  }

  /**
   * The full text adds only uncommon lower-case words of at least four
   * letters that occur in it, as content, and boosts only such words, by
   * 1 to 3.
   */
  lemma ContentEventsFacts(fullText: string)
    ensures forall e :: e in ContentEvents(fullText) ==>
      && e.term in ContentWords(fullText) && e.term !in CommonWords && |e.term| >= 4
      && LowerAscii(e.term)
      && (e.Add? ==> e.kind == ContentTerm)
      && (e.Boost? ==> 1 <= e.amount <= 3)
  {
    if fullText != "" && |Trim(fullText)| > 10 {
      var words := ContentWords(fullText);
      assert ContentEvents(fullText) == TopEvents(Counting.MostCommon(words, TopContentWords));
      TopWordsFacts(words);
      LowerWords(fullText, 4);
    }
  }

  /** The title adds only title terms; the detail values only character and content words. */
  lemma TitleAndDetailKinds(title: string, details: Details)
    ensures forall e :: e in TitleEvents(title) ==> e.Add? && e.kind == TitleTerm
    ensures forall e :: e in DetailEvents(details) ==> e.Add? && (e.kind == CharacterTerm || e.kind == ContentTerm)
  {
    if title != "" {
      WordEventsFacts(FindWords(Lower(Trim(title)), 3, true), TitleTerm);
    }
    if details != map[] {
      SectionEventsFacts(SectionOf(details, CharacterTypes[0]), CharacterFields, 3, CharacterTerm);
      SectionEventsFacts(SectionOf(details, CharacterTypes[1]), CharacterFields, 3, CharacterTerm);
      SectionEventsFacts(SectionOf(details, "atmosphere"), AtmosphereFields, 4, ContentTerm);
      CharacterEventsBoth(details);
    }
  }

  lemma BasicEventsFacts(scene: Scene)
    ensures forall e :: e in BasicEvents(scene) ==> e.Add? && e.kind in {CountryTerm, SettingTerm, EmotionTerm}
    ensures forall e :: e in BasicEvents(scene) && e.kind == CountryTerm ==> e.term == scene.country
    ensures forall e :: e in BasicEvents(scene) && e.kind == SettingTerm ==> e.term == scene.setting
    ensures forall e :: e in BasicEvents(scene) && e.kind == EmotionTerm ==> e.term == scene.emotion
    ensures Add(scene.country, CountryTerm) in BasicEvents(scene) <==> scene.country != ""
    ensures Add(scene.setting, SettingTerm) in BasicEvents(scene) <==> scene.setting != ""
    ensures Add(scene.emotion, EmotionTerm) in BasicEvents(scene) <==> scene.emotion != ""
  {
  }

  /**
   * A saved scene adds its country, setting and emotion under their own
   * types exactly when they are not empty, and no other term under those
   * types.
   */
  lemma TrainLogBasicFields(scene: Scene)
    ensures forall e :: e in TrainLog(scene) && e.Add? && e.kind == CountryTerm ==> e.term == scene.country
    ensures forall e :: e in TrainLog(scene) && e.Add? && e.kind == SettingTerm ==> e.term == scene.setting
    ensures forall e :: e in TrainLog(scene) && e.Add? && e.kind == EmotionTerm ==> e.term == scene.emotion
    ensures Add(scene.country, CountryTerm) in TrainLog(scene) <==> scene.country != ""
    ensures Add(scene.setting, SettingTerm) in TrainLog(scene) <==> scene.setting != ""
    ensures Add(scene.emotion, EmotionTerm) in TrainLog(scene) <==> scene.emotion != ""
  {
    BasicEventsFacts(scene);
    forall e | e in TrainLog(scene) && e.Add? && IsBasicKind(e.kind) ensures e in BasicEvents(scene) {
      BasicKindFromBasicFields(scene, e);
    }
    forall e | e in BasicEvents(scene) ensures e in TrainLog(scene) {
      assert TrainLog(scene) == TitleEvents(scene.title) + BasicEvents(scene) + DetailEvents(scene.details) + ContentEvents(scene.fullText);
    }
  }

  predicate IsBasicKind(k: SuggestionType)
  {
    k == CountryTerm || k == SettingTerm || k == EmotionTerm
  }

  /** Only the basic fields add terms of the country, setting and emotion types. */
  lemma BasicKindFromBasicFields(scene: Scene, e: Event)
    requires e in TrainLog(scene) && e.Add? && IsBasicKind(e.kind)
    ensures e in BasicEvents(scene)
  {
    var a, b, c, d := TitleEvents(scene.title), BasicEvents(scene), DetailEvents(scene.details), ContentEvents(scene.fullText);
    assert TrainLog(scene) == a + b + c + d;
    if e in a || e in c {
      TitleAndDetailKinds(scene.title, scene.details);
    } else if e in d {
      ContentEventsFacts(scene.fullText);
    }
  }

  /** Every boost a saved scene makes raises a full-text word by 1 to 3. */
  lemma TrainLogBoosts(scene: Scene)
    ensures forall e :: e in TrainLog(scene) && e.Boost? ==> 1 <= e.amount <= 3 && e.term in ContentWords(scene.fullText)
  {
    var a, b, c, d := TitleEvents(scene.title), BasicEvents(scene), DetailEvents(scene.details), ContentEvents(scene.fullText);
    TitleAndDetailKinds(scene.title, scene.details);
    ContentEventsFacts(scene.fullText);
    BasicEventsFacts(scene);
    assert TrainLog(scene) == a + b + c + d;
  }

  // ---------------------------------------------------------------------
  // Cleanup

  function WordSet(words: seq<string>): (r: set<string>)
    ensures forall w :: w in r <==> w in words
  {
    set w | w in words
  }

  /** The words of one detail value, if it is not empty. */
  function FieldTerms(value: string): set<string>
  {
    if value != "" then WordSet(FindWords(Lower(value), 3, false)) else {}
  }

  function SectionTerms(section: Section, fields: seq<string>): set<string>
  {
    if fields == [] then {}
    else SectionTerms(section, fields[..|fields| - 1]) + FieldTerms(FieldOf(section, fields[|fields| - 1]))
  }

  /** The terms one scene keeps alive: lower-cased title, its words, the basic fields, detail and full-text words. */
  function DetailTerms(details: Details): set<string>
  {
    if details != map[] then
      SectionTerms(SectionOf(details, CharacterTypes[0]), CharacterFields)
      + SectionTerms(SectionOf(details, CharacterTypes[1]), CharacterFields)
      + SectionTerms(SectionOf(details, "atmosphere"), AtmosphereFields)
    else {}
  }

  function TextTerms(fullText: string): set<string>
  {
    if fullText != "" then WordSet(FindWords(Lower(fullText), 4, false)) else {}
  }

  function SceneTerms(scene: Scene): set<string>
  {
    WordSet(FindWords(Lower(scene.title), 3, false))
    + {Lower(scene.title), Lower(scene.country), Lower(scene.setting), Lower(scene.emotion)}
    + DetailTerms(scene.details)
    + TextTerms(scene.fullText)
  }

  function CurrentTerms(scenes: seq<Scene>): set<string>
  {
    if scenes == [] then {} else CurrentTerms(scenes[..|scenes| - 1]) + SceneTerms(scenes[|scenes| - 1])
  }

  lemma {:induction false} CurrentTermsMember(scenes: seq<Scene>, i: nat)
    requires i < |scenes|
    ensures SceneTerms(scenes[i]) <= CurrentTerms(scenes)
    decreases |scenes|
  {
    if i < |scenes| - 1 {
      CurrentTermsMember(scenes[..|scenes| - 1], i);
    }
  }

  /** The rows whose term some current scene mentions, in order. */
  function Kept(terms: seq<string>, current: set<string>): (r: seq<string>)
    ensures |r| <= |terms|
    ensures forall t :: t in r <==> t in terms && t in current
  {
    if terms == [] then []
    else
      var t := terms[|terms| - 1];
      assert terms == terms[..|terms| - 1] + [t];
      Kept(terms[..|terms| - 1], current) + (if t in current then [t] else [])
  }

  /** The number of rows whose term no current scene mentions. */
  function ObsoleteCount(terms: seq<string>, current: set<string>): (n: nat)
    ensures n == 0 <==> forall j :: 0 <= j < |terms| ==> terms[j] in current
  {
    if terms == [] then 0
    else
      var t := terms[|terms| - 1];
      var rest := ObsoleteCount(terms[..|terms| - 1], current);
      assert forall j :: 0 <= j < |terms| - 1 ==> terms[..|terms| - 1][j] == terms[j];
      rest + (if t in current then 0 else 1)
  }

  /** Every row is either kept or counted as deleted. */
  lemma {:induction false} KeptPlusObsolete(terms: seq<string>, current: set<string>)
    ensures |Kept(terms, current)| + ObsoleteCount(terms, current) == |terms|
  {
    if terms != [] {
      KeptPlusObsolete(terms[..|terms| - 1], current);
    }
  }

  /** The suggestion table, seen as its rows' terms. */
  class SuggestionTable {
    var terms: seq<string>

    constructor(terms: seq<string>)
      ensures this.terms == terms
    {
      this.terms := terms;
    }
  }

  /**
   * cleanup_unused_suggestions: the current terms are gathered scene by
   * scene, the rows with any other term are deleted, and their number is
   * returned.
   */
  method CleanupUnusedSuggestions(table: SuggestionTable, scenes: seq<Scene>) returns (count: nat)
    modifies table
    ensures table.terms == Kept(old(table.terms), CurrentTerms(scenes))
    ensures count == ObsoleteCount(old(table.terms), CurrentTerms(scenes))
    ensures count == |old(table.terms)| - |table.terms|
  {
    var current: set<string> := {};
    var i := 0;
    while i < |scenes|
      invariant 0 <= i <= |scenes|
      invariant current == CurrentTerms(scenes[..i])
    {
      assert scenes[..i + 1][..i] == scenes[..i];
      current := current + SceneTerms(scenes[i]);
      i := i + 1;
    }
    assert scenes[..|scenes|] == scenes;
    count := ObsoleteCount(table.terms, current);
    KeptPlusObsolete(table.terms, current);
    table.terms := Kept(table.terms, current);
  }

  // ---------------------------------------------------------------------
  // Training against cleanup

  /** A title's words do not depend on the white space around it. */
  lemma LowerAppend(a: string, b: string)
    ensures Lower(a + b) == Lower(a) + Lower(b)
  {
    assert forall j :: 0 <= j < |a + b| ==> Lower(a + b)[j] == (Lower(a) + Lower(b))[j];
  }

  /** Lower-casing leaves a stretch of non-word characters one. */
  lemma LowerNoWordChars(s: string)
    requires NoWordChars(s)
    ensures NoWordChars(Lower(s))
  {
    forall j | 0 <= j < |s|
      ensures !IsWordChar(Lower(s)[j])
    {
      assert Lower(s)[j] == LowerChar(s[j]);
      assert !('A' <= s[j] <= 'Z');
    }
  }

  /** What trimming removes is white space, so it holds no word character. */
  lemma TrimParts(t: string) returns (pre: string, post: string)
    ensures t == pre + Trim(t) + post
    ensures NoWordChars(pre) && NoWordChars(post)
  {
    pre := LeadingSpace(t);
    post := TrailingSpace(TrimStart(t));
    Concat3(pre, Trim(t), post);
  }

  lemma LeadingSpace(t: string) returns (pre: string)
    ensures t == pre + TrimStart(t) && NoWordChars(pre)
  {
    var u := TrimStart(t);
    pre := t[..|t| - |u|];
    assert t == pre + u;
    assert forall j :: 0 <= j < |pre| ==> pre[j] == t[j];
    SpacesHaveNoWordChars(pre);
  }

  lemma TrailingSpace(u: string) returns (post: string)
    ensures u == TrimEnd(u) + post && NoWordChars(post)
  {
    var m := TrimEnd(u);
    post := u[|m|..];
    assert u == m + post;
    assert forall j :: 0 <= j < |post| ==> post[j] == u[|m| + j];
    SpacesHaveNoWordChars(post);
  }

  lemma SpacesHaveNoWordChars(s: string)
    requires forall j :: 0 <= j < |s| ==> IsSpace(s[j])
    ensures NoWordChars(s)
  {
  }

  lemma TrimKeepsWords(t: string, k: nat, lo: bool)
    ensures FindWords(Lower(Trim(t)), k, lo) == FindWords(Lower(t), k, lo)
  {
    var pre, post := TrimParts(t);
    var m := Trim(t);
    Concat3(pre, m, post);
    LowerAppend(pre, m + post);
    LowerAppend(m, post);
    var lp, lm, lq := Lower(pre), Lower(m), Lower(post);
    assert Lower(t) == lp + (lm + lq);
    LowerNoWordChars(pre);
    LowerNoWordChars(post);
    FindWordsDropLeading(lp, lm + lq, k, lo);
    FindWordsDropTrailing(lm, lq, k, lo);
  }

  lemma TitleWordsSurvive(title: string)
    ensures forall e :: e in TitleWords(title) ==> e.term in FindWords(Lower(title), 3, false)
  {
    WordEventsFacts(FindWords(Lower(Trim(title)), 3, true), TitleTerm);
    TrimKeepsWords(title, 3, true);
    FindWordsWeaker(Lower(title), 3, 3);
  }

  lemma DetailWordsSurvive(details: Details)
    ensures forall e :: e in DetailEvents(details) ==> e.term in DetailTerms(details)
  {
    if details != map[] {
      CharacterEventsBoth(details);
      forall e | e in DetailEvents(details)
        ensures e.term in DetailTerms(details)
      {
        SectionSurvives(SectionOf(details, CharacterTypes[0]), CharacterFields, 3, CharacterTerm, e);
        SectionSurvives(SectionOf(details, CharacterTypes[1]), CharacterFields, 3, CharacterTerm, e);
        SectionSurvives(SectionOf(details, "atmosphere"), AtmosphereFields, 4, ContentTerm, e);
      }
    }
  }

  lemma TextWordsSurvive(fullText: string)
    ensures forall e :: e in ContentEvents(fullText) ==> e.term in TextTerms(fullText)
  {
    if fullText != "" && |Trim(fullText)| > 10 {
      ContentEventsFacts(fullText);
      FindWordsWeaker(Lower(fullText), 4, 4);
    }
  }

  /**
   * The word suggestions a saved scene trains (title words, character and
   * atmosphere words, full-text words) are all among the current terms, so
   * cleanup never deletes them while the scene exists.
   */
  lemma TrainedWordsSurviveCleanup(scenes: seq<Scene>, i: nat)
    requires i < |scenes|
    ensures var scene := scenes[i];
      forall e :: e in (if scene.title != "" then TitleWords(scene.title) else []) + DetailEvents(scene.details) + ContentEvents(scene.fullText) ==>
        e.term in CurrentTerms(scenes)
  {
    var scene := scenes[i];
    CurrentTermsMember(scenes, i);
    TitleWordsSurvive(scene.title);
    DetailWordsSurvive(scene.details);
    TextWordsSurvive(scene.fullText);
  }

  lemma {:induction false} SectionSurvives(section: Section, fields: seq<string>, k: nat, kind: SuggestionType, e: Event)
    requires k >= 3
    ensures e in SectionEvents(section, fields, k, kind) ==> e.term in SectionTerms(section, fields)
  {
    if fields != [] && e in SectionEvents(section, fields, k, kind) {
      var init := fields[..|fields| - 1];
      var value := FieldOf(section, fields[|fields| - 1]);
      if e in SectionEvents(section, init, k, kind) {
        SectionSurvives(section, init, k, kind, e);
      } else {
        WordEventsFacts(FindWords(Lower(value), k, true), kind);
        FindWordsWeaker(Lower(value), k, 3);
      }
    }
  }

  /**
   * The title, country, setting and emotion suggestions are stored as
   * written but looked up lower-cased: a scene whose only text is the
   * country "Japan" trains the term "Japan", which cleanup does not find
   * among the current terms.
   */
  lemma CapitalisedTermsAreObsolete()
    ensures var scene := Scene(1, "", 0, 0, "Japan", "", "", map[], "");
      Add("Japan", CountryTerm) in TrainLog(scene) && "Japan" !in CurrentTerms([scene])
  {
    var scene := Scene(1, "", 0, 0, "Japan", "", "", map[], "");
    assert TrainLog(scene) == [Add("Japan", CountryTerm)];
    assert Lower("Japan")[0] == 'j';
    assert CurrentTerms([scene]) == CurrentTerms([]) + SceneTerms(scene);
    assert FindWords(Lower(""), 3, false) == [];
    assert SceneTerms(scene) == {Lower(""), Lower("Japan")};
  }
}

=== FILE: simple_pagination.dfy ===
/**
 * The full-reload pagination fallback (initSimplePagination): every action
 * either navigates to the current URL with changed query parameters or
 * does nothing. The query string is a map from parameter to value.
 */
module SimplePagination {
  import opened Common

  type Query = map<string, string>

  /** The fallback installs its handlers only when the AJAX controller is absent. */
  function Initializes(advancedPaginationPresent: bool): bool
  {
    !advancedPaginationPresent
  }

  /** A click on a page button with a non-empty `data-page` navigates to that page, text unchanged. */
  function ButtonClicked(dataPage: Option<string>, url: Query): (r: Option<Query>)
    ensures r.Some? <==> dataPage.Some? && dataPage.value != ""
    ensures r.Some? ==> r.value == url["page" := dataPage.value]
  {
    if dataPage.Some? && dataPage.value != "" then Some(url["page" := dataPage.value]) else None
  }

  /** Choosing a page size always navigates, with the new size and page reset to 1. */
  function PageSizeChanged(value: string, url: Query): (r: Query)
    ensures r.Keys == url.Keys + {"page", "page_size"}
    ensures r["page"] == "1" && r["page_size"] == value
    ensures forall k :: k in url && k != "page" && k != "page_size" ==> r[k] == url[k]
  {
    url["page_size" := value]["page" := "1"]
  }

  datatype JumpOutcome = Navigate(url: Query) | FocusInput

  /** jumpToPage: both numbers come from `parseInt`, and NaN fails every comparison. */
  function JumpToPage(inputValue: string, inputMax: string, url: Query): JumpOutcome
  {
    var page := JsParseInt(inputValue);
    var maxPage := JsParseInt(inputMax);
    if page.Some? && maxPage.Some? && page.value >= 1 && page.value <= maxPage.value
    then Navigate(url["page" := IntToString(page.value)])
    else FocusInput
  }

  /** The jump navigates exactly to a page from 1 to the input's maximum; otherwise focus returns to the input. */
  lemma JumpToPageAccepts(inputValue: string, inputMax: string, url: Query)
    ensures JumpToPage(inputValue, inputMax, url).Navigate? <==>
      && JsParseInt(inputValue).Some? && JsParseInt(inputMax).Some?
      && 1 <= JsParseInt(inputValue).value <= JsParseInt(inputMax).value
    ensures JumpToPage(inputValue, inputMax, url).Navigate? ==>
      JsParseInt(JumpToPage(inputValue, inputMax, url).url["page"]) == JsParseInt(inputValue)
  {
    if JumpToPage(inputValue, inputMax, url).Navigate? {
      JsParseIntOfIntToString(JsParseInt(inputValue).value);
    }
  }

  /** `parseInt` of every button's `data-page`; `None` is NaN. */
  function ParsedPages(dataPages: seq<string>): (r: seq<Option<int>>)
    ensures |r| == |dataPages| && forall i :: 0 <= i < |r| ==> r[i] == JsParseInt(dataPages[i])
  {
    seq(|dataPages|, i requires 0 <= i < |dataPages| => JsParseInt(dataPages[i]))
  }

  /** The largest numeric page among the buttons, starting from 1. */
  function MaxDataPage(pages: seq<Option<int>>): int
  {
    if pages == [] then 1
    else
      var rest := MaxDataPage(pages[..|pages| - 1]);
      var p := pages[|pages| - 1];
      if p.Some? && p.value > rest then p.value else rest
  }

  /** The scan's result is at least 1, bounds every numeric page, and is 1 or one of them. */
  lemma {:induction false} MaxDataPageBounds(pages: seq<Option<int>>)
    ensures MaxDataPage(pages) >= 1
    ensures forall i :: 0 <= i < |pages| && pages[i].Some? ==> pages[i].value <= MaxDataPage(pages)
    ensures MaxDataPage(pages) == 1 || exists i :: 0 <= i < |pages| && pages[i] == Some(MaxDataPage(pages))
  {
    if pages != [] {
      var init := pages[..|pages| - 1];
      MaxDataPageBounds(init);
      assert forall i :: 0 <= i < |init| ==> init[i] == pages[i];
      if MaxDataPage(pages) != 1 && MaxDataPage(pages) == MaxDataPage(init) {
        var i :| 0 <= i < |init| && init[i] == Some(MaxDataPage(init));
        assert pages[i] == Some(MaxDataPage(pages));
      }
    }
  }

  /**
   * getMaxPageFromDOM: the jump input's `max` when it is set (NaN when it
   * does not parse), otherwise a scan of the page buttons' `data-page`.
   */
  method GetMaxPageFromDOM(jumpInputMax: Option<string>, dataPages: seq<string>) returns (r: Option<int>)
    ensures jumpInputMax.Some? && jumpInputMax.value != "" ==> r == JsParseInt(jumpInputMax.value)
    ensures !(jumpInputMax.Some? && jumpInputMax.value != "") ==>
      && r.Some? && r.value >= 1
      && (forall i :: 0 <= i < |dataPages| && JsParseInt(dataPages[i]).Some? ==> JsParseInt(dataPages[i]).value <= r.value)
      && (r.value == 1 || exists i :: 0 <= i < |dataPages| && JsParseInt(dataPages[i]) == r)
  {
    if jumpInputMax.Some? && jumpInputMax.value != "" {
      return JsParseInt(jumpInputMax.value);
    }
    ghost var pages := ParsedPages(dataPages);
    var maxPage := 1;
    var i := 0;
    while i < |dataPages|
      invariant 0 <= i <= |dataPages|
      invariant maxPage == MaxDataPage(pages[..i])
    {
      assert pages[..i + 1][..i] == pages[..i];
      var page := JsParseInt(dataPages[i]);
      if page.Some? && page.value > maxPage {
        maxPage := page.value;
      }
      i := i + 1;
    }
    assert pages[..|pages|] == pages;
    MaxDataPageBounds(pages);
    r := Some(maxPage);
  }

  /** The current page of the key handler: `parseInt(page || '1')`, NaN as `None`. */
  function CurrentPage(pageParam: Option<string>): Option<int>
  {
    JsParseInt(if pageParam.Some? && pageParam.value != "" then pageParam.value else "1")
  }

  /** The target of a navigation key for a current page and maximum that may each be NaN. */
  function TargetFor(key: string, current: Option<int>, maxPage: Option<int>): Option<int>
  {
    if current.None? then None
    else if key == "ArrowLeft" && current.value > 1 then Some(current.value - 1)
    else if key == "ArrowRight" && maxPage.Some? && current.value < maxPage.value then Some(current.value + 1)
    else if key == "Home" && current.value > 1 then Some(1)
    else if key == "End" && maxPage.Some? && current.value < maxPage.value then Some(maxPage.value)
    else None
  }

  /** The page a key asks for; a target of 0 is falsy and dropped. */
  function KeyTarget(key: string, tagName: string, contentEditable: bool,
                     pageParam: Option<string>, maxPage: Option<int>): Option<int>
  {
    if tagName == "INPUT" || tagName == "TEXTAREA" || contentEditable then None
    else
      var target := TargetFor(key, CurrentPage(pageParam), maxPage);
      if target.Some? && target.value != 0 then target else None
  }

  /** A key press navigates to the key's target page, if any. */
  function KeyPressed(key: string, tagName: string, contentEditable: bool, maxPage: Option<int>, url: Query): Option<Query>
  {
    var pageParam := if "page" in url then Some(url["page"]) else None;
    match KeyTarget(key, tagName, contentEditable, pageParam, maxPage)
    case None => None
    case Some(p) => Some(url["page" := IntToString(p)])
  }

  /** Keys typed into inputs, text areas and editable content never navigate. */
  lemma KeysIgnoredInEditors(key: string, tagName: string, contentEditable: bool, maxPage: Option<int>, url: Query)
    requires tagName == "INPUT" || tagName == "TEXTAREA" || contentEditable
    ensures KeyPressed(key, tagName, contentEditable, maxPage, url).None?
  {
  }

  /**
   * With the current page p (1 when the parameter is missing) and a
   * maximum m where 1 <= p <= m: ArrowLeft gives p - 1 and Home gives 1
   * exactly when p > 1, ArrowRight gives p + 1 and End gives m exactly when
   * p < m, and every target is a page from 1 to m.
   */
  lemma KeyTargetsWithinRange(key: string, pageParam: Option<string>, p: int, m: int)
    requires (pageParam.None? && p == 1) || (pageParam.Some? && pageParam.value == IntToString(p))
    requires 1 <= p <= m
    ensures var t := KeyTarget(key, "BODY", false, pageParam, Some(m));
      && (t.Some? ==> 1 <= t.value <= m)
      && (key == "ArrowLeft" ==> t == if p > 1 then Some(p - 1) else None)
      && (key == "Home" ==> t == if p > 1 then Some(1) else None)
      && (key == "ArrowRight" ==> t == if p < m then Some(p + 1) else None)
      && (key == "End" ==> t == if p < m then Some(m) else None)
  {
    CurrentPageOf(pageParam, p);
    TargetForBounds(key, p, m);
  }

  lemma TargetForBounds(key: string, p: int, m: int)
    requires 1 <= p <= m
    ensures var t := TargetFor(key, Some(p), Some(m));
      && (t.Some? ==> 1 <= t.value <= m)
      && (key == "ArrowLeft" ==> t == if p > 1 then Some(p - 1) else None)
      && (key == "Home" ==> t == if p > 1 then Some(1) else None)
      && (key == "ArrowRight" ==> t == if p < m then Some(p + 1) else None)
      && (key == "End" ==> t == if p < m then Some(m) else None)
  {
  }

  lemma CurrentPageOf(pageParam: Option<string>, p: int)
    requires (pageParam.None? && p == 1) || (pageParam.Some? && pageParam.value == IntToString(p))
    ensures CurrentPage(pageParam) == Some(p)
  {
    JsParseIntOfIntToString(p);
    assert IntToString(1) == "1";
    assert IntToString(p) != "";
  }
}

=== FILE: views.dfy ===
/**
 * Server-side rules of the Django views: page-size whitelist, page
 * selection, the "smart" page window, toggling a favourite, validating and
 * ordering uploaded images, and the filter dictionary of the analytics API.
 */
module Views {
  import opened Common

  // ---------------------------------------------------------------- paging

  const AllowedPageSizes: set<int> := {10, 25, 50, 100}
  const DefaultPageSize := 10

  /** The page-size whitelist applied after `int(page_size)`. */
  function WhitelistPageSize(n: int): int
  {
    if n in AllowedPageSizes then n else DefaultPageSize
  }

  /**
   * The `page_size` query parameter of scene_list, pagination_api and
   * favorites_list: missing means "10"; `None` is the uncaught ValueError of
   * `int()` on text that is not an integer.
   */
  function PageSizeParam(param: Option<string>): (r: Option<int>)
    ensures r.Some? ==> r.value in AllowedPageSizes
  {
    var text := if param.Some? then param.value else "10";
    match PyInt(text)
    case None => None
    case Some(n) => Some(WhitelistPageSize(n))
  }

  lemma PageSizeWhitelist(n: int)
    ensures WhitelistPageSize(n) in AllowedPageSizes
    ensures n in AllowedPageSizes ==> WhitelistPageSize(n) == n
    ensures n !in AllowedPageSizes ==> WhitelistPageSize(n) == 10
    ensures WhitelistPageSize(WhitelistPageSize(n)) == WhitelistPageSize(n)
  {
  }

  /** A missing page-size parameter means 10. */
  lemma PageSizeParamDefault()
    ensures PageSizeParam(None) == Some(DefaultPageSize)
  {
    assert NatToString(1) == "1";
    assert NatToString(10) == "10";
    PyIntOfIntToString(10);
    assert PyInt("10") == Some(10);
  }

  /** A well-formed page-size parameter is read back exactly when whitelisted. */
  lemma PageSizeParamOfNumber(n: int)
    ensures PageSizeParam(Some(IntToString(n))) == Some(if n in AllowedPageSizes then n else 10)
  {
    PyIntOfIntToString(n);
  }

  /** `int()` ignores PEP 515 grouping, so `page_size=2_5` selects the whitelisted size 25. */
  lemma PageSizeParamGrouped(a: string, b: string)
    requires a == "2" && b == "5"
    ensures PageSizeParam(Some(a + "_" + b)) == Some(25)
  {
    PyIntGroupedExample(a, b);
  }

  /**
   * Django's `Paginator.num_pages` with the default `allow_empty_first_page`
   * and no orphans: at least one page, and just enough pages for `count`.
   */
  function NumPages(count: nat, perPage: nat): (r: nat)
    requires perPage >= 1
    ensures r >= 1
    ensures count <= r * perPage
    ensures count > 0 ==> (r - 1) * perPage < count
  {
    if count == 0 then 1
    else
      var r := (count + perPage - 1) / perPage;
      assert r * perPage <= count + perPage - 1 < (r + 1) * perPage;
      r
  }

  /**
   * Django's `Paginator.get_page`: a number that is not an integer gives
   * page 1, one below 1 or above the last page gives the last page.
   */
  function GetPage(number: Option<int>, numPages: nat): (r: nat)
    requires numPages >= 1
  {
    match number
    case None => 1
    case Some(n) => if n < 1 || n > numPages then numPages else n
  }

  /**
   * The page scene_list shows for the `page` parameter: `get_page`, then an
   * explicit jump to the last page when `int(page)` exceeds it, and page 1
   * when `int(page)` raises.
   */
  function SceneListPage(pageParam: string, numPages: nat): (r: nat)
    requires numPages >= 1
    ensures 1 <= r <= numPages
  {
    var first := GetPage(PyInt(pageParam), numPages);
    match PyInt(pageParam)
    case None => GetPage(Some(1), numPages)
    case Some(n) => if n > numPages && numPages > 0 then GetPage(Some(numPages), numPages) else first
  }

  /** The page pagination_api and favorites_list show: `get_page` alone. */
  function ApiPage(pageParam: string, numPages: nat): (r: nat)
    requires numPages >= 1
    ensures 1 <= r <= numPages
  {
    GetPage(PyInt(pageParam), numPages)
  }

  lemma SceneListPageCases(pageParam: string, numPages: nat)
    requires numPages >= 1
    ensures PyInt(pageParam).None? ==> SceneListPage(pageParam, numPages) == 1
    ensures PyInt(pageParam).Some? && PyInt(pageParam).value > numPages ==> SceneListPage(pageParam, numPages) == numPages
    ensures PyInt(pageParam).Some? && PyInt(pageParam).value < 1 ==> SceneListPage(pageParam, numPages) == numPages
    ensures PyInt(pageParam).Some? && 1 <= PyInt(pageParam).value <= numPages ==> SceneListPage(pageParam, numPages) == PyInt(pageParam).value
  {
  }

  /** The extra redirect in scene_list never changes the outcome of `get_page`. */
  lemma SceneListPageIsApiPage(pageParam: string, numPages: nat)
    requires numPages >= 1
    ensures SceneListPage(pageParam, numPages) == ApiPage(pageParam, numPages)
  {
  }

  // ----------------------------------------------------------- page window

  datatype WindowEntry = Page(n: int) | Gap

  /** `list(range(lo, hi))` as window entries. */
  function Range(lo: int, hi: int): (r: seq<WindowEntry>)
    ensures |r| == if lo <= hi then hi - lo else 0
    ensures forall i :: 0 <= i < |r| ==> r[i] == Page(lo + i)
    decreases hi - lo
  {
    if lo >= hi then [] else [Page(lo)] + Range(lo + 1, hi)
  }

  /** The numbered links with '...' markers below the scene list. */
  function PageWindow(current: int, total: nat): seq<WindowEntry>
  {
    if total <= 7 then Range(1, total + 1)
    else if current <= 4 then Range(1, 6) + [Gap, Page(total)]
    else if current >= total - 3 then [Page(1), Gap] + Range(total - 4, total + 1)
    else [Page(1), Gap] + Range(current - 1, current + 2) + [Gap, Page(total)]
  }

  /** Up to seven pages, every page is listed and nothing else. */
  lemma PageWindowSmall(current: int, total: nat)
    requires total <= 7
    ensures |PageWindow(current, total)| == total
    ensures forall i :: 0 <= i < total ==> PageWindow(current, total)[i] == Page(i + 1)
  {
  }

  /** Beyond seven pages the window has seven entries from 1 to the last page, and shows the current one. */
  lemma PageWindowLarge(current: int, total: nat)
    requires 7 < total && 1 <= current <= total
    ensures |PageWindow(current, total)| == 7
    ensures PageWindow(current, total)[0] == Page(1)
    ensures PageWindow(current, total)[6] == Page(total)
    ensures Page(current) in PageWindow(current, total)
  {
    var w := PageWindow(current, total);
    if current <= 4 {
      assert w[current - 1] == Page(current);
    } else if current >= total - 3 {
      assert w[current - total + 6] == Page(current);
    } else {
      assert w[3] == Page(current);
    }
  }

  /** Page numbers strictly increase along the window. */
  predicate PagesIncrease(w: seq<WindowEntry>)
  {
    forall i, j :: 0 <= i < j < |w| && w[i].Page? && w[j].Page? ==> w[i].n < w[j].n
  }

  /** Each '...' sits between two page numbers at least three apart, so it hides two pages or more. */
  predicate GapsHideTwo(w: seq<WindowEntry>)
  {
    forall i :: 0 <= i < |w| && w[i].Gap? ==>
      0 < i < |w| - 1 && w[i - 1].Page? && w[i + 1].Page? && w[i + 1].n - w[i - 1].n >= 3
  }

  lemma PageWindowOrdered(current: int, total: nat)
    requires 1 <= current <= total
    ensures PagesIncrease(PageWindow(current, total))
    ensures GapsHideTwo(PageWindow(current, total))
  {
    if total <= 7 {
      PageWindowSmall(current, total);
    } else if current <= 4 {
      WindowStartOrdered(current, total);
    } else if current >= total - 3 {
      WindowEndOrdered(current, total);
    } else {
      WindowMiddleOrdered(current, total);
    }
  }

  lemma WindowStartOrdered(current: int, total: nat)
    requires 7 < total && current <= 4
    ensures PagesIncrease(PageWindow(current, total)) && GapsHideTwo(PageWindow(current, total))
  {
    assert PageWindow(current, total) == [Page(1), Page(2), Page(3), Page(4), Page(5), Gap, Page(total)];
  }

  lemma WindowEndOrdered(current: int, total: nat)
    requires 7 < total && 4 < current && current >= total - 3
    ensures PagesIncrease(PageWindow(current, total)) && GapsHideTwo(PageWindow(current, total))
  {
    assert PageWindow(current, total) == [Page(1), Gap, Page(total - 4), Page(total - 3), Page(total - 2), Page(total - 1), Page(total)];
  }

  lemma WindowMiddleOrdered(current: int, total: nat)
    requires 7 < total && 4 < current < total - 3
    ensures PagesIncrease(PageWindow(current, total)) && GapsHideTwo(PageWindow(current, total))
  {
    var w := PageWindow(current, total);
    assert w == [Page(1), Gap, Page(current - 1), Page(current), Page(current + 1), Gap, Page(total)];
    assert forall i :: 0 <= i < 7 && w[i].Page? ==>
      w[i].n == if i == 0 then 1 else if i == 6 then total else current - 3 + i;
  }

  // ------------------------------------------------------------- favourites

  /** A FavoriteScene row; (scene, session) is unique. */
  datatype Favorite = Favorite(scene: int, session: string)

  datatype ToggleResponse =
    | Toggled(isFavorited: bool, action: string, favoriteCount: nat, message: string)
    | MethodNotAllowed   // HTTP 405
    | SceneNotFound      // HTTP 404

  /** The favourite table after `get_or_create` followed, if the row existed, by `delete`. */
  function Toggle(rows: set<Favorite>, f: Favorite): set<Favorite>
  {
    if f in rows then rows - {f} else rows + {f}
  }

  /** `Scene.favorite_count`: the number of favourite rows of a scene. */
  function FavoriteCount(rows: set<Favorite>, scene: int): nat
  {
    |set f | f in rows && f.scene == scene|
  }

  lemma ToggleTwice(rows: set<Favorite>, f: Favorite)
    ensures Toggle(Toggle(rows, f), f) == rows
  {
  }

  /** Toggling moves the toggled scene's count by exactly one and leaves other scenes' counts alone. */
  lemma ToggleCount(rows: set<Favorite>, f: Favorite, scene: int)
    ensures scene == f.scene && f !in rows ==> FavoriteCount(Toggle(rows, f), scene) == FavoriteCount(rows, scene) + 1
    ensures scene == f.scene && f in rows ==> FavoriteCount(Toggle(rows, f), scene) + 1 == FavoriteCount(rows, scene)
    ensures scene != f.scene ==> FavoriteCount(Toggle(rows, f), scene) == FavoriteCount(rows, scene)
  {
    if scene != f.scene {
      ToggleOtherScene(rows, f, scene);
    } else if f in rows {
      ToggleRemoves(rows, f);
    } else {
      ToggleAdds(rows, f);
    }
  }

  lemma ToggleOtherScene(rows: set<Favorite>, f: Favorite, scene: int)
    requires scene != f.scene
    ensures FavoriteCount(Toggle(rows, f), scene) == FavoriteCount(rows, scene)
  {
    assert (set g | g in Toggle(rows, f) && g.scene == scene) == (set g | g in rows && g.scene == scene);
  }

  lemma ToggleRemoves(rows: set<Favorite>, f: Favorite)
    requires f in rows
    ensures FavoriteCount(Toggle(rows, f), f.scene) + 1 == FavoriteCount(rows, f.scene)
  {
    var before := set g | g in rows && g.scene == f.scene;
    assert (set g | g in Toggle(rows, f) && g.scene == f.scene) == before - {f};
  }

  lemma ToggleAdds(rows: set<Favorite>, f: Favorite)
    requires f !in rows
    ensures FavoriteCount(Toggle(rows, f), f.scene) == FavoriteCount(rows, f.scene) + 1
  {
    var before := set g | g in rows && g.scene == f.scene;
    assert (set g | g in Toggle(rows, f) && g.scene == f.scene) == before + {f};
  }

  /** The message of a toggle: `f'Scene {action} {"to" if action == "added" else "from"} favorites'`. */
  function ToggleMessage(action: string): string
  {
    "Scene " + action + " " + (if action == "added" then "to" else "from") + " favorites"
  }

  /** The `favorite` table as the toggle_favorite view sees it. */
  class FavoriteTable {
    var rows: set<Favorite>
    const scenes: set<int>

    constructor (scenes: set<int>)
      ensures this.scenes == scenes && rows == {}
    {
      this.scenes := scenes;
      rows := {};
    }

    /** toggle_favorite for a request with the given method, scene and (already created) session key. */
    method ToggleFavorite(isPost: bool, scene: int, session: string) returns (resp: ToggleResponse)
      modifies this
      ensures !isPost ==> resp == MethodNotAllowed && rows == old(rows)
      ensures isPost && scene !in scenes ==> resp == SceneNotFound && rows == old(rows)
      ensures isPost && scene in scenes ==>
        var f := Favorite(scene, session);
        && rows == Toggle(old(rows), f)
        && resp.Toggled?
        && resp.isFavorited == (f !in old(rows))
        && resp.action == (if f in old(rows) then "removed" else "added")
        && resp.message == ToggleMessage(resp.action)
        && resp.favoriteCount == FavoriteCount(rows, scene)
    {
      if !isPost {
        return MethodNotAllowed;
      }
      if scene !in scenes {
        return SceneNotFound;
      }
      var f := Favorite(scene, session);
      var created := f !in rows;
      rows := rows + {f};
      var isFavorited, action;
      if !created {
        rows := rows - {f};
        isFavorited, action := false, "removed";
      } else {
        isFavorited, action := true, "added";
      }
      resp := Toggled(isFavorited, action, FavoriteCount(rows, scene), ToggleMessage(action));
    }
  }

  // ---------------------------------------------------------- image upload

  const MaxUploadBytes: nat := 10 * 1024 * 1024

  /** One uploaded file: the client's name, content type and size, and how saving it would end. */
  datatype UploadFile = UploadFile(name: string, contentType: string, size: nat, saveError: Option<string>)

  datatype UploadedImage = UploadedImage(filename: string, order: int)

  datatype UploadResponse =
    | NoFilesUploaded          // HTTP 400 {'error': 'No files uploaded'}
    | UploadNotAllowed         // HTTP 405
    | UploadSceneNotFound      // HTTP 404
    | UploadResult(status: int, success: bool, uploaded: seq<UploadedImage>, errors: seq<string>)

  /** The type and size check shared with the browser's gallery script. */
  predicate AcceptableImage(contentType: string, size: nat)
  {
    StartsWith(contentType, "image/") && size <= MaxUploadBytes
  }

  function SeqMax(s: seq<int>): (m: int)
    requires s != []
    ensures m in s && forall i :: 0 <= i < |s| ==> s[i] <= m
  {
    if |s| == 1 then s[0]
    else
      var rest := SeqMax(s[..|s| - 1]);
      assert forall i :: 0 <= i < |s| - 1 ==> s[i] == s[..|s| - 1][i];
      if s[|s| - 1] > rest then s[|s| - 1] else rest
  }

  /**
   * `scene_images.aggregate(Max('order'))['order__max'] or 0`: no images
   * give `None` and a maximum of 0 gives 0, so `or 0` only matters for
   * `None`.
   */
  function StartOrder(existingOrders: seq<int>): int
  {
    if existingOrders == [] then 0
    else
      var m := SeqMax(existingOrders);
      if m == 0 then 0 else m
  }

  datatype UploadState = UploadState(uploaded: seq<UploadedImage>, errors: seq<string>, maxOrder: int)

  /** The state of the upload loop after handling one more file. */
  function UploadStep(st: UploadState, f: UploadFile): UploadState
  {
    if !StartsWith(f.contentType, "image/") then
      st.(errors := st.errors + [f.name + ": Not a valid image file"])
    else if f.size > MaxUploadBytes then
      st.(errors := st.errors + [f.name + ": File too large (max 10MB)"])
    else
      var order := st.maxOrder + 1;
      match f.saveError
      case Some(e) => st.(errors := st.errors + [f.name + ": " + e], maxOrder := order)
      case None => st.(uploaded := st.uploaded + [UploadedImage(f.name, order)], maxOrder := order)
  }

  /** The state of the upload loop after handling `files` in order. */
  function UploadAll(st: UploadState, files: seq<UploadFile>): UploadState
  {
    if files == [] then st else UploadStep(UploadAll(st, files[..|files| - 1]), files[|files| - 1])
  }

  /** The files that pass validation, in order. */
  function ValidFiles(files: seq<UploadFile>): seq<UploadFile>
  {
    if files == [] then []
    else
      var last := files[|files| - 1];
      ValidFiles(files[..|files| - 1]) + (if AcceptableImage(last.contentType, last.size) then [last] else [])
  }

  /** The valid files whose save succeeded, in order. */
  function SavedFiles(files: seq<UploadFile>): seq<UploadFile>
  {
    if files == [] then []
    else
      var last := files[|files| - 1];
      SavedFiles(files[..|files| - 1]) + (if AcceptableImage(last.contentType, last.size) && last.saveError.None? then [last] else [])
  }

  /**
   * Every file yields exactly one upload or one error; the counter advances
   * once per valid file, so orders strictly increase above the starting
   * maximum; the uploads are the valid, saved files in order; and without
   * save failures the orders are consecutive from the starting maximum + 1.
   */
  lemma {:induction false} UploadAllFacts(start: int, files: seq<UploadFile>)
    ensures var st := UploadAll(UploadState([], [], start), files);
      && |st.uploaded| + |st.errors| == |files|
      && st.maxOrder == start + |ValidFiles(files)|
      && |st.uploaded| == |SavedFiles(files)|
      && (forall k :: 0 <= k < |st.uploaded| ==> st.uploaded[k].filename == SavedFiles(files)[k].name)
      && (forall k :: 0 <= k < |st.uploaded| ==> start < st.uploaded[k].order <= st.maxOrder)
      && (forall k, l :: 0 <= k < l < |st.uploaded| ==> st.uploaded[k].order < st.uploaded[l].order)
      && ((forall k :: 0 <= k < |files| ==> files[k].saveError.None?) ==>
            |st.uploaded| == |ValidFiles(files)| &&
            forall k :: 0 <= k < |st.uploaded| ==> st.uploaded[k].order == start + k + 1)
  {
    UploadCounts(start, files);
    UploadOrders(start, files);
    if forall k :: 0 <= k < |files| ==> files[k].saveError.None? {
      UploadConsecutive(start, files);
    }
  }

  /** One upload or error per file, one order step per valid file, one upload per saved file, names in order. */
  lemma {:induction false} UploadCounts(start: int, files: seq<UploadFile>)
    ensures var st := UploadAll(UploadState([], [], start), files);
      && |st.uploaded| + |st.errors| == |files|
      && st.maxOrder == start + |ValidFiles(files)|
      && |st.uploaded| == |SavedFiles(files)|
      && (forall k :: 0 <= k < |st.uploaded| ==> st.uploaded[k].filename == SavedFiles(files)[k].name)
  {
    if files != [] {
      UploadCounts(start, files[..|files| - 1]);
    }
  }

  /** Orders lie above the start, at most the counter, and strictly increase. */
  lemma {:induction false} UploadOrders(start: int, files: seq<UploadFile>)
    ensures var st := UploadAll(UploadState([], [], start), files);
      && (forall k :: 0 <= k < |st.uploaded| ==> start < st.uploaded[k].order <= st.maxOrder)
      && (forall k, l :: 0 <= k < l < |st.uploaded| ==> st.uploaded[k].order < st.uploaded[l].order)
  {
    if files != [] {
      var init := files[..|files| - 1];
      UploadOrders(start, init);
      UploadCounts(start, init);
    }
  }

  /** Without save failures every valid file is uploaded, with orders start + 1, start + 2, ... */
  lemma {:induction false} UploadConsecutive(start: int, files: seq<UploadFile>)
    requires forall k :: 0 <= k < |files| ==> files[k].saveError.None?
    ensures var st := UploadAll(UploadState([], [], start), files);
      && |st.uploaded| == |ValidFiles(files)|
      && forall k :: 0 <= k < |st.uploaded| ==> st.uploaded[k].order == start + k + 1
  {
    if files != [] {
      var init := files[..|files| - 1];
      assert forall k :: 0 <= k < |init| ==> init[k] == files[k];
      UploadConsecutive(start, init);
      UploadCounts(start, init);
    }
  }

  /** The whole upload_scene_images view. */
  method UploadSceneImages(isPost: bool, sceneExists: bool, existingOrders: seq<int>, files: seq<UploadFile>)
    returns (resp: UploadResponse)
    ensures !isPost ==> resp == UploadNotAllowed
    ensures isPost && !sceneExists ==> resp == UploadSceneNotFound
    ensures isPost && sceneExists && files == [] ==> resp == NoFilesUploaded
    ensures isPost && sceneExists && files != [] ==>
      var st := UploadAll(UploadState([], [], StartOrder(existingOrders)), files);
      && resp == UploadResult(if st.errors != [] && st.uploaded == [] then 400 else 200,
                              |st.uploaded| > 0, st.uploaded, st.errors)
  {
    if !isPost {
      return UploadNotAllowed;
    }
    if !sceneExists {
      return UploadSceneNotFound;
    }
    if files == [] {
      return NoFilesUploaded;
    }
    var uploaded: seq<UploadedImage> := [];
    var errors: seq<string> := [];
    var maxOrder := StartOrder(existingOrders);
    var i := 0;
    while i < |files|
      invariant 0 <= i <= |files|
      invariant UploadState(uploaded, errors, maxOrder) == UploadAll(UploadState([], [], StartOrder(existingOrders)), files[..i])
    {
      var f := files[i];
      assert files[..i + 1][..i] == files[..i];
      if !StartsWith(f.contentType, "image/") {
        errors := errors + [f.name + ": Not a valid image file"];
      } else if f.size > MaxUploadBytes {
        errors := errors + [f.name + ": File too large (max 10MB)"];
      } else {
        maxOrder := maxOrder + 1;
        match f.saveError {
          case Some(e) =>
            errors := errors + [f.name + ": " + e];
          case None =>
            uploaded := uploaded + [UploadedImage(f.name, maxOrder)];
        }
      }
      i := i + 1;
    }
    assert files[..|files|] == files;
    var status := if errors != [] && uploaded == [] then 400 else 200;
    resp := UploadResult(status, |uploaded| > 0, uploaded, errors);
  }

  /** The response's status and success flag as the view promises them. */
  lemma UploadResponseStatus(existingOrders: seq<int>, files: seq<UploadFile>)
    requires files != []
    ensures var st := UploadAll(UploadState([], [], StartOrder(existingOrders)), files);
      var status := if st.errors != [] && st.uploaded == [] then 400 else 200;
      && (status == 400 <==> SavedFiles(files) == [])
      && (|st.uploaded| > 0 <==> SavedFiles(files) != [])
  {
    UploadAllFacts(StartOrder(existingOrders), files);
  }

  // ------------------------------------------------------- analytics filters

  datatype FilterValue = Text(text: string) | Number(n: int)

  /** The request metadata analytics_api adds to its answer. */
  datatype AnalyticsRequest =
    | BadChartLimit                       // int() of chart_limit raised: HTTP 500
    | Filtered(filters: seq<(string, FilterValue)>, chartLimit: int, totalParams: nat)
    | Unfiltered(chartLimit: int, totalParams: nat)

  const TextFilterParams: seq<string> := ["country", "setting", "emotion", "ageRange"]

  function TextFilters(query: map<string, string>, params: seq<string>): (r: seq<(string, FilterValue)>)
    ensures |r| <= |params|
  {
    if params == [] then []
    else
      var p := params[0];
      (if p in query && query[p] != "" && query[p] != "all" then [(p, Text(query[p]))] else [])
      + TextFilters(query, params[1..])
  }

  function AgeFilter(query: map<string, string>, param: string): seq<(string, FilterValue)>
  {
    if param in query && query[param] != "" && PyInt(query[param]).Some? then [(param, Number(PyInt(query[param]).value))] else []
  }

  /** The filter dictionary analytics_api builds from the query string, in insertion order. */
  function AnalyticsFilterDict(query: map<string, string>): seq<(string, FilterValue)>
  {
    TextFilters(query, TextFilterParams) + AgeFilter(query, "min_age") + AgeFilter(query, "max_age")
  }

  /** Which analytics helper analytics_api calls, and with what. */
  function AnalyticsApiRequest(query: map<string, string>): AnalyticsRequest
  {
    var limit := if "chart_limit" in query then PyInt(query["chart_limit"]) else Some(0);
    var filters := AnalyticsFilterDict(query);
    if limit.None? then BadChartLimit
    else if filters != [] then Filtered(filters, limit.value, |query|)
    else Unfiltered(limit.value, |query|)
  }

  lemma {:induction false} TextFiltersMembership(query: map<string, string>, params: seq<string>, p: string)
    requires p in params
    requires forall i, j :: 0 <= i < j < |params| ==> params[i] != params[j]
    ensures (exists v :: (p, v) in TextFilters(query, params)) <==> p in query && query[p] != "" && query[p] != "all"
    ensures forall v :: (p, v) in TextFilters(query, params) ==> v == Text(query[p])
  {
    if params[0] != p {
      TextFiltersMembership(query, params[1..], p);
      assert forall v :: (p, v) !in (if params[0] in query && query[params[0]] != "" && query[params[0]] != "all" then [(params[0], Text(query[params[0]]))] else []);
    } else {
      TextFiltersAbsent(query, params[1..], p);
      if p in query && query[p] != "" && query[p] != "all" {
        assert (p, Text(query[p])) in TextFilters(query, params);
      }
    }
  }

  lemma {:induction false} TextFiltersAbsent(query: map<string, string>, params: seq<string>, p: string)
    requires p !in params
    ensures forall v :: (p, v) !in TextFilters(query, params)
  {
    if params != [] {
      TextFiltersAbsent(query, params[1..], p);
    }
  }

  /**
   * A text filter is applied exactly when its parameter is present, non-empty
   * and not 'all'; an age bound exactly when it parses as an integer; and
   * the filtered helper is used exactly when some filter applies.
   */
  lemma AnalyticsFilterRules(query: map<string, string>, p: string)
    requires p in TextFilterParams
    ensures (exists v :: (p, v) in AnalyticsFilterDict(query)) <==> p in query && query[p] != "" && query[p] != "all"
    ensures |AnalyticsFilterDict(query)| <= 6
    ensures (exists v :: ("min_age", v) in AnalyticsFilterDict(query)) <==>
      "min_age" in query && PyInt(query["min_age"]).Some?
    ensures AnalyticsApiRequest(query).Filtered? <==>
      ("chart_limit" in query ==> PyInt(query["chart_limit"]).Some?) && AnalyticsFilterDict(query) != []
  {
    var t := TextFilters(query, TextFilterParams);
    TextFiltersMembership(query, TextFilterParams, p);
    TextFiltersAbsent(query, TextFilterParams, "min_age");
    TextFiltersAbsent(query, TextFilterParams, "max_age");
    assert |t| <= 4;
    var d := AnalyticsFilterDict(query);
    assert forall v :: (p, v) in d <==> (p, v) in t;
    assert forall v :: ("min_age", v) in d <==> ("min_age", v) in AgeFilter(query, "min_age");
    if "min_age" in query && PyInt(query["min_age"]).Some? {
      assert query["min_age"] != "";
    }
  }
}
